=== FILE: README.md ===
# RCade plugin runtime and game host, modelled in Dafny

RCade is an arcade cabinet that downloads, caches and serves third-party web
games, and feeds them controller input through versioned plugins instead of
raw keyboard events. This project models the logic at the centre of that
system as pure Dafny functions over immutable data, and proves what the code
promises about it:

- the cabinet's plugin broker (`PluginManager`) and the preload's
  nonce-keyed port broker (`PreloadBroker`);
- the channel handshakes of the backend SDKs (`KeyedChannel`, keyed
  `name:version`) and of the frontend SDKs (`NonceChannel`, one listener per
  nonce), in both their TypeScript and Rust versions;
- the shared-memory runner: the lock word, its compare-and-swap transitions
  and the data bytes behind it (`SharedMemory`);
- the input-classic controller: the workers' offset table and writes
  (`ClassicLayout`), the TypeScript clients' state (`ClassicState`), event
  bus (`EventBus`) and port handler (`ClassicClient`), the cabinet-side key
  map and listener lifecycle (`InputPlugin`), and the controller firmware's
  byte decoding, bit packing and HID report (`Firmware`);
- the input-spinners client's step-delta accumulator (`SpinnerClient`);
- the cabinet's game cache, per-game server registry, file route and
  `load-game`/`unload-game` handlers (`GameHost`), and its `--override`
  command line (`OverrideArgs`);
- the CLI's `rcade dev` (`CliDev`) and `rcade remix` (`CliRemix`) commands;
- the API package's manifest schemas (`Manifests`, over the Semantic
  Versioning 2.0.0 recogniser and precedence in `SemVer`), its plugin
  detector (`Detector`) and the client-side version view (`GameVersion`);
- the web service's game and plugin registries: the publish checks and the
  listings each caller may see (`Catalog`, `GameCatalog`, `PluginCatalog`).

`Results`, `Text`, `Js` and `Json` are shared helpers: failure values,
decimal and separator handling on strings, the JavaScript values and
coercions the handlers inspect, and parsed JSON/TOML documents.

Clocks, randomness, the network, the file system and calls into libraries
that are not part of this model (the `semver` package, zod, tar, the storage
SDK) are parameters or recorded outcomes. Ports, nonces, callbacks and
controllers are opaque numbers. Where the code and its design description
disagree, the model follows the code. Two examples: the design asks for a
failed download to be retryable, and for sandboxing headers on the game
server. The first is modelled as written, with the correction beside it
(see Findings). The second does not appear in the route's code at
cabinet/src/main/main.ts:100-127, so it is not modelled.

Where the code has a defect, the model keeps an as-written member that
exhibits it, and the rest of the model uses a corrected member with the
intended property proved about it.

## Model

| member | source | states |
|---|---|---|
| `Catalog.ShownTable` | web/src/lib/game.ts:327-334 | a public version is listed for everyone, an internal one only for the cabinet and the owner, a private one only for the owner |
| `Catalog.ShownOrdering` | web/src/lib/plugin.ts:118-125 | whatever the public sees every caller sees, the owner sees every version, and the cabinet never sees a private one |
| `Catalog.GitUrlRoundTrip` | web/src/lib/game.ts:314-319 | both repository URL forms give back the `owner/name` they were built from |
| `Catalog.GitUrlsInjective` | web/src/lib/plugin.ts:109-114 | two repositories share a URL of either kind only when they are the same repository |
| `Catalog.ContentsAt` | web/src/lib/game.ts:338-346 | a listing's download link opens the given object and expires 3600 × 1000 ms after `now` |
| `Catalog.UploadExpires` | web/src/lib/game.ts:170-176 | the corrected upload expiry is the one a download link listed at the same moment reports |
| `Catalog.UploadExpiryUnits` | web/src/lib/game.ts:176 | the expiry as written is 3600 ms after `now`, the signed URL's lifetime is 3600 s, and the first is earlier |
| `Catalog.AuthorList` | web/src/lib/game.ts:117 | a single author becomes a one-element list, a list is kept, and a valid manifest never yields an empty list |
| `Catalog.AuthorListOfParsed` | web/src/lib/plugin.ts:90 | every author value the manifest schema accepts gives a non-empty stored list |
| `Catalog.KnownCategories` | web/src/lib/game.ts:140-146 | the kept categories are known ones, no more than were requested |
| `Catalog.UnknownCategories` | web/src/lib/game.ts:154-157 | the reported categories are the unknown ones, no more than were requested |
| `Catalog.CategoriesPartition` | web/src/lib/game.ts:127-158 | kept and reported categories together are the request, as a multiset |
| `Catalog.KnownCategoriesMembers` | web/src/lib/game.ts:140-146 | a category is kept exactly when it was requested and the database knows it |
| `GameVersion.ContentUrl` | api/src/game/version.ts:15-25 | a link is only handed out when the listing has `contents`, and it is that entry's link |
| `GameVersion.ContentUrlExpires` | api/src/game/version.ts:19-22 | once withheld a link stays withheld as time passes, and until then it does not change |
| `GameVersion.ListedLinkLifetime` | api/src/game/version.ts:15-25 | a version listed with links at time `t` yields its build's key until `t` + 3600 s and nothing afterwards |
| `GameVersion.UnsignedListingHasNoLink` | api/src/game/version.ts:16-17 | a listing made without links never yields one |
| `GameVersion.AccessorsOfListed` | api/src/game/version.ts:11-37 | the accessors return the stored version's number, dependencies, authors and display name |
| `PluginCatalog.ContentKeyMissesUpload` | web/src/lib/plugin.ts:133 | the download key as written is 8 characters shorter than the upload key, so it never names the uploaded object |
| `PluginCatalog.Publish` | web/src/lib/plugin.ts:76-107 | a manifest naming another version is refused; otherwise exactly one version is appended, with the manifest's visibility and its authors as a list, and the upload key is returned with the expiry as written, 3600 milliseconds after `now` |
| `PluginCatalog.PublishFixed` | web/src/lib/plugin.ts:100-106 | the corrected `publishVersion` fails exactly when the one as written does and stores the same plugin, and reports the upload link's expiry one URL lifetime (3600 s) after `now`, as the listing reports a download link's |
| `PluginCatalog.PublishExpiresEarly` | web/src/lib/plugin.ts:106 | as written, the reported expiry is 3600 after `now`, earlier than a download link signed at the same moment and earlier than the corrected expiry |
| `PluginCatalog.PublishKeepsVersionsUnique` | web/src/lib/plugin.ts:81-88 | publishing a version the plugin does not have yet keeps its version strings pairwise distinct |
| `PluginCatalog.Entries` | web/src/lib/plugin.ts:117-148 | one entry per version, in order, empty exactly when the caller may not see that version; a visible entry carries a download link exactly when keys are asked for, naming the chosen content key and expiring one URL lifetime after `now` |
| `PluginCatalog.IntoResponse` | web/src/lib/plugin.ts:116-164 | the listing is missing only for a plugin without versions, and otherwise holds exactly the per-version entries, one per version; with `AsWritten` keys it is the listing as written |
| `PluginCatalog.AllHiddenStillListed` | web/src/lib/plugin.ts:148-152 | a plugin whose every version is hidden is still listed, with empty entries only |
| `PluginCatalog.PublishedVersionListed` | web/src/lib/plugin.ts:76-164 | with the corrected key, a published version is listed for its owner with a download link to the object its upload link writes, expiring one URL lifetime after the listing |
| `PluginCatalog.ListedLinkMissesUpload` | web/src/lib/plugin.ts:127-137 | as written, the owner's listing of a just-published version links to `plugins/builds/{id}/{version}.tar.gz`, which is never the key the upload link wrote |
| `PluginCatalog.PublishedEntryShown` | web/src/lib/plugin.ts:116-125 | the version just published is the last record, and its owner sees it whatever its visibility |
| `GameCatalog.FirstRemix` | web/src/lib/game.ts:191 | nothing exactly when no version remixes, else the remix of some version |
| `GameCatalog.CheckConsistencyUniform` | web/src/lib/game.ts:179-220 | on a uniform history the check passes exactly when the new version remixes iff every earlier one does, and then the same target game |
| `GameCatalog.FindFirst` | web/src/lib/game.ts:230-254 | the game looked up by name and the version looked up by number: nothing exactly when no row has the key, otherwise the first row that has it |
| `GameCatalog.VisibilityCheck` | web/src/lib/game.ts:268-288 | passes exactly when a private target has a private remix by its owner and an internal target a non-public remix |
| `GameCatalog.RemixedVersions` | web/src/lib/game.ts:292-297 | the remixed versions of the remixing rows: empty exactly when none remixes, and holding each one |
| `GameCatalog.Latest` | web/src/lib/game.ts:296-298 | the head of the `rcompare` order is one of the listed versions |
| `GameCatalog.NewRecord` | web/src/lib/game.ts:104-158 | the inserted row is pending, has the given version and remix, the authors as a list and the known categories |
| `GameCatalog.Publish` | web/src/lib/game.ts:81-177 | on success exactly one pending row is appended, with the manifest's remix, authors and known categories, and the upload key, the unknown categories and the expiry as written, 3600 milliseconds after `now`, are returned |
| `GameCatalog.PublishFixed` | web/src/lib/game.ts:170-176 | the corrected `publishVersion` fails exactly when the one as written does, with the same error, stores the same game, and reports the upload link's expiry one URL lifetime (3600 s) after `now`, as the listing reports a download link's |
| `GameCatalog.PublishExpiresEarly` | web/src/lib/game.ts:176 | as written, the reported expiry is 3600 after `now`, earlier than a download link signed at the same moment and earlier than the corrected expiry |
| `GameCatalog.PublishKeepsVersionsUnique` | web/src/lib/game.ts:104-116 | publishing a version the game does not have yet keeps its version strings pairwise distinct |
| `GameCatalog.Views` | web/src/lib/game.ts:322-380 | no more entries than versions, and none exactly when no version is listed for the caller |
| `GameCatalog.IntoResponse` | web/src/lib/game.ts:321-396 | nothing exactly when no version is listed for the caller; otherwise the game's id, name, repository URLs and owner, and exactly the listing of its versions |
| `GameCatalog.ViewsAppend` | web/src/lib/game.ts:322-380 | the listing keeps the versions' order: the listing of two runs of versions is the first run's listing followed by the second's |
| `GameCatalog.PublishMismatch` | web/src/lib/game.ts:82-84 | the mismatch error comes first and fires exactly on a manifest version that differs |
| `GameCatalog.PublishKeepsRemixUniform` | web/src/lib/game.ts:179-220 | a publish keeps the history uniform: all versions remix the same game, or none does |
| `GameCatalog.AtMostTransitive` | web/src/lib/game.ts:298 | the version order used for sorting is transitive |
| `GameCatalog.AtMostTotal` | web/src/lib/game.ts:298-301 | on valid versions the order is total, and `lt` is the negation of the reverse order |
| `GameCatalog.LatestIsMax` | web/src/lib/game.ts:296-298 | the head of the sorted list is at least every listed version |
| `GameCatalog.OlderThanLatest` | web/src/lib/game.ts:301 | being older than the latest remixed version is being older than some remixed version |
| `GameCatalog.NotOlderThanAny` | web/src/lib/game.ts:301-307 | passing the check means being at least every version already remixed |
| `GameCatalog.RemixedValid` | web/src/lib/game.ts:292-297 | stored remix versions that were valid stay valid in the remixed list |
| `GameCatalog.PublishValidatedRemix` | web/src/lib/game.ts:97-102 | a publish that records a remix passed the remix checks |
| `GameCatalog.ValidateRemixNotOlder` | web/src/lib/game.ts:290-309 | an accepted remix is at least every version the game already remixes |
| `GameCatalog.PublishRemixNotOlder` | web/src/lib/game.ts:81-177 | a published remix is never older than any version the game already remixes |
| `GameCatalog.NotOlderThanRemixed` | web/src/lib/game.ts:294-307 | the sort-based check equals the check against every remixed version |
| `GameCatalog.ValidateRemixAccepts` | web/src/lib/game.ts:222-312 | the remix checks accept exactly when the target game and version exist, are published, visible enough, and not older than any remixed version |
| `GameCatalog.SetVersionStatus` | web/src/lib/game.ts:410-421 | every row with that version number takes the status, nothing else changes, and the result says whether any row matched |
| `GameCatalog.SetStatus` | web/src/lib/game.ts:411-418 | rows with the version number take the status, other rows are unchanged |
| `GameCatalog.ViewsMembers` | web/src/lib/game.ts:322-380 | every version listed for the caller appears in the listing |
| `GameCatalog.ViewsOnlyListed` | web/src/lib/game.ts:322-380 | every listing entry comes from a version listed for the caller |
| `GameCatalog.ReleasedVersionListed` | web/src/lib/game.ts:81-396 | publishing then marking the version published lists it for its owner, with a link to the object the upload writes |
| `GameCatalog.PublishAccepts` | web/src/lib/game.ts:81-102 | on a uniform history, a publish succeeds exactly when the version matches, the remix choice agrees with every earlier version, and any remix is acceptable |
| `Manifests.RequiredName` | api/src/game/manifest.ts:26-29 | an accepted name is the document's string under the key and is non-empty |
| `Manifests.RequiredSemVer` | api/src/game/manifest.ts:19-22 | an accepted dependency version is the document's string and matches the Semantic Versioning regex |
| `Manifests.OptionalSemVer` | api/src/game/manifest.ts:33 | an accepted optional version is absent only when the field is, and is a Semantic Version otherwise |
| `Manifests.ParseAuthorList` | api/src/game/manifest.ts:35 | an accepted author array keeps one author per item |
| `Manifests.ParseAuthors` | api/src/game/manifest.ts:35 | accepted authors are one author object or a non-empty array of them |
| `Manifests.ParseDependencyList` | api/src/game/manifest.ts:36 | an accepted dependency array keeps one entry per item, each with an exact Semantic Version |
| `Manifests.ParseDependencies` | api/src/game/manifest.ts:36 | dependencies are absent exactly when the field is, and every accepted one is valid |
| `Manifests.ParseCategoryList` | api/src/game/manifest.ts:34 | an accepted category array keeps each string item, and each is a known category |
| `Manifests.ParseCategories` | api/src/game/manifest.ts:34 | accepted categories are all known, and a missing field yields none |
| `Manifests.ParseRemixOf` | api/src/game/manifest.ts:37-43 | a remix target is absent exactly when the field is, and an accepted one has a non-empty name and a Semantic Version |
| `Manifests.ParseGame` | api/src/game/manifest.ts:24-44 | an accepted game manifest satisfies every field rule, and a document that is not an object is refused |
| `Manifests.ParsePlugin` | api/src/plugin/manifest.ts:23-34 | an accepted plugin manifest satisfies every field rule and says `"kind": "plugin"` |
| `Manifests.ParseLegacy` | api/src/manifest.ts:18-24 | an accepted legacy manifest satisfies its field rules |
| `Manifests.NamePatternAcceptsAll` | api/src/game/manifest.ts:26-29 | the unanchored name pattern accepts every string, so a name is valid exactly when it is non-empty |
| `Manifests.RangeDependencyRejected` | api/src/game/manifest.ts:19-22 | a dependency version that starts with an operator such as `^` or `~` is refused |
| `Manifests.VisibilityEnums` | api/src/manifest.ts:21 | game and plugin manifests take public, internal or private; legacy ones take public, private or personal |
| `Manifests.VisibilityRoundTrip` | api/src/game/manifest.ts:32 | every visibility's name parses back to it |
| `Manifests.LegacyVisibilityRoundTrip` | api/src/manifest.ts:21 | every legacy visibility's name parses back to it |
| `Manifests.KindRules` | api/src/plugin/manifest.ts:24 | a plugin manifest must say `"kind": "plugin"`; a game manifest may omit `kind` but may not name another kind |
| `Manifests.AuthorRoundTrip` | api/src/game/manifest.ts:4-7 | every author written out parses back to itself |
| `Manifests.AuthorListRoundTrip` | api/src/game/manifest.ts:35 | every author list written out parses back to itself |
| `Manifests.AuthorsRoundTrip` | api/src/game/manifest.ts:35 | valid authors written into a document parse back to themselves |
| `Manifests.DependencyRoundTrip` | api/src/game/manifest.ts:19-22 | a dependency with a Semantic Version, written out, parses back to itself |
| `Manifests.DependencyListRoundTrip` | api/src/game/manifest.ts:36 | a list of such dependencies, written out, parses back to itself |
| `Manifests.CategoryListRoundTrip` | api/src/game/manifest.ts:34 | a list of known categories, written out, parses back to itself |
| `Manifests.RemixOfRoundTrip` | api/src/game/manifest.ts:37-43 | a valid remix target, written out, parses back to itself |
| `Manifests.DependenciesRoundTrip` | api/src/game/manifest.ts:36 | valid optional dependencies written into a document parse back to themselves |
| `Manifests.GameFromLookups` | api/src/game/manifest.ts:24-44 | any object whose fields hold a valid game manifest's encoded values parses to that manifest, whatever else it holds |
| `Manifests.GameRoundTrip` | api/src/game/manifest.ts:24-44 | a valid game manifest, written out, parses back to itself |
| `Manifests.PluginFromLookups` | api/src/plugin/manifest.ts:23-34 | any object whose fields hold a valid plugin manifest's encoded values parses to that manifest |
| `Manifests.PluginRoundTrip` | api/src/plugin/manifest.ts:23-34 | a valid plugin manifest, written out, parses back to itself |
| `Manifests.LegacyFromLookups` | api/src/manifest.ts:18-24 | any object whose fields hold a valid legacy manifest's encoded values parses to that manifest |
| `Manifests.LegacyRoundTrip` | api/src/manifest.ts:18-24 | a valid legacy manifest, written out, parses back to itself |
| `SemVer.PrintThenParse` | api/src/game/manifest.ts:9-17 | every well-formed version prints to text the manifest regex accepts, and that text parses back to the version |
| `SemVer.ParseThenPrint` | api/src/game/manifest.ts:9-17 | whatever the regex accepts parses to a well-formed version whose printed form is the accepted text |
| `SemVer.CompareAntisymmetric` | web/src/lib/game.ts:298 | precedence is antisymmetric: swapping the operands negates the result |
| `SemVer.CompareTransitive` | web/src/lib/game.ts:298 | precedence is transitive |
| `SemVer.CompareReflexive` | web/src/lib/game.ts:301 | a version has the same precedence as itself |
| `SemVer.CompareIgnoresBuild` | web/src/lib/game.ts:301 | two versions differing only in build metadata have equal precedence |
| `SemVer.AcceptedStartsWithDigit` | api/src/game/manifest.ts:10 | every accepted version starts with a digit, so a range like `^1.0.0` or `>=1.0.0` is never one |
| `SemVer.MatchesOwnVersion` | cabinet/src/plugins/index.ts:48 | a version matches the exact range and the caret range it is the bound of |
| `SemVer.ParseRangeOfVersion` | cabinet/src/plugins/index.ts:55 | a version string read as a range is that exact range, and with a `^` in front the caret range |
| `SemVer.SatisfiesOwnVersion` | cabinet/src/plugins/index.ts:48-55 | a version satisfies its own exact range and its own caret range |
| `SemVer.SatisfiesCaret` | cabinet/src/plugins/index.ts:48 | satisfying `^v` is matching the caret range of `v` |
| `SemVer.CaretSameMajor` | cabinet/src/plugins/index.ts:48 | a version satisfying a caret range with a non-zero major has that major |
| `Detector.DetectLanguages` | api/src/detect/detector.ts:35-44 | JavaScript is reported exactly when a `package.json` exists and Rust exactly when a `Cargo.toml` exists, JavaScript first, at most one of each |
| `Detector.Latest` | api/src/detect/detector.ts:53 | the value `JSON.parse` keeps for a key is that of one of its members, and there is none exactly when no member has the key |
| `Detector.SetKey` | api/src/detect/detector.ts:55-58 | assigning a key during an object spread makes it hold the new value and leaves every other key's value alone |
| `Detector.Assign` | api/src/detect/detector.ts:55-58 | an object spread yields an object without duplicate keys |
| `Detector.AssignLookup` | api/src/detect/detector.ts:55-58 | after a spread, a key holds the spread object's value if it has one, otherwise its earlier value |
| `Detector.OwnEntries` | api/src/detect/detector.ts:55-58 | the entries a spread copies (an object's members, an array's or string's indexed items, nothing for other values) never repeat a key |
| `Detector.AllDepsPrefersDev` | api/src/detect/detector.ts:55-58 | in the merged dependency map a name takes its `devDependencies` value when it has one and its `dependencies` value otherwise |
| `Detector.CleanVersion` | api/src/detect/detector.ts:108-110 | the coerced version when `semver.coerce` finds one, otherwise the declared text unchanged |
| `Detector.DeclaredVersion` | api/src/detect/detector.ts:61-96 | a JavaScript dependency counts exactly when its value is a string; a Rust dependency counts with a non-empty string, or with a table whose stringified `version` is non-empty; nothing else counts |
| `Detector.Packages` | api/src/detect/detector.ts:60-68 | the packages of a dependency list all carry the list's language and are never more than its entries |
| `Detector.PackagesMembers` | api/src/detect/detector.ts:60-68 | a package is listed exactly when some entry has its name and a counting version that cleans to its version |
| `Detector.JsPackages` | api/src/detect/detector.ts:46-70 | reading a `package.json` that is `null` fails with the TypeError of reading `dependencies`; a missing file yields no packages; every package is a JavaScript one |
| `Detector.JsPackagesIff` | api/src/detect/detector.ts:60-68 | in a map without duplicate keys, a JavaScript package is listed exactly when the name's value is a string that cleans to its version |
| `Detector.JsPackageIff` | api/src/detect/detector.ts:46-70 | the JavaScript packages of a `package.json` are exactly the string-valued names of its merged dependency map, at their cleaned versions |
| `Detector.CargoDeps` | api/src/detect/detector.ts:82-85 | a `Cargo.toml` without a `dependencies` table contributes no entries |
| `Detector.RustPackages` | api/src/detect/detector.ts:72-106 | no `Cargo.toml` yields no packages, and every package is a Rust one |
| `Detector.RustPackagesMembers` | api/src/detect/detector.ts:87-103 | a Rust package is listed exactly when some dependency has its name and a counting version that cleans to its version |
| `Detector.DetectPackages` | api/src/detect/detector.ts:112-117 | detection fails exactly when `package.json` is `null`, and every package's language is one `detectLanguages` reports |
| `Detector.FindProvider` | api/src/detect/detector.ts:127-130 | `find` returns nothing exactly when no package has the library's language and name, otherwise the first one that does |
| `Detector.Matches` | api/src/detect/detector.ts:124-134 | the matched packages are detected packages, at most one per library |
| `Detector.MatchesIff` | api/src/detect/detector.ts:124-136 | a manifest matches something exactly when one of its libraries has a detected package of the same language and name |
| `Detector.MatchAll` | api/src/detect/detector.ts:123-139 | the loop throws "not iterable" exactly when some manifest has no `libraries`; otherwise every detection is a known manifest with its non-empty matches |
| `Detector.MatchAllAppend` | api/src/detect/detector.ts:123-139 | detections keep manifest order: those of a concatenated list are those of the first part followed by those of the second |
| `Detector.MatchAllFindsEvery` | api/src/detect/detector.ts:131-138 | every manifest with a provided library is detected |
| `Detector.DetectPlugins` | api/src/detect/detector.ts:119-142 | detection fails exactly when `package.json` is `null`; each detection names a known manifest and at least one matched package |
| `Detector.DetectedIff` | api/src/detect/detector.ts:123-138 | a manifest is detected exactly when one of its libraries has a detected package of the same language and name |
| `Detector.GenerateDependencies` | api/src/detect/detector.ts:144-151 | one dependency per detection, in order, named after the plugin at the version of its first matched package, so the manifest-version and `1.0.0` fallbacks are never reached |
| `Detector.ParseAll` | api/src/detect/detector.ts:32 | the default manifest list parses exactly when every known manifest parses, and keeps their order |
| `Detector.EntryAsWritten` | api/src/detect/detector.ts:32 | parsing a manifest through the plugin schema succeeds exactly when the schema accepts it and drops `libraries` |
| `Detector.DefaultEntriesAsWritten` | api/src/detect/detector.ts:32 | every manifest of the default list lacks `libraries` |
| `Detector.DefaultDetectorThrows` | api/src/detect/detector.ts:126 | with the default manifests, detection throws "not iterable" on every readable repository as soon as one plugin is known |
| `Detector.ParseLibrary` | api/src/detect/detector.ts:126-129 | a library entry parses only from an object whose `language` names a supported language |
| `Detector.ParseLibraries` | api/src/detect/detector.ts:126 | a manifest without a `libraries` field has none to match |
| `Detector.EntryOf` | api/src/detect/detector.ts:32 | a parsed manifest with `libraries` kept always has a list to iterate |
| `Detector.DefaultEntries` | api/src/detect/detector.ts:32 | the corrected default list parses exactly when every manifest does, and each entry has a library list |
| `Detector.DefaultDetectorDetects` | api/src/detect/detector.ts:119-151 | with `libraries` kept, detection and dependency generation succeed on every repository whose `package.json` is not `null` |
| `CliDev.GetPlatformInfo` | cli/src/dev.ts:21-59 | an unsupported platform is reported before an unsupported architecture, and the information is produced exactly for a supported pair, keeping the platform |
| `CliDev.AssetNamesDistinct` | cli/src/dev.ts:61-63 | two supported machines share an asset name exactly when they have the same platform and architecture, whatever version is asked for |
| `CliDev.BinaryNames` | cli/src/dev.ts:37-56 | macOS and Windows fetch a zip holding the app or exe, Linux an AppImage, and only Linux renames `x64` to `x86_64` |
| `CliDev.CachedBinaryPath` | cli/src/dev.ts:65-68 | the cached binary lies in the version's own directory under the cache directory |
| `CliDev.Decimal` | cli/src/dev.ts:84 | trimmed text reads as a number exactly when it is decimal digits, possibly empty, after an optional `+`; anything else is `NaN` |
| `CliDev.NumberOfTrims` | cli/src/dev.ts:84 | `Number` of a version component reads exactly what `trim` leaves of it |
| `CliDev.NumberOfDigits` | cli/src/dev.ts:84-87 | a component of plain digits is its decimal value, and whitespace around it or a `+` in front does not change that |
| `CliDev.NewestFrom` | cli/src/dev.ts:81-90 | the first maximum of the listing under the sort comparator is one of the listed names |
| `CliDev.WithBinary` | cli/src/dev.ts:76-80 | the names kept are exactly the listed directories whose binary exists |
| `CliDev.AnyCachedVersion` | cli/src/dev.ts:70-91 | a cached version, when returned, is a listed non-empty directory name holding a binary; none is returned when no directory holds one |
| `CliDev.NewestFirstOrders` | cli/src/dev.ts:81-88 | on numeric `major.minor.patch` names the comparator puts `b` first exactly when its key is greater, and ties exactly on equal keys |
| `CliDev.ScanFindsFirstMax` | cli/src/dev.ts:81-90 | scanning the listing finds the first of the entries with the greatest key |
| `CliDev.AnyCachedVersionIsNewest` | cli/src/dev.ts:70-91 | when every cached name is numeric, the version picked is the first one with the greatest key |
| `CliDev.TagVersionRoundTrip` | cli/src/dev.ts:107 | a `cabinet-v` tag, a `v` tag and a bare version all give the version back |
| `CliDev.ManifestPath` | cli/src/dev.ts:258-259 | an absolute manifest argument is used as it is |
| `CliDev.ReadGame` | cli/src/dev.ts:265-271 | a `null` manifest throws, a manifest with a falsy `name` is rejected with the missing-name message, otherwise the name is its string form and the version is the manifest's or `LOCAL` when absent or null |
| `CliDev.Install` | cli/src/dev.ts:278-285 | a version's binary is used from the cache unless missing or forced, and fails only when the needed download fails |
| `CliDev.InstallLatest` | cli/src/dev.ts:288-297 | the latest release is installed under the version its tag names, and a failed fetch of the tag fails |
| `CliDev.ResolveBinary` | cli/src/dev.ts:275-312 | a requested version is installed as asked; otherwise a failure of the latest release falls back to the newest cached version, or to the no-cache message |
| `CliDev.CabinetArgs` | cli/src/dev.ts:315-324 | the cabinet gets the manifest, `--dev`, `--no-exit` and `--override` first, five arguments in all, seven when a scale is given |
| `CliDev.LaunchCommand` | cli/src/dev.ts:205-223 | on macOS the executable inside the app bundle is launched, elsewhere the binary itself |
| `CliDev.Dev` | cli/src/dev.ts:255-333 | a missing manifest stops the command with its absolute path, and any launch happens on a supported machine with the manifest as first argument |
| `CliDev.DevOverrideRoundTrip` | cli/src/dev.ts:319 | the cabinet's argument parser reads the `--override` value back as the game's `name@version` pointing at the dev server |
| `CliDev.CachedVersionSkipsNetwork` | cli/src/dev.ts:278-285 | a requested, cached and unforced version launches the cached binary whatever the network does |
| `CliDev.RequestedDownloadFailureIsFatal` | cli/src/dev.ts:278-283 | a failed download of a requested version is an error and never falls back to the cache |
| `CliDev.OfflineUsesNewestCache` | cli/src/dev.ts:298-311 | offline with no version requested, the command launches the newest cached binary and fails only when there is none |
| `CliDev.OnlineUsesLatest` | cli/src/dev.ts:288-297 | online, the binary of the latest release's version is launched |
| `CliRemix.ParseBranch` | cli/src/remix.ts:77-82 | a recognised branch name is a non-empty slash-free version, a `/`, and a non-empty branch name without line breaks, and keeps the full name |
| `CliRemix.ParseBranchRoundTrip` | cli/src/remix.ts:77-82 | every `version/branch` name of that shape is recognised and split at its first `/` |
| `CliRemix.ParseBranches` | cli/src/remix.ts:74-85 | exactly the recognised names are kept, each as its own parse |
| `CliRemix.ParseBranchesAppend` | cli/src/remix.ts:74-85 | parsing keeps the order of the names |
| `CliRemix.StripVersion` | cli/src/remix.ts:105-108 | a recognised name loses its version and the `/` after it, any other name is kept whole |
| `CliRemix.Versions` | cli/src/remix.ts:88 | one version per parsed branch, in order |
| `CliRemix.Dedupe` | cli/src/remix.ts:88 | the de-duplicated versions hold the same values, each once |
| `CliRemix.Rank` | cli/src/remix.ts:97 | a string counts for `maxSatisfying(_, "*")` exactly when the `semver` constructor accepts it and it is a release, and then it counts at the version the constructor builds |
| `CliRemix.RankLeadingV` | cli/src/remix.ts:97 | a version written with one leading `v` ranks as the bare version |
| `CliRemix.RankIgnoresPadding` | cli/src/remix.ts:97 | whitespace around a version string does not change its rank while the string stays within 256 characters |
| `CliRemix.RankOfRelease` | cli/src/remix.ts:97 | a release written as the manifests write it ranks at its parsed version when it is at most 256 characters and its numbers are safe integers |
| `CliRemix.RankUnsafeCore` | cli/src/remix.ts:97 | a version whose major, minor or patch number exceeds `Number.MAX_SAFE_INTEGER` is never a candidate |
| `SemVer.Construct` | cli/src/remix.ts:97 | the strict `semver` constructor succeeds only on strings of at most 256 characters whose trimmed text, less one leading `v`, is a version with safe core numbers, and then builds that version; every such string succeeds |
| `SemVer.ConstructIgnoresPadding` | cli/src/remix.ts:97 | whitespace around the text does not change what the constructor builds |
| `SemVer.ConstructLeadingV` | cli/src/remix.ts:97 | one leading `v` does not change what the constructor builds |
| `SemVer.ConstructAgreesWithParse` | cli/src/remix.ts:97 | on text the manifest pattern accepts, within the length bound and with safe core numbers, the constructor builds the parsed version |
| `Text.Trim` | cli/src/dev.ts:84 | `trim` leaves text with no whitespace at either end |
| `Text.TrimInfix` | cli/src/dev.ts:84 | what `trim` leaves is an infix of the input, and what it cuts off on both sides is whitespace |
| `Text.TrimBetween` | cli/src/dev.ts:84 | an infix with only whitespace around it, and no whitespace at either end unless it is empty, is exactly what `trim` leaves |
| `Text.TrimPadded` | cli/src/dev.ts:84 | a trimmed string between whitespace margins comes back unchanged |
| `Text.TrimDropsFirst` | cli/src/dev.ts:84 | a leading whitespace character makes no difference to `trim` |
| `Text.TrimDropsLast` | cli/src/dev.ts:84 | a trailing whitespace character makes no difference to `trim` |
| `CliRemix.Ranks` | cli/src/remix.ts:97 | each version string's rank, in order |
| `CliRemix.MaxFrom` | cli/src/remix.ts:97 | the scan ends on no release exactly when none was seen and none is left |
| `CliRemix.MaxSatisfying` | cli/src/remix.ts:97 | the result is one of the strings and a valid release, and there is none exactly when no string is a release |
| `CliRemix.Chain` | cli/src/remix.ts:97 | release precedence is antisymmetric and chains through `<=` and `<` |
| `CliRemix.MaxFromIsTop` | cli/src/remix.ts:97 | the scan ends on the first release of highest precedence |
| `CliRemix.MaxSatisfyingIsFirstHighest` | cli/src/remix.ts:97 | `maxSatisfying(xs, "*")` is the first of the highest releases: no release is above it and every earlier one is below it |
| `CliRemix.FindTargetVersion` | cli/src/remix.ts:87-103 | a requested version is returned exactly when some branch has it, else "not found"; without a request a release among the branches is returned exactly when there is one, else "No valid semver versions found" |
| `CliRemix.TargetIsHighest` | cli/src/remix.ts:97-102 | without a request no branch release is above the chosen version |
| `CliRemix.Matching` | cli/src/remix.ts:116 | the matching branches are exactly the parsed branches of the target version |
| `CliRemix.BranchNames` | cli/src/remix.ts:154-156 | the plain branch name of each matching branch, in order |
| `CliRemix.FetchCommands` | cli/src/remix.ts:129 | one `git fetch origin version/branch:branch` per matching branch, in order |
| `CliRemix.FindBranch` | cli/src/remix.ts:124 | a branch is found exactly when one has the plain name, and the one found has it |
| `CliRemix.GenerateCloneCommands` | cli/src/remix.ts:110-139 | planning fails exactly when the version has no branches; otherwise clone, enter, fetch, drop the remote, clean up, and check out the default branch exactly when the version has it |
| `CliRemix.GetCloneCommand` | cli/src/remix.ts:141-161 | a plan needs fetched names with at least one versioned branch (else "No branches with version/branch format found"), targets `findTargetVersion`'s version, and lists that version's plain branch names |
| `CliRemix.FoundVersionHasPlan` | cli/src/remix.ts:153-158 | once a version is found, planning the clone never fails |
| `CliRemix.FetchedUnderPlainName` | cli/src/remix.ts:106-129 | each fetched branch is stored under the name `stripVersion` gives its full name |
| `CliRemix.RefsToDelete` | cli/src/remix.ts:180-187 | a ref is deleted exactly when it is non-empty and its name without `refs/heads/` is not a branch to keep |
| `CliRemix.BranchSurvivesIffKept` | cli/src/remix.ts:184-187 | a local branch survives the cleanup exactly when it is one to keep |
| `CliRemix.RunCommands` | cli/src/remix.ts:163-175 | the run succeeds exactly when no executed command fails without `Cloning into` in its error output, and it executes only listed commands other than the marker and `cd` |
| `CliRemix.StaysPut` | cli/src/remix.ts:269-286 | without `cd` a run acts once per command, all in the starting directory |
| `CliRemix.NoOtherCd` | cli/src/remix.ts:126-136 | a plan's only `cd` is its second command, into the package directory |
| `CliRemix.CdOnce` | cli/src/remix.ts:269-286 | a run whose only `cd` is its second command does its first command in place and everything after inside the new directory, where it ends |
| `CliRemix.PlanRunsInClone` | cli/src/remix.ts:269-286 | running a plan clones in the starting directory and does every other step, the cleanup included, inside the clone |
| `CliRemix.NotCd` | cli/src/remix.ts:279 | a command whose first letter is not `c` is not a `cd` |
| `CliRemix.Remix` | cli/src/remix.ts:258-296 | a remix runs only a successful plan, and a planning error is the remix's error |
| `CliRemix.RemixEndsInClone` | cli/src/remix.ts:267-288 | a successful remix ends inside the clone, where the manifests are updated, having run every planned command but the `cd` |
| `OverrideArgs.ParseOverride` | cabinet/src/main/args.ts:33-37 | a value without `=` is skipped |
| `OverrideArgs.ParseOverrideSplitsAtFirstEquals` | cabinet/src/main/args.ts:33-48 | a parsed override's URL is everything after the first `=` and its key, built from the text before it, holds no `=` |
| `OverrideArgs.ParseKeyKeepsOut` | cabinet/src/main/args.ts:41-48 | the rebuilt `package@version` key holds no character the key text lacked, other than `@` |
| `OverrideArgs.ParseCliArgs` | cabinet/src/main/args.ts:28-55 | a manifest path is taken exactly when the first positional is a non-empty string, and `--no-exit` is on only when given as true |
| `OverrideArgs.ParseOverrideRoundTrip` | cabinet/src/main/args.ts:33-48 | `package@version=url` with a package and version free of `@` and `=` parses back to its key and its URL, whatever the URL holds |
| `OverrideArgs.ParseOverrideDropsExtra` | cabinet/src/main/args.ts:41-48 | a key with more `@` parts keeps only the first two |
| `OverrideArgs.ScopedNameSkipped` | cabinet/src/main/args.ts:41-46 | a scoped package name, starting with `@`, has an empty first part and is skipped |
| `OverrideArgs.CollectSnoc` | cabinet/src/main/args.ts:32-49 | one more value updates the override map with that value alone |
| `OverrideArgs.LastValue` | cabinet/src/main/args.ts:32-49 | the last value sets its own key and leaves every other key as before |
| `OverrideArgs.OverridesLastWins` | cabinet/src/main/args.ts:32-49 | a key is present exactly when some value parses to it, and maps to the URL of the last such value |
| `PluginManager.Create` | cabinet/src/plugins/index.ts:20-32 | a new manager has the `get-plugin-port` handler registered and nothing loaded, started, stopped or posted |
| `PluginManager.Ref` | cabinet/src/plugins/index.ts:36-42 | only `@rcade/input-classic` resolves, to the bundled manifest version; any other name fails with "Unknown Plugin" |
| `PluginManager.FindLoaded` | cabinet/src/plugins/index.ts:47-51 | the scan returns the first loaded entry with the name and a satisfying version, and none exactly when no entry qualifies |
| `PluginManager.Destroy` | cabinet/src/plugins/index.ts:76-82 | destroying removes the handler and leaves the loaded, started and posted records alone |
| `PluginManager.LoadReuses` | cabinet/src/plugins/index.ts:47-51 | a loaded entry with the same name and a satisfying version is returned and nothing is constructed |
| `PluginManager.LoadUnknown` | cabinet/src/plugins/index.ts:53 | a name outside the static table fails with "Unknown Plugin" and changes nothing |
| `PluginManager.LoadVersionNotFound` | cabinet/src/plugins/index.ts:55-57 | when the bundled version does not satisfy the range, `load` fails with "Version Not Found" naming both, and changes nothing |
| `PluginManager.LoadMissAppends` | cabinet/src/plugins/index.ts:59-63 | a successful miss constructs one instance and records it under the manifest version rather than the range |
| `PluginManager.LoadValid` | cabinet/src/plugins/index.ts:46-64 | `load` keeps instances distinct, only appends, and returns an entry it holds whose name and version match the request |
| `PluginManager.LoadTwiceReuses` | cabinet/src/plugins/index.ts:46-64 | loading the same name and range twice constructs at most one instance |
| `PluginManager.StartFreshPort` | cabinet/src/plugins/index.ts:66-74 | `start` hands the game a channel end no earlier start or post used |
| `PluginManager.StartTwiceStartsTwice` | cabinet/src/plugins/index.ts:66-74 | two starts of a plugin call its `start` twice on the same instance, with different channels |
| `PluginManager.HandlerPostsNonce` | cabinet/src/plugins/index.ts:21-29 | the handler posts one `plugin-port-ready` with the nonce it returns, the name, the loaded version and a fresh port; a failure posts nothing |
| `PluginManager.LoadAllStopsAtFirstFailure` | cabinet/src/plugins/index.ts:13-15 | a failed preload ends where the loads of the entries before the failing one end |
| `PluginManager.LoadRequestErrKeeps` | cabinet/src/plugins/index.ts:46-57 | a failed `load` leaves the manager as it was |
| `PluginManager.EachStopsAtFirstFailure` | cabinet/src/plugins/index.ts:13-15 | for any load step that changes nothing when it fails, a failed loop ends where some prefix's successful loop ends |
| `PluginManager.LoadAllLoadsEverything` | cabinet/src/plugins/index.ts:10-18 | preloading keeps instances distinct and only appends, and after a successful preload every entry resolves without constructing anything |
| `PluginManager.DestroyStopsEach` | cabinet/src/plugins/index.ts:79-81 | destroying stops each loaded instance exactly once, in load order |
| `PreloadBroker.Init` | cabinet/src/main/preload.ts:8-9 | the broker starts with empty maps, no requests and no transfers, and satisfies its invariant |
| `PreloadBroker.CountResolvedAppend` | cabinet/src/main/preload.ts:22-46 | one more settled request adds one resolution exactly when it resolved |
| `PreloadBroker.CountResolvedUpdate` | cabinet/src/main/preload.ts:22-52 | settling a waiting request adds one resolution exactly when it resolves |
| `PreloadBroker.PortReadyValid` | cabinet/src/main/preload.ts:11-26 | the `plugin-port-ready` listener keeps the invariant |
| `PreloadBroker.AcquireValid` | cabinet/src/main/preload.ts:38-63 | `acquirePlugin` keeps the invariant |
| `PreloadBroker.TimerValid` | cabinet/src/main/preload.ts:50-53 | a timeout keeps the invariant |
| `PreloadBroker.StepValid` | cabinet/src/main/preload.ts:11-63 | every event keeps the invariant: no nonce is both cached and pending, every waiting request has an armed timer, and each resolution posted one transfer |
| `PreloadBroker.StepKeepsSettled` | cabinet/src/main/preload.ts:50-58 | a settled promise stays settled the same way, so a resolved request is never later rejected |
| `PreloadBroker.RunKeepsSettled` | cabinet/src/main/preload.ts:11-63 | over any sequence of events the invariant holds and settled requests keep their outcome |
| `PreloadBroker.PortForPendingRequest` | cabinet/src/main/preload.ts:15-57 | a port for a pending nonce resolves that request, posts the port, clears its timer, and is not cached |
| `PreloadBroker.PortWithoutRequest` | cabinet/src/main/preload.ts:23-25 | a port nobody waits for is cached under its nonce and settles nothing |
| `PreloadBroker.AcquireCached` | cabinet/src/main/preload.ts:41-47 | a request that finds its port cached removes it, posts it and resolves at once, arming no timer |
| `PreloadBroker.AcquireWaitsThenTimesOut` | cabinet/src/main/preload.ts:49-61 | otherwise the request waits with an armed timer, and when it fires the pending entry is deleted and the promise rejected without a transfer |
| `PreloadBroker.TimerAfterResolveIsNoop` | cabinet/src/main/preload.ts:56-58 | once a request is resolved its timeout changes nothing |
| `PreloadBroker.EitherOrderResolves` | cabinet/src/main/preload.ts:11-63 | whether the port or the request arrives first, the port is posted once, the request resolves, and the nonce is left in neither map |
| `KeyedChannel.Empty` | sdk/typescript/src/plugin_channel/index.ts:3-6 | the cache starts with both maps empty and nothing delivered |
| `KeyedChannel.Key` | sdk/typescript/src/plugin_channel/index.ts:21 | the key is the name, a colon, and the version, in that order |
| `KeyedChannel.KeyInjective` | sdk/rust/src/channel.rs:96 | for names without a colon the key determines name and version |
| `KeyedChannel.KeyCollision` | sdk/typescript/src/plugin_channel/index.ts:21 | with a colon in the name, two different channels share a key |
| `KeyedChannel.ArriveValid` | sdk/typescript/src/plugin_channel/index.ts:24-33 | an arriving port keeps every key out of one of the two maps and every resolver tied to an earlier call |
| `KeyedChannel.AcquireValid` | sdk/typescript/src/plugin_channel/index.ts:38-52 | an acquire keeps the same invariant |
| `KeyedChannel.ArriveConsumesOrStores` | sdk/typescript/src/plugin_channel/index.ts:24-33 | an arriving port resolves the waiting acquire of its key, or is stored when none waits, never both |
| `KeyedChannel.AcquireTakesOrWaits` | sdk/typescript/src/plugin_channel/index.ts:38-52 | an acquire takes the stored port of its key, or registers its resolver, displacing an earlier one |
| `KeyedChannel.LaterPortDisplaces` | sdk/typescript/src/plugin_channel/index.ts:32 | a later unclaimed port for a key displaces an earlier one, and the next acquire receives the later port |
| `KeyedChannel.StrandedStays` | sdk/typescript/src/plugin_channel/index.ts:50 | an acquire call that lost its resolver without a port is never delivered to afterwards |
| `KeyedChannel.SecondAcquireStrandsFirst` | sdk/typescript/src/plugin_channel/index.ts:50 | a second acquire for a key before any port arrives gets the port, and the first waits forever |
| `KeyedChannel.HandlersAgreeOnStrings` | sdk/rust/src/channel.rs:69-113 | the TypeScript and Rust listeners agree on every message whose name and version are non-empty strings |
| `KeyedChannel.EmptyNameDiffers` | sdk/rust/src/channel.rs:81-95 | the Rust listener stores a port with an empty name, which the TypeScript listener ignores |
| `KeyedChannel.NumericVersionDiffers` | sdk/rust/src/channel.rs:84-86 | the TypeScript listener stores a port with a numeric version under its decimal text, which the Rust listener ignores |
| `KeyedChannel.IgnoredMessages` | sdk/typescript/src/plugin_channel/index.ts:12-19 | a message of another type or without a port changes neither cache |
| `NonceChannel.Request` | sdk/frontend/typescript/src/plugin_channel/index.ts:38-42 | the request carries type `acquire_plugin_channel`, the nonce, and the asked name and version under `channel` |
| `NonceChannel.RustNonce` | sdk/frontend/rust/src/channel.rs:14-21 | the Rust nonce is a string of at least two decimal digits |
| `NonceChannel.SettledIgnoresMessages` | sdk/frontend/typescript/src/plugin_channel/index.ts:13-26 | once settled the listener was removed, so no later message changes the outcome, in either client |
| `NonceChannel.ForeignMessagesIgnored` | sdk/frontend/typescript/src/plugin_channel/index.ts:8 | messages of another type or for another nonce are ignored by both clients |
| `NonceChannel.FiltersAgree` | sdk/frontend/rust/src/channel.rs:49-57 | the Rust filter reads back a property exactly when the TypeScript filter sees the same string |
| `NonceChannel.ReplyResolves` | sdk/frontend/typescript/src/plugin_channel/index.ts:18-30 | the parent's reply to a client's own request, with a port, resolves it with that port in both clients, and `getVersion` gives back the requested version |
| `NonceChannel.IncompleteReplyPending` | sdk/frontend/typescript/src/plugin_channel/index.ts:20-23 | a reply without a port, or with an empty name, leaves the listener installed and the promise pending |
| `NonceChannel.ErrorRejects` | sdk/frontend/typescript/src/plugin_channel/index.ts:12-16 | a message with an `error` key rejects even when a port is attached: in TypeScript with the error's string, in Rust, when the error is defined, with the string or "Unknown error" |
| `NonceChannel.ErrorReplyRejects` | sdk/frontend/rust/src/channel.rs:65-100 | an error reply with a message rejects with that message in both clients |
| `NonceChannel.UndefinedErrorDiffers` | sdk/frontend/rust/src/channel.rs:66-69 | an `error` key holding `undefined` rejects with an empty message in TypeScript but lets Rust resolve |
| `NonceChannel.RustNonceCollision` | sdk/frontend/rust/src/channel.rs:16-20 | different random draws can print the same Rust nonce |
| `SharedMemory.DecodeEncode` | plugins/input-classic/clients/rust/src/worker.js:53-73 | decoding the little-endian bytes of a value that fits gives the value back |
| `SharedMemory.ToInt32` | plugins/input-classic/clients/rust/src/worker.js:70 | a value read as an i32 lies in the signed 32-bit range |
| `SharedMemory.ToInt16` | plugins/input-classic/clients/rust/src/worker.js:56 | a value wrapped to an i16 lies in the signed 16-bit range |
| `SharedMemory.Splice` | plugins/input-classic/clients/rust/src/worker.js:49 | writing bytes at an offset changes exactly those bytes |
| `SharedMemory.GetInt32` | plugins/input-classic/clients/rust/src/worker.js:67-73 | `getInt32` yields a signed 32-bit value |
| `SharedMemory.GetInt16` | plugins/input-classic/clients/rust/src/worker.js:53-58 | reading an i16 yields a signed 16-bit value |
| `SharedMemory.SetGetInt32` | plugins/input-classic/clients/rust/src/worker.js:60-73 | reading back a stored i32 gives the stored value wrapped to 32 bits |
| `SharedMemory.SetGetInt16` | plugins/input-classic/clients/rust/src/worker.js:53-58 | reading back a stored i16 gives the stored value wrapped to 16 bits |
| `SharedMemory.SpliceFrame` | plugins/input-classic/clients/rust/src/worker.js:53-65 | writing bytes elsewhere leaves an i32 or i16 field as it was |
| `SharedMemory.Bytes` | sdk/frontend/rust/src/shmem_runner/mod.rs:17-21 | the buffer is four lock bytes followed by the data region from byte 4 |
| `SharedMemory.BytesHoldLockWord` | sdk/frontend/rust/src/shmem_runner/mod.rs:41 | the one-element `Int32Array` at offset 0 and the little-endian i32 in the first four bytes are the same word |
| `SharedMemory.StoreLock` | sdk/rust/src/shmem_runner/guard.rs:25 | an atomic store sets the lock word to the value wrapped to an i32 and leaves the data alone |
| `SharedMemory.Spawn` | sdk/frontend/rust/src/shmem_runner/mod.rs:37-41 | a new runner's buffer has `memory_size + 4` zero bytes, so it starts unlocked |
| `SharedMemory.CompareExchange` | sdk/frontend/rust/src/shmem_runner/mod.rs:83-89 | the exchange returns the previous word and replaces it exactly when it equalled the expected value |
| `SharedMemory.TryLock` | sdk/rust/src/shmem_runner/worker.js:44-50 | an acquire attempt succeeds exactly when the word was unlocked, then marks it with the owner, and otherwise changes nothing |
| `SharedMemory.GetDataView` | sdk/rust/src/shmem_runner/worker.js:57-62 | a guard's view is the data region from byte 4 until released, then the error "Lock already released" |
| `SharedMemory.RustDataView` | sdk/rust/src/shmem_runner/guard.rs:12-14 | the Rust guard's view is the buffer from byte 4 on |
| `SharedMemory.RustDrop` | sdk/rust/src/shmem_runner/guard.rs:22-28 | dropping the Rust guard stores UNLOCKED and leaves the data alone |
| `SharedMemory.TryLockSpec` | sdk/frontend/rust/src/shmem_runner/mod.rs:106-124 | a successful `try_lock` marks the word with its owner and leaves the data alone; a failed one changes nothing |
| `SharedMemory.ReleaseIdempotent` | sdk/rust/src/shmem_runner/worker.js:64-70 | `release()` unlocks on its first call only, and a second call changes nothing |
| `SharedMemory.DataViewAfterRelease` | sdk/rust/src/shmem_runner/worker.js:57-70 | a guard's data view is available until release and an error afterwards |
| `SharedMemory.ActExclusive` | sdk/rust/src/shmem_runner/worker.js:33-70 | every lock, try-lock, drop and release keeps the lock word naming exactly who holds the lock, so Rust and JS never hold it together |
| `SharedMemory.ActAllExclusive` | sdk/rust/src/shmem_runner/worker.js:33-70 | mutual exclusion holds after any sequence of lock operations |
| `SharedMemory.SpawnExclusive` | sdk/frontend/rust/src/shmem_runner/mod.rs:37-41 | a freshly spawned runner starts with nobody holding the lock |
| `SharedMemory.OnWorkerMessage` | sdk/rust/src/shmem_runner/worker.js:11-30 | only a message with a port and a truthy `memory` sets the worker up and runs `init` once; any other message changes nothing |
| `SharedMemory.Send` | sdk/rust/src/shmem_runner/worker.js:74-78 | `send` posts only once a port is set, and is otherwise lost |
| `SharedMemory.SpawnInitialisesWorker` | sdk/frontend/rust/src/shmem_runner/mod.rs:60-67 | the init message `spawn` posts sets the worker up with its port and buffer and runs `init` exactly once |
| `SharedMemory.SendAfterSetup` | sdk/rust/src/shmem_runner/worker.js:74-78 | `send` before set-up is lost, after set-up it is posted |
| `SharedMemory.WorkerCode` | sdk/frontend/rust/src/shmem_runner/mod.rs:127-131 | the worker code is the user code, a newline, then the footer |
| `SharedMemory.DropRunner` | sdk/frontend/rust/src/shmem_runner/mod.rs:29-33 | dropping the runner terminates its worker and leaves the buffer alone |
| `ClassicLayout.Write` | plugins/input-classic/clients/rust/src/worker.js:46-51 | `write` waits without change when the lock is taken, otherwise sets exactly the addressed byte to 1 or 0 by the truthiness of the state and frees the lock; an index past the end writes nothing |
| `ClassicLayout.WriteI16` | plugins/input-classic/clients/rust/src/worker.js:53-58 | `writeI16` waits when the lock is taken, throws with the lock still held exactly when the field lies past the data, and otherwise stores the i16 and frees the lock |
| `ClassicLayout.WriteI32` | plugins/input-classic/clients/rust/src/worker.js:60-65 | `writeI32` waits when the lock is taken, throws with the lock still held exactly when the field lies past the data, and otherwise stores the i32 and frees the lock |
| `ClassicLayout.ReadI32` | plugins/input-classic/clients/rust/src/worker.js:67-73 | `readI32` waits when the lock is taken, throws with the lock held past the data, and otherwise returns the stored i32 and frees the lock |
| `ClassicLayout.ButtonOffset` | plugins/input-classic/clients/rust/src/worker.js:79-107 | a button message addresses one of the player flags 3 to 14 |
| `ClassicLayout.SystemOffset` | plugins/input-classic/clients/rust/src/worker.js:108-113 | a system message addresses one of the two system flags |
| `ClassicLayout.Init` | plugins/input-classic/clients/rust/src/worker.js:127-130 | `init` on a free lock sets the connected flag |
| `ClassicLayout.ToFlags` | plugins/input-classic/clients/rust/src/lib.rs:41-57 | a controller state has fifteen flags |
| `ClassicLayout.FromFlags` | plugins/input-classic/clients/rust/src/lib.rs:41-57 | building a state from fifteen flags gives back those flags |
| `ClassicLayout.FlagsRoundTrip` | plugins/input-classic/clients/rust/src/lib.rs:41-57 | a state rebuilt from its flags is the same state |
| `ClassicLayout.Flags` | plugins/input-classic/clients/rust/src/lib.rs:42-56 | each flag is set exactly when its byte is non-zero |
| `ClassicLayout.Decode` | plugins/input-classic/clients/rust/src/lib.rs:36-58 | `state()` decodes exactly when the view holds the fifteen flags, otherwise it panics, and each field is its byte being non-zero |
| `ClassicLayout.HandleFlagMessage` | plugins/input-classic/clients/rust/src/worker.js:75-113 | a button or system message is one `write` at its offset, in both workers |
| `ClassicLayout.WriteRoundTrip` | plugins/input-classic/clients/rust/src/worker.js:46-51 | a `write` on a free lock changes exactly its own field of the decoded state, to the truthiness of the state |
| `ClassicLayout.FlagMessageRoundTrip` | plugins/input-classic/clients/rust/src/worker.js:75-113 | a button or system message on a free lock changes exactly its own field of the decoded state |
| `ClassicLayout.UnknownMessagesIgnored` | plugins/input-classic/clients/rust/src/worker.js:75-125 | a message of another kind, or naming no known player and button, writes nothing and takes no lock |
| `ClassicLayout.WorkersAgreeOnFlags` | plugins/input-classic/rust/src/worker.js:43-83 | the plugin's button-only worker and the bundled worker agree on every message but spinner messages, which only the bundled worker handles |
| `ClassicLayout.FlagTable` | plugins/input-classic/clients/rust/src/worker.js:25-39 | every player flag from 3 to 14 is written by a button message, player 1 for the first six and player 2 for the next six |
| `ClassicLayout.SystemFlags` | plugins/input-classic/clients/rust/src/worker.js:108-113 | the system flags are written by `ONE_PLAYER` and `TWO_PLAYER` and by nothing else |
| `ClassicLayout.ButtonOffsetInjective` | plugins/input-classic/clients/rust/src/worker.js:79-107 | different button messages address different flags |
| `ClassicLayout.ToInt32Add` | plugins/input-classic/clients/rust/src/worker.js:117-118 | wrapping the position after every step equals wrapping once at the end |
| `ClassicLayout.SpinnerCompletes` | plugins/input-classic/clients/rust/src/worker.js:114-123 | a spinner message on a free lock with its fields inside the data runs to completion |
| `ClassicLayout.SpinnerStepFields` | plugins/input-classic/clients/rust/src/worker.js:116-118 | after a spinner step the delta field holds the delta wrapped to 16 bits and the position moved by it, wrapped to 32 bits |
| `ClassicLayout.SpinnerUpdates` | plugins/input-classic/clients/rust/src/worker.js:114-123 | a spinner message on a free lock sets the 16-bit delta and adds it to the 32-bit position, freeing the lock again |
| `ClassicLayout.RunSpins` | plugins/input-classic/clients/rust/src/worker.js:114-118 | draining player 1's spinner messages from a free lock performs exactly the series of steps |
| `ClassicLayout.SpinAccumulates` | plugins/input-classic/clients/rust/src/worker.js:117-118 | after any series of deltas the position is the starting position plus their sum, wrapped to 32 bits |
| `ClassicLayout.SpinLastDelta` | plugins/input-classic/clients/rust/src/worker.js:116 | after a series of deltas the delta field holds the last one, wrapped to 16 bits |
| `ClassicLayout.Trace` | plugins/input-classic/clients/rust/src/lib.rs:37-57 | the memories seen by the reads start with the memory the first read sees |
| `ClassicLayout.Diagonal` | plugins/input-classic/clients/rust/src/lib.rs:42-56 | flag `i` of a snapshot is read from the `i`-th memory of the trace |
| `ClassicLayout.ReadAcross` | plugins/input-classic/clients/rust/src/lib.rs:41-57 | the fifteen reads succeed exactly when every read is inside its memory, and yield the diagonal of the trace |
| `ClassicLayout.HeldByRustUnchanged` | plugins/input-classic/clients/rust/src/worker.js:46-73 | while Rust holds the lock, no worker message changes the memory |
| `ClassicLayout.LockedSnapshotIsConsistent` | plugins/input-classic/clients/rust/src/lib.rs:37 | with the guard held through the reads, the snapshot is the decoding of the memory at the moment of locking, whatever the worker does meanwhile |
| `ClassicLayout.FlagsAfterPresses` | plugins/input-classic/clients/rust/src/worker.js:79-106 | pressing player 1's A and then player 2's B sets A first and both afterwards |
| `ClassicLayout.WrittenTraceFromFree` | plugins/input-classic/clients/rust/src/lib.rs:37 | taking and at once dropping the guard on a free lock leaves the memory as it was |
| `ClassicLayout.ShapedTrace` | plugins/input-classic/clients/rust/src/lib.rs:37-57 | in the schedule's memories B down implies A down, yet read 7 sees A up and read 14 sees B down |
| `ClassicLayout.TornTrace` | plugins/input-classic/clients/rust/src/lib.rs:37 | the reads as written see the free memory up to read 7, then A pressed, then A and B pressed |
| `ClassicLayout.SnapshotOfTrace` | plugins/input-classic/clients/rust/src/lib.rs:41-57 | the snapshot of a trace reads A from read 7 and B from read 14 |
| `ClassicLayout.TornSnapshot` | plugins/input-classic/clients/rust/src/lib.rs:37 | as written, from any free memory with both buttons up, a schedule yields a snapshot with A up and B down although every memory state had B down only with A down |
| `ClassicLayout.TornSnapshotAtStartUp` | plugins/input-classic/clients/rust/src/lib.rs:31-37 | the torn snapshot arises from the client's own start-up memory |
| `ClassicLayout.SmallBufferSticks` | plugins/input-classic/clients/rust/src/lib.rs:31 | with the client's 15 data bytes, the first spinner message throws in `writeI16` after taking the lock and leaves it marked as held by JS |
| `ClassicLayout.StuckStaysStuck` | sdk/rust/src/shmem_runner/worker.js:33-50 | once the lock is stuck no worker message changes anything and every Rust lock attempt fails |
| `ClassicLayout.FullLayoutNeverSticks` | plugins/input-classic/clients/rust/src/worker.js:41-44 | with the bundled layout's 28 data bytes every message completes and frees the lock |
| `ClassicLayout.FullLayoutRuns` | plugins/input-classic/clients/rust/src/worker.js:41-44 | with 28 data bytes any run of messages leaves the lock free, so Rust's next attempt succeeds |
| `ClassicLayout.ClientSpawn` | plugins/input-classic/clients/rust/src/lib.rs:31 | the corrected spawn has 28 free data bytes and decodes, after `init`, as connected |
| `ClassicState.Initial` | plugins/input-classic/typescript/index.ts:3-20 | the exported state starts disconnected |
| `ClassicState.Connect` | plugins/input-classic/typescript/index.ts:22-25 | once the channel is acquired the state reports connected |
| `ClassicState.View` | plugins/input-classic/typescript/index.ts:3-20 | the state read in the shared-memory layout's order has one entry per flag |
| `ClassicState.InitialReleased` | plugins/input-classic/typescript/index.ts:3-25 | every field starts released, and connecting changes only the connected field |
| `ClassicState.SetButtonView` | plugins/input-classic/typescript/index.ts:32-35 | a button named `A`, `B` or a DPAD direction sets exactly that player's field to `pressed` |
| `ClassicState.SetButtonUnknown` | plugins/input-classic/typescript/index.ts:32-36 | any other button name leaves the player unchanged |
| `ClassicState.ViewReplacePlayer` | plugins/input-classic/typescript/index.ts:37-42 | a change to one field of player 1 or 2 is a change at that player's offset in the whole state |
| `ClassicState.ButtonMessageView` | plugins/input-classic/typescript/index.ts:30-43 | a button message for player 1 or 2 sets exactly the field the worker's offset table names, or changes nothing when it names none |
| `ClassicState.ReduceMatchesLayout` | plugins/input-classic/typescript/index.ts:27-51 | every message sets exactly the field the shared-memory worker writes, to `pressed`, and a message the worker ignores changes nothing |
| `ClassicState.ClientTracksMemory` | plugins/input-classic/typescript/index.ts:27-51 | if the client's state agrees with the shared memory's flags before a message, the message completes in the worker and they still agree after it |
| `ClassicState.StartUpAgrees` | plugins/input-classic/typescript/index.ts:22-25 | the connected initial client state agrees with the freshly initialised worker memory |
| `EventBus.Find` | plugins/input-classic/clients/typescript/index.ts:56-58 | the index `off` looks up is -1 exactly when no listener has that identity, and otherwise the first listener that has it |
| `EventBus.Off` | plugins/input-classic/clients/typescript/index.ts:56-59 | `off` leaves the list unchanged when the callback is not registered and removes one entry when it is |
| `EventBus.OffFirstOnly` | plugins/input-classic/clients/typescript/index.ts:56-59 | `off` removes exactly the first entry with that identity and keeps the rest in order |
| `EventBus.OnThenOff` | plugins/input-classic/clients/typescript/index.ts:47-54 | `on` followed by the unsubscribe function it returns gives the list back, for a callback not already registered |
| `EventBus.EmitEachSpec` | plugins/input-classic/clients/typescript/index.ts:114-127 | running the listeners over a snapshot calls exactly the callbacks of the entries that accept the event and removes exactly the `once` entries that fired |
| `EventBus.EmitDeliversAll` | plugins/input-classic/clients/typescript/index.ts:133-135 | the corrected `emit` calls every listener registered when it starts, in order, and leaves all but the `once` listeners that fired |
| `EventBus.EmitAsWrittenWithoutOnce` | plugins/input-classic/clients/typescript/index.ts:133-135 | while no `once` listener fires, `emit` as written calls every listener and removes none, just as the corrected one does |
| `EventBus.OnceSkipsNext` | plugins/input-classic/clients/typescript/index.ts:133-134 | as written, a `once` listener that fires makes `forEach` skip the listener after it, which the corrected `emit` still calls |
| `EventBus.EmitAppended` | plugins/input-classic/clients/typescript/index.ts:47-54 | a listener registered last is called after all the listeners before it, which behave as they did without it |
| `EventBus.OnceFiresOnce` | plugins/input-classic/clients/typescript/index.ts:113-130 | a `once` listener without a filter is called by the next event and is then no longer registered |
| `EventBus.FilteredOnceWaits` | plugins/input-classic/clients/typescript/index.ts:114-122 | a `once` listener whose filter rejects the event is not called and stays registered |
| `EventBus.RemainingUnique` | plugins/input-classic/clients/typescript/index.ts:114-127 | removing the `once` wrappers that fired keeps every wrapper's identity unique in the list |
| `ClassicClient.Started` | plugins/input-classic/clients/typescript/index.ts:3-22 | after `acquire` resolves the client is connected with both spinner positions at zero |
| `ClassicClient.StepSpinner` | plugins/input-classic/clients/typescript/index.ts:189-191 | a spinner step stores the delta and moves the position by it |
| `ClassicClient.PressDelivery` | plugins/input-classic/clients/typescript/index.ts:165-171 | a truthy `pressed` reaches the `inputStart` receivers and then the `press` receivers with the same data; otherwise it reaches the `inputEnd` receivers; `spin` listeners are untouched |
| `ClassicClient.HandleButton` | plugins/input-classic/clients/typescript/index.ts:149-186 | a button or system message changes the controls exactly as the reducer says, keeps the spinners, and reaches the press events' receivers |
| `ClassicClient.EventDataShape` | plugins/input-classic/clients/typescript/index.ts:167-185 | button event data carries `button` and `player`; system event data carries no `player` |
| `ClassicClient.SpinDelivery` | plugins/input-classic/clients/typescript/index.ts:193 | a `spin` emit reaches its receivers and changes only the `spin` list |
| `ClassicClient.HandleSpinner` | plugins/input-classic/clients/typescript/index.ts:187-194 | a spinner message sets the chosen spinner's delta, moves its position, and sends the new position to the `spin` receivers |
| `ClassicClient.DeliverWithoutOnce` | plugins/input-classic/clients/typescript/index.ts:133-135 | without `once` listeners, emitting over the live arrays removes nothing and matches snapshot delivery |
| `ClassicClient.HandleWithoutOnce` | plugins/input-classic/clients/typescript/index.ts:146-195 | a game that only uses `on` gets the same calls from the handler as written as from the corrected one |
| `ClassicClient.SpinSkipsNext` | plugins/input-classic/clients/typescript/index.ts:133-134 | as written, a `once` spin listener that fires hides the next spin listener from the handler; the corrected handler reaches both |
| `ClassicClient.OtherPlayerSpins` | plugins/input-classic/clients/typescript/index.ts:189 | a spinner message for a player other than 1 or 2 moves player 2's spinner in the client, while the worker writing shared memory ignores it |
| `ClassicClient.ReplaySpins` | plugins/input-classic/clients/typescript/index.ts:187-194 | after a series of spinner messages for player 1, that spinner's position has moved by their sum and nothing else has changed |
| `ClassicClient.WorkerSpin` | plugins/input-classic/clients/rust/src/worker.js:114-123 | in the worker, a spinner message for player 1 or 2 frees the lock again, stores the wrapped delta, moves that player's position with 32-bit wrap, and keeps the other player's position |
| `ClassicClient.SpinnerMoves` | plugins/input-classic/clients/typescript/index.ts:187-191 | in the client, a spinner message keeps the controls and moves only the chosen spinner, player 2's for any player but 1 |
| `ClassicClient.SpinnerStepFrame` | plugins/input-classic/clients/rust/src/worker.js:114-123 | a spinner step leaves every position field outside the two fields it writes unchanged |
| `ClassicClient.SpinnerStepTracks` | plugins/input-classic/clients/typescript/index.ts:187-194 | for players 1 and 2, the client's spinner positions and the worker's 32-bit fields still agree modulo 2^32 after a message, and hold the same delta wrapped to 16 bits |
| `SpinnerClient.Clamp` | plugins/input-spinners/clients/typescript/index.ts:31 | the accumulator is clamped into [-1000, 1000], unchanged inside that range and saturated at the nearer bound outside it |
| `SpinnerClient.Initial` | plugins/input-spinners/clients/typescript/index.ts:3-48 | both spinners start with nothing accumulated, the resolution is 64, and the client is not connected |
| `SpinnerClient.Configure` | plugins/input-spinners/clients/typescript/index.ts:62-65 | the configuration reply replaces the resolution and only then marks the client connected, leaving both spinners as they were |
| `SpinnerClient.ReadResets` | plugins/input-spinners/clients/typescript/index.ts:11-15 | reading `step_delta` returns the accumulated value and leaves 0 behind without touching the angle, so a second read gives 0 |
| `SpinnerClient.ResetAngleOnly` | plugins/input-spinners/clients/typescript/index.ts:25-27 | `reset` zeroes the angle and keeps the accumulated delta |
| `SpinnerClient.UpdateBounded` | plugins/input-spinners/clients/typescript/index.ts:30-31 | a numeric delta keeps the accumulator within ±1000, and adds the delta exactly when the sum stays in range |
| `SpinnerClient.MissingDeltaIsNaN` | plugins/input-spinners/clients/typescript/index.ts:31 | a message whose delta is missing makes the accumulator NaN, and the next read returns NaN |
| `SpinnerClient.StringDeltaConcatenates` | plugins/input-spinners/clients/typescript/index.ts:31 | a string of digits as the delta is appended to the accumulator's decimal digits instead of added |
| `SpinnerClient.ZeroStringShifts` | plugins/input-spinners/clients/typescript/index.ts:57 | the string "0" passes the `!== 0` test and multiplies the accumulator by ten, clamped |
| `SpinnerClient.AccumulatesSum` | plugins/input-spinners/clients/typescript/index.ts:30-31 | between two reads, while no running total leaves ±1000, the accumulator is the plain sum of the deltas |
| `SpinnerClient.SaturationSticks` | plugins/input-spinners/clients/typescript/index.ts:31 | once the accumulator is at 1000, further non-negative deltas leave it there |
| `SpinnerClient.IgnoredMessages` | plugins/input-spinners/clients/typescript/index.ts:55-58 | a message not of type `spinners` changes nothing, and a zero delta leaves its spinner untouched |
| `SpinnerClient.MessageUpdates` | plugins/input-spinners/clients/typescript/index.ts:54-60 | a `spinners` message feeds each spinner only from its own field with the current resolution, keeps both within ±1000, and leaves the resolution and the connected status alone |
| `SpinnerClient.ResolutionBeforeConnected` | plugins/input-spinners/clients/typescript/index.ts:5-65 | until the configuration arrives, updates use the default resolution 64 and the client is not connected; afterwards the configured resolution applies |
| `InputPlugin.Lookup` | plugins/input-classic/index.ts:25 | `MAP[code]` is missing exactly when no entry has the code, and otherwise is the mapping of an entry with that code |
| `InputPlugin.Off` | plugins/input-classic/index.ts:50 | `off` keeps the id counter, and the undefined-handler case, where Node's `removeListener` would throw, returns the listeners unchanged; `stop` never reaches it |
| `InputPlugin.FieldsPaired` | plugins/input-classic/index.ts:40-53 | `start` sets and `stop` clears the handler and the environment together, so `stop` never passes `off` an undefined handler |
| `InputPlugin.Stop` | plugins/input-classic/index.ts:49-53 | `stop` clears the handler and environment, and changes nothing on the web contents when no environment is set |
| `InputPlugin.BindingsShape` | plugins/input-classic/index.ts:4-21 | `MAP` has fourteen entries: six buttons of player 1, six of player 2, then two system keys |
| `InputPlugin.BindingCodesDistinct` | plugins/input-classic/index.ts:4-21 | no two entries of `MAP` share a key code |
| `InputPlugin.CabinetMapIsPluginMap` | cabinet/src/plugins/rcade-input-classic/index.ts:3-34 | the cabinet's built-in copy has the same map, so both handlers post the same message for every key event |
| `InputPlugin.HandleInputSpec` | plugins/input-classic/index.ts:24-35 | a mapped key posts its mapping with `pressed` true exactly for `keyDown` |
| `InputPlugin.UnmappedPostsNothing` | plugins/input-classic/index.ts:25-27 | a key not in the map posts nothing |
| `InputPlugin.BindingsAddressFlags` | plugins/input-classic/index.ts:4-21 | every mapped key's message addresses its own flag of the shared-memory layout, and together they cover every flag but the connected one |
| `InputPlugin.DispatchPosts` | plugins/input-classic/index.ts:42-46 | a key event reaches every registered closure in order, each posting the same message on its own port, or none when the key is unmapped |
| `InputPlugin.StartStopSymmetric` | plugins/input-classic/index.ts:40-53 | `start` registers exactly one closure on the environment's port and `stop` removes exactly it; `stop` before `start` changes nothing |
| `InputPlugin.StartTwiceLeaks` | plugins/input-classic/index.ts:40-53 | as written, two starts and one stop leave the first closure registered, still posting key events on the first port |
| `InputPlugin.RestartOwns` | plugins/input-classic/index.ts:40-53 | a `start` that first stops keeps the plugin owning at most one closure, and `stop` gives the listeners back |
| `InputPlugin.RestartAllThenStop` | plugins/input-classic/index.ts:40-53 | with the corrected `start`, any number of starts and one stop leave the listeners as they were before the first start |
| `InputPlugin.AttachAbort` | cabinet/src/plugins/rcade-input-classic/index.ts:22-49 | the cabinet copy registers one closure posting on `port1`, hands out the other end, and an abort removes exactly that closure; a second abort does nothing |
| `Firmware.ByteStep` | firmware/input-classic-controller/src/main.rs:242-246 | byte 0x01 is one step forward, 0xFE one step back, any other byte nothing |
| `Firmware.ReadByteSignals` | firmware/input-classic-controller/src/main.rs:237-250 | one byte read advances the 32-bit count with wrap-around and keeps the accumulated delta within one step per byte since the last multiple of four; on a multiple of four it signals the accumulated delta and resets it, otherwise it only accumulates; a signal is non-zero and at most four steps |
| `Firmware.ReadAllConserves` | firmware/input-classic-controller/src/main.rs:236-252 | over any bytes read, the deltas the spinner task signals plus the one still accumulated sum to the bytes' steps, and each signal is non-zero and at most four steps; the `Signal` keeps only its latest value, so this is not conservation up to the HID report |
| `Firmware.PackPlayerBits` | firmware/input-classic-controller/src/main.rs:313-330 | a player byte holds up, down, left, right and buttons A to D each in its own bit, 0 to 7 |
| `Firmware.PackSystemBits` | firmware/input-classic-controller/src/main.rs:333-339 | the system byte holds the two start buttons, the menu button and both players' E and F buttons in bits 0 to 6, and never sets bit 7 |
| `Firmware.PackInjective` | firmware/input-classic-controller/src/main.rs:313-339 | two polls give the same three bytes exactly when they read the same switches |
| `Firmware.PollPublishes` | firmware/input-classic-controller/src/main.rs:342-350 | after a poll the shared bytes are those just read, and a change is signalled exactly when some byte differs from the last poll; an unchanged poll touches nothing |
| `Firmware.PollIdempotent` | firmware/input-classic-controller/src/main.rs:342-350 | polling the same switches twice changes no more than polling them once |
| `Firmware.AsI16` | firmware/input-classic-controller/src/main.rs:368 | `as i16` gives a value in the `i16` range congruent to the input modulo 2^16 |
| `Firmware.ClampI16` | firmware/input-classic-controller/src/main.rs:368 | the clamp to ±32767 only changes -32768, to -32767 |
| `Firmware.ReportDelta` | firmware/input-classic-controller/src/main.rs:368-369 | the reported delta lies within ±32767 and is the signalled delta whenever that is within range |
| `Firmware.Report` | firmware/input-classic-controller/src/main.rs:370-384 | the report has eight bytes ending in 0, with the three shared bytes loaded after the event at positions 4 to 6 |
| `Firmware.LoHiRoundTrip` | firmware/input-classic-controller/src/main.rs:376-377 | the low and high bytes of an `i16`, with an arithmetic shift, read back little-endian as the same value |
| `Firmware.ReportDeltas` | firmware/input-classic-controller/src/main.rs:362-379 | the host reads back the clamped delta of the spinner that signalled and 0 for the other; an input change carries no delta |
| `Firmware.WrapAndSpinnerRange` | firmware/input-classic-controller/src/main.rs:368 | the `i16` cast wraps, so a signalled 65536 would be reported as 0, but the at most four steps the spinner tasks signal are reported unchanged |
| `GameHost.CachePath` | cabinet/src/main/main.ts:33-35 | a game version's cache path is the cache directory followed by the game id and then the version |
| `GameHost.Extname` | cabinet/src/main/main.ts:109 | the extension is empty or starts at a `.`, is a suffix of the path, and holds no `/` and no further `.` |
| `GameHost.MimeTypeDefault` | cabinet/src/main/main.ts:110-121 | a file is sent as `application/octet-stream` exactly when its extension is not in the table |
| `GameHost.ContentTypeIgnoresCase` | cabinet/src/main/main.ts:109 | the content type does not depend on the case of the path's letters |
| `GameHost.Serve` | cabinet/src/main/main.ts:100-127 | `/` serves `/index.html`; a file that exists is sent with status 200 and its extension's content type; anything else gets 404 "Not Found" |
| `GameHost.FindDependency` | cabinet/src/main/main.ts:212 | the lookup is -1 exactly when no dependency is exactly `@rcade/input-classic` 1.0.0, and otherwise points at one that is |
| `GameHost.ServerKeyInjective` | cabinet/src/main/main.ts:82 | `gameId@version` keys differ for different games and versions as long as game ids hold no `@` |
| `GameHost.ServerKeyCollides` | cabinet/src/main/main.ts:82 | without that condition two different game and version pairs share a key |
| `GameHost.StartGameServerIdempotent` | cabinet/src/main/main.ts:81-133 | a second start of a running game returns the first port and registers nothing; a first start registers exactly one server, on the cache path |
| `GameHost.UnloadGameRemoves` | cabinet/src/main/main.ts:223-232 | `unload-game` forgets exactly the game's server and aborts exactly its controller, and changes nothing for a game that is not running |
| `GameHost.StartThenUnload` | cabinet/src/main/main.ts:81-232 | starting and then unloading a game that was not running aborts its controller and leaves the registry as before |
| `GameHost.FailedDownloadStillCached` | cabinet/src/main/main.ts:41-68 | as written, a failed download leaves the version's directory behind, so the version counts as cached and the next load serves an empty directory |
| `GameHost.FailedLoadThenCachedLoad` | cabinet/src/main/main.ts:191-207 | as written, a first `load-game` of an uncached version fails on the download, and a second one succeeds over the empty directory whatever its content URL |
| `GameHost.DownloadAndExtractKeepsCache` | cabinet/src/main/main.ts:46-68 | with the directory created only on success, a failed download leaves the host unchanged and a successful one leaves the version cached with a game in it |
| `GameHost.LoadGameServes` | cabinet/src/main/main.ts:191-221 | the corrected `load-game` keeps every cached directory and server backed by an extracted game, never fails for a cached version, attaches the input plugin exactly when the game depends on input-classic 1.0.0, and leaves the host unchanged on failure; for an uncached version a missing or empty content URL, and only that, fails with `NoContentUrl` |
| `GameHost.LoadGameRegisters` | cabinet/src/main/main.ts:191-221 | `load-game` as written registers the server, never fails for a cached version, attaches at most one input port exactly when the game depends on input-classic 1.0.0, and fails with `NoContentUrl` for an uncached version exactly when the content URL is missing or empty |
| `GameHost.ReloadKeepsFirstController` | cabinet/src/main/main.ts:84-88 | as written, a second `load-game` of a running game attaches the input plugin under the new controller but keeps the first one registered, so `unload-game` never aborts the new session |
| `GameHost.ReloadAbortsNewest` | cabinet/src/main/main.ts:81-88 | when a reload hands the running server over, the same port is returned, the earlier session is aborted, and `unload-game` aborts the latest one |

## Left out

- Electron and IPC plumbing (windows, zoom, the menu-key hook, `ipcMain` and `contextBridge` transport) is outside the model; ports and channels are opaque numbers.
- HTTP serving, `findAvailablePort`, `fetch`, tar extraction and file-system calls are parameters or recorded outcomes; the model keeps the control flow around them.
- `Atomics.wait`/`Atomics.notify` timing, worker spawning and blob URLs carry no state; each atomic operation is one transition, with no fairness or timing claims.
- The firmware's USB, UART, GPIO, embassy tasks, signals and timers are left out; the model keeps the per-byte decoding, the bit packing, change detection and the report encoding.
- The spinner angle (`atan2`, `sin`, `cos`) is floating point; `SpinnerClient` records the list of updates since the last `reset`, which is everything the angle depends on.
- SemVer.Satisfies: range forms other than `*`, an exact version and a caret range (`1`, `~1.0.0`, `>=1.0.0`, `1.x`, hyphen and union ranges) parse as unsupported and are never satisfied, although the `semver` package would accept matching versions; the system writes only the three supported forms.
- SemVer.ParseRange: the same restriction; the `semver` package itself is not part of this model.
- SemVer.Compare: follows section 11 of Semantic Versioning 2.0.0; the `semver` package's loose parsing and its comparator's handling of malformed input are not modelled.
- CliRemix.Rank: the strict `semver` constructor is modelled for trimming, one leading `v`, the 256-character limit and the `Number.MAX_SAFE_INTEGER` bound on major, minor and patch; its own pattern is taken to be the manifest pattern, and the conversion of large prerelease numbers is not modelled, since `*` never matches a prerelease.
- CliDev.NumberOf: `Number` is modelled on trimmed decimal digits after an optional `+`; a `-` sign, fractions, exponents (`1e2`), radix prefixes (`0x1f`, `0o7`, `0b1`) and `Infinity` read as `NaN` here although `Number` gives them a value. Cache directories created by default are named after release versions, which use none of these forms; `--version` can create others (see `CliDev.NewestFrom`).
- CliDev.NewestFrom: the model takes the first maximum under the comparator. With a non-numeric version component (a directory `0.5.0-beta.1`, made by `--version 0.5.0-beta.1`) the comparator returns `NaN`, which `sort` reads as 0, so it is not a consistent order and the head of the sorted listing depends on the engine's sort algorithm; for `["0.5.0", "0.5.0-beta.1", "0.5.1"]` V8 keeps `0.5.0` first while the model returns `0.5.1`. `CliDev.AnyCachedVersionIsNewest` holds only for numeric names.
- GameCatalog.IntoResponse: a version's `remixOf` is the target game's id and name and the target version number; the response also carries the target game's `git` URLs and `owner_rc_id`, the target version's display name, description and visibility, and that version's own `remixOf` reference, which the model does not build.
- Detector.CleanVersion: `semver.coerce` is the parameter `coerce`, so the coerced form of a version is not computed here.
- Js.Number: numbers are integers; NaN, infinities and fractions are left out. So `setInt16(NaN)` writing 0, and `position += undefined` giving NaN in the bundled client, are not modelled.
- ClassicLayout.SpinnerUpdates: the spinner delta is an integer; a fractional or NaN delta, which `DataView` truncates or stores as 0, is not modelled.
- SpinnerClient.StringToNumber: `Number(s)` is modelled only for the strings that concatenating a delta can produce (digits, possibly after a minus sign); other numeric forms (`"1e3"`, `" 12 "`, hexadecimal) become NaN.
- GameHost.Serve: `path.join` normalisation (`..`, repeated slashes, `.`) is not modelled; a request path is looked up as given, so escaping the game directory with `..` is outside the model.
- GameHost.CachePath: paths are lists of segments and Windows separators are not modelled.
- CliDev: the download of a cabinet build, its unpacking and the launch of the process (signals, exit codes, stdio) are recorded outcomes; the exact text of a child process error is not modelled.
- CliRemix: shell commands are planned and their failures are given; their output and the order of `Promise.all` completions are not modelled.
- OverrideArgs: tokenising the command line (`node:util` `parseArgs`) is library code; the model starts from the collected override values and positionals.
- Json: parse errors of JSON and TOML are not modelled; a document is already parsed. With duplicate keys `Json.Lookup` takes the first member; `JSON.parse` keeps the last, which the manifests here never contain.
- Json: an object keeps its members in document order, which is the order `Object.entries` reports for non-index keys; integer-like keys, which JavaScript lists first in ascending order, are not reordered.
- Manifests: the category enum lives in a file that is not part of this model, so the game schema takes its membership test as a parameter; zod's error messages are reduced to the failing field.
- GameCatalog and PluginCatalog: database queries and inserts are updates of in-memory records; the (game id, version) uniqueness of the database schema is an assumption, and signing a URL is modelled by the key it grants and its expiry.
- PluginManager: `crypto.randomUUID()` is the parameter nonce; the bundled manifest's version is the parameter `bundled`.
- Authentication, HTTP route handlers, the cache wrapper, the deploy action, the interactive CLI and the renderer's UI are not part of this model.

## Findings

| source | as written | input that shows it | evidently intended | confidence | as-written member | corrected member |
|---|---|---|---|---|---|---|
| plugins/input-classic/clients/rust/src/lib.rs:37 | the lock guard is a temporary dropped at the end of the `let`, so the fifteen reads run without the lock | player 1 presses A and then player 2 presses B while the reads run: read 7 sees A up, read 14 sees B down | hold the guard until the reads finish | not executed | `ClassicLayout.TornSnapshot` | `ClassicLayout.LockedSnapshotIsConsistent` |
| plugins/input-classic/clients/rust/src/lib.rs:31 | the runner is spawned with 15 data bytes, but the bundled worker writes spinner fields at offsets 16 to 27 | a spinner message on the input-classic channel, which needs a producer outside this repository (both input plugins here send only button and system messages): `writeI16` throws after taking the lock, which then stays held by JS, and every later lock attempt fails | spawn with the 28 bytes of the bundled layout | not executed | `ClassicLayout.SmallBufferSticks` | `ClassicLayout.FullLayoutRuns` |
| plugins/input-classic/index.ts:40-53 | `start` overwrites the stored handler without unregistering the earlier one, and the plugin manager starts a reused instance again | start, start, stop: the first closure stays registered and keeps posting key events on the first port | stop a running instance before starting it again | not executed | `InputPlugin.StartTwiceLeaks` | `InputPlugin.RestartAllThenStop` |
| plugins/input-classic/clients/typescript/index.ts:134 | `emit` runs `forEach` over the live listener array, which a firing `once` listener splices | listeners `[once(cb), next]`: only `cb` is called | call every listener registered when the emit starts | not executed | `EventBus.OnceSkipsNext` | `EventBus.EmitDeliversAll` |
| cabinet/src/main/main.ts:46-53 | the version's directory is created before the fetch, and "cached" means the directory exists | a download whose response is not ok: the next `load-game` skips the download and serves an empty directory | create the directory only once the download succeeded | not executed | `GameHost.FailedLoadThenCachedLoad` | `GameHost.LoadGameServes` |
| cabinet/src/main/main.ts:84-88 | a second `load-game` of a running game returns the running server, which keeps the first load's controller | load, load, unload: the second load's input session is never aborted | hand the server over to the newest load and abort the earlier session | not executed | `GameHost.ReloadKeepsFirstController` | `GameHost.ReloadAbortsNewest` |
| web/src/lib/game.ts:176 | the reported upload expiry is `now + 3600`, seconds added to a time in milliseconds | any publish: the expiry passes 3.6 seconds after `now` while the signed URL works for an hour | `now + 3600 * 1000`, as the listing's download expiry | not executed | `GameCatalog.PublishExpiresEarly` | `GameCatalog.PublishFixed` |
| web/src/lib/plugin.ts:106 | the reported upload expiry is `now + 3600`, seconds added to a time in milliseconds | any publish: the expiry passes 3.6 seconds after `now` while the signed URL works for an hour | `now + 3600 * 1000`, as the listing's download expiry | not executed | `PluginCatalog.PublishExpiresEarly` | `PluginCatalog.PublishFixed` |
| web/src/lib/plugin.ts:133 | the download link reads `plugins/builds/{id}/{version}.tar.gz` while the upload link writes `plugins/builds/{id}/{version}/backend.tar.gz` | any published version: the listed link names an object nobody wrote | read the object the upload wrote | not executed | `PluginCatalog.ListedLinkMissesUpload` | `PluginCatalog.PublishedVersionListed` |
| api/src/detect/detector.ts:126 | detection iterates `manifest.libraries`, a field the plugin manifest schema drops, so the loop throws | any readable repository once one plugin manifest is known | keep `libraries` in the plugin manifest so detection runs | not executed | `Detector.DefaultDetectorThrows` | `Detector.DefaultDetectorDetects` |

=== FILE: catalog.dfy ===
/** What the game and plugin registries of the web service share
    (web/src/lib/game.ts and web/src/lib/plugin.ts): who is asking for a
    listing, which versions that caller may see, the repository URLs, the
    bucket keys of the uploaded builds and the lifetime of a signed URL.

    Signing a URL is a call into the storage SDK; the model keeps the
    object key a signed URL grants access to, and the time it stops
    working. */
module Catalog {
  import opened Results
  import opened Manifests
  import Json

  /** The `auth` argument of `intoResponse`. */
  datatype Caller = Recurser(rcId: string) | PublicCaller | Cabinet

  /** Whether a version with visibility `vis`, of an entry owned by
      `owner`, is listed for `caller`: a non-public version is withheld
      from public callers and from recursers other than the owner, and a
      private one also from the cabinet. */
  predicate Shown(vis: Visibility, caller: Caller, owner: string) {
    if vis != Public && (caller.PublicCaller? || (caller.Recurser? && caller.rcId != owner)) then false
    else !(vis == Private && caller.Cabinet?)
  }

  /** Who sees what, visibility by visibility. */
  lemma ShownTable(vis: Visibility, caller: Caller, owner: string)
    ensures vis == Public ==> Shown(vis, caller, owner)
    ensures vis == Internal ==> (Shown(vis, caller, owner) <==> caller == Cabinet || caller == Recurser(owner))
    ensures vis == Private ==> (Shown(vis, caller, owner) <==> caller == Recurser(owner))
  {
  }

  /** The public sees the least and the owner sees everything. */
  lemma ShownOrdering(vis: Visibility, caller: Caller, owner: string)
    ensures Shown(vis, PublicCaller, owner) ==> Shown(vis, caller, owner)
    ensures Shown(vis, Recurser(owner), owner)
    ensures Shown(vis, Cabinet, owner) ==> vis != Private
  {
  }

  // ------------------------------------------------------------ git URLs

  datatype GitKind = Https | Ssh

  const HttpsPrefix: string := "https://github.com/"
  const SshPrefix: string := "git@github.com:"
  const SshSuffix: string := ".git"

  /** `gitUrl(kind)` for a repository `owner/name`. */
  function GitUrl(kind: GitKind, repo: string): string {
    match kind
    case Https => HttpsPrefix + repo
    case Ssh => SshPrefix + repo + SshSuffix
  }

  /** The repository a URL of the given kind names, if it has that shape. */
  function RepoOf(kind: GitKind, url: string): Option<string> {
    match kind
    case Https =>
      if |url| >= |HttpsPrefix| && url[..|HttpsPrefix|] == HttpsPrefix then Some(url[|HttpsPrefix|..])
      else None
    case Ssh =>
      if |url| >= |SshPrefix| + |SshSuffix| && url[..|SshPrefix|] == SshPrefix
        && url[|url| - |SshSuffix|..] == SshSuffix
      then Some(url[|SshPrefix|..|url| - |SshSuffix|])
      else None
  }

  /** Both URL forms name the repository they were built from, so
      different repositories never share a URL. */
  lemma GitUrlRoundTrip(kind: GitKind, repo: string)
    ensures RepoOf(kind, GitUrl(kind, repo)) == Some(repo)
  {
    var u := GitUrl(kind, repo);
    match kind
    case Https =>
      assert u[..|HttpsPrefix|] == HttpsPrefix && u[|HttpsPrefix|..] == repo;
    case Ssh =>
      assert u == SshPrefix + (repo + SshSuffix);
      assert u[..|SshPrefix|] == SshPrefix;
      assert u[|u| - |SshSuffix|..] == SshSuffix;
      assert u[|SshPrefix|..|u| - |SshSuffix|] == repo;
  }

  lemma GitUrlsInjective(kind: GitKind, a: string, b: string)
    ensures GitUrl(kind, a) == GitUrl(kind, b) <==> a == b
  {
    GitUrlRoundTrip(kind, a);
    GitUrlRoundTrip(kind, b);
  }

  datatype GitUrls = GitUrls(ssh: string, https: string)

  function GitUrlsOf(repo: string): GitUrls {
    GitUrls(GitUrl(Ssh, repo), GitUrl(Https, repo))
  }

  // ------------------------------------------------------- signed contents

  /** `expiresIn: 3600`, in seconds, for every signed URL. */
  const UrlLifetimeSeconds: int := 3600

  const MillisPerSecond: int := 1000

  /** A signed download link: the bucket object it opens and the time, in
      milliseconds since the epoch, the listing says it stops working. */
  datatype Contents = Contents(key: string, expires: int)

  /** The `contents` entry added when the caller asks for R2 keys: the
      listing's expiry is one URL lifetime after `now`. */
  function ContentsAt(key: string, now: int): (c: Contents)
    ensures c.key == key
    ensures c.expires - now == UrlLifetimeSeconds * MillisPerSecond
  {
    Contents(key, now + 3600 * 1000)
  }

  /** The expiry `publishVersion` reports for its upload link, as
      written: the signed URL lives `3600` seconds but `Date.now()` counts
      milliseconds, so the reported expiry is 3.6 seconds away. */
  function UploadExpiresAsWritten(now: int): int {
    now + UrlLifetimeSeconds
  }

  /** The reported expiry of the upload link, one URL lifetime after
      `now`, in the milliseconds the listing's `contents.expires` uses. */
  function UploadExpires(now: int): (e: int)
    ensures e == ContentsAt("", now).expires
  {
    now + UrlLifetimeSeconds * MillisPerSecond
  }

  /** The as-written expiry passes long before the signed URL stops
      working; the corrected one is when it does. */
  lemma UploadExpiryUnits(now: int)
    ensures UploadExpiresAsWritten(now) - now == 3600
    ensures UploadExpires(now) - now == 3600 * 1000
    ensures UploadExpiresAsWritten(now) < UploadExpires(now)
  {
  }

  // -------------------------------------------------------------- authors

  /** `Array.isArray(authors) ? authors : [authors]`. */
  function AuthorList(a: Authors): (r: seq<Author>)
    ensures ValidAuthors(a) ==> r != []
    ensures a.OneAuthor? ==> r == [a.author]
    ensures a.AuthorList? ==> r == a.list
  {
    match a
    case OneAuthor(x) => [x]
    case AuthorList(list) => list
  }

  /** Every author a manifest accepts reaches the stored list, and a valid
      manifest never stores an empty one. */
  lemma AuthorListOfParsed(m: seq<Json.Member>)
    ensures ParseAuthors(m).Ok? ==> AuthorList(ParseAuthors(m).value) != []
  {
  }

  // ------------------------------------------------------------ categories

  /** The requested categories the database knows, in request order. */
  function KnownCategories(requested: seq<string>, known: set<string>): (r: seq<string>)
    ensures |r| <= |requested|
    ensures forall i :: 0 <= i < |r| ==> r[i] in known
  {
    if requested == [] then []
    else (if requested[0] in known then [requested[0]] else []) + KnownCategories(requested[1..], known)
  }

  /** The ones it does not know, which are only reported. */
  function UnknownCategories(requested: seq<string>, known: set<string>): (r: seq<string>)
    ensures |r| <= |requested|
    ensures forall i :: 0 <= i < |r| ==> r[i] !in known
  {
    if requested == [] then []
    else (if requested[0] !in known then [requested[0]] else []) + UnknownCategories(requested[1..], known)
  }

  /** The two lists split the request: every requested category lands in
      exactly one of them, as often as it was requested. */
  lemma {:induction false} CategoriesPartition(requested: seq<string>, known: set<string>)
    ensures multiset(KnownCategories(requested, known)) + multiset(UnknownCategories(requested, known)) == multiset(requested)
    ensures |KnownCategories(requested, known)| + |UnknownCategories(requested, known)| == |requested|
  {
    if requested != [] {
      CategoriesPartition(requested[1..], known);
      assert requested == [requested[0]] + requested[1..];
    }
  }

  /** A category is kept exactly when it was requested and is known. */
  lemma {:induction false} KnownCategoriesMembers(requested: seq<string>, known: set<string>, c: string)
    ensures c in KnownCategories(requested, known) <==> c in requested && c in known
  {
    if requested != [] {
      KnownCategoriesMembers(requested[1..], known, c);
      assert requested == [requested[0]] + requested[1..];
    }
  }
}

=== FILE: classic_client.dfy ===
/** The bundled TypeScript input-classic client (buttons and spinners):
    its port handler, which updates the exported state and emits events on
    the bus.

    A `button` or `system` message goes through the shared controls
    reducer, then emits `inputStart` and `press` when `pressed` is truthy,
    `inputEnd` otherwise; a button message's event data carries the player,
    a system message's does not. A `spinner` message stores the delta in
    player 1's spinner when `player === 1` and in player 2's otherwise, adds
    it to that spinner's position and emits `spin` with the new position.
    Anything else is ignored.

    The handler emits as written, over the live listener arrays
    (`EventBus.EmitAsWritten`); `HandleFixed` is the same handler over
    snapshots (`EventBus.Emit`), the behaviour the event bus evidently
    intends. */
module ClassicClient {
  import Js
  import opened Results
  import opened EventBus
  import opened ClassicState
  import opened ClassicLayout
  import opened SharedMemory

  datatype SpinnerState = SpinnerState(delta: int, position: int)

  datatype Bus = Bus(press: seq<Entry>, inputStart: seq<Entry>, inputEnd: seq<Entry>, spin: seq<Entry>)

  datatype Client = Client(controls: Controls, spinner1: SpinnerState, spinner2: SpinnerState, bus: Bus)

  /** An `emit` call the handler makes. */
  datatype Event = Event(kind: EventType, data: Js.Value)

  /** The bus after some emits, and the callbacks reached, in order. */
  datatype Delivery = Delivery(bus: Bus, calls: seq<nat>)

  /** The client when `acquire` has resolved: initial controls, connected,
      spinners at zero, and whatever listeners the game registered. */
  function Started(bus: Bus): (c: Client)
    ensures c.controls.connected && c.spinner1.position == 0 && c.spinner2.position == 0
  {
    Client(Connect(Initial()), SpinnerState(0, 0), SpinnerState(0, 0), bus)
  }

  function Listeners(b: Bus, kind: EventType): seq<Entry> {
    match kind
    case Press => b.press
    case InputStart => b.inputStart
    case InputEnd => b.inputEnd
    case Spin => b.spin
  }

  function WithListeners(b: Bus, kind: EventType, ls: seq<Entry>): (b': Bus)
    ensures Listeners(b', kind) == ls
    ensures forall k :: k != kind ==> Listeners(b', k) == Listeners(b, k)
  {
    match kind
    case Press => b.(press := ls)
    case InputStart => b.(inputStart := ls)
    case InputEnd => b.(inputEnd := ls)
    case Spin => b.(spin := ls)
  }

  predicate BusUnique(b: Bus) {
    forall k :: HandlersUnique(Listeners(b, k))
  }

  /** Emits in order, each over its own event's live listener array. */
  function Deliver(b: Bus, events: seq<Event>): Delivery
    decreases |events|
  {
    if events == [] then Delivery(b, [])
    else
      var r := EmitAsWritten(Listeners(b, events[0].kind), events[0].data);
      var d := Deliver(WithListeners(b, events[0].kind, r.live), events[1..]);
      Delivery(d.bus, r.calls + d.calls)
  }

  /** Emits in order, each over a snapshot of its event's listeners. */
  function DeliverFixed(b: Bus, events: seq<Event>): Delivery
    decreases |events|
  {
    if events == [] then Delivery(b, [])
    else
      var r := Emit(Listeners(b, events[0].kind), events[0].data);
      var d := DeliverFixed(WithListeners(b, events[0].kind, r.live), events[1..]);
      Delivery(d.bus, r.calls + d.calls)
  }

  /** `{ player, button, pressed, type }`. */
  function ButtonData(msg: Message): Js.Value {
    Js.Obj(map["player" := msg.player, "button" := msg.button, "pressed" := msg.pressed, "type" := msg.kind])
  }

  /** `{ button, pressed, type }`. */
  function SystemData(msg: Message): Js.Value {
    Js.Obj(map["button" := msg.button, "pressed" := msg.pressed, "type" := msg.kind])
  }

  /** `{ player, delta, position, type: "spinner" }`. */
  function SpinData(player: Js.Value, delta: int, position: int): Js.Value {
    Js.Obj(map["player" := player, "delta" := Js.Number(delta), "position" := Js.Number(position), "type" := Js.Str("spinner")])
  }

  /** `inputStart` then `press` for a truthy `pressed`, else `inputEnd`. */
  function PressEvents(pressed: Js.Value, data: Js.Value): seq<Event> {
    if Js.Truthy(pressed) then [Event(InputStart, data), Event(Press, data)] else [Event(InputEnd, data)]
  }

  function StepSpinner(s: SpinnerState, delta: int): (s': SpinnerState)
    ensures s'.delta == delta && s'.position - s.position == delta
  {
    SpinnerState(delta, s.position + delta)
  }

  /** The state part of the port handler. */
  function Update(c: Client, msg: Message): Client {
    if msg.kind == Js.Str("spinner") then
      if msg.player == Js.Number(1) then c.(spinner1 := StepSpinner(c.spinner1, msg.delta))
      else c.(spinner2 := StepSpinner(c.spinner2, msg.delta))
    else c.(controls := Reduce(c.controls, msg))
  }

  /** The emits the port handler makes for a message. */
  function Events(c: Client, msg: Message): seq<Event> {
    if msg.kind == Js.Str("button") then PressEvents(msg.pressed, ButtonData(msg))
    else if msg.kind == Js.Str("system") then PressEvents(msg.pressed, SystemData(msg))
    else if msg.kind == Js.Str("spinner") then
      var s := if msg.player == Js.Number(1) then c.spinner1 else c.spinner2;
      [Event(Spin, SpinData(msg.player, msg.delta, s.position + msg.delta))]
    else []
  }

  /** The port's `onmessage`: the new client and the callbacks reached. */
  datatype Handled = Handled(client: Client, calls: seq<nat>)

  function Handle(c: Client, msg: Message): Handled {
    var d := Deliver(c.bus, Events(c, msg));
    Handled(Update(c, msg).(bus := d.bus), d.calls)
  }

  /** The handler with snapshot emits. */
  function HandleFixed(c: Client, msg: Message): Handled {
    var d := DeliverFixed(c.bus, Events(c, msg));
    Handled(Update(c, msg).(bus := d.bus), d.calls)
  }

  /** A series of messages in arrival order. */
  function Replay(c: Client, msgs: seq<Message>): Client
    decreases |msgs|
  {
    if msgs == [] then c else Replay(Handle(c, msgs[0]).client, msgs[1..])
  }

  // ---------------------------------------------------------------- lemmas

  lemma EmitOn(b: Bus, kind: EventType, data: Js.Value)
    requires BusUnique(b)
    ensures Emit(Listeners(b, kind), data)
         == Emitted(Remaining(Listeners(b, kind), data), Receivers(Listeners(b, kind), data))
  {
    EmitDeliversAll(Listeners(b, kind), data);
  }

  lemma RemainingKeepsUnique(b: Bus, kind: EventType, data: Js.Value)
    requires BusUnique(b)
    ensures BusUnique(WithListeners(b, kind, Remaining(Listeners(b, kind), data)))
  {
    RemainingUnique(Listeners(b, kind), data);
    var b' := WithListeners(b, kind, Remaining(Listeners(b, kind), data));
    forall k
      ensures HandlersUnique(Listeners(b', k))
    {
      if k != kind {
        assert Listeners(b', k) == Listeners(b, k);
      }
    }
  }

  /** With snapshot emits, a pressed button or system message reaches the `inputStart`
      receivers and then the `press` receivers with the same data; a
      released one reaches the `inputEnd` receivers. Other lists are left
      alone. */
  lemma PressDelivery(b: Bus, pressed: Js.Value, data: Js.Value)
    requires BusUnique(b)
    ensures Js.Truthy(pressed) ==>
      DeliverFixed(b, PressEvents(pressed, data)).calls == Receivers(b.inputStart, data) + Receivers(b.press, data)
    ensures !Js.Truthy(pressed) ==>
      DeliverFixed(b, PressEvents(pressed, data)).calls == Receivers(b.inputEnd, data)
    ensures DeliverFixed(b, PressEvents(pressed, data)).bus.spin == b.spin
  {
    var evs := PressEvents(pressed, data);
    EmitOn(b, evs[0].kind, data);
    var b1 := WithListeners(b, evs[0].kind, Remaining(Listeners(b, evs[0].kind), data));
    if Js.Truthy(pressed) {
      RemainingKeepsUnique(b, InputStart, data);
      EmitOn(b1, Press, data);
      var b2 := WithListeners(b1, Press, Remaining(b1.press, data));
      assert evs[1..][1..] == [];
      assert DeliverFixed(b1, evs[1..]) == Delivery(b2, Receivers(b1.press, data) + []);
    } else {
      assert evs[1..] == [];
      assert DeliverFixed(b, evs).calls == Receivers(b.inputEnd, data) + [];
    }
  }

  /** A button or system message, with snapshot emits: the controls change exactly as the
      reducer says, the spinners stay, and the press events reach their
      receivers with the message's data. */
  lemma HandleButton(c: Client, msg: Message)
    requires BusUnique(c.bus)
    requires msg.kind == Js.Str("button") || msg.kind == Js.Str("system")
    ensures var h := HandleFixed(c, msg);
      && h.client.controls == Reduce(c.controls, msg)
      && h.client.spinner1 == c.spinner1 && h.client.spinner2 == c.spinner2
    ensures var data := if msg.kind == Js.Str("button") then ButtonData(msg) else SystemData(msg);
      HandleFixed(c, msg).calls ==
        if Js.Truthy(msg.pressed) then Receivers(c.bus.inputStart, data) + Receivers(c.bus.press, data)
        else Receivers(c.bus.inputEnd, data)
  {
    var data := if msg.kind == Js.Str("button") then ButtonData(msg) else SystemData(msg);
    assert Events(c, msg) == PressEvents(msg.pressed, data);
    PressDelivery(c.bus, msg.pressed, data);
  }

  /** The data of a button event has a `button` key (so a `once` key filter
      applies to it); that of a system event has no `player`. */
  lemma EventDataShape(msg: Message)
    ensures Js.Get(ButtonData(msg), "button") == msg.button
    ensures Js.Get(ButtonData(msg), "player") == msg.player
    ensures Js.Get(SystemData(msg), "player") == Js.Undefined
    ensures Js.Get(SystemData(msg), "type") == msg.kind
  {
  }

  /** One `spin` emit: its receivers are reached and the fired `once`
      entries leave the `spin` list only. */
  lemma SpinDelivery(b: Bus, data: Js.Value)
    requires BusUnique(b)
    ensures DeliverFixed(b, [Event(Spin, data)]) == Delivery(WithListeners(b, Spin, Remaining(b.spin, data)), Receivers(b.spin, data))
    ensures BusUnique(WithListeners(b, Spin, Remaining(b.spin, data)))
  {
    EmitOn(b, Spin, data);
    RemainingKeepsUnique(b, Spin, data);
    assert [Event(Spin, data)][1..] == [];
    assert Receivers(b.spin, data) + [] == Receivers(b.spin, data);
  }

  /** A spinner message, with snapshot emits: the chosen spinner's delta is
      the message's and its position moves by it; the `spin` receivers get
      the new position. */
  lemma HandleSpinner(c: Client, msg: Message)
    requires BusUnique(c.bus)
    requires msg.kind == Js.Str("spinner")
    ensures var h := HandleFixed(c, msg);
      var first := msg.player == Js.Number(1);
      var s := if first then c.spinner1 else c.spinner2;
      var s' := if first then h.client.spinner1 else h.client.spinner2;
      && s' == SpinnerState(msg.delta, s.position + msg.delta)
      && (if first then h.client.spinner2 == c.spinner2 else h.client.spinner1 == c.spinner1)
      && h.client.controls == c.controls
      && h.calls == Receivers(c.bus.spin, SpinData(msg.player, msg.delta, s.position + msg.delta))
      && Js.Get(SpinData(msg.player, msg.delta, s.position + msg.delta), "position") == Js.Number(s'.position)
      && BusUnique(h.client.bus)
  {
    var s := if msg.player == Js.Number(1) then c.spinner1 else c.spinner2;
    var data := SpinData(msg.player, msg.delta, s.position + msg.delta);
    assert Events(c, msg) == [Event(Spin, data)];
    SpinDelivery(c.bus, data);
    var d := DeliverFixed(c.bus, [Event(Spin, data)]);
    assert HandleFixed(c, msg) == Handled(Update(c, msg).(bus := d.bus), d.calls);
    SpinDataPosition(msg.player, msg.delta, s.position + msg.delta);
  }

  lemma SpinDataPosition(player: Js.Value, delta: int, position: int)
    ensures Js.Get(SpinData(player, delta, position), "position") == Js.Number(position)
  {
  }

  /** Every listener was registered with `on`: no `once` entry. */
  predicate NoOnce(b: Bus) {
    forall k, i :: 0 <= i < |Listeners(b, k)| ==> Listeners(b, k)[i].Plain?
  }

  lemma SameListeners(b: Bus, kind: EventType)
    ensures WithListeners(b, kind, Listeners(b, kind)) == b
  {
  }

  /** Without `once` listeners nothing is removed during an emit, so the
      live-array delivery is the snapshot delivery and the bus stays. */
  lemma {:induction false} DeliverWithoutOnce(b: Bus, events: seq<Event>)
    requires NoOnce(b)
    ensures Deliver(b, events) == DeliverFixed(b, events)
    ensures Deliver(b, events).bus == b
    decreases |events|
  {
    if events != [] {
      var ls := Listeners(b, events[0].kind);
      assert forall i :: 0 <= i < |ls| ==> ls[i].Plain?;
      EmitAsWrittenWithoutOnce(ls, events[0].data);
      SameListeners(b, events[0].kind);
      DeliverWithoutOnce(b, events[1..]);
    }
  }

  /** A game that only uses `on` sees the same calls as with snapshot
      emits. */
  lemma HandleWithoutOnce(c: Client, msg: Message)
    requires NoOnce(c.bus)
    ensures Handle(c, msg) == HandleFixed(c, msg)
    ensures Handle(c, msg).client.bus == c.bus
  {
    DeliverWithoutOnce(c.bus, Events(c, msg));
  }

  /** As written, a `once` spin listener that fires pulls the listener
      registered after it under the index already visited, so the handler
      reaches only the first callback; with snapshot emits it reaches
      both. */
  lemma SpinSkipsNext(c: Client, msg: Message, h: nat, cb: nat, next: nat)
    requires msg.kind == Js.Str("spinner") && h != next
    requires c.bus.spin == [Once(h, None, cb), Plain(next)]
    ensures Handle(c, msg).calls == [cb]
    ensures HandleFixed(c, msg).calls == [cb, next]
  {
    var s := if msg.player == Js.Number(1) then c.spinner1 else c.spinner2;
    var data := SpinData(msg.player, msg.delta, s.position + msg.delta);
    var evs := [Event(Spin, data)];
    assert Events(c, msg) == evs;
    OnceSkipsNext(h, cb, next, data);
    assert evs[1..] == [];
    assert Deliver(c.bus, evs).calls == [cb] + [];
    assert DeliverFixed(c.bus, evs).calls == [cb, next] + [];
  }

  /** A spinner message for a player other than 1 or 2 moves player 2's
      spinner here, while the worker writing shared memory ignores it. */
  lemma OtherPlayerSpins(c: Client, m: Buffer, delta: int)
    ensures var msg := Message(Js.Str("spinner"), Js.Number(3), Js.Undefined, Js.Undefined, delta);
      && Handle(c, msg).client.spinner2.position == c.spinner2.position + delta
      && HandleBundled(m, msg) == Done(m)
  {
    SpinnerMoves(c, Message(Js.Str("spinner"), Js.Number(3), Js.Undefined, Js.Undefined, delta));
  }

  /** Player 1's spinner after a series of spinner messages: the position
      has moved by their sum, and nothing else has changed. */
  lemma {:induction false} ReplaySpins(c: Client, deltas: seq<int>)
    ensures Replay(c, SpinMessages(deltas)).spinner1.position == c.spinner1.position + Sum(deltas)
    ensures Replay(c, SpinMessages(deltas)).controls == c.controls
    ensures Replay(c, SpinMessages(deltas)).spinner2 == c.spinner2
    decreases |deltas|
  {
    if deltas != [] {
      var msgs := SpinMessages(deltas);
      SpinnerMoves(c, msgs[0]);
      assert msgs[1..] == SpinMessages(deltas[1..]);
      ReplaySpins(Handle(c, msgs[0]).client, deltas[1..]);
    }
  }

  /** The client's spinner positions and the worker's 32-bit position
      fields agree modulo 2^32. */
  predicate Agrees(c: Client, m: Buffer)
    requires |m.data| >= SpinnerLayoutSize
  {
    && ToInt32(c.spinner1.position) == GetInt32(m.data, Player1SpinnerPosition)
    && ToInt32(c.spinner2.position) == GetInt32(m.data, Player2SpinnerPosition)
  }

  /** Positions that agree modulo 2^32 still agree after the same move:
      `r` is `p` moved by `s`, `g` is `w` moved by `s` and wrapped. */
  lemma WrapAgrees(r: int, p: int, s: int, w: int, g: int)
    requires r == p + s && g == ToInt32(w + s) && ToInt32(p) == w
    ensures ToInt32(r) == g
  {
    ToInt32Add(p, s);
  }

  /** The worker's view of one spinner message for player 1 or 2, at that
      player's delta and position offsets: the lock is free again, the
      player's fields move and the other player's position stays. */
  lemma WorkerSpin(m: Buffer, msg: Message, dOff: nat, pOff: nat, other: nat)
    requires m.lock == Unlocked && |m.data| >= SpinnerLayoutSize
    requires msg.kind == Js.Str("spinner")
    requires || (msg.player == Js.Number(1) && dOff == Player1SpinnerDelta && pOff == Player1SpinnerPosition && other == Player2SpinnerPosition)
             || (msg.player == Js.Number(2) && dOff == Player2SpinnerDelta && pOff == Player2SpinnerPosition && other == Player1SpinnerPosition)
    ensures HandleBundled(m, msg).Done?
    ensures HandleBundled(m, msg).m.lock == Unlocked && |HandleBundled(m, msg).m.data| == |m.data|
    ensures GetInt16(HandleBundled(m, msg).m.data, dOff) == ToInt16(msg.delta)
    ensures GetInt32(HandleBundled(m, msg).m.data, pOff) == ToInt32(GetInt32(m.data, pOff) + msg.delta)
    ensures GetInt32(HandleBundled(m, msg).m.data, other) == GetInt32(m.data, other)
  {
    SpinnerUpdates(m, dOff, pOff, msg.delta);
    SpinnerCompletes(m, dOff, pOff, msg.delta);
    SpinnerStepFrame(m, dOff, pOff, msg.delta, other);
  }

  /** The client's view of one spinner message: only the chosen spinner
      moves. */
  lemma SpinnerMoves(c: Client, msg: Message)
    requires msg.kind == Js.Str("spinner")
    ensures Handle(c, msg).client.controls == c.controls
    ensures msg.player == Js.Number(1) ==>
      Handle(c, msg).client.spinner1 == SpinnerState(msg.delta, c.spinner1.position + msg.delta)
      && Handle(c, msg).client.spinner2 == c.spinner2
    ensures msg.player != Js.Number(1) ==>
      Handle(c, msg).client.spinner2 == SpinnerState(msg.delta, c.spinner2.position + msg.delta)
      && Handle(c, msg).client.spinner1 == c.spinner1
  {
  }

  /** One spinner step leaves a position field outside its two fields as
      it was. */
  lemma SpinnerStepFrame(m: Buffer, deltaOff: nat, posOff: nat, delta: int, p: nat)
    requires deltaOff + 2 <= posOff && posOff + 4 <= |m.data| && p + 4 <= |m.data|
    requires p + 4 <= deltaOff || posOff + 4 <= p
    ensures GetInt32(SpinnerStep(m, deltaOff, posOff, delta).data, p) == GetInt32(m.data, p)
  {
    var d := SetInt16(m.data, deltaOff, delta);
    var v := GetInt32(d, posOff) + delta;
    SpliceFrame(m.data, deltaOff, EncodeLE(delta % Two16, 2), p);
    SpliceFrame(d, posOff, EncodeLE(v % Two32, 4), p);
  }

  /** The bundled client and the worker writing shared memory stay in step
      on spinners: a spinner message for player 1 or 2 keeps both positions
      in agreement modulo 2^32, and leaves the same delta (the worker's
      wrapped to 16 bits) in the moved spinner. */
  lemma SpinnerStepTracks(c: Client, m: Buffer, msg: Message)
    requires m.lock == Unlocked && |m.data| >= SpinnerLayoutSize
    requires msg.kind == Js.Str("spinner") && (msg.player == Js.Number(1) || msg.player == Js.Number(2))
    requires Agrees(c, m)
    ensures HandleBundled(m, msg).Done? && |HandleBundled(m, msg).m.data| == |m.data|
    ensures Agrees(Handle(c, msg).client, HandleBundled(m, msg).m)
    ensures msg.player == Js.Number(1) ==>
      ToInt16(Handle(c, msg).client.spinner1.delta) == GetInt16(HandleBundled(m, msg).m.data, Player1SpinnerDelta)
    ensures msg.player == Js.Number(2) ==>
      ToInt16(Handle(c, msg).client.spinner2.delta) == GetInt16(HandleBundled(m, msg).m.data, Player2SpinnerDelta)
  {
    var c' := Handle(c, msg).client;
    SpinnerMoves(c, msg);
    if msg.player == Js.Number(1) {
      WorkerSpin(m, msg, Player1SpinnerDelta, Player1SpinnerPosition, Player2SpinnerPosition);
      var m' := HandleBundled(m, msg).m;
      WrapAgrees(c'.spinner1.position, c.spinner1.position, msg.delta,
        GetInt32(m.data, Player1SpinnerPosition), GetInt32(m'.data, Player1SpinnerPosition));
    } else {
      WorkerSpin(m, msg, Player2SpinnerDelta, Player2SpinnerPosition, Player1SpinnerPosition);
      var m' := HandleBundled(m, msg).m;
      WrapAgrees(c'.spinner2.position, c.spinner2.position, msg.delta,
        GetInt32(m.data, Player2SpinnerPosition), GetInt32(m'.data, Player2SpinnerPosition));
    }
  }
}

=== FILE: classic_layout.dfy ===
/** The input-classic shared-memory layout: the JS workers that write
    controller state into the shared buffer, and the Rust client that reads
    it back into a `ControllerState`.

    Data-region offsets 0..14 hold one flag byte each (connected, the two
    system buttons, then up/down/left/right/A/B for each player); the
    bundled worker adds byte 15 as padding and, for each player, an i16
    spinner delta and an i32 spinner position, little-endian, ending at
    byte 27. Every worker helper takes the lock, touches the data region
    and releases the lock.

    A worker call either completes (`Done`), finds the lock taken and waits
    without having changed anything (`Blocked`), or throws between taking
    the lock and releasing it (`Threw`). */
module ClassicLayout {
  import opened Results
  import Js
  import opened SharedMemory

  const Connected: nat := 0
  const SystemOnePlayer: nat := 1
  const SystemTwoPlayer: nat := 2
  const Player1Up: nat := 3
  const Player1Down: nat := 4
  const Player1Left: nat := 5
  const Player1Right: nat := 6
  const Player1A: nat := 7
  const Player1B: nat := 8
  const Player2Up: nat := 9
  const Player2Down: nat := 10
  const Player2Left: nat := 11
  const Player2Right: nat := 12
  const Player2A: nat := 13
  const Player2B: nat := 14
  const Player1SpinnerDelta: nat := 16
  const Player1SpinnerPosition: nat := 18
  const Player2SpinnerDelta: nat := 22
  const Player2SpinnerPosition: nat := 24

  /** The number of flag bytes, and the data size the bundled layout needs. */
  const FlagCount: nat := 15
  const SpinnerLayoutSize: nat := 28

  /** What the Rust client asks for: the plugin, its version and the data
      size it spawns the runner with. */
  const ClientPlugin: string := "@rcade/input-classic"
  const ClientVersion: string := "1.0.0"
  const ClientMemorySize: nat := 15

  datatype Exec = Done(m: Buffer) | Blocked(m: Buffer) | Threw(m: Buffer)

  /** A port message as the worker destructures it. */
  datatype Message = Message(kind: Js.Value, player: Js.Value, button: Js.Value, pressed: Js.Value, delta: int)

  /** `state ? 1 : 0`. */
  function FlagByte(state: Js.Value): byte {
    if Js.Truthy(state) then 1 else 0
  }

  /** `write(action, state)`: one byte through a `Uint8Array`, where an
      index past the end is silently ignored. */
  function Write(m: Buffer, off: nat, state: Js.Value): (e: Exec)
    ensures m.lock != Unlocked <==> e == Blocked(m)
    ensures !e.Threw?
    ensures e.Done? ==> e.m.lock == Unlocked && |e.m.data| == |m.data|
    ensures e.Done? ==> forall i :: 0 <= i < |m.data| ==>
      e.m.data[i] == (if i == off then FlagByte(state) else m.data[i])
  {
    var (m1, ok) := TryLock(m, LockedByJs);
    if !ok then Blocked(m)
    else
      var d := m1.data;
      var d' := if off < |d| then d[off := FlagByte(state)] else d;
      Done(StoreLock(m1.(data := d'), Unlocked))
  }

  /** `writeI16(offset, value)`: a `DataView` over the data region throws a
      RangeError past its end, after the lock was taken. */
  function WriteI16(m: Buffer, off: nat, v: int): (e: Exec)
    ensures m.lock != Unlocked <==> e == Blocked(m)
    ensures m.lock == Unlocked ==> (e.Threw? <==> off + 2 > |m.data|)
    ensures e.Threw? ==> e.m.lock == LockedByJs && e.m.data == m.data
    ensures e.Done? ==> e.m.lock == Unlocked && off + 2 <= |m.data| && e.m.data == SetInt16(m.data, off, v)
  {
    var (m1, ok) := TryLock(m, LockedByJs);
    if !ok then Blocked(m)
    else if off + 2 > |m1.data| then Threw(m1)
    else Done(StoreLock(m1.(data := SetInt16(m1.data, off, v)), Unlocked))
  }

  function WriteI32(m: Buffer, off: nat, v: int): (e: Exec)
    ensures m.lock != Unlocked <==> e == Blocked(m)
    ensures m.lock == Unlocked ==> (e.Threw? <==> off + 4 > |m.data|)
    ensures e.Threw? ==> e.m.lock == LockedByJs && e.m.data == m.data
    ensures e.Done? ==> e.m.lock == Unlocked && off + 4 <= |m.data| && e.m.data == SetInt32(m.data, off, v)
  {
    var (m1, ok) := TryLock(m, LockedByJs);
    if !ok then Blocked(m)
    else if off + 4 > |m1.data| then Threw(m1)
    else Done(StoreLock(m1.(data := SetInt32(m1.data, off, v)), Unlocked))
  }

  /** `readI32(offset)`: the value read under the lock. */
  function ReadI32(m: Buffer, off: nat): (r: (Exec, int))
    ensures m.lock != Unlocked <==> r.0 == Blocked(m)
    ensures m.lock == Unlocked ==> (r.0.Threw? <==> off + 4 > |m.data|)
    ensures r.0.Threw? ==> r.0.m.lock == LockedByJs && r.0.m.data == m.data
    ensures r.0.Done? ==>
      (r.0.m.lock == Unlocked && r.0.m.data == m.data && off + 4 <= |m.data| && r.1 == GetInt32(m.data, off))
  {
    var (m1, ok) := TryLock(m, LockedByJs);
    if !ok then (Blocked(m), 0)
    else if off + 4 > |m1.data| then (Threw(m1), 0)
    else (Done(StoreLock(m1, Unlocked)), GetInt32(m1.data, off))
  }

  /** A spinner message: overwrite the delta, then read the position and
      write it back plus the delta, each under its own lock. */
  function Spinner(m: Buffer, deltaOff: nat, posOff: nat, delta: int): Exec {
    var e1 := WriteI16(m, deltaOff, delta);
    if !e1.Done? then e1 else MovePosition(e1.m, posOff, delta)
  }

  /** `writeI32(pos, readI32(pos) + delta)`. */
  function MovePosition(m: Buffer, posOff: nat, delta: int): Exec {
    var r := ReadI32(m, posOff);
    if !r.0.Done? then r.0 else WriteI32(r.0.m, posOff, r.1 + delta)
  }

  /** The flag offset a button message addresses, for players 1 and 2. */
  function ButtonOffset(player: Js.Value, button: Js.Value): (r: Option<nat>)
    ensures r.Some? ==> Player1Up <= r.value <= Player2B
  {
    var base :=
      if player == Js.Number(1) then Some(Player1Up)
      else if player == Js.Number(2) then Some(Player2Up)
      else None;
    if base.None? then None
    else if button == Js.Str("A") then Some(base.value + 4)
    else if button == Js.Str("B") then Some(base.value + 5)
    else if button == Js.Str("UP") then Some(base.value)
    else if button == Js.Str("DOWN") then Some(base.value + 1)
    else if button == Js.Str("LEFT") then Some(base.value + 2)
    else if button == Js.Str("RIGHT") then Some(base.value + 3)
    else None
  }

  function SystemOffset(button: Js.Value): (r: Option<nat>)
    ensures r.Some? ==> r.value == SystemOnePlayer || r.value == SystemTwoPlayer
  {
    if button == Js.Str("ONE_PLAYER") then Some(SystemOnePlayer)
    else if button == Js.Str("TWO_PLAYER") then Some(SystemTwoPlayer)
    else None
  }

  /** The flag a button or system message writes, if any. */
  function FlagOffset(msg: Message): Option<nat> {
    if msg.kind == Js.Str("button") then ButtonOffset(msg.player, msg.button)
    else if msg.kind == Js.Str("system") then SystemOffset(msg.button)
    else None
  }

  /** `handleMessage` of the bundled client worker (flags and spinners). */
  function HandleBundled(m: Buffer, msg: Message): Exec {
    if msg.kind == Js.Str("spinner") then
      if msg.player == Js.Number(1) then Spinner(m, Player1SpinnerDelta, Player1SpinnerPosition, msg.delta)
      else if msg.player == Js.Number(2) then Spinner(m, Player2SpinnerDelta, Player2SpinnerPosition, msg.delta)
      else Done(m)
    else
      match FlagOffset(msg)
      case Some(off) => Write(m, off, msg.pressed)
      case None => Done(m)
  }

  /** `handleMessage` of the plugin's button-only worker. */
  function HandleButtonsOnly(m: Buffer, msg: Message): Exec {
    match FlagOffset(msg)
    case Some(off) => Write(m, off, msg.pressed)
    case None => Done(m)
  }

  /** `init` of either worker: announce the connection. */
  function Init(m: Buffer): (e: Exec)
    ensures m.lock == Unlocked && |m.data| > Connected ==> e.Done? && |e.m.data| == |m.data| && e.m.data[Connected] == 1
  {
    Write(m, Connected, Js.Bool(true))
  }

  /** The worker draining its port: a thrown message is dropped and the next
      one handled; a message waiting for the lock holds up the rest. */
  function Run(m: Buffer, msgs: seq<Message>): Buffer
    decreases |msgs|
  {
    if msgs == [] then m
    else
      var e := HandleBundled(m, msgs[0]);
      if e.Blocked? then e.m else Run(e.m, msgs[1..])
  }

  // --------------------------------------------------------- the Rust side

  datatype ControllerState = ControllerState(
    connected: bool, systemOnePlayer: bool, systemTwoPlayer: bool,
    player1Up: bool, player1Down: bool, player1Left: bool, player1Right: bool, player1A: bool, player1B: bool,
    player2Up: bool, player2Down: bool, player2Left: bool, player2Right: bool, player2A: bool, player2B: bool)

  /** The record's fields in layout order. */
  function ToFlags(s: ControllerState): (f: seq<bool>)
    ensures |f| == FlagCount
  {
    [s.connected, s.systemOnePlayer, s.systemTwoPlayer,
     s.player1Up, s.player1Down, s.player1Left, s.player1Right, s.player1A, s.player1B,
     s.player2Up, s.player2Down, s.player2Left, s.player2Right, s.player2A, s.player2B]
  }

  function FromFlags(f: seq<bool>): (s: ControllerState)
    requires |f| == FlagCount
    ensures ToFlags(s) == f
  {
    assert f == [f[0], f[1], f[2], f[3], f[4], f[5], f[6], f[7], f[8], f[9], f[10], f[11], f[12], f[13], f[14]];
    ControllerState(f[0], f[1], f[2], f[3], f[4], f[5], f[6], f[7], f[8], f[9], f[10], f[11], f[12], f[13], f[14])
  }

  lemma FlagsRoundTrip(s: ControllerState)
    ensures FromFlags(ToFlags(s)) == s
  {
  }

  /** `byte != 0` at each flag offset that exists. */
  function Flags(d: seq<byte>): (f: seq<bool>)
    ensures |f| == FlagCount
    ensures forall i :: 0 <= i < FlagCount && i < |d| ==> (f[i] <==> d[i] != 0)
  {
    seq(FlagCount, i => 0 <= i < |d| && d[i] != 0)
  }

  /** `state()` over a data view: `at(i).unwrap()` panics (None here) when
      the view is shorter than the fifteen flags. */
  function Decode(d: seq<byte>): (r: Option<ControllerState>)
    ensures r.Some? <==> |d| >= FlagCount
    ensures r.Some? ==> ToFlags(r.value) == Flags(d)
  {
    if |d| < FlagCount then None else Some(FromFlags(Flags(d)))
  }

  // ------------------------------------------------------------- lemmas

  /** A flag message is one `write` at its offset. */
  lemma HandleFlagMessage(m: Buffer, msg: Message, off: nat)
    requires FlagOffset(msg) == Some(off)
    ensures HandleBundled(m, msg) == Write(m, off, msg.pressed)
    ensures HandleButtonsOnly(m, msg) == Write(m, off, msg.pressed)
  {
  }

  /** Round trip through the layout: `write(off, b)` taken while the lock is
      free changes exactly field `off` of the decoded state, to the
      truthiness of `b`. */
  lemma WriteRoundTrip(m: Buffer, off: nat, b: Js.Value)
    requires m.lock == Unlocked && |m.data| >= FlagCount && off < FlagCount
    ensures Write(m, off, b).Done?
    ensures var m' := Write(m, off, b).m;
      && m'.lock == Unlocked && |m'.data| == |m.data|
      && Flags(m'.data) == Flags(m.data)[off := Js.Truthy(b)]
      && Decode(m'.data).Some?
      && ToFlags(Decode(m'.data).value) == ToFlags(Decode(m.data).value)[off := Js.Truthy(b)]
  {
    var m' := Write(m, off, b).m;
    var f := Flags(m.data)[off := Js.Truthy(b)];
    forall i | 0 <= i < FlagCount
      ensures Flags(m'.data)[i] == f[i]
    {
    }
    assert Flags(m'.data) == f;
  }

  /** The same for whole messages: a button or system message changes
      exactly its own field. */
  lemma FlagMessageRoundTrip(m: Buffer, msg: Message, off: nat)
    requires m.lock == Unlocked && |m.data| >= FlagCount
    requires FlagOffset(msg) == Some(off)
    ensures HandleBundled(m, msg).Done?
    ensures var m' := HandleBundled(m, msg).m;
      && m'.lock == Unlocked && |m'.data| == |m.data|
      && Flags(m'.data) == Flags(m.data)[off := Js.Truthy(msg.pressed)]
      && Decode(m'.data).Some?
      && ToFlags(Decode(m'.data).value) == ToFlags(Decode(m.data).value)[off := Js.Truthy(msg.pressed)]
  {
    HandleFlagMessage(m, msg, off);
    WriteRoundTrip(m, off, msg.pressed);
  }

  /** Messages of another kind, or naming no known player and button,
      write nothing and take no lock. */
  lemma UnknownMessagesIgnored(m: Buffer, msg: Message)
    requires FlagOffset(msg).None?
    requires msg.kind != Js.Str("spinner") || (msg.player != Js.Number(1) && msg.player != Js.Number(2))
    ensures HandleBundled(m, msg) == Done(m)
    ensures HandleButtonsOnly(m, msg) == Done(m)
  {
  }

  /** The two workers share the flag table: they agree on every message but
      spinner messages, which only the bundled worker handles. */
  lemma WorkersAgreeOnFlags(m: Buffer, msg: Message)
    requires msg.kind != Js.Str("spinner")
    ensures HandleBundled(m, msg) == HandleButtonsOnly(m, msg)
    ensures HandleButtonsOnly(m, msg.(kind := Js.Str("spinner"))) == Done(m)
  {
  }

  /** The button names in flag order within a player's block. */
  const ButtonNames: seq<string> := ["UP", "DOWN", "LEFT", "RIGHT", "A", "B"]

  /** Every player flag, 3 to 14, is written by a button message: player 1
      for the first six, player 2 for the next six, in the order of
      `ButtonNames`. With `ButtonOffsetInjective`, buttons and flags are in
      one-to-one correspondence. */
  lemma FlagTable(off: nat)
    requires Player1Up <= off <= Player2B
    ensures var player := if off < Player2Up then 1 else 2;
      var base := if off < Player2Up then Player1Up else Player2Up;
      ButtonOffset(Js.Number(player), Js.Str(ButtonNames[off - base])) == Some(off)
  {
  }

  /** The two system flags are written by `ONE_PLAYER` and `TWO_PLAYER`,
      and by nothing else. */
  lemma SystemFlags(button: Js.Value)
    ensures SystemOffset(button) == Some(SystemOnePlayer) <==> button == Js.Str("ONE_PLAYER")
    ensures SystemOffset(button) == Some(SystemTwoPlayer) <==> button == Js.Str("TWO_PLAYER")
  {
  }

  lemma ButtonOffsetInjective(p1: Js.Value, b1: Js.Value, p2: Js.Value, b2: Js.Value)
    requires ButtonOffset(p1, b1).Some? && ButtonOffset(p1, b1) == ButtonOffset(p2, b2)
    ensures p1 == p2 && b1 == b2
  {
    ButtonOffsetPlayer(p1, b1);
    ButtonOffsetPlayer(p2, b2);
    var base := if p1 == Js.Number(1) then Player1Up else Player2Up;
    ButtonOffsetButton(p1, b1, base);
    ButtonOffsetButton(p2, b2, base);
  }

  /** Player 1's buttons sit below player 2's. */
  lemma ButtonOffsetPlayer(p: Js.Value, b: Js.Value)
    requires ButtonOffset(p, b).Some?
    ensures p == Js.Number(1) ==> ButtonOffset(p, b).value < Player2Up
    ensures p != Js.Number(1) ==> p == Js.Number(2) && ButtonOffset(p, b).value >= Player2Up
  {
  }

  /** Within one player's block the offset names the button. */
  lemma ButtonOffsetButton(p: Js.Value, b: Js.Value, base: nat)
    requires ButtonOffset(p, b).Some?
    requires base == if p == Js.Number(1) then Player1Up else Player2Up
    ensures var k := ButtonOffset(p, b).value - base;
      && 0 <= k < |ButtonNames| && b == Js.Str(ButtonNames[k])
  {
  }

  lemma ModShift(q: int, r: int)
    ensures (Two32 * q + r) % Two32 == r % Two32
  {
  }

  lemma ToInt32Id(x: int)
    requires -0x8000_0000 <= x < 0x8000_0000
    ensures ToInt32(x) == x
  {
  }

  /** Wrapping after every step equals wrapping once at the end. */
  lemma ToInt32Add(a: int, b: int)
    ensures ToInt32(ToInt32(a) + b) == ToInt32(a + b)
  {
    var q := (a + 0x8000_0000) / Two32;
    assert ToInt32(a) == a - Two32 * q;
    ModShift(-q, a + b + 0x8000_0000);
    assert ToInt32(a) + b + 0x8000_0000 == Two32 * (-q) + (a + b + 0x8000_0000);
  }

  /** The effect of one spinner message on the data: the delta field set,
      the position field moved by the delta. */
  function SpinnerStep(m: Buffer, deltaOff: nat, posOff: nat, delta: int): Buffer
    requires deltaOff + 2 <= |m.data| && posOff + 4 <= |m.data|
  {
    var d := SetInt16(m.data, deltaOff, delta);
    Buffer(Unlocked, SetInt32(d, posOff, GetInt32(d, posOff) + delta))
  }

  /** With the lock free and the fields inside the data, a spinner message
      runs to completion with exactly that effect. */
  lemma SpinnerCompletes(m: Buffer, deltaOff: nat, posOff: nat, delta: int)
    requires m.lock == Unlocked
    requires deltaOff + 2 <= posOff && posOff + 4 <= |m.data|
    ensures Spinner(m, deltaOff, posOff, delta) == Done(SpinnerStep(m, deltaOff, posOff, delta))
  {
    var e1 := WriteI16(m, deltaOff, delta);
    assert e1 == Done(Buffer(Unlocked, SetInt16(m.data, deltaOff, delta)));
    var r := ReadI32(e1.m, posOff);
    assert r == (Done(e1.m), GetInt32(e1.m.data, posOff));
  }

  /** The fields after one step: the delta wrapped to 16 bits, the position
      moved by the delta and wrapped to 32 bits. */
  lemma SpinnerStepFields(m: Buffer, deltaOff: nat, posOff: nat, delta: int)
    requires deltaOff + 2 <= posOff && posOff + 4 <= |m.data|
    ensures var m' := SpinnerStep(m, deltaOff, posOff, delta);
      && m'.lock == Unlocked && |m'.data| == |m.data|
      && GetInt16(m'.data, deltaOff) == ToInt16(delta)
      && GetInt32(m'.data, posOff) == ToInt32(GetInt32(m.data, posOff) + delta)
  {
    var d := SetInt16(m.data, deltaOff, delta);
    var v := GetInt32(d, posOff) + delta;
    SetGetInt16(m.data, deltaOff, delta);
    SpliceFrame(m.data, deltaOff, EncodeLE(delta % Two16, 2), posOff);
    SetGetInt32(d, posOff, v);
    SpliceFrame(d, posOff, EncodeLE(v % Two32, 4), deltaOff);
  }

  /** One spinner message taken while the lock is free sets the delta to the
      16-bit message delta and adds it to the 32-bit position. */
  lemma SpinnerUpdates(m: Buffer, deltaOff: nat, posOff: nat, delta: int)
    requires m.lock == Unlocked
    requires deltaOff + 2 <= posOff && posOff + 4 <= |m.data|
    ensures var e := Spinner(m, deltaOff, posOff, delta);
      && e.Done? && e.m.lock == Unlocked && |e.m.data| == |m.data|
      && GetInt16(e.m.data, deltaOff) == ToInt16(delta)
      && GetInt32(e.m.data, posOff) == ToInt32(GetInt32(m.data, posOff) + delta)
  {
    SpinnerCompletes(m, deltaOff, posOff, delta);
    SpinnerStepFields(m, deltaOff, posOff, delta);
  }

  function Sum(deltas: seq<int>): int {
    if deltas == [] then 0 else deltas[0] + Sum(deltas[1..])
  }

  function SpinMessage(delta: int): Message {
    Message(Js.Str("spinner"), Js.Number(1), Js.Undefined, Js.Undefined, delta)
  }

  function SpinMessages(deltas: seq<int>): (msgs: seq<Message>)
    ensures |msgs| == |deltas|
  {
    if deltas == [] then [] else [SpinMessage(deltas[0])] + SpinMessages(deltas[1..])
  }

  /** Player 1's spinner fields after a series of deltas, step by step. */
  function Spin(m: Buffer, deltas: seq<int>): (m': Buffer)
    requires |m.data| >= SpinnerLayoutSize
    ensures |m'.data| == |m.data|
    decreases |deltas|
  {
    if deltas == [] then m
    else
      SpinnerStepFields(m, Player1SpinnerDelta, Player1SpinnerPosition, deltas[0]);
      Spin(SpinnerStep(m, Player1SpinnerDelta, Player1SpinnerPosition, deltas[0]), deltas[1..])
  }

  /** The worker draining player 1's spinner messages from a free lock does
      exactly the series of steps. */
  lemma {:induction false} RunSpins(m: Buffer, deltas: seq<int>)
    requires m.lock == Unlocked && |m.data| >= SpinnerLayoutSize
    ensures Run(m, SpinMessages(deltas)) == Spin(m, deltas)
    decreases |deltas|
  {
    if deltas != [] {
      var msgs := SpinMessages(deltas);
      var m1 := SpinnerStep(m, Player1SpinnerDelta, Player1SpinnerPosition, deltas[0]);
      SpinnerCompletes(m, Player1SpinnerDelta, Player1SpinnerPosition, deltas[0]);
      assert HandleBundled(m, msgs[0]) == Done(m1);
      assert msgs[1..] == SpinMessages(deltas[1..]);
      SpinnerStepFields(m, Player1SpinnerDelta, Player1SpinnerPosition, deltas[0]);
      RunSpins(m1, deltas[1..]);
    }
  }

  /** The position field accumulates: after any series of deltas it is the
      starting position plus their sum, wrapped to 32 bits, and the lock is
      free again. */
  lemma {:induction false} SpinAccumulates(m: Buffer, deltas: seq<int>)
    requires |m.data| >= SpinnerLayoutSize
    ensures deltas != [] ==> Spin(m, deltas).lock == Unlocked
    ensures GetInt32(Spin(m, deltas).data, Player1SpinnerPosition)
         == ToInt32(GetInt32(m.data, Player1SpinnerPosition) + Sum(deltas))
    decreases |deltas|
  {
    var p0 := GetInt32(m.data, Player1SpinnerPosition);
    if deltas == [] {
      ToInt32Id(p0);
    } else {
      var m1 := SpinnerStep(m, Player1SpinnerDelta, Player1SpinnerPosition, deltas[0]);
      SpinnerStepFields(m, Player1SpinnerDelta, Player1SpinnerPosition, deltas[0]);
      SpinAccumulates(m1, deltas[1..]);
      ToInt32Add(p0 + deltas[0], Sum(deltas[1..]));
    }
  }

  /** The delta field holds the last delta of the series, wrapped to 16
      bits. */
  lemma {:induction false} SpinLastDelta(m: Buffer, deltas: seq<int>)
    requires |m.data| >= SpinnerLayoutSize && deltas != []
    ensures GetInt16(Spin(m, deltas).data, Player1SpinnerDelta) == ToInt16(deltas[|deltas| - 1])
    decreases |deltas|
  {
    var m1 := SpinnerStep(m, Player1SpinnerDelta, Player1SpinnerPosition, deltas[0]);
    SpinnerStepFields(m, Player1SpinnerDelta, Player1SpinnerPosition, deltas[0]);
    if |deltas| > 1 {
      SpinLastDelta(m1, deltas[1..]);
    }
  }

  // -------------------------------------------- Finding: reads after unlock

  /** The memory seen at each of the Rust reads when one worker message is
      handled between consecutive reads. */
  function Trace(m: Buffer, msgs: seq<Message>): (t: seq<Buffer>)
    ensures |t| == |msgs| + 1 && t[0] == m
    decreases |msgs|
  {
    if msgs == [] then [m]
    else [m] + Trace(HandleBundled(m, msgs[0]).m, msgs[1..])
  }

  datatype ReadOutcome = Snapshot(state: ControllerState) | Waits | Panics

  /** Flag `i` as read from the `i`-th memory of a trace. */
  function Diagonal(t: seq<Buffer>): (f: seq<bool>)
    requires |t| == FlagCount
    ensures |f| == FlagCount
    ensures forall i :: 0 <= i < FlagCount ==> f[i] == Flags(t[i].data)[i]
  {
    seq(FlagCount, i requires 0 <= i < FlagCount => Flags(t[i].data)[i])
  }

  /** The fifteen reads across a trace; a read past the end panics. */
  function ReadAcross(t: seq<Buffer>): (r: Option<ControllerState>)
    requires |t| == FlagCount
    ensures r.Some? <==> forall i :: 0 <= i < FlagCount ==> i < |t[i].data|
    ensures r.Some? ==> ToFlags(r.value) == Diagonal(t)
  {
    if exists i :: 0 <= i < FlagCount && i >= |t[i].data| then None
    else Some(FromFlags(Diagonal(t)))
  }

  /** The memories the reads of `state()` as written see: the guard
      returned by `lock_blocking()` is a temporary, dropped at the end of the
      `let`, so the reads start from the unlocked memory and the worker goes
      on changing it (`msgs[i]` runs between read `i` and read `i + 1`). */
  function WrittenTrace(m: Buffer, msgs: seq<Message>): seq<Buffer> {
    Trace(RustDrop(TryLock(m, LockedByRust).0), msgs)
  }

  /** `state()` as written. */
  function StateAsWritten(m: Buffer, msgs: seq<Message>): ReadOutcome
    requires |msgs| == FlagCount - 1
  {
    if !TryLock(m, LockedByRust).1 then Waits
    else
      match ReadAcross(WrittenTrace(m, msgs))
      case Some(s) => Snapshot(s)
      case None => Panics
  }

  /** `state()` holding the guard until the reads are done. */
  function StateLocked(m: Buffer, msgs: seq<Message>): ReadOutcome
    requires |msgs| == FlagCount - 1
  {
    var (m1, ok) := TryLock(m, LockedByRust);
    if !ok then Waits
    else
      match ReadAcross(Trace(m1, msgs))
      case Some(s) => Snapshot(s)
      case None => Panics
  }

  /** While Rust holds the lock, every worker message waits or is ignored;
      either way the memory is unchanged. */
  lemma HeldByRustUnchanged(m: Buffer, msg: Message)
    requires m.lock == LockedByRust
    ensures HandleBundled(m, msg).m == m
  {
  }

  lemma {:induction false} TraceHeldByRust(m: Buffer, msgs: seq<Message>)
    requires m.lock == LockedByRust
    ensures forall i :: 0 <= i < |Trace(m, msgs)| ==> Trace(m, msgs)[i] == m
    decreases |msgs|
  {
    if msgs != [] {
      HeldByRustUnchanged(m, msgs[0]);
      TraceHeldByRust(m, msgs[1..]);
    }
  }

  /** With the guard held, the snapshot is the decoding of the memory at the
      moment the lock was taken, whatever the worker does meanwhile. */
  lemma LockedSnapshotIsConsistent(m: Buffer, msgs: seq<Message>)
    requires |msgs| == FlagCount - 1 && m.lock == Unlocked
    ensures |m.data| >= FlagCount ==> StateLocked(m, msgs) == Snapshot(Decode(m.data).value)
    ensures |m.data| < FlagCount ==> StateLocked(m, msgs) == Panics
  {
    var (m1, ok) := TryLock(m, LockedByRust);
    TryLockSpec(m, LockedByRust);
    TraceHeldByRust(m1, msgs);
    var t := Trace(m1, msgs);
    assert forall i :: 0 <= i < FlagCount ==> t[i] == m1;
    if |m.data| >= FlagCount {
      assert Diagonal(t) == Flags(m.data);
    } else {
      assert FlagCount - 1 >= |t[FlagCount - 1].data|;
    }
  }

  const NoMessage: Message := Message(Js.Undefined, Js.Undefined, Js.Undefined, Js.Undefined, 0)
  const PressP1A: Message := Message(Js.Str("button"), Js.Number(1), Js.Str("A"), Js.Bool(true), 0)
  const PressP2B: Message := Message(Js.Str("button"), Js.Number(2), Js.Str("B"), Js.Bool(true), 0)

  /** `n` copies of `x`. */
  function Repeat<T>(x: T, n: nat): (r: seq<T>)
    ensures |r| == n
    ensures forall i :: 0 <= i < n ==> r[i] == x
  {
    if n == 0 then [] else [x] + Repeat(x, n - 1)
  }

  lemma {:induction false} TraceIdle(m: Buffer, rest: seq<Message>, n: nat)
    ensures Trace(m, Repeat(NoMessage, n) + rest) == Repeat(m, n) + Trace(m, rest)
    decreases n
  {
    if n > 0 {
      var s := Repeat(NoMessage, n) + rest;
      assert s[0] == NoMessage;
      assert s[1..] == Repeat(NoMessage, n - 1) + rest;
      TraceIdleStep(m, s);
      TraceIdle(m, rest, n - 1);
      assert [m] + (Repeat(m, n - 1) + Trace(m, rest)) == Repeat(m, n) + Trace(m, rest);
    } else {
      assert Repeat(NoMessage, 0) + rest == rest;
    }
  }

  /** An empty worker message leaves the memory as it is. */
  lemma TraceIdleStep(m: Buffer, msgs: seq<Message>)
    requires msgs != [] && msgs[0] == NoMessage
    ensures Trace(m, msgs) == [m] + Trace(m, msgs[1..])
  {
    assert HandleBundled(m, NoMessage) == Done(m);
  }

  /** The schedule of the counterexample: player 1 presses A just after
      field 7 is read, then player 2 presses B. */
  function TornSchedule(): (msgs: seq<Message>)
    ensures |msgs| == FlagCount - 1
  {
    Repeat(NoMessage, 7) + ([PressP1A, PressP2B] + Repeat(NoMessage, 5))
  }

  lemma TraceAfterPresses(m: Buffer)
    ensures var w1 := HandleBundled(m, PressP1A).m;
      var w2 := HandleBundled(w1, PressP2B).m;
      Trace(m, [PressP1A, PressP2B] + Repeat(NoMessage, 5)) == [m, w1] + Repeat(w2, 6)
  {
    var w1 := HandleBundled(m, PressP1A).m;
    var w2 := HandleBundled(w1, PressP2B).m;
    var idle := Repeat(NoMessage, 5);
    TraceIdle(w2, [], 5);
    assert idle + [] == idle;
    assert ([PressP2B] + idle)[1..] == idle;
    assert ([PressP1A, PressP2B] + idle)[1..] == [PressP2B] + idle;
  }

  /** The memories the schedule shows the reads: `m` for the first eight,
      then `w1`, then `w2`. */
  function TornShape(m: Buffer, w1: Buffer, w2: Buffer): (t: seq<Buffer>)
    ensures |t| == FlagCount
    ensures forall i :: 0 <= i < 8 ==> t[i] == m
    ensures t[8] == w1
    ensures forall i :: 9 <= i < FlagCount ==> t[i] == w2
  {
    Repeat(m, 7) + ([m, w1] + Repeat(w2, 6))
  }

  lemma TraceOfSchedule(m: Buffer)
    ensures var w1 := HandleBundled(m, PressP1A).m;
      Trace(m, TornSchedule()) == TornShape(m, w1, HandleBundled(w1, PressP2B).m)
  {
    TraceAfterPresses(m);
    TraceIdle(m, [PressP1A, PressP2B] + Repeat(NoMessage, 5), 7);
  }

  /** The schedule's two presses: A first, then B. */
  lemma FlagsAfterPresses(m: Buffer)
    requires m.lock == Unlocked && |m.data| >= FlagCount
    requires m.data[Player1A] == 0 && m.data[Player2B] == 0
    ensures var w1 := HandleBundled(m, PressP1A).m;
      var w2 := HandleBundled(w1, PressP2B).m;
      && |w1.data| == |m.data| && |w2.data| == |m.data|
      && !Flags(m.data)[Player1A] && !Flags(m.data)[Player2B]
      && Flags(w1.data)[Player1A] && !Flags(w1.data)[Player2B]
      && Flags(w2.data)[Player1A] && Flags(w2.data)[Player2B]
  {
    var w1 := HandleBundled(m, PressP1A).m;
    FlagMessageRoundTrip(m, PressP1A, Player1A);
    FlagMessageRoundTrip(w1, PressP2B, Player2B);
  }

  /** From a free lock, taking and at once dropping the guard leaves the
      memory as it was. */
  lemma WrittenTraceFromFree(m: Buffer, msgs: seq<Message>)
    requires m.lock == Unlocked
    ensures WrittenTrace(m, msgs) == Trace(m, msgs)
  {
    assert RustDrop(TryLock(m, LockedByRust).0) == m;
  }

  /** In the schedule's memories B down implies A down, yet read 7 sees A
      up and read 14 sees B down, whenever A goes down before B. */
  lemma ShapedTrace(m: Buffer, w1: Buffer, w2: Buffer)
    requires |w1.data| == |m.data| && |w2.data| == |m.data| && |m.data| >= FlagCount
    requires !Flags(m.data)[Player1A] && !Flags(m.data)[Player2B]
    requires Flags(w1.data)[Player1A] && !Flags(w1.data)[Player2B]
    requires Flags(w2.data)[Player1A] && Flags(w2.data)[Player2B]
    ensures var t := TornShape(m, w1, w2);
      && (forall i :: 0 <= i < |t| ==> |t[i].data| == |m.data|)
      && !Flags(t[Player1A].data)[Player1A]
      && Flags(t[Player2B].data)[Player2B]
      && (forall i :: 0 <= i < |t| ==> (Flags(t[i].data)[Player2B] ==> Flags(t[i].data)[Player1A]))
  {
    var t := TornShape(m, w1, w2);
    forall i | 0 <= i < |t|
      ensures |t[i].data| == |m.data|
      ensures Flags(t[i].data)[Player2B] ==> Flags(t[i].data)[Player1A]
    {
      if i < 8 { assert t[i] == m; } else if i == 8 { assert t[i] == w1; } else { assert t[i] == w2; }
    }
  }

  /** The written trace of the schedule: the unlocked memory up to read 7,
      then A pressed, then A and B pressed. */
  lemma TornTrace(m: Buffer)
    requires m.lock == Unlocked && |m.data| >= FlagCount
    requires m.data[Player1A] == 0 && m.data[Player2B] == 0
    ensures var t := WrittenTrace(m, TornSchedule());
      && (forall i :: 0 <= i < |t| ==> |t[i].data| == |m.data|)
      && !Flags(t[Player1A].data)[Player1A]
      && Flags(t[Player2B].data)[Player2B]
      && (forall i :: 0 <= i < |t| ==> (Flags(t[i].data)[Player2B] ==> Flags(t[i].data)[Player1A]))
  {
    WrittenTraceFromFree(m, TornSchedule());
    FlagsAfterPresses(m);
    TraceOfSchedule(m);
    var w1 := HandleBundled(m, PressP1A).m;
    ShapedTrace(m, w1, HandleBundled(w1, PressP2B).m);
  }

  /** The snapshot of a trace whose memories are long enough reads A at
      read 7 and B at read 14. */
  lemma SnapshotOfTrace(t: seq<Buffer>, n: nat)
    requires |t| == FlagCount && n >= FlagCount
    requires forall i :: 0 <= i < |t| ==> |t[i].data| == n
    ensures ReadAcross(t).Some?
    ensures ReadAcross(t).value.player1A == Flags(t[Player1A].data)[Player1A]
    ensures ReadAcross(t).value.player2B == Flags(t[Player2B].data)[Player2B]
  {
    var r := ReadAcross(t);
    assert ToFlags(r.value)[Player1A] == Diagonal(t)[Player1A];
    assert ToFlags(r.value)[Player2B] == Diagonal(t)[Player2B];
  }

  lemma StateFromTrace(m: Buffer, msgs: seq<Message>, t: seq<Buffer>)
    requires |msgs| == FlagCount - 1 && m.lock == Unlocked
    requires t == WrittenTrace(m, msgs) && ReadAcross(t).Some?
    ensures StateAsWritten(m, msgs) == Snapshot(ReadAcross(t).value)
  {
  }

  /** As written, the reads can be torn: from any free memory with both
      buttons up, the schedule above gives a snapshot with player 1's A up
      and player 2's B down, yet in every memory state the worker produced,
      B down implies A down. */
  lemma TornSnapshot(m: Buffer)
    requires m.lock == Unlocked && |m.data| >= FlagCount
    requires m.data[Player1A] == 0 && m.data[Player2B] == 0
    ensures var t := WrittenTrace(m, TornSchedule());
      && StateAsWritten(m, TornSchedule()).Snapshot?
      && !StateAsWritten(m, TornSchedule()).state.player1A
      && StateAsWritten(m, TornSchedule()).state.player2B
      && (forall i :: 0 <= i < |t| ==> (Flags(t[i].data)[Player2B] ==> Flags(t[i].data)[Player1A]))
  {
    var t := WrittenTrace(m, TornSchedule());
    TornTrace(m);
    SnapshotOfTrace(t, |m.data|);
    StateFromTrace(m, TornSchedule(), t);
  }

  /** The counterexample from the client's own start-up memory. */
  lemma TornSnapshotAtStartUp()
    ensures var m := Init(Spawn(ClientMemorySize)).m;
      && StateAsWritten(m, TornSchedule()).Snapshot?
      && !StateAsWritten(m, TornSchedule()).state.player1A
      && StateAsWritten(m, TornSchedule()).state.player2B
  {
    var m := Init(Spawn(ClientMemorySize)).m;
    assert m.data[Player1A] == 0 && m.data[Player2B] == 0;
    TornSnapshot(m);
  }

  // -------------------------------------- Finding: buffer too small for spinners

  /** A worker left with the lock marked LOCKED_BY_JS and no guard to release
      it. */
  predicate Stuck(m: Buffer) {
    m.lock == LockedByJs
  }

  /** As written: the client spawns 15 data bytes, so the first spinner
      message throws in `writeI16` after taking the lock. The lock is never
      released: every later worker message waits or is ignored, and Rust's
      lock attempts fail for good. */
  lemma SmallBufferSticks()
    ensures var m := Init(Spawn(ClientMemorySize)).m;
      var e := HandleBundled(m, Message(Js.Str("spinner"), Js.Number(1), Js.Undefined, Js.Undefined, 1));
      e.Threw? && Stuck(e.m)
  {
  }

  lemma {:induction false} StuckStaysStuck(m: Buffer, msgs: seq<Message>)
    requires Stuck(m)
    ensures Run(m, msgs) == m
    ensures !TryLock(Run(m, msgs), LockedByRust).1
    decreases |msgs|
  {
    if msgs != [] {
      var e := HandleBundled(m, msgs[0]);
      assert e.m == m;
      StuckStaysStuck(m, msgs[1..]);
    }
  }

  /** Corrected: with data for the whole bundled layout, every message
      completes and leaves the lock free, so Rust's next attempt succeeds. */
  lemma FullLayoutNeverSticks(m: Buffer, msg: Message)
    requires m.lock == Unlocked && |m.data| >= SpinnerLayoutSize
    ensures HandleBundled(m, msg).Done?
    ensures HandleBundled(m, msg).m.lock == Unlocked
    ensures |HandleBundled(m, msg).m.data| == |m.data|
  {
    if msg.kind == Js.Str("spinner") {
      if msg.player == Js.Number(1) {
        SpinnerUpdates(m, Player1SpinnerDelta, Player1SpinnerPosition, msg.delta);
      } else if msg.player == Js.Number(2) {
        SpinnerUpdates(m, Player2SpinnerDelta, Player2SpinnerPosition, msg.delta);
      }
    }
  }

  lemma {:induction false} FullLayoutRuns(m: Buffer, msgs: seq<Message>)
    requires m.lock == Unlocked && |m.data| >= SpinnerLayoutSize
    ensures Run(m, msgs).lock == Unlocked
    ensures TryLock(Run(m, msgs), LockedByRust).1
    decreases |msgs|
  {
    if msgs != [] {
      FullLayoutNeverSticks(m, msgs[0]);
      FullLayoutRuns(HandleBundled(m, msgs[0]).m, msgs[1..]);
    }
  }

  /** The corrected client spawn: the bundled layout's 28 data bytes. */
  function ClientSpawn(): (m: Buffer)
    ensures m.lock == Unlocked && |m.data| == SpinnerLayoutSize
    ensures Decode(m.data).Some? && Decode(m.data).value.connected
  {
    var m0 := Spawn(SpinnerLayoutSize);
    var m := Init(m0).m;
    assert Flags(m.data)[Connected];
    m
  }
}

=== FILE: classic_state.dfy ===
/** The controller state kept by the two TypeScript input-classic clients:
    `PLAYER_1`, `PLAYER_2`, `SYSTEM` and `STATUS`.

    Both packages (the button-only one and the bundled one with spinners)
    reduce button and system messages with the same code: a `button`
    message for player 1 or 2 sets `A`, `B` or the DPAD field named by the
    lowercased button; a `system` message sets `ONE_PLAYER` or
    `TWO_PLAYER`. The value stored is the message's `pressed` as it came.
    Everything else is ignored. */
module ClassicState {
  import opened Results
  import Js
  import opened ClassicLayout
  import opened SharedMemory

  datatype Dpad = Dpad(up: Js.Value, down: Js.Value, left: Js.Value, right: Js.Value)

  datatype Player = Player(dpad: Dpad, a: Js.Value, b: Js.Value)

  datatype Controls = Controls(
    connected: bool,
    onePlayer: Js.Value,
    twoPlayer: Js.Value,
    player1: Player,
    player2: Player)

  const Released: Js.Value := Js.Bool(false)

  const ReleasedPlayer: Player := Player(Dpad(Released, Released, Released, Released), Released, Released)

  /** The module-level initial values: nothing pressed, not connected. */
  function Initial(): (c: Controls)
    ensures !c.connected
  {
    Controls(false, Released, Released, ReleasedPlayer, ReleasedPlayer)
  }

  /** `STATUS.connected = true`, run once `acquire` has resolved and before
      the port handler is installed. */
  function Connect(c: Controls): (c': Controls)
    ensures c'.connected
  {
    c.(connected := true)
  }

  /** The buttons in the order of the layout's per-player fields. */
  const ButtonNames: seq<Js.Value> :=
    [Js.Str("UP"), Js.Str("DOWN"), Js.Str("LEFT"), Js.Str("RIGHT"), Js.Str("A"), Js.Str("B")]

  /** `A`/`B` directly, `UP`/`DOWN`/`LEFT`/`RIGHT` through `DPAD[button.toLowerCase()]`. */
  function SetButton(p: Player, button: Js.Value, v: Js.Value): Player {
    if button == Js.Str("A") then p.(a := v)
    else if button == Js.Str("B") then p.(b := v)
    else if button == Js.Str("UP") then p.(dpad := p.dpad.(up := v))
    else if button == Js.Str("DOWN") then p.(dpad := p.dpad.(down := v))
    else if button == Js.Str("LEFT") then p.(dpad := p.dpad.(left := v))
    else if button == Js.Str("RIGHT") then p.(dpad := p.dpad.(right := v))
    else p
  }

  /** The `onmessage` reducer for button and system messages. */
  function Reduce(c: Controls, msg: Message): Controls {
    if msg.kind == Js.Str("button") then
      if msg.player == Js.Number(1) then c.(player1 := SetButton(c.player1, msg.button, msg.pressed))
      else if msg.player == Js.Number(2) then c.(player2 := SetButton(c.player2, msg.button, msg.pressed))
      else c
    else if msg.kind == Js.Str("system") then
      if msg.button == Js.Str("ONE_PLAYER") then c.(onePlayer := msg.pressed)
      else if msg.button == Js.Str("TWO_PLAYER") then c.(twoPlayer := msg.pressed)
      else c
    else c
  }

  function PlayerView(p: Player): seq<Js.Value> {
    [p.dpad.up, p.dpad.down, p.dpad.left, p.dpad.right, p.a, p.b]
  }

  /** The state in the shared-memory layout's order: connected, the two
      system buttons, then up/down/left/right/A/B for each player. */
  function View(c: Controls): (v: seq<Js.Value>)
    ensures |v| == FlagCount
  {
    [Js.Bool(c.connected), c.onePlayer, c.twoPlayer] + PlayerView(c.player1) + PlayerView(c.player2)
  }

  function Truthies(v: seq<Js.Value>): (f: seq<bool>)
    ensures |f| == |v|
    ensures forall i :: 0 <= i < |v| ==> f[i] == Js.Truthy(v[i])
  {
    seq(|v|, i requires 0 <= i < |v| => Js.Truthy(v[i]))
  }

  // ---------------------------------------------------------------- lemmas

  /** All state starts released; connecting sets exactly the connected
      field. */
  lemma InitialReleased()
    ensures View(Initial()) == seq(FlagCount, _ => Released)
    ensures View(Connect(Initial())) == seq(FlagCount, _ => Released)[Connected := Js.Bool(true)]
  {
  }

  lemma SetButtonView(p: Player, button: Js.Value, v: Js.Value, k: nat)
    requires k < 6
    requires button == ButtonNames[k]
    ensures PlayerView(SetButton(p, button, v)) == PlayerView(p)[k := v]
  {
  }

  lemma SetButtonUnknown(p: Player, button: Js.Value, v: Js.Value)
    requires button !in ButtonNames
    ensures SetButton(p, button, v) == p
  {
  }

  /** Replacing one player whose view changed at one position changes the
      whole view at that player's offset. */
  lemma ViewReplacePlayer(c: Controls, second: bool, p': Player, k: nat, v: Js.Value)
    requires k < 6
    requires PlayerView(p') == PlayerView(if second then c.player2 else c.player1)[k := v]
    ensures View(if second then c.(player2 := p') else c.(player1 := p'))
         == View(c)[(if second then Player2Up else Player1Up) + k := v]
  {
  }

  lemma ButtonMessageView(c: Controls, msg: Message)
    requires msg.kind == Js.Str("button") && (msg.player == Js.Number(1) || msg.player == Js.Number(2))
    ensures FlagOffset(msg).Some? ==>
      View(Reduce(c, msg)) == View(c)[FlagOffset(msg).value := msg.pressed]
    ensures FlagOffset(msg).None? ==> Reduce(c, msg) == c
  {
    var second := msg.player == Js.Number(2);
    var p := if second then c.player2 else c.player1;
    if k :| 0 <= k < 6 && msg.button == ButtonNames[k] {
      SetButtonView(p, msg.button, msg.pressed, k);
      ViewReplacePlayer(c, second, SetButton(p, msg.button, msg.pressed), k, msg.pressed);
      assert FlagOffset(msg) == Some((if second then Player2Up else Player1Up) + k);
    } else {
      SetButtonUnknown(p, msg.button, msg.pressed);
    }
  }

  /** The reducer addresses the same field as the shared-memory worker's
      offset table: a message the worker writes at offset `off` sets
      exactly view field `off` to `pressed`; a message the worker ignores
      changes nothing. */
  lemma ReduceMatchesLayout(c: Controls, msg: Message)
    ensures FlagOffset(msg).Some? ==>
      View(Reduce(c, msg)) == View(c)[FlagOffset(msg).value := msg.pressed]
    ensures FlagOffset(msg).None? ==> Reduce(c, msg) == c
  {
    if msg.kind == Js.Str("button") && (msg.player == Js.Number(1) || msg.player == Js.Number(2)) {
      ButtonMessageView(c, msg);
    }
  }

  lemma TruthiesUpdate(v: seq<Js.Value>, off: nat, x: Js.Value)
    requires off < |v|
    ensures Truthies(v[off := x]) == Truthies(v)[off := Js.Truthy(x)]
  {
    var l := Truthies(v[off := x]);
    var r := Truthies(v)[off := Js.Truthy(x)];
    forall i | 0 <= i < |v|
      ensures l[i] == r[i]
    {
    }
  }

  /** The TypeScript client and the worker's memory stay in step: if the
      truthiness of the view equals the flags in memory before a message,
      it does after it too. */
  lemma ClientTracksMemory(c: Controls, m: Buffer, msg: Message)
    requires m.lock == Unlocked && |m.data| >= FlagCount
    requires Truthies(View(c)) == Flags(m.data)
    ensures HandleButtonsOnly(m, msg).Done?
    ensures Truthies(View(Reduce(c, msg))) == Flags(HandleButtonsOnly(m, msg).m.data)
  {
    ReduceMatchesLayout(c, msg);
    match FlagOffset(msg)
    case Some(off) =>
      HandleFlagMessage(m, msg, off);
      WriteRoundTrip(m, off, msg.pressed);
      TruthiesUpdate(View(c), off, msg.pressed);
    case None =>
  }

  /** At start-up the two sides agree: the connected client over the
      initialised worker memory. */
  lemma StartUpAgrees(n: nat)
    requires n >= FlagCount
    ensures Truthies(View(Connect(Initial()))) == Flags(Init(Spawn(n)).m.data)
  {
    var m := Init(Spawn(n)).m;
    forall i | 0 <= i < FlagCount
      ensures Truthies(View(Connect(Initial())))[i] == Flags(m.data)[i]
    {
      if i != Connected {
        assert m.data[i] == Spawn(n).data[i];
      }
    }
  }
}

=== FILE: cli_dev.dfy ===
/** The `rcade dev` command of the CLI (cli/src/dev.ts): it reads the game's
    manifest, picks the cabinet build for this machine, finds or downloads
    that build in the cache under `~/.rcade/bin`, and launches it with the
    game's entry overridden to point at the local dev server.

    The machine is a value: the platform and architecture `os` reports, the
    files that exist, the parsed manifests, the listing of the cache
    directory, the outcome of asking GitHub for the latest release and the
    versions whose download fails (with the message it fails with).
    Cache paths are lists of segments; `path.join` normalisation is not
    modelled. */
module CliDev {
  import opened Results
  import opened Text
  import Json
  import SemVer
  import OverrideArgs

  type Path = seq<string>

  // -------------------------------------------------------------- platform

  datatype PlatformInfo = PlatformInfo(nodePlatform: string, ebPlatform: string, ebArch: string,
                                       extension: string, binaryName: string)

  const Darwin: string := "darwin"
  const Win32: string := "win32"
  const Linux: string := "linux"
  const X64: string := "x64"
  const Arm64: string := "arm64"
  const LinuxX64: string := "x86_64"
  const Mac: string := "mac"
  const Win: string := "win"
  const Zip: string := "zip"
  const AppImage: string := "AppImage"
  const MacBinary: string := "rcade.app"
  const WinBinary: string := "rcade.exe"
  const LinuxBinary: string := "rcade.AppImage"
  const UnsupportedPlatform: string := "Unsupported platform: "
  const UnsupportedArchitecture: string := "Unsupported architecture: "

  predicate SupportedPlatform(platform: string) {
    platform == Darwin || platform == Win32 || platform == Linux
  }

  predicate SupportedArch(arch: string) {
    arch == X64 || arch == Arm64
  }

  /** `getPlatformInfo`: the platform is checked before the architecture,
      and Linux builds name the 64-bit Intel architecture `x86_64`. */
  function GetPlatformInfo(platform: string, arch: string): (r: Result<PlatformInfo, string>)
    ensures !SupportedPlatform(platform) ==> r == Err(UnsupportedPlatform + platform)
    ensures SupportedPlatform(platform) && !SupportedArch(arch) ==> r == Err(UnsupportedArchitecture + arch)
    ensures r.Ok? <==> SupportedPlatform(platform) && SupportedArch(arch)
    ensures r.Ok? ==> r.value.nodePlatform == platform
  {
    if !SupportedPlatform(platform) then Err(UnsupportedPlatform + platform)
    else if !SupportedArch(arch) then Err(UnsupportedArchitecture + arch)
    else if platform == Darwin then Ok(PlatformInfo(platform, Mac, arch, Zip, MacBinary))
    else if platform == Win32 then Ok(PlatformInfo(platform, Win, arch, Zip, WinBinary))
    else Ok(PlatformInfo(platform, Linux, if arch == X64 then LinuxX64 else arch, AppImage, LinuxBinary))
  }

  const AssetPrefix: string := "rcade-cabinet-"
  const Dash: char := '-'
  const Dot: char := '.'

  /** `getAssetName`: `rcade-cabinet-{platform}-{arch}.{extension}`; the
      version it is handed plays no part. */
  function AssetName(info: PlatformInfo, version: string): string {
    AssetPrefix + info.ebPlatform + [Dash] + info.ebArch + [Dot] + info.extension
  }

  /** Each supported machine has a build of its own: no two platform and
      architecture pairs share an asset name, and the version never
      changes it. */
  lemma AssetNamesDistinct(p1: string, a1: string, p2: string, a2: string, v1: string, v2: string)
    requires GetPlatformInfo(p1, a1).Ok? && GetPlatformInfo(p2, a2).Ok?
    ensures AssetName(GetPlatformInfo(p1, a1).value, v1) == AssetName(GetPlatformInfo(p2, a2).value, v2)
            <==> p1 == p2 && a1 == a2
  {
    var n1 := AssetName(GetPlatformInfo(p1, a1).value, v1);
    var n2 := AssetName(GetPlatformInfo(p2, a2).value, v2);
    if n1 == n2 {
      assert n1[14] == n2[14] && n1[|n1| - 2] == n2[|n2| - 2];
      assert |n1| == |n2|;
    }
  }

  /** The binary a release unpacks to, on each platform. */
  lemma BinaryNames(platform: string, arch: string)
    requires GetPlatformInfo(platform, arch).Ok?
    ensures var info := GetPlatformInfo(platform, arch).value;
      && (platform == Darwin ==> info.binaryName == MacBinary && info.extension == Zip)
      && (platform == Win32 ==> info.binaryName == WinBinary && info.extension == Zip)
      && (platform == Linux ==> info.binaryName == LinuxBinary && info.extension == AppImage)
      && (info.ebArch == arch <==> !(platform == Linux && arch == X64))
  {
  }

  // ------------------------------------------------------------------ cache

  /** `getCachedBinaryPath`: `cacheDir/version/binaryName`. */
  function CachedBinaryPath(cacheDir: Path, info: PlatformInfo, version: string): (p: Path)
    ensures |p| == |cacheDir| + 2 && p[..|cacheDir|] == cacheDir
    ensures p[|cacheDir|] == version && p[|cacheDir| + 1] == info.binaryName
  {
    cacheDir + [version, info.binaryName]
  }

  /** One component of `name.split(".").map(Number)` after destructuring:
      a number, `NaN`, or `undefined` past the end of the list. */
  datatype Part = Num(n: nat) | NaN | Missing

  /** Decimal digits after an optional `+`, as `Number` reads them. */
  predicate UnsignedDecimal(t: string) {
    AllDigits(t) || (|t| >= 2 && t[0] == '+' && AllDigits(t[1..]))
  }

  /** `Number` on text already trimmed: the empty string is `0`, decimal
      digits after an optional `+` are their value, anything else is `NaN`. */
  function Decimal(t: string): (p: Part)
    ensures p.Num? <==> UnsignedDecimal(t)
  {
    if AllDigits(t) then Num(DigitsValue(t))
    else if |t| >= 2 && t[0] == '+' && AllDigits(t[1..]) then Num(DigitsValue(t[1..]))
    else NaN
  }

  /** `Number(s)` for the forms without a fraction or sign change: leading
      and trailing whitespace is ignored, then the rest is read as
      `Decimal` reads it. */
  function NumberOf(s: string): (p: Part)
    decreases |s|
  {
    if s != [] && Whitespace(s[0]) then NumberOf(s[1..])
    else if s != [] && Whitespace(s[|s| - 1]) then NumberOf(s[..|s| - 1])
    else Decimal(s)
  }

  /** `NumberOf` reads exactly what `trim` leaves. */
  lemma {:induction false} NumberOfTrims(s: string)
    ensures NumberOf(s) == Decimal(Trim(s))
    decreases |s|
  {
    if s != [] && Whitespace(s[0]) {
      assert NumberOf(s) == NumberOf(s[1..]);
      NumberOfTrims(s[1..]);
      TrimDropsFirst(s);
    } else if s != [] && Whitespace(s[|s| - 1]) {
      assert NumberOf(s) == NumberOf(s[..|s| - 1]);
      NumberOfTrims(s[..|s| - 1]);
      TrimDropsLast(s);
    } else {
      assert NumberOf(s) == Decimal(s);
      TrimKeepsTrimmed(s);
    }
  }

  /** A name part of plain digits is its decimal value; whitespace around
      it and a `+` in front change nothing. */
  lemma NumberOfDigits(pre: string, d: string, post: string)
    requires AllDigits(d) && AllWhitespace(pre) && AllWhitespace(post)
    ensures NumberOf(d) == Num(DigitsValue(d))
    ensures NumberOf(pre + d + post) == NumberOf(d)
    ensures d != [] ==> NumberOf(pre + "+" + d + post) == NumberOf(d)
  {
    DigitsTrimmed(d);
    NumberOfTrimmed(d);
    NumberOfPadded(pre, d, post);
    if d != [] {
      var t := "+" + d;
      assert pre + "+" + d + post == pre + t + post;
      NumberOfPadded(pre, t, post);
      DecimalSigned(d);
    }
  }

  lemma DigitsTrimmed(d: string)
    requires AllDigits(d)
    ensures Trimmed(d)
    ensures d != [] ==> Trimmed("+" + d)
  {
    if d != [] {
      assert IsDigit(d[0]) && IsDigit(d[|d| - 1]);
      assert ("+" + d)[|d|] == d[|d| - 1];
    }
  }

  lemma NumberOfTrimmed(t: string)
    requires Trimmed(t)
    ensures NumberOf(t) == Decimal(t)
  {
    NumberOfTrims(t);
    TrimKeepsTrimmed(t);
  }

  lemma NumberOfPadded(pre: string, t: string, post: string)
    requires AllWhitespace(pre) && AllWhitespace(post) && Trimmed(t)
    ensures NumberOf(pre + t + post) == Decimal(t)
  {
    NumberOfTrims(pre + t + post);
    TrimPadded(pre, t, post);
  }

  lemma DecimalSigned(d: string)
    requires AllDigits(d) && d != []
    ensures Decimal("+" + d) == Decimal(d) == Num(DigitsValue(d))
  {
    var t := "+" + d;
    assert !IsDigit(t[0]) && t[1..] == d;
  }

  function PartAt(name: string, i: nat): Part {
    var parts := SplitOn(name, Dot);
    if i < |parts| then NumberOf(parts[i]) else Missing
  }

  /** `a !== b` on the components: `NaN` differs from everything, itself
      included, and `undefined` equals only itself. */
  predicate Differs(a: Part, b: Part) {
    !(a.Num? && b.Num? && a.n == b.n) && !(a.Missing? && b.Missing?)
  }

  /** `b - a`, with a `NaN` difference read as `0` the way `Array.sort`
      reads a comparator result. */
  function Difference(b: Part, a: Part): int {
    if a.Num? && b.Num? then b.n - a.n else 0
  }

  /** The sort comparator: positive when `b` belongs before `a`. */
  function NewestFirst(a: string, b: string): int {
    if Differs(PartAt(b, 0), PartAt(a, 0)) then Difference(PartAt(b, 0), PartAt(a, 0))
    else if Differs(PartAt(b, 1), PartAt(a, 1)) then Difference(PartAt(b, 1), PartAt(a, 1))
    else Difference(PartAt(b, 2), PartAt(a, 2))
  }

  /** The first maximum of the listing under the comparator: the first
      entry no later entry sorts before. When every name is numeric this
      is the head of the stable descending sort (`AnyCachedVersionIsNewest`);
      with a non-numeric component the comparator is inconsistent and
      the sort's head depends on the engine's algorithm. */
  function NewestFrom(best: string, rest: seq<string>): (r: string)
    ensures r == best || r in rest
    decreases |rest|
  {
    if rest == [] then best
    else NewestFrom(if NewestFirst(best, rest[0]) > 0 then rest[0] else best, rest[1..])
  }

  /** The directory names whose binary exists, in listing order. */
  function WithBinary(cacheDir: Path, info: PlatformInfo, names: seq<string>, files: set<Path>): (r: seq<string>)
    ensures forall x :: x in r <==> x in names && CachedBinaryPath(cacheDir, info, x) in files
  {
    if names == [] then []
    else
      var head := if CachedBinaryPath(cacheDir, info, names[0]) in files then [names[0]] else [];
      head + WithBinary(cacheDir, info, names[1..], files)
  }

  /** `getAnyCachedVersion`: nothing without a cache directory, else the
      newest cached version that holds a binary, if any. */
  function AnyCachedVersion(cacheDir: Path, info: PlatformInfo, listing: Option<seq<string>>, files: set<Path>): (r: Option<string>)
    ensures r.Some? ==>
      && listing.Some? && r.value in listing.value
      && CachedBinaryPath(cacheDir, info, r.value) in files && r.value != ""
    ensures listing.Some? && WithBinary(cacheDir, info, listing.value, files) == [] ==> r.None?
  {
    match listing
    case None => None
    case Some(names) =>
      var cached := WithBinary(cacheDir, info, names, files);
      if cached == [] then None
      else
        var v := NewestFrom(cached[0], cached[1..]);
        assert v in cached;
        if v == "" then None else Some(v)
  }

  // --------------------------------------------- the order on version names

  datatype Key = Key(major: nat, minor: nat, patch: nat)

  /** A directory name whose first three components are numbers. */
  predicate WellFormed(name: string) {
    PartAt(name, 0).Num? && PartAt(name, 1).Num? && PartAt(name, 2).Num?
  }

  function KeyOf(name: string): Key
    requires WellFormed(name)
  {
    Key(PartAt(name, 0).n, PartAt(name, 1).n, PartAt(name, 2).n)
  }

  predicate KeyLess(a: Key, b: Key) {
    a.major < b.major || (a.major == b.major && (a.minor < b.minor || (a.minor == b.minor && a.patch < b.patch)))
  }

  /** On well-formed names the comparator is the descending order of
      their numeric keys. */
  lemma NewestFirstOrders(a: string, b: string)
    requires WellFormed(a) && WellFormed(b)
    ensures NewestFirst(a, b) > 0 <==> KeyLess(KeyOf(a), KeyOf(b))
    ensures NewestFirst(a, b) == 0 <==> KeyOf(a) == KeyOf(b)
  {
  }

  predicate AllWellFormed(s: seq<string>) {
    forall j :: 0 <= j < |s| ==> WellFormed(s[j])
  }

  /** `s[i]` has the greatest key and every entry before it a smaller one:
      it is what a stable descending sort puts first. */
  predicate FirstMax(s: seq<string>, i: int)
    requires AllWellFormed(s)
  {
    && 0 <= i < |s|
    && (forall j :: 0 <= j < i ==> KeyLess(KeyOf(s[j]), KeyOf(s[i])))
    && (forall j :: 0 <= j < |s| ==> !KeyLess(KeyOf(s[i]), KeyOf(s[j])))
  }

  lemma KeyLessTotal(a: Key, b: Key, c: Key)
    ensures !KeyLess(a, a)
    ensures KeyLess(a, b) || KeyLess(b, a) || a == b
    ensures !KeyLess(a, b) && KeyLess(a, c) ==> KeyLess(b, c)
  {
  }

  lemma {:induction false} ScanFindsFirstMax(prefix: seq<string>, i: int, rest: seq<string>)
    requires AllWellFormed(prefix + rest) && AllWellFormed(prefix)
    requires FirstMax(prefix, i)
    ensures exists k :: FirstMax(prefix + rest, k) && (prefix + rest)[k] == NewestFrom(prefix[i], rest)
    decreases |rest|
  {
    var s := prefix + rest;
    if rest == [] {
      assert s == prefix;
      assert FirstMax(s, i) && s[i] == NewestFrom(prefix[i], rest);
    } else {
      var x := rest[0];
      var p2 := prefix + [x];
      assert s == p2 + rest[1..];
      assert forall j :: 0 <= j < |p2| ==> p2[j] == s[j];
      assert WellFormed(x) by { assert x == s[|prefix|]; }
      var best := prefix[i];
      NewestFirstOrders(best, x);
      if KeyLess(KeyOf(best), KeyOf(x)) {
        forall j | 0 <= j < |p2|
          ensures !KeyLess(KeyOf(x), KeyOf(p2[j]))
          ensures j < |prefix| ==> KeyLess(KeyOf(p2[j]), KeyOf(x))
        {
          if j < |prefix| {
            KeyLessTotal(KeyOf(best), KeyOf(p2[j]), KeyOf(x));
            KeyLessTotal(KeyOf(p2[j]), KeyOf(x), KeyOf(best));
          } else {
            KeyLessTotal(KeyOf(x), KeyOf(x), KeyOf(x));
          }
        }
        assert FirstMax(p2, |prefix|);
        ScanFindsFirstMax(p2, |prefix|, rest[1..]);
      } else {
        assert FirstMax(p2, i);
        ScanFindsFirstMax(p2, i, rest[1..]);
      }
    }
  }

  /** When every cached name is a numeric `major.minor.patch`, the version
      picked is the first of the newest. */
  lemma AnyCachedVersionIsNewest(cacheDir: Path, info: PlatformInfo, names: seq<string>, files: set<Path>)
    requires AllWellFormed(WithBinary(cacheDir, info, names, files))
    requires WithBinary(cacheDir, info, names, files) != []
    ensures var cached := WithBinary(cacheDir, info, names, files);
      exists k :: FirstMax(cached, k) && AnyCachedVersion(cacheDir, info, Some(names), files) == Some(cached[k])
  {
    var cached := WithBinary(cacheDir, info, names, files);
    assert cached == [cached[0]] + cached[1..];
    assert FirstMax([cached[0]], 0);
    ScanFindsFirstMax([cached[0]], 0, cached[1..]);
    var k :| FirstMax(cached, k) && cached[k] == NewestFrom(cached[0], cached[1..]);
    assert PartAt(cached[k], 1).Num?;
  }

  // --------------------------------------------------------- release tags

  const CabinetTagPrefix: string := "cabinet-v"
  const VPrefix: string := "v"

  function StripPrefix(s: string, prefix: string): (r: string)
    ensures StartsWith(s, prefix) ==> s == prefix + r
    ensures !StartsWith(s, prefix) ==> r == s
  {
    if StartsWith(s, prefix) then s[|prefix|..] else s
  }

  /** `getLatestVersion`: the release tag without a leading `cabinet-v`,
      then without a leading `v`. */
  function TagVersion(tag: string): string {
    StripPrefix(StripPrefix(tag, CabinetTagPrefix), VPrefix)
  }

  /** A cabinet release tag `cabinet-v{version}`, a bare `v{version}` and
      the version itself all give the version back. */
  lemma TagVersionRoundTrip(v: SemVer.Version)
    ensures TagVersion(CabinetTagPrefix + SemVer.Print(v)) == SemVer.Print(v)
    ensures TagVersion(VPrefix + SemVer.Print(v)) == SemVer.Print(v)
    ensures TagVersion(SemVer.Print(v)) == SemVer.Print(v)
  {
    var p := SemVer.Print(v);
    SemVer.PrintStartsWithDigit(v);
    var t := CabinetTagPrefix + p;
    assert StartsWith(t, CabinetTagPrefix) && t[|CabinetTagPrefix|..] == p;
    assert !StartsWith(p, VPrefix) by { assert p[0] != 'v'; }
    assert !StartsWith(p, CabinetTagPrefix) by { assert p[0] != 'c'; }
    var u := VPrefix + p;
    assert !StartsWith(u, CabinetTagPrefix) by { assert u[1] != 'a'; }
    assert StartsWith(u, VPrefix) && u[|VPrefix|..] == p;
  }

  // ------------------------------------------------------------ manifest

  const DefaultManifest: string := "rcade.manifest.json"
  const Local: string := "LOCAL"
  const Slash: char := '/'
  const NameKey: string := "name"
  const VersionKey: string := "version"
  const ManifestNotFound: string := "Manifest not found: "
  const MissingName: string := "Manifest is missing 'name' field"
  const NullManifest: string := "Cannot read properties of null (reading 'name')"

  /** `path.resolve(manifestPath || "rcade.manifest.json")` against the
      working directory. */
  function ManifestPath(cwd: string, arg: Option<string>): (p: string)
    ensures arg.Some? && |arg.value| > 0 && arg.value[0] == Slash ==> p == arg.value
  {
    var rel := if arg.Some? && arg.value != "" then arg.value else DefaultManifest;
    if |rel| > 0 && rel[0] == Slash then rel else cwd + [Slash] + rel
  }

  predicate Falsy(v: Option<Json.Value>) {
    match v
    case None => true
    case Some(x) => !Json.Truthy(x)
  }

  datatype GameRef = GameRef(name: string, version: string)

  /** `manifest.name` (which must be truthy) and `manifest.version ??
      "LOCAL"`. Reading a field of `null` throws; every other value
      without the field yields `undefined`. */
  function ReadGame(manifest: Json.Value): (r: Result<GameRef, string>)
    ensures manifest.Null? ==> r == Err(NullManifest)
    ensures !manifest.Object? && !manifest.Null? ==> r == Err(MissingName)
    ensures manifest.Object? ==>
      var name := Json.Lookup(manifest.members, NameKey);
      var version := Json.Lookup(manifest.members, VersionKey);
      && (r.Err? <==> Falsy(name))
      && (r.Err? ==> r.error == MissingName)
      && (r.Ok? ==> r.value.name == Json.ToStr(name.value))
      && (r.Ok? && !name.value.Arr? ==> r.value.name != "")
      && (r.Ok? && name.value.Str? ==> r.value.name == name.value.s)
      && (r.Ok? ==> (r.value.version == Local <== version.None? || version.value.Null?))
      && (r.Ok? && version.Some? && version.value.Str? ==> r.value.version == version.value.s)
  {
    if manifest.Null? then Err(NullManifest)
    else if !manifest.Object? then Err(MissingName)
    else
      var name := Json.Lookup(manifest.members, NameKey);
      if Falsy(name) then Err(MissingName)
      else
        var version := Json.Lookup(manifest.members, VersionKey);
        var versionText := if version.None? || version.value.Null? then Local else Json.ToStr(version.value);
        Json.ToStrTruthy(name.value);
        Ok(GameRef(Json.ToStr(name.value), versionText))
  }

  // ------------------------------------------------------------ launching

  /** What the command finds on the machine. `manifests` holds the parsed
      content (or the parse error) of each file that exists and is read as
      a manifest; `failedDownloads` maps a version to the message its
      download fails with. */
  datatype Machine = Machine(
    cwd: string,
    cacheDir: Path,
    platform: string,
    arch: string,
    manifests: map<string, Result<Json.Value, string>>,
    files: set<Path>,
    listing: Option<seq<string>>,
    latestTag: Result<string, string>,
    failedDownloads: map<string, string>)

  datatype DevOptions = DevOptions(version: Option<string>, forceDownload: bool, scale: Option<string>)

  datatype Launch = Launch(command: Path, args: seq<string>)

  const NoCache: string := "Unable to fetch latest release and no cached version available.\nPlease check your internet connection."

  /** The cached binary of `version`, downloaded first when it is missing
      or a fresh download is forced. */
  function Install(m: Machine, info: PlatformInfo, version: string, force: bool): (r: Result<Path, string>)
    ensures r.Ok? ==> r.value == CachedBinaryPath(m.cacheDir, info, version)
    ensures r.Err? <==> (CachedBinaryPath(m.cacheDir, info, version) !in m.files || force)
                        && version in m.failedDownloads
  {
    var path := CachedBinaryPath(m.cacheDir, info, version);
    if (path !in m.files || force) && version in m.failedDownloads then Err(m.failedDownloads[version])
    else Ok(path)
  }

  /** The `try` block: the latest release, installed if need be. */
  function InstallLatest(m: Machine, info: PlatformInfo, force: bool): (r: Result<Path, string>)
    ensures m.latestTag.Err? ==> r.Err?
    ensures m.latestTag.Ok? ==> r == Install(m, info, TagVersion(m.latestTag.value), force)
  {
    var tag :- m.latestTag;
    Install(m, info, TagVersion(tag), force)
  }

  /** The binary to launch: the requested version, or the latest one,
      falling back to the newest cached version when fetching or
      downloading the latest fails. An empty `--version` counts as
      none. */
  function ResolveBinary(m: Machine, info: PlatformInfo, opts: DevOptions): (r: Result<Path, string>)
    ensures opts.version.Some? && opts.version.value != "" ==> r == Install(m, info, opts.version.value, opts.forceDownload)
    ensures !(opts.version.Some? && opts.version.value != "") && InstallLatest(m, info, opts.forceDownload).Err? ==>
      match AnyCachedVersion(m.cacheDir, info, m.listing, m.files)
      case Some(c) => r == Ok(CachedBinaryPath(m.cacheDir, info, c))
      case None => r == Err(NoCache)
  {
    if opts.version.Some? && opts.version.value != "" then Install(m, info, opts.version.value, opts.forceDownload)
    else
      var latest := InstallLatest(m, info, opts.forceDownload);
      if latest.Ok? then latest
      else
        match AnyCachedVersion(m.cacheDir, info, m.listing, m.files)
        case Some(c) => Ok(CachedBinaryPath(m.cacheDir, info, c))
        case None => Err(NoCache)
  }

  const DevFlag: string := "--dev"
  const NoExitFlag: string := "--no-exit"
  const OverrideFlag: string := "--override"
  const ScaleFlag: string := "--scale"
  const At: char := '@'
  const Equals: char := '='

  /** The cabinet's arguments: the manifest, dev mode, no exit, the
      override `name@version=serverUrl`, and the scale when one is given. */
  function CabinetArgs(manifestPath: string, game: GameRef, serverUrl: string, scale: Option<string>): (args: seq<string>)
    ensures |args| == if scale.Some? && scale.value != "" then 7 else 5
    ensures args[..4] == [manifestPath, DevFlag, NoExitFlag, OverrideFlag]
    ensures |args| == 7 ==> args[5..] == [ScaleFlag, scale.value]
  {
    var base := [manifestPath, DevFlag, NoExitFlag, OverrideFlag,
                 game.name + [At] + game.version + [Equals] + serverUrl];
    if scale.Some? && scale.value != "" then base + [ScaleFlag, scale.value] else base
  }

  const ContentsDir: string := "Contents"
  const MacOSDir: string := "MacOS"
  const Executable: string := "rcade"

  /** `launchCabinet`: on macOS the executable inside the app bundle,
      elsewhere the binary itself. */
  function LaunchCommand(info: PlatformInfo, binary: Path): (c: Path)
    ensures info.nodePlatform == Darwin ==> |c| == |binary| + 3 && c[..|binary|] == binary
    ensures info.nodePlatform != Darwin ==> c == binary
  {
    if info.nodePlatform == Darwin then binary + [ContentsDir, MacOSDir, Executable] else binary
  }

  /** The whole action: what is launched, or the message printed after
      `Error:` before the process exits with status 1. */
  function Dev(m: Machine, serverUrl: string, manifestArg: Option<string>, opts: DevOptions): (r: Result<Launch, string>)
    ensures ManifestPath(m.cwd, manifestArg) !in m.manifests ==> r == Err(ManifestNotFound + ManifestPath(m.cwd, manifestArg))
    ensures r.Ok? ==> GetPlatformInfo(m.platform, m.arch).Ok?
    ensures r.Ok? ==> |r.value.args| >= 5 && r.value.args[0] == ManifestPath(m.cwd, manifestArg)
  {
    var path := ManifestPath(m.cwd, manifestArg);
    if path !in m.manifests then Err(ManifestNotFound + path)
    else
      var manifest :- m.manifests[path];
      var game :- ReadGame(manifest);
      var info :- GetPlatformInfo(m.platform, m.arch);
      var binary :- ResolveBinary(m, info, opts);
      Ok(Launch(LaunchCommand(info, binary), CabinetArgs(path, game, serverUrl, opts.scale)))
  }

  // ---------------------------------------------------------------- lemmas

  /** The override the dev command passes is the one the cabinet's
      argument parser reads back: the game's `name@version` pointing at
      the dev server, whenever name and version hold no `@` or `=`. */
  lemma DevOverrideRoundTrip(manifestPath: string, game: GameRef, serverUrl: string, scale: Option<string>)
    requires game.name != "" && game.version != ""
    requires At !in game.name && At !in game.version && Equals !in game.name && Equals !in game.version
    ensures var args := CabinetArgs(manifestPath, game, serverUrl, scale);
      OverrideArgs.ParseOverride(args[4]) == Some(OverrideArgs.Override(game.name + [At] + game.version, serverUrl))
  {
    var args := CabinetArgs(manifestPath, game, serverUrl, scale);
    assert args[4] == game.name + "@" + game.version + "=" + serverUrl;
    OverrideArgs.ParseOverrideRoundTrip(game.name, game.version, serverUrl);
  }

  /** A requested version whose binary is cached, without a forced
      download, is launched as it is: the network plays no part. */
  lemma CachedVersionSkipsNetwork(m: Machine, info: PlatformInfo, opts: DevOptions,
                                  latestTag: Result<string, string>, failedDownloads: map<string, string>)
    requires opts.version.Some? && opts.version.value != "" && !opts.forceDownload
    requires CachedBinaryPath(m.cacheDir, info, opts.version.value) in m.files
    ensures ResolveBinary(m, info, opts) == Ok(CachedBinaryPath(m.cacheDir, info, opts.version.value))
    ensures ResolveBinary(m.(latestTag := latestTag, failedDownloads := failedDownloads), info, opts)
            == ResolveBinary(m, info, opts)
  {
  }

  /** A failed download of a requested version is an error, never a
      fallback to another cached version. */
  lemma RequestedDownloadFailureIsFatal(m: Machine, info: PlatformInfo, opts: DevOptions)
    requires opts.version.Some? && opts.version.value != ""
    requires opts.version.value in m.failedDownloads
    requires CachedBinaryPath(m.cacheDir, info, opts.version.value) !in m.files || opts.forceDownload
    ensures ResolveBinary(m, info, opts) == Err(m.failedDownloads[opts.version.value])
  {
  }

  /** Offline, with no version requested, the newest cached build is
      launched, and the command fails only when the cache has none. */
  lemma OfflineUsesNewestCache(m: Machine, info: PlatformInfo, opts: DevOptions)
    requires opts.version.None? && m.latestTag.Err?
    ensures ResolveBinary(m, info, opts).Ok? <==> AnyCachedVersion(m.cacheDir, info, m.listing, m.files).Some?
    ensures ResolveBinary(m, info, opts).Ok? ==>
      ResolveBinary(m, info, opts).value == CachedBinaryPath(m.cacheDir, info, AnyCachedVersion(m.cacheDir, info, m.listing, m.files).value)
  {
  }

  /** Online, the latest release is launched under the version its tag
      names. */
  lemma OnlineUsesLatest(m: Machine, info: PlatformInfo, opts: DevOptions, v: SemVer.Version)
    requires opts.version.None? && m.latestTag == Ok(CabinetTagPrefix + SemVer.Print(v))
    requires SemVer.Print(v) !in m.failedDownloads
    ensures ResolveBinary(m, info, opts) == Ok(CachedBinaryPath(m.cacheDir, info, SemVer.Print(v)))
  {
    TagVersionRoundTrip(v);
  }
}

=== FILE: cli_remix.dfy ===
/** The `rcade remix` command of the CLI (cli/src/remix.ts): it reads the
    branches of a game's repository, which are named `{version}/{branch}`,
    picks a version, plans the git commands that clone that version's
    branches under their plain names, and runs the plan.

    The GitHub answers (the default branch, the branch names) and the
    failures of the shell commands are values handed in. Working
    directories are lists of segments; `path.join` normalisation is not
    modelled. */
module CliRemix {
  import opened Results
  import opened Text
  import SemVer

  type Path = seq<string>

  datatype ParsedBranch = ParsedBranch(version: string, branchName: string, fullName: string)

  const Slash: char := '/'

  /** The characters `.` does not match in a JavaScript regular
      expression. */
  predicate LineBreak(c: char) {
    c == '\n' || c == '\r' || c == '\U{2028}' || c == '\U{2029}'
  }

  predicate NoLineBreak(s: string) {
    forall k :: 0 <= k < |s| ==> !LineBreak(s[k])
  }

  // --------------------------------------------------------------- branches

  /** A match of `^([^/]+)\/(.+)$`: a non-empty version before the first
      `/` and a non-empty branch name after it. */
  function ParseBranch(name: string): (r: Option<ParsedBranch>)
    ensures r.Some? ==>
      && r.value.fullName == name
      && name == r.value.version + [Slash] + r.value.branchName
      && r.value.version != "" && Slash !in r.value.version
      && r.value.branchName != "" && NoLineBreak(r.value.branchName)
  {
    var i := IndexOf(name, Slash);
    if i <= 0 || i + 1 == |name| || !NoLineBreak(name[i + 1..]) then None
    else
      assert name == name[..i] + [Slash] + name[i + 1..];
      Some(ParsedBranch(name[..i], name[i + 1..], name))
  }

  /** Every name of that shape is recognised, and split where it was
      joined. */
  lemma ParseBranchRoundTrip(version: string, branch: string)
    requires version != "" && Slash !in version
    requires branch != "" && NoLineBreak(branch)
    ensures ParseBranch(version + [Slash] + branch) == Some(ParsedBranch(version, branch, version + [Slash] + branch))
  {
    var name := version + [Slash] + branch;
    IndexOfPrefix(version, Slash, branch);
    assert name[..|version|] == version && name[|version| + 1..] == branch;
  }

  /** `parseBranches`: the recognised names, in order. */
  function ParseBranches(names: seq<string>): (r: seq<ParsedBranch>)
    ensures |r| <= |names|
    ensures forall b :: b in r ==> b.fullName in names && ParseBranch(b.fullName) == Some(b)
    ensures forall n :: n in names && ParseBranch(n).Some? ==> ParseBranch(n).value in r
  {
    if names == [] then []
    else
      var head := match ParseBranch(names[0]) case Some(b) => [b] case None => [];
      head + ParseBranches(names[1..])
  }

  /** Parsing keeps the order of the names. */
  lemma {:induction false} ParseBranchesAppend(a: seq<string>, b: seq<string>)
    ensures ParseBranches(a + b) == ParseBranches(a) + ParseBranches(b)
  {
    if a != [] {
      var head := match ParseBranch(a[0]) case Some(x) => [x] case None => [];
      assert (a + b)[0] == a[0] && (a + b)[1..] == a[1..] + b;
      assert ParseBranches(a + b) == head + ParseBranches(a[1..] + b);
      ParseBranchesAppend(a[1..], b);
      assert head + (ParseBranches(a[1..]) + ParseBranches(b)) == (head + ParseBranches(a[1..])) + ParseBranches(b);
    } else {
      assert a + b == b;
    }
  }

  /** `stripVersion`: the branch name after the version, or the name
      itself when it has no version. */
  function StripVersion(name: string): (r: string)
    ensures ParseBranch(name).None? ==> r == name
    ensures ParseBranch(name).Some? ==> name == ParseBranch(name).value.version + [Slash] + r
  {
    match ParseBranch(name)
    case Some(b) => b.branchName
    case None => name
  }

  // ---------------------------------------------------------------- version

  function Versions(bs: seq<ParsedBranch>): (r: seq<string>)
    ensures |r| == |bs|
    ensures forall i :: 0 <= i < |bs| ==> r[i] == bs[i].version
  {
    if bs == [] then [] else [bs[0].version] + Versions(bs[1..])
  }

  /** `[...new Set(xs)]`: each value once, at its first occurrence. */
  function Dedupe(xs: seq<string>): (r: seq<string>)
    ensures forall x :: x in r <==> x in xs
    ensures forall i, j :: 0 <= i < j < |r| ==> r[i] != r[j]
  {
    if xs == [] then []
    else
      var d := Dedupe(xs[..|xs| - 1]);
      assert xs == xs[..|xs| - 1] + [xs[|xs| - 1]];
      if xs[|xs| - 1] in d then d else d + [xs[|xs| - 1]]
  }

  /** A version `semver.maxSatisfying(_, "*")` considers: a string the
      package's constructor accepts, naming a release (no pre-release). */
  predicate Release(s: string) {
    SemVer.Construct(s).Some? && SemVer.Matches(SemVer.Construct(s).value, SemVer.AnyVersion)
  }

  function VersionOf(s: string): SemVer.Version
    requires Release(s)
  {
    SemVer.Construct(s).value
  }

  /** `a` has no higher precedence than `b`. */
  predicate NotAbove(a: string, b: string)
    requires Release(a) && Release(b)
  {
    SemVer.Compare(VersionOf(a), VersionOf(b)) <= 0
  }

  /** What `maxSatisfying(_, "*")` sees in a string: its version when it
      is a valid release, else nothing. */
  function Rank(s: string): (r: Option<SemVer.Version>)
    ensures r.Some? <==> Release(s)
    ensures r.Some? ==> r.value == VersionOf(s)
  {
    if Release(s) then Some(VersionOf(s)) else None
  }

  /** A branch version written with a leading `v` ranks as the bare
      version does. */
  lemma RankLeadingV(s: string)
    requires |s| < SemVer.MaxLength
    requires s == [] || (s[0] != 'v' && !Whitespace(s[0]))
    ensures Rank("v" + s) == Rank(s)
  {
    SemVer.ConstructLeadingV(s);
  }

  /** Surrounding whitespace does not change a rank. */
  lemma RankIgnoresPadding(pre: string, s: string, post: string)
    requires AllWhitespace(pre) && AllWhitespace(post) && Trimmed(s)
    requires |pre + s + post| <= SemVer.MaxLength
    ensures Rank(pre + s + post) == Rank(s)
  {
    SemVer.ConstructIgnoresPadding(pre, s, post);
  }

  /** A release version as the manifests write it ranks at that version,
      as long as the package's bounds admit it. */
  lemma RankOfRelease(s: string)
    requires SemVer.IsSemVer(s) && SemVer.Parse(s).value.pre == [] && Trimmed(s)
    requires |s| <= SemVer.MaxLength && SemVer.SafeCore(SemVer.Parse(s).value)
    ensures Rank(s) == SemVer.Parse(s)
  {
    SemVer.ConstructAgreesWithParse(s);
  }

  /** A core number above `Number.MAX_SAFE_INTEGER` makes the constructor
      throw, so the string is no release. */
  lemma RankUnsafeCore(s: string)
    requires SemVer.IsSemVer(s) && Trimmed(s) && |s| <= SemVer.MaxLength
    requires !SemVer.SafeCore(SemVer.Parse(s).value)
    ensures Rank(s).None?
  {
    SemVer.AcceptedStartsWithDigit(s);
    SemVer.TrimmedText(s);
  }

  function Ranks(xs: seq<string>): (r: seq<Option<SemVer.Version>>)
    ensures |r| == |xs|
    ensures forall i :: 0 <= i < |xs| ==> r[i] == Rank(xs[i])
  {
    if xs == [] then [] else [Rank(xs[0])] + Ranks(xs[1..])
  }

  /** `maxSatisfying`'s scan from index `i` with the best release so far
      at `best` (or none, -1): a release replaces it only when strictly
      higher. */
  function MaxFrom(ranks: seq<Option<SemVer.Version>>, best: int, i: nat): (r: int)
    requires i <= |ranks| && -1 <= best < i
    requires best >= 0 ==> ranks[best].Some?
    ensures -1 <= r < |ranks| && (r >= 0 ==> ranks[r].Some?)
    ensures r == -1 <==> best == -1 && forall j :: i <= j < |ranks| ==> ranks[j].None?
    decreases |ranks| - i
  {
    if i == |ranks| then best
    else if ranks[i].Some? && (best == -1 || SemVer.Compare(ranks[best].value, ranks[i].value) < 0) then
      MaxFrom(ranks, i, i + 1)
    else MaxFrom(ranks, best, i + 1)
  }

  /** `semver.maxSatisfying(xs, "*")`. */
  function MaxSatisfying(xs: seq<string>): (r: Option<string>)
    ensures r.Some? ==> Release(r.value) && r.value in xs
    ensures r.None? <==> forall i :: 0 <= i < |xs| ==> !Release(xs[i])
  {
    var k := MaxFrom(Ranks(xs), -1, 0);
    if k == -1 then None else Some(xs[k])
  }

  /** Among the first `n` ranks, `k` holds the highest release and every
      release before it is lower. */
  predicate TopOf(ranks: seq<Option<SemVer.Version>>, k: int, n: int)
    requires n <= |ranks|
  {
    && 0 <= k < n && ranks[k].Some?
    && (forall j :: 0 <= j < k && ranks[j].Some? ==> SemVer.Compare(ranks[j].value, ranks[k].value) < 0)
    && (forall j :: 0 <= j < n && ranks[j].Some? ==> SemVer.Compare(ranks[j].value, ranks[k].value) <= 0)
  }

  /** Precedence chains: it is a total order up to equal precedence. */
  lemma Chain(a: SemVer.Version, b: SemVer.Version, c: SemVer.Version)
    ensures SemVer.Compare(a, b) == -SemVer.Compare(b, a)
    ensures SemVer.Compare(a, b) <= 0 && SemVer.Compare(b, c) <= 0 ==> SemVer.Compare(a, c) <= 0
    ensures SemVer.Compare(a, b) < 0 && SemVer.Compare(b, c) <= 0 ==> SemVer.Compare(a, c) < 0
    ensures SemVer.Compare(a, b) <= 0 && SemVer.Compare(b, c) < 0 ==> SemVer.Compare(a, c) < 0
  {
    SemVer.CompareAntisymmetric(a, b);
    SemVer.CompareAntisymmetric(a, c);
    SemVer.CompareAntisymmetric(b, c);
    if SemVer.Compare(a, b) <= 0 && SemVer.Compare(b, c) <= 0 {
      SemVer.CompareTransitive(a, b, c);
    }
    if SemVer.Compare(a, b) < 0 && SemVer.Compare(b, c) <= 0 && SemVer.Compare(c, a) <= 0 {
      SemVer.CompareTransitive(b, c, a);
    }
    if SemVer.Compare(a, b) <= 0 && SemVer.Compare(b, c) < 0 && SemVer.Compare(c, a) <= 0 {
      SemVer.CompareTransitive(c, a, b);
    }
  }

  lemma {:induction false} MaxFromIsTop(ranks: seq<Option<SemVer.Version>>, best: int, i: nat)
    requires i <= |ranks| && -1 <= best < i
    requires best >= 0 ==> TopOf(ranks, best, i)
    requires best == -1 ==> forall j :: 0 <= j < i ==> ranks[j].None?
    ensures MaxFrom(ranks, best, i) >= 0 ==> TopOf(ranks, MaxFrom(ranks, best, i), |ranks|)
    decreases |ranks| - i
  {
    if i < |ranks| {
      if ranks[i].Some? && (best == -1 || SemVer.Compare(ranks[best].value, ranks[i].value) < 0) {
        var x := ranks[i].value;
        forall j | 0 <= j < i && ranks[j].Some?
          ensures SemVer.Compare(ranks[j].value, x) < 0
        {
          Chain(ranks[j].value, ranks[best].value, x);
        }
        SemVer.CompareReflexive(x);
        MaxFromIsTop(ranks, i, i + 1);
      } else {
        if ranks[i].Some? {
          Chain(ranks[i].value, ranks[best].value, ranks[best].value);
        }
        MaxFromIsTop(ranks, best, i + 1);
      }
    }
  }

  /** `maxSatisfying(xs, "*")` is the first of the highest releases. */
  lemma MaxSatisfyingIsFirstHighest(xs: seq<string>)
    requires MaxSatisfying(xs).Some?
    ensures var k := MaxFrom(Ranks(xs), -1, 0);
      && 0 <= k < |xs| && MaxSatisfying(xs) == Some(xs[k])
      && (forall j :: 0 <= j < k && Release(xs[j]) ==> SemVer.Compare(VersionOf(xs[j]), VersionOf(xs[k])) < 0)
      && (forall j :: 0 <= j < |xs| && Release(xs[j]) ==> NotAbove(xs[j], xs[k]))
  {
    MaxFromIsTop(Ranks(xs), -1, 0);
  }

  /** `findTargetVersion`: a requested version must be one of the
      branches' versions; without one, the highest release among them. */
  function FindTargetVersion(parsed: seq<ParsedBranch>, requested: Option<string>): (r: Result<string, string>)
    ensures requested.Some? && requested.value != "" ==>
      && (r.Ok? <==> exists b :: b in parsed && b.version == requested.value)
      && (r.Ok? ==> r.value == requested.value)
      && (r.Err? ==> r.error == "Version " + requested.value + " not found")
    ensures !(requested.Some? && requested.value != "") ==>
      && (r.Ok? <==> exists b :: b in parsed && Release(b.version))
      && (r.Ok? ==> Release(r.value) && exists b :: b in parsed && b.version == r.value)
      && (r.Err? ==> r.error == NoValidVersions)
  {
    var versions := Dedupe(Versions(parsed));
    if requested.Some? && requested.value != "" then
      if requested.value in versions then Ok(requested.value)
      else
        assert forall b :: b in parsed ==> b.version in Versions(parsed);
        Err("Version " + requested.value + " not found")
    else
      match MaxSatisfying(versions)
      case None =>
        assert forall b :: b in parsed ==> b.version in versions;
        Err(NoValidVersions)
      case Some(v) =>
        var i :| 0 <= i < |parsed| && Versions(parsed)[i] == v;
        assert parsed[i] in parsed;
        Ok(v)
  }

  const NoValidVersions: string := "No valid semver versions found"

  /** Without a request, the version chosen is at least as high as every
      release among the branches. */
  lemma TargetIsHighest(parsed: seq<ParsedBranch>, b: ParsedBranch)
    requires FindTargetVersion(parsed, None).Ok?
    requires b in parsed && Release(b.version)
    ensures NotAbove(b.version, FindTargetVersion(parsed, None).value)
  {
    var versions := Dedupe(Versions(parsed));
    MaxSatisfyingIsFirstHighest(versions);
    assert b.version in Versions(parsed);
    var j :| 0 <= j < |versions| && versions[j] == b.version;
    assert Release(versions[j]);
  }

  // ------------------------------------------------------------------- plan

  const RepoPrefix: string := "https://github.com/rcade-community/"
  const GitSuffix: string := ".git"
  const ClonePrefix: string := "git clone --no-checkout "
  const CdPrefix: string := "cd "
  const FetchPrefix: string := "git fetch origin "
  const RemoveOrigin: string := "git remote remove origin"
  const CleanupMarker: string := "__CLEANUP_REMOTE_REFS__"
  const CheckoutPrefix: string := "git checkout "
  const Space: char := ' '
  const Colon: char := ':'

  function Matching(parsed: seq<ParsedBranch>, version: string): (r: seq<ParsedBranch>)
    ensures forall b :: b in r <==> b in parsed && b.version == version
    ensures |r| <= |parsed|
  {
    if parsed == [] then []
    else (if parsed[0].version == version then [parsed[0]] else []) + Matching(parsed[1..], version)
  }

  function BranchNames(bs: seq<ParsedBranch>): (r: seq<string>)
    ensures |r| == |bs|
    ensures forall i :: 0 <= i < |bs| ==> r[i] == bs[i].branchName
  {
    if bs == [] then [] else [bs[0].branchName] + BranchNames(bs[1..])
  }

  /** `git fetch origin {version}/{branch}:{branch}`, one per branch. */
  function FetchCommands(bs: seq<ParsedBranch>): (r: seq<string>)
    ensures |r| == |bs|
    ensures forall i :: 0 <= i < |bs| ==> r[i] == FetchPrefix + bs[i].fullName + [Colon] + bs[i].branchName
  {
    if bs == [] then [] else [FetchPrefix + bs[0].fullName + [Colon] + bs[0].branchName] + FetchCommands(bs[1..])
  }

  /** The first branch with the given plain name. */
  function FindBranch(bs: seq<ParsedBranch>, name: string): (r: Option<ParsedBranch>)
    ensures r.Some? <==> exists b :: b in bs && b.branchName == name
    ensures r.Some? ==> r.value in bs && r.value.branchName == name
  {
    if bs == [] then None
    else if bs[0].branchName == name then Some(bs[0])
    else FindBranch(bs[1..], name)
  }

  function Prelude(pkg: string): seq<string> {
    [ClonePrefix + RepoPrefix + pkg + GitSuffix + [Space] + pkg, CdPrefix + pkg]
  }

  const Trailer: seq<string> := [RemoveOrigin, CleanupMarker]

  /** The command list for the given branches, with the checkout of
      `checkout` at the end when there is one. */
  function Plan(pkg: string, matching: seq<ParsedBranch>, checkout: Option<string>): seq<string> {
    var commands := Prelude(pkg) + FetchCommands(matching) + Trailer;
    match checkout
    case Some(name) => commands + [CheckoutPrefix + name]
    case None => commands
  }

  /** `generateCloneCommands`: clone without checkout, enter the clone,
      fetch each branch of the version under its plain name, drop the
      remote, clean up the other refs, and check out the repository's
      default branch when the version has it. */
  function GenerateCloneCommands(pkg: string, target: string, parsed: seq<ParsedBranch>, defaultBranch: string): (r: Result<seq<string>, string>)
    ensures r.Err? <==> Matching(parsed, target) == []
    ensures r.Err? ==> r.error == "No branches found for version " + target
    ensures r.Ok? ==>
      var hasDefault := exists b :: b in parsed && b.version == target && b.branchName == StripVersion(defaultBranch);
      r.value == Plan(pkg, Matching(parsed, target), if hasDefault then Some(StripVersion(defaultBranch)) else None)
  {
    var matching := Matching(parsed, target);
    if matching == [] then Err("No branches found for version " + target)
    else
      match FindBranch(matching, StripVersion(defaultBranch))
      case Some(b) => Ok(Plan(pkg, matching, Some(b.branchName)))
      case None => Ok(Plan(pkg, matching, None))
  }

  datatype ClonePlan = ClonePlan(commands: seq<string>, version: string, branches: seq<string>)

  const NoVersionedBranches: string := "No branches with version/branch format found"

  /** `getCloneCommand`, from the default branch and branch names GitHub
      reports (or the error fetching them failed with). */
  function GetCloneCommand(pkg: string, requested: Option<string>, defaultBranch: Result<string, string>,
                           names: Result<seq<string>, string>): (r: Result<ClonePlan, string>)
    ensures r.Ok? ==> names.Ok? && ParseBranches(names.value) != []
    ensures r.Ok? ==> r.value.branches == BranchNames(Matching(ParseBranches(names.value), r.value.version))
    ensures r.Ok? ==> FindTargetVersion(ParseBranches(names.value), requested) == Ok(r.value.version)
    ensures defaultBranch.Ok? && names.Ok? && ParseBranches(names.value) == [] ==> r == Err(NoVersionedBranches)
    ensures r.Ok? ==>
      var matching := Matching(ParseBranches(names.value), r.value.version);
      && defaultBranch.Ok? && matching != []
      && (r.value.commands == Plan(pkg, matching, None)
          || r.value.commands == Plan(pkg, matching, Some(StripVersion(defaultBranch.value))))
  {
    var default :- defaultBranch;
    var all :- names;
    var parsed := ParseBranches(all);
    if parsed == [] then Err(NoVersionedBranches)
    else
      var target :- FindTargetVersion(parsed, requested);
      var commands :- GenerateCloneCommands(pkg, target, parsed, default);
      Ok(ClonePlan(commands, target, BranchNames(Matching(parsed, target))))
  }

  /** A version that was found always has branches, so planning the clone
      never fails after it. */
  lemma FoundVersionHasPlan(pkg: string, parsed: seq<ParsedBranch>, requested: Option<string>, defaultBranch: string)
    requires FindTargetVersion(parsed, requested).Ok?
    ensures GenerateCloneCommands(pkg, FindTargetVersion(parsed, requested).value, parsed, defaultBranch).Ok?
  {
    var t := FindTargetVersion(parsed, requested).value;
    var b :| b in parsed && b.version == t;
    assert b in Matching(parsed, t);
  }

  /** Each fetch stores a branch under the name `stripVersion` gives it. */
  lemma FetchedUnderPlainName(parsed: seq<ParsedBranch>, target: string, b: ParsedBranch)
    requires forall p :: p in parsed ==> ParseBranch(p.fullName) == Some(p)
    requires b in Matching(parsed, target)
    ensures StripVersion(b.fullName) == b.branchName && b.version == target
  {
  }

  // ---------------------------------------------------------------- cleanup

  const HeadsPrefix: string := "refs/heads/"

  /** The cleanup filter over the lines of `git for-each-ref`: a ref is
      deleted when it is not empty and its name, with the first
      `refs/heads/` removed, is not a branch to keep. */
  function RefsToDelete(refs: seq<string>, keep: seq<string>): (r: seq<string>)
    ensures forall x :: x in r <==> x in refs && x != "" && RemoveFirst(x, HeadsPrefix) !in keep
    ensures |r| <= |refs|
  {
    if refs == [] then []
    else
      var ref := refs[0];
      (if ref != "" && RemoveFirst(ref, HeadsPrefix) !in keep then [ref] else []) + RefsToDelete(refs[1..], keep)
  }

  /** A local branch survives the cleanup exactly when it is one to keep. */
  lemma BranchSurvivesIffKept(refs: seq<string>, keep: seq<string>, branch: string)
    requires HeadsPrefix + branch in refs
    ensures HeadsPrefix + branch in RefsToDelete(refs, keep) <==> branch !in keep
  {
    var ref := HeadsPrefix + branch;
    assert OccursAt(ref, HeadsPrefix, 0) by { assert ref[0..|HeadsPrefix|] == HeadsPrefix; }
    assert Find(ref, HeadsPrefix) == 0;
    assert RemoveFirst(ref, HeadsPrefix) == branch by {
      assert ref[..0] + ref[|HeadsPrefix|..] == branch;
    }
  }

  // ------------------------------------------------------------------- loop

  datatype Action = Execute(command: string, cwd: Path) | Cleanup(cwd: Path)

  datatype Run = Run(actions: seq<Action>, cwd: Path)

  datatype CommandError = CommandFailed(command: string, stderr: string)

  const CloningInto: string := "Cloning into"

  /** `executeCommand`: a failing command stops the run, unless its error
      output mentions `Cloning into`. `failures` maps each failing command
      to its error output. */
  predicate Fails(command: string, failures: map<string, string>) {
    command in failures && Find(failures[command], CloningInto) == -1
  }

  /** The loop of `remix`: the cleanup marker runs the cleanup, `cd X`
      moves into `X`, and everything else runs in the current directory. */
  function RunCommands(cwd: Path, commands: seq<string>, failures: map<string, string>): (r: Result<Run, CommandError>)
    ensures r.Ok? ==> forall a :: a in r.value.actions && a.Execute? ==>
      a.command in commands && a.command != CleanupMarker && !StartsWith(a.command, CdPrefix)
        && !Fails(a.command, failures)
    ensures r.Ok? <==> forall i :: 0 <= i < |commands| && commands[i] != CleanupMarker && !StartsWith(commands[i], CdPrefix)
                          ==> !Fails(commands[i], failures)
    decreases |commands|
  {
    if commands == [] then Ok(Run([], cwd))
    else
      var cmd := commands[0];
      if cmd == CleanupMarker then
        var rest :- RunCommands(cwd, commands[1..], failures);
        Ok(Run([Cleanup(cwd)] + rest.actions, rest.cwd))
      else if StartsWith(cmd, CdPrefix) then
        RunCommands(cwd + [cmd[|CdPrefix|..]], commands[1..], failures)
      else if Fails(cmd, failures) then Err(CommandFailed(cmd, failures[cmd]))
      else
        var rest :- RunCommands(cwd, commands[1..], failures);
        Ok(Run([Execute(cmd, cwd)] + rest.actions, rest.cwd))
  }

  /** Without `cd` commands a run stays in one directory and acts once
      per command. */
  lemma {:induction false} StaysPut(cwd: Path, commands: seq<string>, failures: map<string, string>)
    requires forall i :: 0 <= i < |commands| ==> !StartsWith(commands[i], CdPrefix)
    requires RunCommands(cwd, commands, failures).Ok?
    ensures var run := RunCommands(cwd, commands, failures).value;
      && run.cwd == cwd
      && |run.actions| == |commands|
      && forall k :: 0 <= k < |run.actions| ==> run.actions[k].cwd == cwd
    decreases |commands|
  {
    if commands != [] {
      StaysPut(cwd, commands[1..], failures);
    }
  }

  /** A plan holds one `cd`, its second command, into the clone. */
  lemma NoOtherCd(pkg: string, matching: seq<ParsedBranch>, checkout: Option<string>)
    ensures var cmds := Plan(pkg, matching, checkout);
      && |cmds| >= 2 && cmds[1] == CdPrefix + pkg
      && !StartsWith(cmds[0], CdPrefix) && cmds[0] != CleanupMarker
      && forall i :: 2 <= i < |cmds| ==> !StartsWith(cmds[i], CdPrefix)
  {
    var cmds := Plan(pkg, matching, checkout);
    var fetches := FetchCommands(matching);
    forall i | 2 <= i < |cmds|
      ensures !StartsWith(cmds[i], CdPrefix)
    {
      if i < 2 + |fetches| {
        assert cmds[i] == fetches[i - 2];
        assert cmds[i][0] == 'g';
      } else if i < 4 + |fetches| {
        assert cmds[i] == Trailer[i - 2 - |fetches|];
        assert cmds[i][0] == 'g' || cmds[i][0] == '_';
      } else {
        assert cmds[i] == CheckoutPrefix + checkout.value;
        assert cmds[i][0] == 'g';
      }
      NotCd(cmds[i]);
    }
    assert cmds[0][0] == 'g';
    NotCd(cmds[0]);
  }

  /** A run whose second command is its only `cd`. */
  lemma CdOnce(cwd: Path, dir: string, cmds: seq<string>, failures: map<string, string>)
    requires |cmds| >= 2 && cmds[1] == CdPrefix + dir
    requires !StartsWith(cmds[0], CdPrefix) && cmds[0] != CleanupMarker
    requires forall i :: 2 <= i < |cmds| ==> !StartsWith(cmds[i], CdPrefix)
    requires RunCommands(cwd, cmds, failures).Ok?
    ensures var run := RunCommands(cwd, cmds, failures).value;
      && |run.actions| == |cmds| - 1
      && run.actions[0] == Execute(cmds[0], cwd)
      && (forall k :: 1 <= k < |run.actions| ==> run.actions[k].cwd == cwd + [dir])
      && run.cwd == cwd + [dir]
  {
    assert StartsWith(cmds[1], CdPrefix) && cmds[1][|CdPrefix|..] == dir;
    var rest := cmds[2..];
    assert cmds[1..][0] == cmds[1] && cmds[1..][1..] == rest;
    assert cmds[1] != CleanupMarker by { assert cmds[1][0] == 'c' && CleanupMarker[0] == '_'; }
    assert forall i :: 0 <= i < |rest| ==> rest[i] == cmds[i + 2];
    assert RunCommands(cwd, cmds[1..], failures) == RunCommands(cwd + [dir], rest, failures);
    StaysPut(cwd + [dir], rest, failures);
    var r1 := RunCommands(cwd, cmds[1..], failures).value;
    assert RunCommands(cwd, cmds, failures).value == Run([Execute(cmds[0], cwd)] + r1.actions, r1.cwd);
  }

  /** Running a plan clones in the starting directory and does everything
      else, the cleanup included, inside the clone, where the run ends. */
  lemma PlanRunsInClone(pkg: string, matching: seq<ParsedBranch>, checkout: Option<string>,
                        cwd: Path, failures: map<string, string>)
    requires RunCommands(cwd, Plan(pkg, matching, checkout), failures).Ok?
    ensures var cmds := Plan(pkg, matching, checkout);
      var run := RunCommands(cwd, cmds, failures).value;
      && |run.actions| == |cmds| - 1
      && run.actions[0] == Execute(cmds[0], cwd)
      && (forall k :: 1 <= k < |run.actions| ==> run.actions[k].cwd == cwd + [pkg])
      && run.cwd == cwd + [pkg]
  {
    NoOtherCd(pkg, matching, checkout);
    CdOnce(cwd, pkg, Plan(pkg, matching, checkout), failures);
  }

  lemma NotCd(s: string)
    requires |s| > 0 && s[0] != 'c'
    ensures !StartsWith(s, CdPrefix)
  {
    assert CdPrefix[0] == 'c';
  }

  // ------------------------------------------------------------------ remix

  const CommandFailedPrefix: string := "Command failed: "
  const Newline: char := '\n'

  /** `remix` up to the manifest update: plan the clone, then run it; the
      result is the run, or the message printed after `Error:`. */
  function Remix(pkg: string, requested: Option<string>, defaultBranch: Result<string, string>,
                 names: Result<seq<string>, string>, cwd: Path, failures: map<string, string>): (r: Result<Run, string>)
    ensures r.Ok? ==> GetCloneCommand(pkg, requested, defaultBranch, names).Ok?
    ensures GetCloneCommand(pkg, requested, defaultBranch, names).Err? ==> r == Err(GetCloneCommand(pkg, requested, defaultBranch, names).error)
  {
    var plan :- GetCloneCommand(pkg, requested, defaultBranch, names);
    match RunCommands(cwd, plan.commands, failures)
    case Err(CommandFailed(c, e)) => Err(CommandFailedPrefix + c + [Newline] + e)
    case Ok(run) => Ok(run)
  }

  /** A successful remix ends inside the clone, where the manifests are
      then updated, having run every planned command but the `cd`. */
  lemma RemixEndsInClone(pkg: string, requested: Option<string>, defaultBranch: Result<string, string>,
                         names: Result<seq<string>, string>, cwd: Path, failures: map<string, string>)
    requires Remix(pkg, requested, defaultBranch, names, cwd, failures).Ok?
    ensures var plan := GetCloneCommand(pkg, requested, defaultBranch, names).value;
      var run := Remix(pkg, requested, defaultBranch, names, cwd, failures).value;
      && run.cwd == cwd + [pkg]
      && |run.actions| == |plan.commands| - 1
  {
    var plan := GetCloneCommand(pkg, requested, defaultBranch, names).value;
    var matching := Matching(ParseBranches(names.value), plan.version);
    if plan.commands == Plan(pkg, matching, None) {
      PlanRunsInClone(pkg, matching, None, cwd, failures);
    } else {
      PlanRunsInClone(pkg, matching, Some(StripVersion(defaultBranch.value)), cwd, failures);
    }
  }
}

=== FILE: detector.dfy ===
/** The plugin detector of the API package (api/src/detect/detector.ts):
    which languages a game repository uses, which packages it depends
    on, which known plugins those packages belong to, and the game
    manifest dependencies that follow.

    Reading the repository is left to the caller: a repository is the
    parsed content of its `package.json` and of its `Cargo.toml`, each
    absent when the file does not exist. `semver.coerce` belongs to a
    library that is not part of this model, so it is the parameter
    `coerce`. */
module Detector {
  import opened Results
  import opened Text
  import Json
  import Manifests

  datatype Language = JavaScript | Rust

  /** One library a plugin ships: the package that betrays its use. */
  datatype Library = Library(language: Language, packageName: string)

  /** What the detector reads of a plugin manifest. `libraries` is `None`
      when the manifest object has no such field. */
  datatype PluginEntry = PluginEntry(name: string, version: Option<string>, libraries: Option<seq<Library>>)

  datatype Package = Package(language: Language, name: string, version: string)

  datatype Detected = Detected(manifest: PluginEntry, matched: seq<Package>)

  /** The top level of `Cargo.toml` is always a table. */
  datatype Repo = Repo(packageJson: Option<Json.Value>, cargoToml: Option<seq<Json.Member>>)

  /** `semver.coerce(v)?.version`. */
  type Coerce = string -> Option<string>

  const DependenciesKey: string := "dependencies"
  const DevDependenciesKey: string := "devDependencies"
  const VersionKey: string := "version"
  const DefaultVersion: string := "1.0.0"
  const NullPackageJson: string := "Cannot read properties of null (reading 'dependencies')"
  const NotIterable: string := "manifest.libraries is not iterable"

  // ------------------------------------------------------------ languages

  /** `detectLanguages`: JavaScript for a `package.json`, Rust for a
      `Cargo.toml`, in that order. */
  function DetectLanguages(repo: Repo): (r: seq<Language>)
    ensures JavaScript in r <==> repo.packageJson.Some?
    ensures Rust in r <==> repo.cargoToml.Some?
    ensures |r| == 2 ==> r == [JavaScript, Rust]
    ensures |r| <= 2
  {
    (if repo.packageJson.Some? then [JavaScript] else [])
      + (if repo.cargoToml.Some? then [Rust] else [])
  }

  // ------------------------------------------------------- object spread

  /** The value `JSON.parse` keeps for a key: that of its last member. */
  function Latest(members: seq<Json.Member>, key: string): (r: Option<Json.Value>)
    ensures r.None? <==> !Json.HasKey(members, key)
    ensures r.Some? ==> exists i :: 0 <= i < |members| && members[i] == Json.Member(key, r.value)
  {
    if members == [] then None
    else
      var rest := Latest(members[1..], key);
      assert Json.HasKey(members, key) <==> members[0].key == key || Json.HasKey(members[1..], key) by {
        if Json.HasKey(members, key) && members[0].key != key {
          var i :| 0 <= i < |members| && members[i].key == key;
          assert members[1..][i - 1] == members[i];
        }
        if Json.HasKey(members[1..], key) {
          var i :| 0 <= i < |members[1..]| && members[1..][i].key == key;
          assert members[i + 1] == members[1..][i];
        }
      }
      if rest.Some? then
        var i :| 0 <= i < |members[1..]| && members[1..][i] == Json.Member(key, rest.value);
        assert members[i + 1] == members[1..][i];
        rest
      else if members[0].key == key then Some(members[0].value)
      else None
  }

  /** Assigning one key of an object: an existing key keeps its place and
      takes the new value, a new key goes last. */
  function SetKey(acc: seq<Json.Member>, key: string, value: Json.Value): (r: seq<Json.Member>)
    ensures Json.Lookup(r, key) == Some(value)
    ensures forall k :: k != key ==> Json.Lookup(r, k) == Json.Lookup(acc, k)
  {
    if acc == [] || acc[0].key == key then [Json.Member(key, value)] + (if acc == [] then [] else acc[1..])
    else [acc[0]] + SetKey(acc[1..], key, value)
  }

  lemma {:induction false} HasKeyTail(members: seq<Json.Member>, key: string)
    requires members != []
    ensures Json.HasKey(members, key) <==> members[0].key == key || Json.HasKey(members[1..], key)
  {
    if Json.HasKey(members, key) && members[0].key != key {
      var i :| 0 <= i < |members| && members[i].key == key;
      assert members[1..][i - 1] == members[i];
    }
    if Json.HasKey(members[1..], key) {
      var i :| 0 <= i < |members[1..]| && members[1..][i].key == key;
      assert members[i + 1] == members[1..][i];
    }
  }

  /** An existing key keeps its place, and so does every other key. */
  lemma {:induction false} SetKeyInPlace(acc: seq<Json.Member>, key: string, value: Json.Value)
    requires Json.HasKey(acc, key)
    ensures var r := SetKey(acc, key, value);
      |r| == |acc| && forall j :: 0 <= j < |acc| ==> r[j].key == acc[j].key
  {
    HasKeyTail(acc, key);
    if acc[0].key != key {
      SetKeyInPlace(acc[1..], key, value);
      var rest := SetKey(acc[1..], key, value);
      var r := [acc[0]] + rest;
      forall j | 0 < j < |acc| ensures r[j].key == acc[j].key {
        assert r[j] == rest[j - 1] && acc[j] == acc[1..][j - 1];
      }
    }
  }

  /** A new key goes last. */
  lemma {:induction false} SetKeyAppends(acc: seq<Json.Member>, key: string, value: Json.Value)
    requires !Json.HasKey(acc, key)
    ensures SetKey(acc, key, value) == acc + [Json.Member(key, value)]
  {
    if acc != [] {
      HasKeyTail(acc, key);
      SetKeyAppends(acc[1..], key, value);
      assert [acc[0]] + (acc[1..] + [Json.Member(key, value)]) == acc + [Json.Member(key, value)];
    }
  }

  lemma SetKeyDistinct(acc: seq<Json.Member>, key: string, value: Json.Value)
    requires Json.DistinctKeys(acc)
    ensures Json.DistinctKeys(SetKey(acc, key, value))
  {
    var r := SetKey(acc, key, value);
    if Json.HasKey(acc, key) {
      SetKeyInPlace(acc, key, value);
    } else {
      SetKeyAppends(acc, key, value);
      forall i, j | 0 <= i < j < |r| ensures r[i].key != r[j].key {
        if j == |acc| {
          assert r[i] == acc[i];
        } else {
          assert r[i] == acc[i] && r[j] == acc[j];
        }
      }
    }
  }

  /** `{ ...acc, ...members }` for the members of a parsed object. */
  function Assign(acc: seq<Json.Member>, members: seq<Json.Member>): (r: seq<Json.Member>)
    ensures Json.DistinctKeys(acc) ==> Json.DistinctKeys(r)
    decreases |members|
  {
    if members == [] then acc
    else
      assert Json.DistinctKeys(acc) ==> Json.DistinctKeys(SetKey(acc, members[0].key, members[0].value)) by {
        if Json.DistinctKeys(acc) {
          SetKeyDistinct(acc, members[0].key, members[0].value);
        }
      }
      Assign(SetKey(acc, members[0].key, members[0].value), members[1..])
  }

  /** After a spread, a key holds the value the spread object gave it
      last, and otherwise what it held before. */
  lemma {:induction false} AssignLookup(acc: seq<Json.Member>, members: seq<Json.Member>, key: string)
    ensures Json.Lookup(Assign(acc, members), key)
      == if Json.HasKey(members, key) then Latest(members, key) else Json.Lookup(acc, key)
    decreases |members|
  {
    if members != [] {
      var next := SetKey(acc, members[0].key, members[0].value);
      AssignLookup(next, members[1..], key);
      var l := Latest(members, key);
    }
  }

  /** The own enumerable entries a spread copies: an object's members as
      `JSON.parse` left them, an array's items and a string's characters
      under their indices, and nothing for any other value. */
  function OwnEntries(v: Option<Json.Value>): (r: seq<Json.Member>)
    ensures Json.DistinctKeys(r)
  {
    match v
    case Some(Object(members)) => Assign([], members)
    case Some(Arr(items)) =>
      var r := seq(|items|, i requires 0 <= i < |items| => Json.Member(NatToString(i), items[i]));
      IndexKeysDistinct(r);
      r
    case Some(Str(s)) =>
      var r := seq(|s|, i requires 0 <= i < |s| => Json.Member(NatToString(i), Json.Str([s[i]])));
      IndexKeysDistinct(r);
      r
    case _ => []
  }

  lemma IndexKeysDistinct(r: seq<Json.Member>)
    requires forall i :: 0 <= i < |r| ==> r[i].key == NatToString(i)
    ensures Json.DistinctKeys(r)
  {
    forall i, j | 0 <= i < j < |r| ensures r[i].key != r[j].key {
      NatToStringValue(i);
      NatToStringValue(j);
    }
  }

  // ------------------------------------------------------------- packages

  /** `cleanVersion`: the coerced version, or the declared text when it
      does not coerce. */
  function CleanVersion(coerce: Coerce, version: string): (r: string)
    ensures coerce(version).None? ==> r == version
    ensures coerce(version).Some? ==> r == coerce(version).value
  {
    match coerce(version)
    case Some(v) => v
    case None => version
  }

  /** The version a dependency entry declares, if it counts: for
      JavaScript any string; for Rust a non-empty string, or the string of
      the `version` field of a table. */
  function DeclaredVersion(language: Language, v: Json.Value): (r: Option<string>)
    ensures language == JavaScript ==> (r.Some? <==> v.Str?)
    ensures language == Rust ==> (r.Some? ==> r.value != "")
    ensures language == Rust && v.Object? && Json.HasKey(v.members, VersionKey) && !v.Arr? ==>
      (r.Some? <==> Json.ToStr(Json.Lookup(v.members, VersionKey).value) != "")
    ensures r.Some? && !v.Object? ==> v.Str? && r.value == v.s
    ensures !v.Str? && !v.Object? ==> r.None?
  {
    match v
    case Str(s) => if language == JavaScript || s != "" then Some(s) else None
    case Object(members) =>
      if language == Rust && Json.HasKey(members, VersionKey) then
        var text := Json.ToStr(Json.Lookup(members, VersionKey).value);
        if text != "" then Some(text) else None
      else None
    case _ => None
  }

  /** The packages of one dependency list, in list order. */
  function Packages(language: Language, entries: seq<Json.Member>, coerce: Coerce): (r: seq<Package>)
    ensures |r| <= |entries|
    ensures forall p :: p in r ==> p.language == language
  {
    if entries == [] then []
    else
      var head := match DeclaredVersion(language, entries[0].value)
        case Some(text) => [Package(language, entries[0].key, CleanVersion(coerce, text))]
        case None => [];
      head + Packages(language, entries[1..], coerce)
  }

  /** A package is listed exactly for an entry whose version counts, under
      the entry's name and with the cleaned version. */
  lemma {:induction false} PackagesMembers(language: Language, entries: seq<Json.Member>, coerce: Coerce, p: Package)
    ensures p in Packages(language, entries, coerce) <==>
      exists i :: 0 <= i < |entries| && Provided(language, entries[i], coerce, p)
  {
    if entries != [] {
      PackagesMembers(language, entries[1..], coerce, p);
      if exists i :: 0 <= i < |entries| && Provided(language, entries[i], coerce, p) {
        var i :| 0 <= i < |entries| && Provided(language, entries[i], coerce, p);
        if i > 0 {
          assert entries[1..][i - 1] == entries[i];
        }
      }
      if exists i :: 0 <= i < |entries[1..]| && Provided(language, entries[1..][i], coerce, p) {
        var i :| 0 <= i < |entries[1..]| && Provided(language, entries[1..][i], coerce, p);
        assert entries[i + 1] == entries[1..][i];
      }
    }
  }

  predicate Provided(language: Language, entry: Json.Member, coerce: Coerce, p: Package) {
    var declared := DeclaredVersion(language, entry.value);
    declared.Some? && p == Package(language, entry.key, CleanVersion(coerce, declared.value))
  }

  /** `{ ...packageJson.dependencies, ...packageJson.devDependencies }`. */
  function AllDeps(doc: Json.Value): (r: seq<Json.Member>)
    ensures Json.DistinctKeys(r)
  {
    var members := if doc.Object? then doc.members else [];
    Assign(OwnEntries(Latest(members, DependenciesKey)), OwnEntries(Latest(members, DevDependenciesKey)))
  }

  /** A development dependency overrides a runtime one of the same name. */
  lemma AllDepsPrefersDev(doc: Json.Value, name: string)
    requires doc.Object?
    ensures var dev := OwnEntries(Latest(doc.members, DevDependenciesKey));
      var deps := OwnEntries(Latest(doc.members, DependenciesKey));
      Json.Lookup(AllDeps(doc), name)
        == if Json.HasKey(dev, name) then Json.Lookup(dev, name) else Json.Lookup(deps, name)
  {
    var dev := OwnEntries(Latest(doc.members, DevDependenciesKey));
    var deps := OwnEntries(Latest(doc.members, DependenciesKey));
    AssignLookup(deps, dev, name);
    if Json.HasKey(dev, name) {
      LatestOfDistinct(dev, name);
    }
  }

  /** Without duplicate keys, the last member with a key is the only one. */
  lemma {:induction false} LatestOfDistinct(members: seq<Json.Member>, key: string)
    requires Json.DistinctKeys(members)
    ensures Latest(members, key) == Json.Lookup(members, key)
  {
    if members != [] {
      assert Json.DistinctKeys(members[1..]) by {
        forall i, j | 0 <= i < j < |members[1..]| ensures members[1..][i].key != members[1..][j].key {
          assert members[1..][i] == members[i + 1] && members[1..][j] == members[j + 1];
        }
      }
      LatestOfDistinct(members[1..], key);
      if members[0].key == key {
        assert !Json.HasKey(members[1..], key) by {
          forall i | 0 <= i < |members[1..]| ensures members[1..][i].key != key {
            assert members[1..][i] == members[i + 1];
          }
        }
      }
    }
  }

  /** `parsePackageJson`: reading a field of a `null` document throws. */
  function JsPackages(doc: Option<Json.Value>, coerce: Coerce): (r: Result<seq<Package>, string>)
    ensures r.Err? <==> doc == Some(Json.Null)
    ensures r.Err? ==> r.error == NullPackageJson
    ensures doc.None? ==> r == Ok([])
    ensures r.Ok? ==> forall p :: p in r.value ==> p.language == JavaScript
  {
    match doc
    case None => Ok([])
    case Some(Null) => Err(NullPackageJson)
    case Some(d) => Ok(Packages(JavaScript, AllDeps(d), coerce))
  }

  /** The `dependencies` table of `Cargo.toml`, when it is a truthy object
      (a table or an array). */
  function CargoDeps(cargo: seq<Json.Member>): (r: seq<Json.Member>)
    ensures !Json.HasKey(cargo, DependenciesKey) ==> r == []
  {
    match Json.Lookup(cargo, DependenciesKey)
    case Some(Object(members)) => OwnEntries(Some(Json.Object(members)))
    case Some(Arr(items)) => OwnEntries(Some(Json.Arr(items)))
    case _ => []
  }

  /** `parseCargoToml`. */
  function RustPackages(cargo: Option<seq<Json.Member>>, coerce: Coerce): (r: seq<Package>)
    ensures cargo.None? ==> r == []
    ensures forall p :: p in r ==> p.language == Rust
  {
    match cargo
    case None => []
    case Some(c) => Packages(Rust, CargoDeps(c), coerce)
  }

  /** A Rust package is listed exactly for a dependency whose version
      counts, under the dependency's name. */
  lemma RustPackagesMembers(cargo: seq<Json.Member>, coerce: Coerce, p: Package)
    ensures var deps := CargoDeps(cargo);
      p in RustPackages(Some(cargo), coerce) <==> exists i :: 0 <= i < |deps| && Provided(Rust, deps[i], coerce, p)
  {
    PackagesMembers(Rust, CargoDeps(cargo), coerce, p);
  }

  /** `detectPackages`: the JavaScript packages, then the Rust ones. */
  function DetectPackages(repo: Repo, coerce: Coerce): (r: Result<seq<Package>, string>)
    ensures r.Err? <==> repo.packageJson == Some(Json.Null)
    ensures r.Ok? ==> forall p :: p in r.value ==> p.language in DetectLanguages(repo)
  {
    var js :- JsPackages(repo.packageJson, coerce);
    var rust := RustPackages(repo.cargoToml, coerce);
    assert forall p :: p in js ==> p.language == JavaScript;
    assert js != [] ==> repo.packageJson.Some?;
    assert rust != [] ==> repo.cargoToml.Some?;
    Ok(js + rust)
  }

  /** In a dependency map without duplicate keys, a JavaScript package
      is listed exactly for a dependency whose value is a string, with
      that string cleaned as its version. */
  lemma JsPackagesIff(deps: seq<Json.Member>, coerce: Coerce, name: string, version: string)
    requires Json.DistinctKeys(deps)
    ensures Package(JavaScript, name, version) in Packages(JavaScript, deps, coerce) <==>
      (exists s :: Json.Lookup(deps, name) == Some(Json.Str(s)) && version == CleanVersion(coerce, s))
  {
    var p := Package(JavaScript, name, version);
    PackagesMembers(JavaScript, deps, coerce, p);
    if exists i :: 0 <= i < |deps| && Provided(JavaScript, deps[i], coerce, p) {
      var i :| 0 <= i < |deps| && Provided(JavaScript, deps[i], coerce, p);
      Json.LookupFindsMember(deps, i);
    }
    if exists s :: Json.Lookup(deps, name) == Some(Json.Str(s)) && version == CleanVersion(coerce, s) {
      var s :| Json.Lookup(deps, name) == Some(Json.Str(s)) && version == CleanVersion(coerce, s);
      var i :| 0 <= i < |deps| && deps[i] == Json.Member(name, Json.Str(s));
      assert Provided(JavaScript, deps[i], coerce, p);
    }
  }

  /** The JavaScript packages of a `package.json` are those of its merged
      dependency map: one per name whose merged value is a string. */
  lemma JsPackageIff(doc: Json.Value, coerce: Coerce, name: string, version: string)
    requires doc != Json.Null
    ensures Package(JavaScript, name, version) in JsPackages(Some(doc), coerce).value <==>
      (exists s :: Json.Lookup(AllDeps(doc), name) == Some(Json.Str(s)) && version == CleanVersion(coerce, s))
  {
    assert JsPackages(Some(doc), coerce).value == Packages(JavaScript, AllDeps(doc), coerce);
    JsPackagesIff(AllDeps(doc), coerce, name, version);
  }

  // -------------------------------------------------------------- plugins

  predicate Provides(p: Package, lib: Library) {
    p.language == lib.language && p.name == lib.packageName
  }

  /** `packages.find(...)`: the first package that provides the library. */
  function FindProvider(packages: seq<Package>, lib: Library): (r: Option<Package>)
    ensures r.None? <==> forall i :: 0 <= i < |packages| ==> !Provides(packages[i], lib)
    ensures r.Some? ==> exists i :: (0 <= i < |packages| && packages[i] == r.value
      && Provides(packages[i], lib) && forall j :: 0 <= j < i ==> !Provides(packages[j], lib))
  {
    if packages == [] then None
    else if Provides(packages[0], lib) then Some(packages[0])
    else
      var r := FindProvider(packages[1..], lib);
      if r.Some? then
        var i :| 0 <= i < |packages[1..]| && packages[1..][i] == r.value
          && Provides(packages[1..][i], lib) && forall j :: 0 <= j < i ==> !Provides(packages[1..][j], lib);
        assert packages[i + 1] == packages[1..][i];
        assert forall j :: 0 <= j < i + 1 ==> !Provides(packages[j], lib) by {
          forall j | 0 < j < i + 1 ensures !Provides(packages[j], lib) {
            assert packages[j] == packages[1..][j - 1];
          }
        }
        r
      else
        assert forall i :: 0 <= i < |packages| ==> !Provides(packages[i], lib) by {
          forall i | 0 < i < |packages| ensures !Provides(packages[i], lib) {
            assert packages[i] == packages[1..][i - 1];
          }
        }
        r
  }

  /** The packages matched for a manifest: one per library that has a
      provider, in library order. */
  function Matches(libraries: seq<Library>, packages: seq<Package>): (r: seq<Package>)
    ensures |r| <= |libraries|
    ensures forall p :: p in r ==> p in packages
  {
    if libraries == [] then []
    else
      var head := match FindProvider(packages, libraries[0])
        case Some(p) => [p]
        case None => [];
      head + Matches(libraries[1..], packages)
  }

  /** Some package is matched exactly when one of the libraries has a
      package of the same language and name. */
  lemma {:induction false} MatchesIff(libraries: seq<Library>, packages: seq<Package>)
    ensures Matches(libraries, packages) != [] <==>
      exists i, j :: 0 <= i < |libraries| && 0 <= j < |packages| && Provides(packages[j], libraries[i])
  {
    if libraries != [] {
      MatchesIff(libraries[1..], packages);
      if exists i, j :: 0 <= i < |libraries| && 0 <= j < |packages| && Provides(packages[j], libraries[i]) {
        var i, j :| 0 <= i < |libraries| && 0 <= j < |packages| && Provides(packages[j], libraries[i]);
        if i > 0 && FindProvider(packages, libraries[0]).None? {
          assert libraries[1..][i - 1] == libraries[i];
        }
      }
      if exists i, j :: 0 <= i < |libraries[1..]| && 0 <= j < |packages| && Provides(packages[j], libraries[1..][i]) {
        var i, j :| 0 <= i < |libraries[1..]| && 0 <= j < |packages| && Provides(packages[j], libraries[1..][i]);
        assert libraries[i + 1] == libraries[1..][i];
      }
    }
  }

  /** The loop of `detectPlugins` over the manifests: iterating a missing
      `libraries` field throws. */
  function MatchAll(manifests: seq<PluginEntry>, packages: seq<Package>): (r: Result<seq<Detected>, string>)
    ensures r.Err? <==> exists i :: 0 <= i < |manifests| && manifests[i].libraries.None?
    ensures r.Err? ==> r.error == NotIterable
    ensures r.Ok? ==> |r.value| <= |manifests|
    ensures r.Ok? ==> forall d :: d in r.value ==>
      && d.manifest in manifests
      && d.manifest.libraries.Some?
      && d.matched == Matches(d.manifest.libraries.value, packages)
      && d.matched != []
  {
    if manifests == [] then Ok([])
    else if manifests[0].libraries.None? then Err(NotIterable)
    else
      var matched := Matches(manifests[0].libraries.value, packages);
      var rest := MatchAll(manifests[1..], packages);
      assert (exists i :: 0 <= i < |manifests| && manifests[i].libraries.None?)
        <==> (exists i :: 0 <= i < |manifests[1..]| && manifests[1..][i].libraries.None?) by {
        if exists i :: 0 <= i < |manifests| && manifests[i].libraries.None? {
          var i :| 0 <= i < |manifests| && manifests[i].libraries.None?;
          assert manifests[1..][i - 1] == manifests[i];
        }
        if exists i :: 0 <= i < |manifests[1..]| && manifests[1..][i].libraries.None? {
          var i :| 0 <= i < |manifests[1..]| && manifests[1..][i].libraries.None?;
          assert manifests[i + 1] == manifests[1..][i];
        }
      }
      if rest.Err? then rest
      else
        assert forall m :: m in manifests[1..] ==> m in manifests;
        Ok((if matched == [] then [] else [Detected(manifests[0], matched)]) + rest.value)
  }

  /** One step of the loop: the first manifest's detection, if any, then
      the rest's. */
  lemma MatchAllStep(manifests: seq<PluginEntry>, packages: seq<Package>)
    requires manifests != [] && MatchAll(manifests, packages).Ok?
    ensures manifests[0].libraries.Some? && MatchAll(manifests[1..], packages).Ok?
    ensures var matched := Matches(manifests[0].libraries.value, packages);
      MatchAll(manifests, packages).value
        == (if matched == [] then [] else [Detected(manifests[0], matched)]) + MatchAll(manifests[1..], packages).value
  {
  }

  lemma MatchAllCons(manifests: seq<PluginEntry>, packages: seq<Package>)
    requires manifests != [] && manifests[0].libraries.Some? && MatchAll(manifests[1..], packages).Ok?
    ensures var matched := Matches(manifests[0].libraries.value, packages);
      MatchAll(manifests, packages)
        == Ok((if matched == [] then [] else [Detected(manifests[0], matched)]) + MatchAll(manifests[1..], packages).value)
  {
  }

  /** Manifest order is kept: the detections of a split list are those of
      each part in turn. */
  lemma {:induction false} MatchAllAppend(a: seq<PluginEntry>, b: seq<PluginEntry>, packages: seq<Package>)
    requires MatchAll(a + b, packages).Ok?
    ensures MatchAll(a, packages).Ok? && MatchAll(b, packages).Ok?
    ensures MatchAll(a + b, packages).value == MatchAll(a, packages).value + MatchAll(b, packages).value
  {
    if a == [] {
      assert a + b == b;
    } else {
      var ab := a + b;
      assert ab[1..] == a[1..] + b && ab[0] == a[0];
      MatchAllStep(ab, packages);
      MatchAllAppend(a[1..], b, packages);
      var matched := Matches(a[0].libraries.value, packages);
      var head := if matched == [] then [] else [Detected(a[0], matched)];
      var tail := MatchAll(a[1..], packages).value;
      var rest := MatchAll(b, packages).value;
      MatchAllCons(a, packages);
      AppendAssoc(head, tail, rest);
    }
  }

  lemma AppendAssoc<T>(x: seq<T>, y: seq<T>, z: seq<T>)
    ensures x + (y + z) == (x + y) + z
  {
  }

  /** Every manifest with a provided library is detected. */
  lemma {:induction false} MatchAllFindsEvery(manifests: seq<PluginEntry>, packages: seq<Package>, k: int)
    requires MatchAll(manifests, packages).Ok? && 0 <= k < |manifests|
    requires Matches(manifests[k].libraries.value, packages) != []
    ensures exists d :: d in MatchAll(manifests, packages).value && d.manifest == manifests[k]
  {
    MatchAllStep(manifests, packages);
    if k > 0 {
      assert manifests[1..][k - 1] == manifests[k];
      MatchAllFindsEvery(manifests[1..], packages, k - 1);
      var d :| d in MatchAll(manifests[1..], packages).value && d.manifest == manifests[k];
      assert d in MatchAll(manifests, packages).value;
    } else {
      assert Detected(manifests[0], Matches(manifests[0].libraries.value, packages)) in MatchAll(manifests, packages).value;
    }
  }

  /** `detectPlugins`. */
  function DetectPlugins(manifests: seq<PluginEntry>, repo: Repo, coerce: Coerce): (r: Result<seq<Detected>, string>)
    ensures r.Err? <==> repo.packageJson == Some(Json.Null)
                        || exists i :: 0 <= i < |manifests| && manifests[i].libraries.None?
    ensures r.Ok? ==> forall d :: d in r.value ==> d.manifest in manifests && d.matched != []
  {
    var packages :- DetectPackages(repo, coerce);
    MatchAll(manifests, packages)
  }

  /** A manifest with libraries is detected exactly when one of its
      libraries has a detected package of the same language and name. */
  lemma DetectedIff(manifests: seq<PluginEntry>, repo: Repo, coerce: Coerce, k: int)
    requires DetectPlugins(manifests, repo, coerce).Ok? && 0 <= k < |manifests|
    ensures var m := manifests[k];
      var packages := DetectPackages(repo, coerce).value;
      (exists d :: d in DetectPlugins(manifests, repo, coerce).value && d.manifest == m) <==>
        exists i, j :: 0 <= i < |m.libraries.value| && 0 <= j < |packages| && Provides(packages[j], m.libraries.value[i])
  {
    var packages := DetectPackages(repo, coerce).value;
    var m := manifests[k];
    MatchesIff(m.libraries.value, packages);
    if Matches(m.libraries.value, packages) != [] {
      MatchAllFindsEvery(manifests, packages, k);
    }
  }

  /** `generateDependencies`: each detected plugin at the version of its
      first matched package, else the manifest's version, else `1.0.0`. */
  function GenerateDependencies(manifests: seq<PluginEntry>, repo: Repo, coerce: Coerce): (r: Result<seq<Manifests.Dependency>, string>)
    ensures r.Err? <==> DetectPlugins(manifests, repo, coerce).Err?
    ensures r.Ok? ==> var detected := DetectPlugins(manifests, repo, coerce).value;
      && |r.value| == |detected|
      && forall i :: 0 <= i < |detected| ==>
           r.value[i] == Manifests.Dependency(detected[i].manifest.name, detected[i].matched[0].version)
  {
    var detected :- DetectPlugins(manifests, repo, coerce);
    assert forall i :: 0 <= i < |detected| ==> detected[i] in detected;
    Ok(seq(|detected|, i requires 0 <= i < |detected| =>
      var d := detected[i];
      Manifests.Dependency(d.manifest.name,
        if d.matched != [] then d.matched[0].version else d.manifest.version.GetOr(DefaultVersion))))
  }

  // ---------------------------------------------------- default manifests

  /** Each known manifest read in turn; the first one that fails to
      read throws. */
  function ParseAll(docs: seq<Json.Value>, read: Json.Value -> Result<PluginEntry, Manifests.Issue>): (r: Result<seq<PluginEntry>, Manifests.Issue>)
    ensures r.Ok? <==> forall i :: 0 <= i < |docs| ==> read(docs[i]).Ok?
    ensures r.Ok? ==> |r.value| == |docs| && forall i :: 0 <= i < |docs| ==> r.value[i] == read(docs[i]).value
  {
    if docs == [] then Ok([])
    else
      var rest := ParseAll(docs[1..], read);
      assert forall i :: 0 <= i < |docs[1..]| ==> docs[1..][i] == docs[i + 1];
      assert (forall i :: 0 <= i < |docs| ==> read(docs[i]).Ok?)
        <==> read(docs[0]).Ok? && forall i :: 0 <= i < |docs[1..]| ==> read(docs[1..][i]).Ok?;
      if read(docs[0]).Err? then Err(read(docs[0]).error)
      else if rest.Err? then Err(rest.error)
      else Ok([read(docs[0]).value] + rest.value)
  }

  /** One known manifest through the plugin schema, as written: the
      schema has no `libraries` field and so drops it. */
  function EntryAsWritten(doc: Json.Value): (r: Result<PluginEntry, Manifests.Issue>)
    ensures r.Ok? ==> r.value.libraries.None?
    ensures r.Ok? <==> Manifests.ParsePlugin(doc).Ok?
  {
    var m :- Manifests.ParsePlugin(doc);
    Ok(PluginEntry(m.name, m.version, None))
  }

  /** The detector built without arguments, as written: each known plugin
      manifest goes through the plugin schema. A manifest the schema
      rejects throws, which is the `Err` here. */
  function DefaultEntriesAsWritten(docs: seq<Json.Value>): (r: Result<seq<PluginEntry>, Manifests.Issue>)
    ensures r.Ok? ==> |r.value| == |docs| && forall i :: 0 <= i < |r.value| ==> r.value[i].libraries.None?
  {
    ParseAll(docs, EntryAsWritten)
  }

  /** As written, the default detector throws on every repository it can
      read as soon as one plugin manifest is known. */
  lemma DefaultDetectorThrows(docs: seq<Json.Value>, repo: Repo, coerce: Coerce)
    requires DefaultEntriesAsWritten(docs).Ok? && docs != []
    requires DetectPackages(repo, coerce).Ok?
    ensures DetectPlugins(DefaultEntriesAsWritten(docs).value, repo, coerce) == Err(NotIterable)
  {
    var entries := DefaultEntriesAsWritten(docs).value;
    assert entries[0].libraries.None?;
  }

  const LibrariesKey: string := "libraries"
  const LanguageKey: string := "language"
  const PackageKey: string := "package"
  const NameKey: string := "name"
  const JavaScriptName: string := "javascript"
  const RustName: string := "rust"

  function ParseLanguage(v: Option<Json.Value>): Option<Language> {
    if v == Some(Json.Str(JavaScriptName)) then Some(JavaScript)
    else if v == Some(Json.Str(RustName)) then Some(Rust)
    else None
  }

  /** One `{ language, package: { name } }` entry of `libraries`. */
  function ParseLibrary(v: Json.Value): (r: Result<Library, Manifests.Issue>)
    ensures r.Ok? ==> v.Object? && ParseLanguage(Json.Lookup(v.members, LanguageKey)) == Some(r.value.language)
  {
    if !v.Object? then Err(LibrariesKey)
    else
      match (ParseLanguage(Json.Lookup(v.members, LanguageKey)), Json.Lookup(v.members, PackageKey))
      case (Some(language), Some(Object(p))) =>
        (match Json.Lookup(p, NameKey)
         case Some(Str(name)) => Ok(Library(language, name))
         case _ => Err(LibrariesKey))
      case _ => Err(LibrariesKey)
  }

  function ParseLibraryList(items: seq<Json.Value>): (r: Result<seq<Library>, Manifests.Issue>)
    ensures r.Ok? ==> |r.value| == |items|
  {
    if items == [] then Ok([])
    else
      var lib :- ParseLibrary(items[0]);
      var rest :- ParseLibraryList(items[1..]);
      Ok([lib] + rest)
  }

  /** The `libraries` field the detector reads: an array of library
      entries, where a manifest without the field ships none. */
  function ParseLibraries(doc: Json.Value): (r: Result<seq<Library>, Manifests.Issue>)
    ensures doc.Object? && !Json.HasKey(doc.members, LibrariesKey) ==> r == Ok([])
  {
    if !doc.Object? then Err(LibrariesKey)
    else
      match Json.Lookup(doc.members, LibrariesKey)
      case None => Ok([])
      case Some(Arr(items)) => ParseLibraryList(items)
      case Some(_) => Err(LibrariesKey)
  }

  /** One known manifest with the `libraries` field kept alongside the
      fields the plugin schema checks. */
  function EntryOf(doc: Json.Value): (r: Result<PluginEntry, Manifests.Issue>)
    ensures r.Ok? ==> r.value.libraries.Some?
  {
    var m :- Manifests.ParsePlugin(doc);
    var libs :- ParseLibraries(doc);
    Ok(PluginEntry(m.name, m.version, Some(libs)))
  }

  /** The default detector with the libraries kept. */
  function DefaultEntries(docs: seq<Json.Value>): (r: Result<seq<PluginEntry>, Manifests.Issue>)
    ensures r.Ok? ==> |r.value| == |docs| && forall i :: 0 <= i < |r.value| ==> r.value[i].libraries.Some?
    ensures r.Ok? <==> forall i :: 0 <= i < |docs| ==> EntryOf(docs[i]).Ok?
  {
    ParseAll(docs, EntryOf)
  }

  /** With the libraries kept, the default detector reads every
      repository whose `package.json` is not `null`, and a manifest is
      detected exactly when one of its libraries is in use. */
  lemma DefaultDetectorDetects(docs: seq<Json.Value>, repo: Repo, coerce: Coerce)
    requires DefaultEntries(docs).Ok?
    requires repo.packageJson != Some(Json.Null)
    ensures DetectPlugins(DefaultEntries(docs).value, repo, coerce).Ok?
    ensures GenerateDependencies(DefaultEntries(docs).value, repo, coerce).Ok?
  {
    var entries := DefaultEntries(docs).value;
    assert forall i :: 0 <= i < |entries| ==> entries[i].libraries.Some?;
  }
}

=== FILE: event_bus.dfy ===
/** The event bus of the bundled TypeScript input-classic client: one
    listener array per event type, `on`, `off`, `once` (with an optional
    filter) and `emit`.

    `on` pushes the callback itself; `once` pushes a fresh wrapper (the
    `handler`) that, when an event passes its filter, first removes itself
    with `off` and then calls the callback, or resolves the promise when no
    callback was given. `off` removes the first entry with that identity,
    if any. Callbacks and wrappers are identified by numbers; the callbacks'
    own code is not modelled. */
module EventBus {
  import opened Results
  import Js

  datatype EventType = Press | InputStart | InputEnd | Spin

  /** A `once` filter; a field left out is `undefined`. */
  datatype Filter = Filter(key: Js.Value, player: Js.Value, kind: Js.Value)

  datatype Entry =
    | Plain(callback: nat)
    | Once(handler: nat, filter: Option<Filter>, callback: nat)

  /** What `indexOf` compares: the callback for `on`, the wrapper for
      `once`. */
  function Identity(e: Entry): nat {
    if e.Plain? then e.callback else e.handler
  }

  /** `indexOf` by identity: the first position, or -1. */
  function Find(ls: seq<Entry>, id: nat): (i: int)
    ensures -1 <= i < |ls|
    ensures i == -1 <==> forall j :: 0 <= j < |ls| ==> Identity(ls[j]) != id
    ensures i >= 0 ==> Identity(ls[i]) == id && forall j :: 0 <= j < i ==> Identity(ls[j]) != id
  {
    if ls == [] then -1
    else if Identity(ls[0]) == id then 0
    else
      var j := Find(ls[1..], id);
      if j == -1 then -1 else j + 1
  }

  /** `off(event, cb)`, and the function `on` returns: splice out the first
      entry with that identity, if there is one. */
  function Off(ls: seq<Entry>, id: nat): (r: seq<Entry>)
    ensures (forall j :: 0 <= j < |ls| ==> Identity(ls[j]) != id) ==> r == ls
    ensures (exists j :: 0 <= j < |ls| && Identity(ls[j]) == id) ==> |r| == |ls| - 1
  {
    var i := Find(ls, id);
    if i == -1 then ls else ls[..i] + ls[i + 1..]
  }

  function On(ls: seq<Entry>, callback: nat): seq<Entry> {
    ls + [Plain(callback)]
  }

  /** `once(event, [filter,] [callback])` with wrapper `handler`. */
  function OnceOn(ls: seq<Entry>, handler: nat, filter: Option<Filter>, callback: nat): seq<Entry> {
    ls + [Once(handler, filter, callback)]
  }

  /** The filter test: each field, when truthy, must equal the event's;
      the key is compared only when the event has a `button` key. */
  predicate Matches(f: Option<Filter>, data: Js.Value) {
    match f
    case None => true
    case Some(flt) =>
      && (!Js.Truthy(flt.key) || (data.Obj? && "button" in data.fields && Js.Get(data, "button") == flt.key))
      && (!Js.Truthy(flt.player) || Js.Get(data, "player") == flt.player)
      && (!Js.Truthy(flt.kind) || Js.Get(data, "type") == flt.kind)
  }

  /** An entry that calls its callback for `data`. */
  predicate Fires(e: Entry, data: Js.Value) {
    e.Plain? || Matches(e.filter, data)
  }

  /** An entry that removes itself for `data`. */
  predicate Consumed(e: Entry, data: Js.Value) {
    e.Once? && Matches(e.filter, data)
  }

  /** The callbacks an entry invokes for `data`. */
  function Out(e: Entry, data: Js.Value): seq<nat> {
    if Fires(e, data) then [e.callback] else []
  }

  /** What is left of an entry after `data`. */
  function Keep(e: Entry, data: Js.Value): seq<Entry> {
    if Consumed(e, data) then [] else [e]
  }

  /** The listener list after some calls, and the callbacks invoked. */
  datatype Emitted = Emitted(live: seq<Entry>, calls: seq<nat>)

  /** One listener called with `data`: a `once` entry that fires removes
      itself from the live list, then the callback runs. */
  function Call(live: seq<Entry>, e: Entry, data: Js.Value): Emitted {
    Emitted(if Consumed(e, data) then Off(live, e.handler) else live, Out(e, data))
  }

  // --------------------------------------------------- reference behaviour

  /** The callbacks an emit should reach: every entry registered when it
      starts that fires, in order. */
  function Receivers(ls: seq<Entry>, data: Js.Value): (r: seq<nat>)
    ensures |r| <= |ls|
  {
    if ls == [] then [] else Out(ls[0], data) + Receivers(ls[1..], data)
  }

  /** The entries left afterwards: all but the `once` entries that fired. */
  function Remaining(ls: seq<Entry>, data: Js.Value): (r: seq<Entry>)
    ensures |r| <= |ls|
  {
    if ls == [] then [] else Keep(ls[0], data) + Remaining(ls[1..], data)
  }

  /** No `once` wrapper shares its identity with another entry (wrappers
      are fresh closures). */
  predicate HandlersUnique(ls: seq<Entry>) {
    forall i, j :: 0 <= i < |ls| && 0 <= j < |ls| && i != j && ls[i].Once? ==> Identity(ls[j]) != ls[i].handler
  }

  // ----------------------------------------------------------------- emit

  /** `emit` as written: `forEach` over the live array. The length is read
      once; index `k` is visited only while it still exists, so an entry
      that removes itself pulls the next one under the index already
      visited. */
  function EmitFrom(ls: seq<Entry>, k: nat, len: nat, data: Js.Value): Emitted
    decreases len - k
  {
    if k >= len then Emitted(ls, [])
    else if k >= |ls| then EmitFrom(ls, k + 1, len, data)
    else
      var c := Call(ls, ls[k], data);
      var r := EmitFrom(c.live, k + 1, len, data);
      Emitted(r.live, c.calls + r.calls)
  }

  function EmitAsWritten(ls: seq<Entry>, data: Js.Value): Emitted {
    EmitFrom(ls, 0, |ls|, data)
  }

  /** `emit` over a snapshot of the array (`[...listeners].forEach`):
      removals affect the live array only. */
  function EmitEach(live: seq<Entry>, snap: seq<Entry>, data: Js.Value): Emitted
    decreases |snap|
  {
    if snap == [] then Emitted(live, [])
    else
      var c := Call(live, snap[0], data);
      var r := EmitEach(c.live, snap[1..], data);
      Emitted(r.live, c.calls + r.calls)
  }

  function Emit(ls: seq<Entry>, data: Js.Value): Emitted {
    EmitEach(ls, ls, data)
  }

  // ---------------------------------------------------------------- lemmas

  lemma {:induction false} FindPast(kept: seq<Entry>, e: Entry, rest: seq<Entry>)
    requires forall j :: 0 <= j < |kept| ==> Identity(kept[j]) != Identity(e)
    ensures Find(kept + [e] + rest, Identity(e)) == |kept|
    decreases |kept|
  {
    if kept != [] {
      assert (kept + [e] + rest)[1..] == kept[1..] + [e] + rest;
      FindPast(kept[1..], e, rest);
    }
  }

  lemma UniqueDrop(kept: seq<Entry>, e: Entry, rest: seq<Entry>)
    requires HandlersUnique(kept + [e] + rest)
    ensures HandlersUnique(kept + rest)
  {
    var big := kept + [e] + rest;
    var small := kept + rest;
    forall i, j | 0 <= i < |small| && 0 <= j < |small| && i != j && small[i].Once?
      ensures Identity(small[j]) != small[i].handler
    {
      var bi := if i < |kept| then i else i + 1;
      var bj := if j < |kept| then j else j + 1;
      assert small[i] == big[bi] && small[j] == big[bj];
    }
  }

  /** A `once` entry of a list whose wrappers are unique is the first (and
      only) entry with its identity. */
  lemma UniqueFind(kept: seq<Entry>, e: Entry, rest: seq<Entry>)
    requires e.Once? && HandlersUnique(kept + [e] + rest)
    ensures Off(kept + [e] + rest, e.handler) == kept + rest
  {
    var ls := kept + [e] + rest;
    forall j | 0 <= j < |kept|
      ensures Identity(kept[j]) != Identity(e)
    {
      assert ls[j] == kept[j] && ls[|kept|] == e;
    }
    FindPast(kept, e, rest);
    assert ls[..|kept|] == kept && ls[|kept| + 1..] == rest;
  }

  /** The first entry of the snapshot, called on the live list that holds
      it after `kept`: only that entry can go. */
  lemma CallHead(kept: seq<Entry>, e: Entry, rest: seq<Entry>, data: Js.Value)
    requires HandlersUnique(kept + [e] + rest)
    ensures Call(kept + [e] + rest, e, data).live == (kept + Keep(e, data)) + rest
    ensures HandlersUnique((kept + Keep(e, data)) + rest)
  {
    if Consumed(e, data) {
      UniqueFind(kept, e, rest);
      UniqueDrop(kept, e, rest);
      assert kept + Keep(e, data) == kept;
    } else {
      assert kept + [e] + rest == (kept + Keep(e, data)) + rest;
    }
  }

  /** Emitting over a snapshot reaches exactly the receivers and leaves
      exactly the remaining entries, whatever entries precede them. */
  lemma {:induction false} EmitEachSpec(kept: seq<Entry>, snap: seq<Entry>, data: Js.Value)
    requires HandlersUnique(kept + snap)
    ensures EmitEach(kept + snap, snap, data) == Emitted(kept + Remaining(snap, data), Receivers(snap, data))
    decreases |snap|
  {
    if snap == [] {
      assert kept + snap == kept;
    } else {
      var e := snap[0];
      var rest := snap[1..];
      assert kept + snap == kept + [e] + rest;
      CallHead(kept, e, rest, data);
      var kept' := kept + Keep(e, data);
      EmitEachSpec(kept', rest, data);
      ReferenceHead(kept, snap, data);
    }
  }

  lemma ReferenceHead(kept: seq<Entry>, snap: seq<Entry>, data: Js.Value)
    requires snap != []
    ensures (kept + Keep(snap[0], data)) + Remaining(snap[1..], data) == kept + Remaining(snap, data)
    ensures Out(snap[0], data) + Receivers(snap[1..], data) == Receivers(snap, data)
  {
  }

  /** Corrected emit: every entry registered at the start that fires is
      called once, in order, and exactly the `once` entries that fired are
      gone. */
  lemma EmitDeliversAll(ls: seq<Entry>, data: Js.Value)
    requires HandlersUnique(ls)
    ensures Emit(ls, data) == Emitted(Remaining(ls, data), Receivers(ls, data))
  {
    assert [] + ls == ls;
    EmitEachSpec([], ls, data);
    assert [] + Remaining(ls, data) == Remaining(ls, data);
  }

  lemma {:induction false} NoneConsumed(ls: seq<Entry>, k: nat, data: Js.Value)
    requires k <= |ls|
    requires forall i :: 0 <= i < |ls| ==> !Consumed(ls[i], data)
    ensures EmitFrom(ls, k, |ls|, data) == Emitted(ls, Receivers(ls[k..], data))
    decreases |ls| - k
  {
    if k < |ls| {
      NoneConsumed(ls, k + 1, data);
      assert ls[k..][1..] == ls[k + 1..];
      assert Receivers(ls[k..], data) == Out(ls[k], data) + Receivers(ls[k + 1..], data);
    }
  }

  lemma {:induction false} RemainingAll(ls: seq<Entry>, data: Js.Value)
    requires forall i :: 0 <= i < |ls| ==> !Consumed(ls[i], data)
    ensures Remaining(ls, data) == ls
    decreases |ls|
  {
    if ls != [] {
      RemainingAll(ls[1..], data);
      assert ls == [ls[0]] + ls[1..];
    }
  }

  /** As long as no `once` entry fires, emitting over the live array is
      the same as over a snapshot: nothing is removed. */
  lemma EmitAsWrittenWithoutOnce(ls: seq<Entry>, data: Js.Value)
    requires forall i :: 0 <= i < |ls| ==> !Consumed(ls[i], data)
    ensures EmitAsWritten(ls, data) == Emitted(ls, Receivers(ls, data))
    ensures HandlersUnique(ls) ==> EmitAsWritten(ls, data) == Emit(ls, data)
  {
    NoneConsumed(ls, 0, data);
    assert ls[0..] == ls;
    RemainingAll(ls, data);
    if HandlersUnique(ls) {
      EmitDeliversAll(ls, data);
    }
  }

  /** As written, a `once` listener that fires pulls the next listener
      under the index already visited: a plain listener registered right
      after it misses the event, which the snapshot emit delivers. */
  lemma OnceSkipsNext(h: nat, cb: nat, next: nat, data: Js.Value)
    requires h != next
    ensures EmitAsWritten([Once(h, None, cb), Plain(next)], data) == Emitted([Plain(next)], [cb])
    ensures Emit([Once(h, None, cb), Plain(next)], data) == Emitted([Plain(next)], [cb, next])
  {
    var ls := [Once(h, None, cb), Plain(next)];
    var one := [Plain(next)];
    assert Find(ls, h) == 0;
    assert Off(ls, h) == one;
    assert Call(ls, ls[0], data) == Emitted(one, [cb]);
    var w := EmitFrom(one, 1, 2, data);
    assert w == Emitted(one, []);
    assert EmitFrom(ls, 0, 2, data) == Emitted(w.live, [cb] + w.calls);
    assert one[1..] == [];
    var t := EmitEach(one, one[1..], data);
    assert t == Emitted(one, []);
    var s := EmitEach(one, ls[1..], data);
    assert s.live == one && s.calls == [next] + [];
    assert Emit(ls, data) == Emitted(s.live, [cb] + s.calls);
  }

  /** `on` then its unsubscribe gives the list back when the callback was
      not registered already. */
  lemma OnThenOff(ls: seq<Entry>, callback: nat)
    requires forall j :: 0 <= j < |ls| ==> Identity(ls[j]) != callback
    ensures Off(On(ls, callback), callback) == ls
  {
    FindPast(ls, Plain(callback), []);
    var l := ls + [Plain(callback)] + [];
    assert l == On(ls, callback);
    assert l[..|ls|] == ls;
  }

  /** `off` of a callback that is registered removes only its first
      occurrence and keeps the order of the rest. */
  lemma OffFirstOnly(ls: seq<Entry>, id: nat, i: nat)
    requires i < |ls| && Identity(ls[i]) == id
    requires forall j :: 0 <= j < i ==> Identity(ls[j]) != id
    ensures Off(ls, id) == ls[..i] + ls[i + 1..]
  {
  }

  lemma {:induction false} ReceiversAppend(a: seq<Entry>, b: seq<Entry>, data: Js.Value)
    ensures Receivers(a + b, data) == Receivers(a, data) + Receivers(b, data)
    decreases |a|
  {
    if a == [] {
      assert a + b == b;
    } else {
      assert (a + b)[1..] == a[1..] + b;
      ReceiversAppend(a[1..], b, data);
    }
  }

  lemma {:induction false} RemainingAppend(a: seq<Entry>, b: seq<Entry>, data: Js.Value)
    ensures Remaining(a + b, data) == Remaining(a, data) + Remaining(b, data)
    decreases |a|
  {
    if a == [] {
      assert a + b == b;
    } else {
      assert (a + b)[1..] == a[1..] + b;
      RemainingAppend(a[1..], b, data);
    }
  }

  /** Emitting after a newly registered entry: what the old entries do,
      then what the new one does. */
  lemma EmitAppended(ls: seq<Entry>, e: Entry, data: Js.Value)
    requires HandlersUnique(ls + [e])
    ensures Emit(ls + [e], data) == Emitted(Remaining(ls, data) + Keep(e, data), Receivers(ls, data) + Out(e, data))
  {
    EmitDeliversAll(ls + [e], data);
    ReceiversAppend(ls, [e], data);
    RemainingAppend(ls, [e], data);
    ReferenceSingle(e, data);
  }

  lemma ReferenceSingle(e: Entry, data: Js.Value)
    ensures Receivers([e], data) == Out(e, data)
    ensures Remaining([e], data) == Keep(e, data)
  {
    assert [e][1..] == [];
    assert Out(e, data) + [] == Out(e, data);
    assert Keep(e, data) + [] == Keep(e, data);
  }

  /** `once` without a filter: the next event reaches the callback and the
      wrapper is gone, so a later event does not. */
  lemma OnceFiresOnce(ls: seq<Entry>, h: nat, callback: nat, data: Js.Value, later: Js.Value)
    requires HandlersUnique(OnceOn(ls, h, None, callback))
    ensures Emit(OnceOn(ls, h, None, callback), data) == Emitted(Remaining(ls, data), Receivers(ls, data) + [callback])
    ensures Once(h, None, callback) !in Emit(OnceOn(ls, h, None, callback), data).live
  {
    var e := Once(h, None, callback);
    EmitAppended(ls, e, data);
    RemainingIn(ls, data);
    forall j | 0 <= j < |ls|
      ensures ls[j] != e
    {
      assert (ls + [e])[j] == ls[j] && (ls + [e])[|ls|] == e;
    }
  }

  /** A `once` entry whose filter rejects the event stays registered and is
      not called. */
  lemma FilteredOnceWaits(ls: seq<Entry>, h: nat, f: Filter, callback: nat, data: Js.Value)
    requires HandlersUnique(OnceOn(ls, h, Some(f), callback))
    requires !Matches(Some(f), data)
    ensures Emit(OnceOn(ls, h, Some(f), callback), data)
         == Emitted(Remaining(ls, data) + [Once(h, Some(f), callback)], Receivers(ls, data))
  {
    EmitAppended(ls, Once(h, Some(f), callback), data);
  }

  lemma {:induction false} RemainingIn(ls: seq<Entry>, data: Js.Value)
    ensures forall e :: e in Remaining(ls, data) ==> e in ls
    decreases |ls|
  {
    if ls != [] {
      RemainingIn(ls[1..], data);
      assert ls == [ls[0]] + ls[1..];
    }
  }

  /** Putting an entry in front of a unique list drawn from the entries
      that followed it keeps wrappers unique. */
  lemma UniqueConsSub(e: Entry, tail: seq<Entry>, r: seq<Entry>)
    requires HandlersUnique([e] + tail) && HandlersUnique(r)
    requires forall x :: x in r ==> x in tail
    ensures HandlersUnique([e] + r)
  {
    var s := [e] + r;
    var big := [e] + tail;
    forall i, j | 0 <= i < |s| && 0 <= j < |s| && i != j && s[i].Once?
      ensures Identity(s[j]) != s[i].handler
    {
      if i == 0 {
        assert s[j] in r;
        var k :| 0 <= k < |tail| && tail[k] == s[j];
        assert big[k + 1] == s[j] && big[0] == e;
      } else if j == 0 {
        assert s[i] in r;
        var k :| 0 <= k < |tail| && tail[k] == s[i];
        assert big[k + 1] == s[i] && big[0] == e;
      } else {
        assert s[i] == r[i - 1] && s[j] == r[j - 1];
      }
    }
  }

  /** Dropping the entries that fired keeps wrappers unique. */
  lemma {:induction false} RemainingUnique(ls: seq<Entry>, data: Js.Value)
    requires HandlersUnique(ls)
    ensures HandlersUnique(Remaining(ls, data))
    decreases |ls|
  {
    if ls != [] {
      assert HandlersUnique(ls[1..]) by {
        UniqueDrop([], ls[0], ls[1..]);
        assert [] + [ls[0]] + ls[1..] == ls;
        assert [] + ls[1..] == ls[1..];
      }
      RemainingUnique(ls[1..], data);
      var r := Remaining(ls[1..], data);
      assert Remaining(ls, data) == Keep(ls[0], data) + r;
      if !Consumed(ls[0], data) {
        RemainingIn(ls[1..], data);
        assert ls == [ls[0]] + ls[1..];
        UniqueConsSub(ls[0], ls[1..], r);
      }
    }
  }
}

=== FILE: firmware.dfy ===
/** The input-classic controller firmware, without its hardware: the
    spinner UART decoder, the bit packing of the polled buttons, the change
    detection between polls, and the 8-byte HID report.

    The embassy tasks, `Signal`s and timers become explicit state and
    events: a spinner task is a fold over the bytes it reads, the input
    task a fold over its polls, and the HID task one report per event. */
module Firmware {
  import opened SharedMemory

  // ------------------------------------------------------------ spinners

  const U32Modulus: int := 0x1_0000_0000

  /** The per-task locals `delta: i32` and `count: u32`. */
  datatype SpinnerTask = SpinnerTask(delta: int, count: nat)

  const NewSpinnerTask: SpinnerTask := SpinnerTask(0, 0)

  /** What one UART byte contributes: 0x01 is a step forward, 0xFE a step
      back, anything else nothing. */
  function ByteStep(b: bv8): (d: int)
    ensures -1 <= d <= 1
    ensures d == 1 <==> b == 0x01
    ensures d == -1 <==> b == 0xFE
  {
    if b == 0x01 then 1 else if b == 0xFE then -1 else 0
  }

  datatype SpinnerStep = SpinnerStep(task: SpinnerTask, signal: int)

  /** One successful `uart.read`. The count is a `u32` and wraps; a
      `signal` of 0 means nothing was signalled. */
  function ReadByte(t: SpinnerTask, b: bv8): SpinnerStep
    requires t.count < U32Modulus
  {
    var count := (t.count + 1) % U32Modulus;
    var delta := t.delta + ByteStep(b);
    if count % 4 == 0 && delta != 0 then SpinnerStep(SpinnerTask(0, count), delta)
    else SpinnerStep(SpinnerTask(delta, count), 0)
  }

  /** The accumulated delta has at most one step per byte read since the
      last multiple of four, and is 0 at every multiple of four. */
  predicate SpinnerInvariant(t: SpinnerTask) {
    t.count < U32Modulus && -(t.count % 4) <= t.delta <= t.count % 4
  }

  /** A read keeps the invariant, signals only on a multiple of four and
      only a non-zero delta of at most four steps, and resets after
      signalling. */
  lemma ReadByteSignals(t: SpinnerTask, b: bv8)
    requires SpinnerInvariant(t)
    ensures var r := ReadByte(t, b);
      && SpinnerInvariant(r.task)
      && r.task.count == (t.count + 1) % U32Modulus
      && (r.signal != 0 ==> r.task.count % 4 == 0 && r.task.delta == 0 && -4 <= r.signal <= 4)
      && (r.task.count % 4 == 0 ==> r.signal == t.delta + ByteStep(b) && r.task.delta == 0)
      && (r.task.count % 4 != 0 ==> r.signal == 0 && r.task.delta == t.delta + ByteStep(b))
  {
    assert U32Modulus % 4 == 0;
  }

  datatype SpinnerRun = SpinnerRun(task: SpinnerTask, signals: seq<int>)

  /** The spinner loop over the bytes read, collecting what it signals. */
  function ReadAll(t: SpinnerTask, bytes: seq<bv8>): SpinnerRun
    requires t.count < U32Modulus
    decreases |bytes|
  {
    if bytes == [] then SpinnerRun(t, [])
    else
      var r := ReadByte(t, bytes[0]);
      var rest := ReadAll(r.task, bytes[1..]);
      SpinnerRun(rest.task, (if r.signal != 0 then [r.signal] else []) + rest.signals)
  }

  function StepSum(bytes: seq<bv8>): int
    decreases |bytes|
  {
    if bytes == [] then 0 else ByteStep(bytes[0]) + StepSum(bytes[1..])
  }

  function Total(xs: seq<int>): int
    decreases |xs|
  {
    if xs == [] then 0 else xs[0] + Total(xs[1..])
  }

  lemma {:induction false} TotalAppend(xs: seq<int>, ys: seq<int>)
    ensures Total(xs + ys) == Total(xs) + Total(ys)
    decreases |xs|
  {
    if xs == [] {
      assert xs + ys == ys;
    } else {
      assert (xs + ys)[1..] == xs[1..] + ys;
      TotalAppend(xs[1..], ys);
    }
  }

  /** Within the spinner task no step is lost or invented: what was
      signalled plus what is still accumulated is the sum of the decoded
      bytes. Every signal is a non-zero delta of at most four steps. This
      is not end-to-end: the `Signal` keeps only its latest value, so a
      second signal before the HID task waits replaces the first. */
  lemma {:induction false} ReadAllConserves(t: SpinnerTask, bytes: seq<bv8>)
    requires SpinnerInvariant(t)
    ensures var run := ReadAll(t, bytes);
      && SpinnerInvariant(run.task)
      && Total(run.signals) + run.task.delta == t.delta + StepSum(bytes)
      && (forall i :: 0 <= i < |run.signals| ==> run.signals[i] != 0 && -4 <= run.signals[i] <= 4)
    decreases |bytes|
  {
    if bytes != [] {
      var r := ReadByte(t, bytes[0]);
      ReadByteSignals(t, bytes[0]);
      ReadAllConserves(r.task, bytes[1..]);
      var rest := ReadAll(r.task, bytes[1..]);
      var head := if r.signal != 0 then [r.signal] else [];
      TotalAppend(head, rest.signals);
      assert Total(head) == r.signal by {
        if r.signal != 0 { assert head[1..] == []; }
      }
    }
  }

  // ------------------------------------------------------------- buttons

  /** One player's switches as the input task reads them (pressed = true). */
  datatype Player = Player(up: bool, down: bool, left: bool, right: bool,
                           a: bool, b: bool, c: bool, d: bool, e: bool, f: bool)

  datatype Inputs = Inputs(p1: Player, p2: Player, start1: bool, start2: bool, menu: bool)

  const InputUp: bv8 := 1
  const InputDown: bv8 := 2
  const InputLeft: bv8 := 4
  const InputRight: bv8 := 8
  const InputBtnA: bv8 := 16
  const InputBtnB: bv8 := 32
  const InputBtnC: bv8 := 64
  const InputBtnD: bv8 := 128

  const Sys1PStart: bv8 := 1
  const Sys2PStart: bv8 := 2
  const SysMenu: bv8 := 4
  const SysP1BtnE: bv8 := 8
  const SysP1BtnF: bv8 := 16
  const SysP2BtnE: bv8 := 32
  const SysP2BtnF: bv8 := 64

  function Mask(pressed: bool, m: bv8): bv8 {
    if pressed then m else 0
  }

  /** A player byte: joystick and buttons A to D. */
  function PackPlayer(p: Player): bv8 {
    Mask(p.up, InputUp) | Mask(p.down, InputDown) | Mask(p.left, InputLeft) | Mask(p.right, InputRight)
    | Mask(p.a, InputBtnA) | Mask(p.b, InputBtnB) | Mask(p.c, InputBtnC) | Mask(p.d, InputBtnD)
  }

  /** The system byte: the start and menu buttons, and each player's E and
      F, which do not fit in the player bytes. */
  function PackSystem(i: Inputs): bv8 {
    Mask(i.start1, Sys1PStart) | Mask(i.start2, Sys2PStart) | Mask(i.menu, SysMenu)
    | Mask(i.p1.e, SysP1BtnE) | Mask(i.p1.f, SysP1BtnF) | Mask(i.p2.e, SysP2BtnE) | Mask(i.p2.f, SysP2BtnF)
  }

  function IsSet(x: bv8, m: bv8): bool {
    x & m != 0
  }

  /** The player byte holds each switch in its own bit, up to D in bit 7. */
  lemma PackPlayerBits(p: Player)
    ensures var x := PackPlayer(p);
      && IsSet(x, InputUp) == p.up && IsSet(x, InputDown) == p.down
      && IsSet(x, InputLeft) == p.left && IsSet(x, InputRight) == p.right
      && IsSet(x, InputBtnA) == p.a && IsSet(x, InputBtnB) == p.b
      && IsSet(x, InputBtnC) == p.c && IsSet(x, InputBtnD) == p.d
  {
  }

  /** The system byte holds its seven switches in bits 0 to 6; bit 7 is
      never set. */
  lemma PackSystemBits(i: Inputs)
    ensures var x := PackSystem(i);
      && IsSet(x, Sys1PStart) == i.start1 && IsSet(x, Sys2PStart) == i.start2
      && IsSet(x, SysMenu) == i.menu
      && IsSet(x, SysP1BtnE) == i.p1.e && IsSet(x, SysP1BtnF) == i.p1.f
      && IsSet(x, SysP2BtnE) == i.p2.e && IsSet(x, SysP2BtnF) == i.p2.f
      && x & 0x80 == 0
  {
  }

  /** Two polls give the same three bytes exactly when they read the same
      switches: the packing loses nothing. */
  lemma PackInjective(i: Inputs, j: Inputs)
    ensures (PackPlayer(i.p1) == PackPlayer(j.p1) && PackPlayer(i.p2) == PackPlayer(j.p2)
             && PackSystem(i) == PackSystem(j)) <==> i == j
  {
    if PackPlayer(i.p1) == PackPlayer(j.p1) && PackPlayer(i.p2) == PackPlayer(j.p2) && PackSystem(i) == PackSystem(j) {
      PackPlayerBits(i.p1); PackPlayerBits(j.p1);
      PackPlayerBits(i.p2); PackPlayerBits(j.p2);
      PackSystemBits(i); PackSystemBits(j);
    }
  }

  // ---------------------------------------------------- change detection

  /** The input task's `last_*` locals, the shared atomics and whether
      `INPUT_CHANGED` has been signalled and not yet taken. */
  datatype InputTask = InputTask(lastP1: bv8, lastP2: bv8, lastSys: bv8,
                                 sharedP1: bv8, sharedP2: bv8, sharedSys: bv8, changed: bool)

  const NewInputTask: InputTask := InputTask(0, 0, 0, 0, 0, 0, false)

  /** One poll. */
  function Poll(t: InputTask, i: Inputs): InputTask {
    var p1 := PackPlayer(i.p1);
    var p2 := PackPlayer(i.p2);
    var sys := PackSystem(i);
    if p1 != t.lastP1 || p2 != t.lastP2 || sys != t.lastSys then
      InputTask(p1, p2, sys, p1, p2, sys, true)
    else t
  }

  predicate Published(t: InputTask) {
    t.sharedP1 == t.lastP1 && t.sharedP2 == t.lastP2 && t.sharedSys == t.lastSys
  }

  /** After a poll the shared bytes are those of the switches just read,
      and a change is signalled exactly when some byte differs from the
      previous poll; an unchanged poll touches nothing. */
  lemma PollPublishes(t: InputTask, i: Inputs)
    requires Published(t)
    ensures var t' := Poll(t, i);
      && Published(t')
      && t'.sharedP1 == PackPlayer(i.p1) && t'.sharedP2 == PackPlayer(i.p2) && t'.sharedSys == PackSystem(i)
      && (t'.changed && !t.changed <==>
            !t.changed && (PackPlayer(i.p1) != t.lastP1 || PackPlayer(i.p2) != t.lastP2 || PackSystem(i) != t.lastSys))
      && (PackPlayer(i.p1) == t.lastP1 && PackPlayer(i.p2) == t.lastP2 && PackSystem(i) == t.lastSys ==> t' == t)
  {
  }

  /** Polling the same switches twice signals at most once. */
  lemma PollIdempotent(t: InputTask, i: Inputs)
    ensures Poll(Poll(t, i), i) == Poll(t, i)
  {
  }

  // -------------------------------------------------------------- report

  /** What `select3` returned: a spinner signal or an input change. */
  datatype Event = Spinner1(d1: int) | Spinner2(d2: int) | InputChanged

  /** `x as i16`: the low 16 bits, as a signed value. */
  function AsI16(x: int): (r: int)
    ensures -32768 <= r <= 32767
    ensures (r - x) % 0x1_0000 == 0
  {
    (x + 32768) % 0x1_0000 - 32768
  }

  /** `.clamp(-32767, 32767)` on an `i16`. */
  function ClampI16(x: int): (r: int)
    requires -32768 <= x <= 32767
    ensures -32767 <= r <= 32767
    ensures r == x || (x == -32768 && r == -32767)
  {
    if x < -32767 then -32767 else x
  }

  /** The delta the report carries for a signalled value. */
  function ReportDelta(d: int): (r: int)
    ensures -32767 <= r <= 32767
    ensures -32767 <= d <= 32767 ==> r == d
  {
    ClampI16(AsI16(d))
  }

  /** `x as u8` and `(x >> 8) as u8` of an `i16`: the shift is arithmetic. */
  function Lo(x: int): byte {
    (x % 256) as byte
  }

  function Hi(x: int): byte {
    ((x / 256) % 256) as byte
  }

  /** The report for one event, with the shared bytes loaded after it. */
  function Report(e: Event, p1: bv8, p2: bv8, sys: bv8): (r: seq<byte>)
    ensures |r| == 8 && r[7] == 0
    ensures r[4] as int == p1 as int && r[5] as int == p2 as int && r[6] as int == sys as int
  {
    var (d1, d2) := match e
      case Spinner1(d) => (d, 0)
      case Spinner2(d) => (0, d)
      case InputChanged => (0, 0);
    var d1 := ReportDelta(d1);
    var d2 := ReportDelta(d2);
    [Lo(d1), Hi(d1), Lo(d2), Hi(d2), p1 as int as byte, p2 as int as byte, sys as int as byte, 0]
  }

  /** A little-endian `i16` as the host reads it. */
  function ReadI16(lo: byte, hi: byte): int {
    var u := lo as int + 256 * hi as int;
    if u >= 32768 then u - 0x1_0000 else u
  }

  lemma LoHiRoundTrip(x: int)
    requires -32768 <= x <= 32767
    ensures ReadI16(Lo(x), Hi(x)) == x
  {
    var q, r := x / 256, x % 256;
    assert x == 256 * q + r && 0 <= r < 256;
    assert -128 <= q < 128;
    assert (q % 256) == (if q >= 0 then q else q + 256);
  }

  /** The host reads back the clamped delta of the signalling spinner and
      0 for the other one; an input change carries no delta. */
  lemma ReportDeltas(e: Event, p1: bv8, p2: bv8, sys: bv8)
    ensures var r := Report(e, p1, p2, sys);
      && ReadI16(r[0], r[1]) == (if e.Spinner1? then ReportDelta(e.d1) else 0)
      && ReadI16(r[2], r[3]) == (if e.Spinner2? then ReportDelta(e.d2) else 0)
      && (ReadI16(r[0], r[1]) == 0 || ReadI16(r[2], r[3]) == 0)
  {
    var r := Report(e, p1, p2, sys);
    match e
    case Spinner1(d) =>
      LoHiRoundTrip(ReportDelta(d));
      LoHiRoundTrip(0);
    case Spinner2(d) =>
      LoHiRoundTrip(ReportDelta(d));
      LoHiRoundTrip(0);
    case InputChanged =>
      LoHiRoundTrip(0);
  }

  /** The `i16` cast wraps: a signalled 65536 would be reported as 0.
      The spinner tasks never signal more than four steps, so the
      reported delta is the signalled one. */
  lemma WrapAndSpinnerRange(d: int)
    ensures ReportDelta(65536) == 0 && ReportDelta(-32768) == -32767
    ensures -4 <= d <= 4 ==> ReportDelta(d) == d
  {
  }
}

=== FILE: game_catalog.dfy ===
/** The game registry of the web service (web/src/lib/game.ts): a game
    and its versions as the database holds them, the checks
    `publishVersion` runs before it records a new version, and the
    listing `intoResponse` builds for a caller.

    The database is the `Game` value itself plus the list of every game,
    which the remix checks search by name; an insert is an update of the
    value. Signed upload and download URLs are modelled by the bucket key
    they grant and their expiry time, and the clock is the parameter
    `now`, in milliseconds. */
module GameCatalog {
  import opened Results
  import opened Manifests
  import SemVer
  import Catalog

  datatype Status = Pending | Published

  /** The remix reference a version row holds: the target game and the
      target version number. */
  datatype RemixLink = RemixLink(gameId: string, gameName: string, version: string)

  datatype VersionRecord = VersionRecord(
    version: string,
    displayName: Option<string>,
    description: string,
    visibility: Visibility,
    status: Status,
    remixOf: Option<RemixLink>,
    authors: seq<Author>,
    dependencies: seq<Dependency>,
    categories: seq<string>)

  datatype Game = Game(id: string, name: string, repo: string, owner: string, versions: seq<VersionRecord>)

  /** The errors `publishVersion` throws, in the order it checks them. */
  datatype PublishError =
    | VersionMismatch
    | RemixDropped
    | RemixAdded
    | RemixTargetChanged
    | TargetGameNotFound
    | TargetVersionNotFound
    | TargetUnpublished
    | MustBePrivate
    | ForeignPrivateTarget
    | MustNotBePublic
    | OlderRemix

  // ------------------------------------------------------------ bucket keys

  const BuildsPrefix: string := "games/builds/"
  const Slash: char := '/'
  const ArchiveSuffix: string := ".tar.gz"

  /** `games/builds/{id}/{version}.tar.gz`, the key the upload URL writes
      and the download URL reads. */
  function BuildKey(id: string, version: string): string {
    BuildsPrefix + id + [Slash] + version + ArchiveSuffix
  }

  // ------------------------------------------------------- remix consistency

  /** `existingVersions.find(v => v.remixOf !== null)?.remixOf`. */
  function FirstRemix(versions: seq<VersionRecord>): (r: Option<RemixLink>)
    ensures r.None? <==> forall i :: 0 <= i < |versions| ==> versions[i].remixOf.None?
    ensures r.Some? ==> exists i :: 0 <= i < |versions| && versions[i].remixOf == r
  {
    if versions == [] then None
    else if versions[0].remixOf.Some? then versions[0].remixOf
    else
      var r := FirstRemix(versions[1..]);
      assert forall i :: 1 <= i < |versions| ==> versions[i] == versions[1..][i - 1];
      r
  }

  /** `validateRemixConsistency`: once a game has versions, every new one
      remixes iff the earlier ones did, and names the same target game as
      the first remixing version. */
  function CheckConsistency(versions: seq<VersionRecord>, remix: Option<RemixTarget>): Option<PublishError> {
    if versions == [] then None
    else
      var existing := FirstRemix(versions);
      if remix.None? && existing.Some? then Some(RemixDropped)
      else if remix.Some? && existing.None? then Some(RemixAdded)
      else if remix.Some? && existing.Some? && remix.value.name != existing.value.gameName then Some(RemixTargetChanged)
      else None
  }

  /** All versions remix, or none does, and the remixing ones name the
      same target game. */
  predicate RemixUniform(versions: seq<VersionRecord>) {
    forall i, j :: 0 <= i < |versions| && 0 <= j < |versions| ==>
      && (versions[i].remixOf.Some? <==> versions[j].remixOf.Some?)
      && (versions[i].remixOf.Some? && versions[j].remixOf.Some? ==>
            versions[i].remixOf.value.gameName == versions[j].remixOf.value.gameName)
  }

  /** On a uniform history the check compares with every earlier version,
      not just the first remixing one. */
  lemma CheckConsistencyUniform(versions: seq<VersionRecord>, remix: Option<RemixTarget>)
    requires RemixUniform(versions) && versions != []
    ensures CheckConsistency(versions, remix).None? <==>
      forall i :: 0 <= i < |versions| ==>
        && (versions[i].remixOf.Some? <==> remix.Some?)
        && (remix.Some? ==> versions[i].remixOf.value.gameName == remix.value.name)
  {
    var existing := FirstRemix(versions);
    if existing.Some? {
      var k :| 0 <= k < |versions| && versions[k].remixOf == existing;
    }
  }

  // ------------------------------------------------------------ remix target

  /** The first row whose key is `k`: both `games where name = …,
      limit 1` and `gameVersions.findFirst` by version number. */
  function FindFirst<T(==)>(rows: seq<T>, key: T -> string, k: string): (r: Option<T>)
    ensures r.None? <==> forall i :: 0 <= i < |rows| ==> key(rows[i]) != k
    ensures r.Some? ==> exists i :: 0 <= i < |rows| && rows[i] == r.value && key(rows[i]) == k
                          && forall j :: 0 <= j < i ==> key(rows[j]) != k
  {
    if rows == [] then None
    else if key(rows[0]) == k then Some(rows[0])
    else
      var r := FindFirst(rows[1..], key, k);
      assert forall i :: 1 <= i < |rows| ==> rows[i] == rows[1..][i - 1];
      if r.Some? then
        var i :| 0 <= i < |rows[1..]| && rows[1..][i] == r.value && key(rows[1..][i]) == k
                 && forall j :: 0 <= j < i ==> key(rows[1..][j]) != k;
        assert rows[i + 1] == r.value && forall j :: 0 <= j < i + 1 ==> key(rows[j]) != k;
        r
      else r
  }

  function GameName(g: Game): string { g.name }

  function VersionNumber(v: VersionRecord): string { v.version }

  /** The visibility rule: a private target needs a private remix by the
      target's owner, an internal target a remix that is not public. */
  function VisibilityCheck(target: Visibility, self: Visibility, sameOwner: bool): (r: Option<PublishError>)
    ensures r.None? <==>
      && (target == Private ==> self == Private && sameOwner)
      && (target == Internal ==> self != Public)
  {
    if target == Private && self != Private then Some(MustBePrivate)
    else if target == Private && !sameOwner then Some(ForeignPrivateTarget)
    else if target == Internal && self == Public then Some(MustNotBePublic)
    else None
  }

  /** `semver.compare(a, b) <= 0` on two version strings. */
  predicate AtMost(a: string, b: string) {
    SemVer.Parse(a).Some? && SemVer.Parse(b).Some? && SemVer.Compare(SemVer.Parse(a).value, SemVer.Parse(b).value) <= 0
  }

  /** `semver.lt(a, b)`. */
  predicate Older(a: string, b: string) {
    SemVer.Parse(a).Some? && SemVer.Parse(b).Some? && SemVer.Compare(SemVer.Parse(a).value, SemVer.Parse(b).value) < 0
  }

  /** The remix versions of the remixing versions, in row order. */
  function RemixedVersions(versions: seq<VersionRecord>): (r: seq<string>)
    ensures |r| <= |versions|
    ensures r == [] <==> forall i :: 0 <= i < |versions| ==> versions[i].remixOf.None?
    ensures forall i :: 0 <= i < |versions| && versions[i].remixOf.Some? ==> versions[i].remixOf.value.version in r
    ensures forall k :: 0 <= k < |r| ==> RemixesTo(versions, r[k])
  {
    if versions == [] then []
    else
      var head := if versions[0].remixOf.Some? then [versions[0].remixOf.value.version] else [];
      var rest := RemixedVersions(versions[1..]);
      assert forall i :: 1 <= i < |versions| ==> versions[i] == versions[1..][i - 1];
      forall k | 0 <= k < |rest| ensures RemixesTo(versions, rest[k]) {
        var i :| 0 <= i < |versions[1..]| && versions[1..][i].remixOf.Some? && versions[1..][i].remixOf.value.version == rest[k];
        assert versions[i + 1] == versions[1..][i];
      }
      assert forall k :: 0 <= k < |head| ==> versions[0].remixOf.Some? && head[k] == versions[0].remixOf.value.version;
      head + rest
  }

  /** Some version remixes version `x` of its target. */
  predicate RemixesTo(versions: seq<VersionRecord>, x: string) {
    exists i :: 0 <= i < |versions| && versions[i].remixOf.Some? && versions[i].remixOf.value.version == x
  }

  /** The head of the list sorted with `semver.rcompare`: the first of the
      highest versions. */
  function Latest(xs: seq<string>): (r: string)
    requires xs != []
    ensures r in xs
  {
    if |xs| == 1 then xs[0]
    else
      var m := Latest(xs[1..]);
      if AtMost(m, xs[0]) then xs[0] else m
  }

  /** `parseAndValidateRemix`: the target game and version must exist and
      be published, the visibility rule must hold, and a later version may
      not remix an older version than the latest one already remixed. */
  function ValidateRemix(game: Game, catalog: seq<Game>, self: Visibility, remix: RemixTarget): Result<RemixLink, PublishError> {
    match FindFirst(catalog, GameName, remix.name)
    case None => Err(TargetGameNotFound)
    case Some(target) =>
      match FindFirst(target.versions, VersionNumber, remix.version)
      case None => Err(TargetVersionNotFound)
      case Some(tv) =>
        if tv.status != Published then Err(TargetUnpublished)
        else
          match VisibilityCheck(tv.visibility, self, game.owner == target.owner)
          case Some(e) => Err(e)
          case None =>
            var remixed := RemixedVersions(game.versions);
            if game.versions != [] && remixed != [] && Older(remix.version, Latest(remixed)) then Err(OlderRemix)
            else Ok(RemixLink(target.id, target.name, remix.version))
  }

  // ----------------------------------------------------------------- publish

  datatype Publication = Publication(game: Game, uploadKey: string, expires: int, unknownCategories: seq<string>)

  /** The row `publishVersion` inserts: pending, with the manifest's
      fields, its authors as a list and only the categories the database
      knows. */
  function NewRecord(version: string, m: GameManifest, remix: Option<RemixLink>, known: set<string>): (r: VersionRecord)
    ensures r.version == version && r.status == Pending && r.remixOf == remix
    ensures r.authors == Catalog.AuthorList(m.authors)
    ensures r.categories == Catalog.KnownCategories(m.categories, known)
  {
    VersionRecord(version, m.displayName, m.description, m.visibility, Pending, remix,
      Catalog.AuthorList(m.authors), m.dependencies.GetOr([]), Catalog.KnownCategories(m.categories, known))
  }

  /** `publishVersion(version, manifest)` on `game`, with `catalog` the
      games the remix target is looked up in and `known` the category
      names the database holds. */
  function Publish(game: Game, catalog: seq<Game>, version: string, m: GameManifest, known: set<string>, now: int): (r: Result<Publication, PublishError>)
    ensures r.Ok? ==>
      && |r.value.game.versions| == |game.versions| + 1
      && r.value.game == game.(versions := r.value.game.versions)
      && r.value.game.versions[..|game.versions|] == game.versions
      && (var rec := r.value.game.versions[|game.versions|];
          && rec.version == version && rec.status == Pending
          && (rec.remixOf.Some? <==> m.remixOf.Some?)
          && (rec.remixOf.Some? ==> rec.remixOf.value.gameName == m.remixOf.value.name
                                    && rec.remixOf.value.version == m.remixOf.value.version)
          && rec.authors == Catalog.AuthorList(m.authors)
          && rec.categories == Catalog.KnownCategories(m.categories, known))
      && r.value.uploadKey == BuildKey(game.id, version)
      && r.value.expires == Catalog.UploadExpiresAsWritten(now)
      && r.value.unknownCategories == Catalog.UnknownCategories(m.categories, known)
  {
    if m.version.Some? && m.version.value != version then Err(VersionMismatch)
    else
      match CheckConsistency(game.versions, m.remixOf)
      case Some(e) => Err(e)
      case None =>
        var link :- if m.remixOf.Some? then
            var l :- ValidateRemix(game, catalog, m.visibility, m.remixOf.value);
            Ok(Some(l))
          else Ok(None);
        var rec := NewRecord(version, m, link, known);
        Ok(Publication(game.(versions := game.versions + [rec]), BuildKey(game.id, version),
          Catalog.UploadExpiresAsWritten(now), Catalog.UnknownCategories(m.categories, known)))
  }

  /** `publishVersion` with the expiry reported in milliseconds: the same
      outcome, except that the upload link's expiry is the one the listing
      gives its download links. */
  function PublishFixed(game: Game, catalog: seq<Game>, version: string, m: GameManifest, known: set<string>, now: int): (r: Result<Publication, PublishError>)
    ensures r.Err? <==> Publish(game, catalog, version, m, known, now).Err?
    ensures r.Err? ==> r == Publish(game, catalog, version, m, known, now)
    ensures r.Ok? ==>
      && r.value.game == Publish(game, catalog, version, m, known, now).value.game
      && r.value.uploadKey == BuildKey(game.id, version)
      && r.value.expires == Catalog.ContentsAt(r.value.uploadKey, now).expires
      && r.value.unknownCategories == Catalog.UnknownCategories(m.categories, known)
  {
    match Publish(game, catalog, version, m, known, now)
    case Err(e) => Err(e)
    case Ok(p) => Ok(p.(expires := Catalog.UploadExpires(now)))
  }

  /** As written, the upload link is reported to expire 3.6 seconds after
      publication, long before a download link of the same age would. */
  lemma PublishExpiresEarly(game: Game, catalog: seq<Game>, version: string, m: GameManifest, known: set<string>, now: int)
    requires Publish(game, catalog, version, m, known, now).Ok?
    ensures var p := Publish(game, catalog, version, m, known, now).value;
      && p.expires - now == Catalog.UrlLifetimeSeconds
      && p.expires < Catalog.ContentsAt(p.uploadKey, now).expires
      && p.expires < PublishFixed(game, catalog, version, m, known, now).value.expires
  {
    Catalog.UploadExpiryUnits(now);
  }

  /** No two records of a game share a version string. */
  predicate UniqueVersions(versions: seq<VersionRecord>) {
    forall i, j :: 0 <= i < j < |versions| ==> versions[i].version != versions[j].version
  }

  /** Publishing a version the game does not have yet keeps its versions
      distinct. */
  lemma PublishKeepsVersionsUnique(game: Game, catalog: seq<Game>, version: string, m: GameManifest, known: set<string>, now: int)
    requires UniqueVersions(game.versions)
    requires forall i :: 0 <= i < |game.versions| ==> game.versions[i].version != version
    requires Publish(game, catalog, version, m, known, now).Ok?
    ensures UniqueVersions(Publish(game, catalog, version, m, known, now).value.game.versions)
  {
    var vs := Publish(game, catalog, version, m, known, now).value.game.versions;
    forall i, j | 0 <= i < j < |vs| ensures vs[i].version != vs[j].version {
      assert vs[i] == game.versions[i];
      if j < |game.versions| { assert vs[j] == game.versions[j]; }
    }
  }

  // ----------------------------------------------------------------- listing

  datatype VersionView = VersionView(
    displayName: Option<string>,
    description: string,
    visibility: Visibility,
    version: string,
    authors: seq<Author>,
    dependencies: seq<Dependency>,
    categories: seq<string>,
    remixOf: Option<RemixLink>,
    contents: Option<Catalog.Contents>)

  datatype GameView = GameView(id: string, name: string, git: Catalog.GitUrls, owner: string, versions: seq<VersionView>)

  predicate Listed(v: VersionRecord, caller: Catalog.Caller, owner: string) {
    v.status == Published && Catalog.Shown(v.visibility, caller, owner)
  }

  function View(id: string, v: VersionRecord, withKeys: bool, now: int): VersionView {
    VersionView(v.displayName, v.description, v.visibility, v.version, v.authors, v.dependencies,
      v.categories, v.remixOf, if withKeys then Some(Catalog.ContentsAt(BuildKey(id, v.version), now)) else None)
  }

  /** The versions mapped and then filtered: hidden ones are dropped. */
  function Views(game: Game, versions: seq<VersionRecord>, caller: Catalog.Caller, withKeys: bool, now: int): (r: seq<VersionView>)
    ensures |r| <= |versions|
    ensures r == [] <==> forall i :: 0 <= i < |versions| ==> !Listed(versions[i], caller, game.owner)
  {
    if versions == [] then []
    else
      var rest := Views(game, versions[1..], caller, withKeys, now);
      assert forall i :: 1 <= i < |versions| ==> versions[i] == versions[1..][i - 1];
      (if Listed(versions[0], caller, game.owner) then [View(game.id, versions[0], withKeys, now)] else []) + rest
  }

  /** `intoResponse(auth, { withR2Key })`: nothing when no version is left. */
  function IntoResponse(game: Game, caller: Catalog.Caller, withKeys: bool, now: int): (r: Option<GameView>)
    ensures r.None? <==> forall i :: 0 <= i < |game.versions| ==> !Listed(game.versions[i], caller, game.owner)
    ensures r.Some? ==> r.value.id == game.id && r.value.name == game.name
    ensures r.Some? ==> r.value.git == Catalog.GitUrlsOf(game.repo) && r.value.owner == game.owner
    ensures r.Some? ==> r.value.versions == Views(game, game.versions, caller, withKeys, now)
  {
    var views := Views(game, game.versions, caller, withKeys, now);
    if |views| == 0 then None
    else Some(GameView(game.id, game.name, Catalog.GitUrlsOf(game.repo), game.owner, views))
  }

  // ------------------------------------------------------------------ lemmas

  /** The mismatch check comes first and fires exactly on a differing
      manifest version. */
  lemma PublishMismatch(game: Game, catalog: seq<Game>, version: string, m: GameManifest, known: set<string>, now: int)
    ensures Publish(game, catalog, version, m, known, now) == Err(VersionMismatch) <==>
      m.version.Some? && m.version.value != version
  {
  }

  /** Appending a record that agrees with every earlier one keeps a history
      uniform. */
  lemma AppendUniform(versions: seq<VersionRecord>, rec: VersionRecord)
    requires RemixUniform(versions)
    requires forall i :: 0 <= i < |versions| ==>
      && (versions[i].remixOf.Some? <==> rec.remixOf.Some?)
      && (rec.remixOf.Some? ==> versions[i].remixOf.value.gameName == rec.remixOf.value.gameName)
    ensures RemixUniform(versions + [rec])
  {
    var ws := versions + [rec];
    forall i, j | 0 <= i < |ws| && 0 <= j < |ws|
      ensures && (ws[i].remixOf.Some? <==> ws[j].remixOf.Some?)
              && (ws[i].remixOf.Some? && ws[j].remixOf.Some? ==>
                    ws[i].remixOf.value.gameName == ws[j].remixOf.value.gameName)
    {
      if i < |versions| { assert ws[i] == versions[i]; }
      if j < |versions| { assert ws[j] == versions[j]; }
    }
  }

  /** A published version keeps a game's remix history uniform. */
  lemma PublishKeepsRemixUniform(game: Game, catalog: seq<Game>, version: string, m: GameManifest, known: set<string>, now: int)
    requires RemixUniform(game.versions)
    requires Publish(game, catalog, version, m, known, now).Ok?
    ensures RemixUniform(Publish(game, catalog, version, m, known, now).value.game.versions)
  {
    var vs := Publish(game, catalog, version, m, known, now).value.game.versions;
    var rec := vs[|game.versions|];
    assert CheckConsistency(game.versions, m.remixOf).None?;
    if game.versions != [] {
      CheckConsistencyUniform(game.versions, m.remixOf);
    }
    assert vs == game.versions + [rec];
    AppendUniform(game.versions, rec);
  }

  predicate AllSemVer(xs: seq<string>) {
    forall i :: 0 <= i < |xs| ==> SemVer.IsSemVer(xs[i])
  }

  /** Every stored remix version is one the manifest schema accepted. */
  predicate RemixVersionsValid(versions: seq<VersionRecord>) {
    forall i :: 0 <= i < |versions| && versions[i].remixOf.Some? ==> SemVer.IsSemVer(versions[i].remixOf.value.version)
  }

  lemma AtMostTransitive(a: string, b: string, c: string)
    requires AtMost(a, b) && AtMost(b, c)
    ensures AtMost(a, c)
  {
    SemVer.CompareTransitive(SemVer.Parse(a).value, SemVer.Parse(b).value, SemVer.Parse(c).value);
  }

  /** Two parsed versions are ordered one way or the other. */
  lemma AtMostTotal(a: string, b: string)
    requires SemVer.IsSemVer(a) && SemVer.IsSemVer(b)
    ensures AtMost(a, b) || AtMost(b, a)
    ensures Older(a, b) <==> !AtMost(b, a)
  {
    SemVer.CompareAntisymmetric(SemVer.Parse(a).value, SemVer.Parse(b).value);
  }

  /** The head of the `rcompare` order is at least as high as every entry. */
  lemma {:induction false} LatestIsMax(xs: seq<string>)
    requires xs != [] && AllSemVer(xs)
    ensures forall i :: 0 <= i < |xs| ==> AtMost(xs[i], Latest(xs))
  {
    SemVer.CompareReflexive(SemVer.Parse(xs[0]).value);
    if |xs| > 1 {
      var m := Latest(xs[1..]);
      assert forall i :: 1 <= i < |xs| ==> xs[i] == xs[1..][i - 1];
      LatestIsMax(xs[1..]);
      if !AtMost(m, xs[0]) {
        AtMostTotal(m, xs[0]);
      } else {
        forall i | 1 <= i < |xs| ensures AtMost(xs[i], xs[0]) {
          AtMostTransitive(xs[i], m, xs[0]);
        }
      }
    }
  }

  /** Being older than the latest remixed version is being older than
      some remixed version. */
  lemma OlderThanLatest(req: string, xs: seq<string>)
    requires xs != [] && AllSemVer(xs) && SemVer.IsSemVer(req)
    ensures Older(req, Latest(xs)) <==> exists i :: 0 <= i < |xs| && Older(req, xs[i])
  {
    var l := Latest(xs);
    LatestIsMax(xs);
    if i :| 0 <= i < |xs| && Older(req, xs[i]) {
      AtMostTotal(req, xs[i]);
      AtMostTotal(req, l);
      if AtMost(l, req) {
        AtMostTransitive(xs[i], l, req);
      }
    }
  }

  /** Not older than the latest means at least as high as every entry. */
  lemma NotOlderThanAny(req: string, xs: seq<string>)
    requires xs != [] && AllSemVer(xs) && SemVer.IsSemVer(req)
    requires !Older(req, Latest(xs))
    ensures forall k :: 0 <= k < |xs| ==> AtMost(xs[k], req)
  {
    OlderThanLatest(req, xs);
    forall k | 0 <= k < |xs| ensures AtMost(xs[k], req) {
      AtMostTotal(req, xs[k]);
    }
  }

  lemma RemixedValid(versions: seq<VersionRecord>)
    requires RemixVersionsValid(versions)
    ensures AllSemVer(RemixedVersions(versions))
  {
    var xs := RemixedVersions(versions);
    forall j | 0 <= j < |xs| ensures SemVer.IsSemVer(xs[j]) {
      assert RemixesTo(versions, xs[j]);
    }
  }

  /** A publish that records a remix passed the remix checks. */
  lemma PublishValidatedRemix(game: Game, catalog: seq<Game>, version: string, m: GameManifest, known: set<string>, now: int)
    requires Publish(game, catalog, version, m, known, now).Ok? && m.remixOf.Some?
    ensures ValidateRemix(game, catalog, m.visibility, m.remixOf.value).Ok?
  {
  }

  /** The remix checks refuse a version older than one already remixed. */
  lemma ValidateRemixNotOlder(game: Game, catalog: seq<Game>, self: Visibility, remix: RemixTarget)
    requires ValidateRemix(game, catalog, self, remix).Ok?
    requires SemVer.IsSemVer(remix.version) && RemixVersionsValid(game.versions)
    ensures forall i :: 0 <= i < |game.versions| && game.versions[i].remixOf.Some? ==>
      AtMost(game.versions[i].remixOf.value.version, remix.version)
  {
    var xs := RemixedVersions(game.versions);
    if xs != [] {
      RemixedValid(game.versions);
      NotOlderThanAny(remix.version, xs);
      forall i | 0 <= i < |game.versions| && game.versions[i].remixOf.Some?
        ensures AtMost(game.versions[i].remixOf.value.version, remix.version)
      {
        assert game.versions[i].remixOf.value.version in xs;
      }
    }
  }

  /** A remix that passes may not be older than any version the game
      already remixes. */
  lemma PublishRemixNotOlder(game: Game, catalog: seq<Game>, version: string, m: GameManifest, known: set<string>, now: int)
    requires Publish(game, catalog, version, m, known, now).Ok?
    requires m.remixOf.Some? && SemVer.IsSemVer(m.remixOf.value.version)
    requires RemixVersionsValid(game.versions)
    ensures forall i :: 0 <= i < |game.versions| && game.versions[i].remixOf.Some? ==>
      AtMost(game.versions[i].remixOf.value.version, m.remixOf.value.version)
  {
    PublishValidatedRemix(game, catalog, version, m, known, now);
    ValidateRemixNotOlder(game, catalog, m.visibility, m.remixOf.value);
  }

  /** The remix checks, stated without the sort: the target exists, is
      published and visible enough, and no version already remixed is
      newer than the requested one. */
  predicate RemixAcceptable(game: Game, catalog: seq<Game>, self: Visibility, remix: RemixTarget) {
    && FindFirst(catalog, GameName, remix.name).Some?
    && var t := FindFirst(catalog, GameName, remix.name).value;
    && FindFirst(t.versions, VersionNumber, remix.version).Some?
    && var tv := FindFirst(t.versions, VersionNumber, remix.version).value;
    && tv.status == Published
    && (tv.visibility == Private ==> self == Private && game.owner == t.owner)
    && (tv.visibility == Internal ==> self != Public)
    && (forall i :: 0 <= i < |game.versions| && game.versions[i].remixOf.Some? ==>
          !Older(remix.version, game.versions[i].remixOf.value.version))
  }

  lemma NotOlderThanRemixed(game: Game, req: string)
    requires SemVer.IsSemVer(req) && RemixVersionsValid(game.versions)
    ensures var xs := RemixedVersions(game.versions);
      (xs != [] && Older(req, Latest(xs))) <==>
      exists i :: 0 <= i < |game.versions| && game.versions[i].remixOf.Some? && Older(req, game.versions[i].remixOf.value.version)
  {
    var xs := RemixedVersions(game.versions);
    if xs != [] {
      RemixedValid(game.versions);
      OlderThanLatest(req, xs);
      if k :| 0 <= k < |xs| && Older(req, xs[k]) {
        assert RemixesTo(game.versions, xs[k]);
      }
      if i :| 0 <= i < |game.versions| && game.versions[i].remixOf.Some? && Older(req, game.versions[i].remixOf.value.version) {
        assert game.versions[i].remixOf.value.version in xs;
      }
    }
  }

  /** `parseAndValidateRemix` accepts exactly the acceptable remixes. */
  lemma ValidateRemixAccepts(game: Game, catalog: seq<Game>, self: Visibility, remix: RemixTarget)
    requires SemVer.IsSemVer(remix.version) && RemixVersionsValid(game.versions)
    ensures ValidateRemix(game, catalog, self, remix).Ok? <==> RemixAcceptable(game, catalog, self, remix)
  {
    NotOlderThanRemixed(game, remix.version);
  }

  /** `setVersionStatus`: every row of the game with that version number
      takes the status; the result says whether any did. */
  datatype StatusUpdate = StatusUpdate(game: Game, updated: bool)

  function SetVersionStatus(game: Game, version: string, status: Status): (r: StatusUpdate)
    ensures r.updated <==> exists i :: 0 <= i < |game.versions| && game.versions[i].version == version
    ensures r.game == game.(versions := r.game.versions) && |r.game.versions| == |game.versions|
    ensures forall i :: 0 <= i < |game.versions| ==>
      r.game.versions[i] == if game.versions[i].version == version then game.versions[i].(status := status) else game.versions[i]
  {
    var vs := SetStatus(game.versions, version, status);
    StatusUpdate(game.(versions := vs), exists i :: 0 <= i < |game.versions| && game.versions[i].version == version)
  }

  function SetStatus(versions: seq<VersionRecord>, version: string, status: Status): (r: seq<VersionRecord>)
    ensures |r| == |versions|
    ensures forall i :: 0 <= i < |versions| ==>
      r[i] == if versions[i].version == version then versions[i].(status := status) else versions[i]
  {
    if versions == [] then []
    else
      [if versions[0].version == version then versions[0].(status := status) else versions[0]]
        + SetStatus(versions[1..], version, status)
  }

  /** Listed versions keep their order: the listing of two runs of
      versions is the listing of the first followed by that of the
      second. */
  lemma {:induction false} ViewsAppend(game: Game, a: seq<VersionRecord>, b: seq<VersionRecord>, caller: Catalog.Caller, withKeys: bool, now: int)
    ensures Views(game, a + b, caller, withKeys, now) == Views(game, a, caller, withKeys, now) + Views(game, b, caller, withKeys, now)
  {
    if a != [] {
      assert (a + b)[0] == a[0];
      assert (a + b)[1..] == a[1..] + b;
      ViewsAppend(game, a[1..], b, caller, withKeys, now);
    } else {
      assert a + b == b;
    }
  }

  /** A version is listed for a caller exactly when it is published and
      its visibility lets the caller see it. */
  lemma {:induction false} ViewsMembers(game: Game, versions: seq<VersionRecord>, caller: Catalog.Caller, withKeys: bool, now: int, v: VersionRecord)
    requires v in versions && Listed(v, caller, game.owner)
    ensures View(game.id, v, withKeys, now) in Views(game, versions, caller, withKeys, now)
  {
    if versions[0] != v {
      assert v in versions[1..];
      ViewsMembers(game, versions[1..], caller, withKeys, now, v);
    }
  }

  lemma {:induction false} ViewsOnlyListed(game: Game, versions: seq<VersionRecord>, caller: Catalog.Caller, withKeys: bool, now: int, w: VersionView)
    requires w in Views(game, versions, caller, withKeys, now)
    ensures exists i :: 0 <= i < |versions| && Listed(versions[i], caller, game.owner) && w == View(game.id, versions[i], withKeys, now)
  {
    var rest := Views(game, versions[1..], caller, withKeys, now);
    if w in rest {
      ViewsOnlyListed(game, versions[1..], caller, withKeys, now, w);
      var i :| 0 <= i < |versions[1..]| && Listed(versions[1..][i], caller, game.owner) && w == View(game.id, versions[1..][i], withKeys, now);
      assert versions[i + 1] == versions[1..][i];
    }
  }

  /** Publishing and then marking the version published lists it for its
      owner, with a download link to the very object the upload link
      writes. */
  lemma ReleasedVersionListed(game: Game, catalog: seq<Game>, version: string, m: GameManifest, known: set<string>, now: int, later: int)
    requires Publish(game, catalog, version, m, known, now).Ok?
    ensures var p := Publish(game, catalog, version, m, known, now).value;
      var released := SetVersionStatus(p.game, version, Published).game;
      && IntoResponse(released, Catalog.Recurser(game.owner), true, later).Some?
      && exists w :: w in IntoResponse(released, Catalog.Recurser(game.owner), true, later).value.versions
           && w.version == version && w.contents == Some(Catalog.Contents(p.uploadKey, later + 3600 * 1000))
  {
    var p := Publish(game, catalog, version, m, known, now).value;
    var n := |game.versions|;
    var released := SetVersionStatus(p.game, version, Published).game;
    var v := released.versions[n];
    assert v.status == Published && v.version == version;
    Catalog.ShownOrdering(v.visibility, Catalog.Recurser(game.owner), game.owner);
    assert Listed(v, Catalog.Recurser(game.owner), released.owner);
    ViewsMembers(released, released.versions, Catalog.Recurser(game.owner), true, later, v);
  }

  /** `publishVersion` succeeds exactly when the version matches, the
      remix choice agrees with every earlier version, and any remix is
      acceptable. */
  lemma PublishAccepts(game: Game, catalog: seq<Game>, version: string, m: GameManifest, known: set<string>, now: int)
    requires RemixUniform(game.versions) && RemixVersionsValid(game.versions)
    requires m.remixOf.Some? ==> SemVer.IsSemVer(m.remixOf.value.version)
    ensures Publish(game, catalog, version, m, known, now).Ok? <==>
      && (m.version.None? || m.version.value == version)
      && (forall i :: 0 <= i < |game.versions| ==>
            && (game.versions[i].remixOf.Some? <==> m.remixOf.Some?)
            && (m.remixOf.Some? ==> game.versions[i].remixOf.value.gameName == m.remixOf.value.name))
      && (m.remixOf.Some? ==> RemixAcceptable(game, catalog, m.visibility, m.remixOf.value))
  {
    if game.versions != [] {
      CheckConsistencyUniform(game.versions, m.remixOf);
    }
    if m.remixOf.Some? {
      ValidateRemixAccepts(game, catalog, m.visibility, m.remixOf.value);
    }
  }
}

=== FILE: game_host.dfy ===
/** The cabinet's main process as far as games go: the on-disk cache of
    game versions, the registry of per-game static servers keyed
    `gameId@version`, the route that serves a game's files, and the
    `load-game` / `unload-game` handlers.

    The file system is a set of directories (and which of them hold an
    extracted game); `fetch`, `findAvailablePort`, the abort controllers
    and the input-classic port are values handed in by the caller. Paths
    are lists of segments; `path.join` normalisation is not modelled. */
module GameHost {
  import opened Results
  import opened Text
  import Js

  type Path = seq<string>

  datatype Server = Server(port: nat, controller: nat, root: Path)

  /** `dirs` are the directories that exist, `populated` those a game was
      extracted into, `aborted` the controllers whose `abort()` ran and
      `inputSessions` the controllers of attached input-classic plugins. */
  datatype Host = Host(cacheDir: Path, dirs: set<Path>, populated: set<Path>,
                       servers: map<string, Server>, aborted: set<nat>, inputSessions: seq<nat>)

  datatype HostError = NoContentUrl | DownloadFailed(statusText: string) | ExtractFailed | MissingGameDir

  datatype Done<R> = Done(h: Host, result: Result<R, HostError>)

  /** `getCachePath`: `cacheDir/gameId/version`. */
  function CachePath(h: Host, gameId: string, version: string): (p: Path)
    ensures |p| == |h.cacheDir| + 2 && p[..|h.cacheDir|] == h.cacheDir
    ensures p[|h.cacheDir|] == gameId && p[|h.cacheDir| + 1] == version
  {
    h.cacheDir + [gameId, version]
  }

  /** `isGameCached`: the version's directory exists, whatever it holds. */
  predicate IsCached(h: Host, gameId: string, version: string) {
    CachePath(h, gameId, version) in h.dirs
  }

  /** How the `fetch` and the extraction went. */
  datatype Download = Download(ok: bool, hasBody: bool, statusText: string, extracted: bool)

  predicate Succeeds(d: Download) {
    d.ok && d.hasBody && d.extracted
  }

  function DownloadError(d: Download): HostError
    requires !Succeeds(d)
  {
    if !d.ok || !d.hasBody then DownloadFailed(d.statusText) else ExtractFailed
  }

  /** `downloadAndExtract` as written: the directory is created before the
      fetch, and stays when the fetch or the extraction fails. */
  function DownloadAsWritten(h: Host, d: Download, gameId: string, version: string): Done<()> {
    var path := CachePath(h, gameId, version);
    var h1 := h.(dirs := h.dirs + {path});
    if !Succeeds(d) then Done(h1, Err(DownloadError(d)))
    else Done(h1.(populated := h1.populated + {path}), Ok(()))
  }

  /** `downloadAndExtract` with the directory left in place only when the
      game was extracted into it. */
  function DownloadAndExtract(h: Host, d: Download, gameId: string, version: string): Done<()> {
    var path := CachePath(h, gameId, version);
    if !Succeeds(d) then Done(h, Err(DownloadError(d)))
    else Done(h.(dirs := h.dirs + {path}, populated := h.populated + {path}), Ok(()))
  }

  /** The registry key. */
  function ServerKey(gameId: string, version: string): string {
    gameId + "@" + version
  }

  /** `startGameServer`: the running server's port, or a new entry on the
      port `findAvailablePort` gave; `readdir` fails on a missing
      directory. */
  function StartGameServer(h: Host, gameId: string, version: string, controller: nat, port: nat): Done<nat> {
    var key := ServerKey(gameId, version);
    if key in h.servers then Done(h, Ok(h.servers[key].port))
    else if CachePath(h, gameId, version) !in h.dirs then Done(h, Err(MissingGameDir))
    else Done(h.(servers := h.servers[key := Server(port, controller, CachePath(h, gameId, version))]), Ok(port))
  }

  /** `unload-game`: close, abort and forget a running server. */
  function UnloadGame(h: Host, gameId: string, version: string): Host {
    var key := ServerKey(gameId, version);
    if key in h.servers then
      h.(servers := h.servers - {key}, aborted := h.aborted + {h.servers[key].controller})
    else h
  }

  // -------------------------------------------------------------- routes

  /** The text after the last `/`. */
  function Basename(p: string): (b: string)
    ensures '/' !in b && |b| <= |p| && b == p[|p| - |b|..]
  {
    var i := LastIndexOf(p, '/');
    AfterLast(p, '/', i + 1);
    p[i + 1..]
  }

  lemma AfterLast(s: string, c: char, from: nat)
    requires from <= |s|
    requires forall j :: from <= j < |s| ==> s[j] != c
    ensures c !in s[from..]
  {
  }

  lemma SliceKeepsOut(s: string, k: nat, c: char)
    requires k <= |s| && c !in s
    ensures c !in s[k..]
  {
    assert forall j :: 0 <= j < |s[k..]| ==> s[k..][j] == s[k + j];
  }

  /** The extension of one path segment: from its last `.`, unless that
      dot starts the segment or the segment is `..`. */
  function SegmentExt(b: string): (r: string)
    ensures r == "" || (r[0] == '.' && '.' !in r[1..])
    ensures |r| <= |b| && r == b[|b| - |r|..]
  {
    var k := LastIndexOf(b, '.');
    if k <= 0 || b == ".." then ""
    else
      AfterLast(b, '.', k + 1);
      assert b[k..][1..] == b[k + 1..];
      b[k..]
  }

  lemma SuffixOfSuffix(p: string, b: string, r: string)
    requires |b| <= |p| && b == p[|p| - |b|..]
    requires |r| <= |b| && r == b[|b| - |r|..]
    ensures r == p[|p| - |r|..]
  {
  }

  /** `path.extname` for a path without a trailing `/`. */
  function Extname(p: string): (r: string)
    ensures r == "" || (r[0] == '.' && '/' !in r && '.' !in r[1..])
    ensures |r| <= |p| && r == p[|p| - |r|..]
  {
    var b := Basename(p);
    var r := SegmentExt(b);
    SuffixOfSuffix(p, b, r);
    SliceKeepsOut(b, |b| - |r|, '/');
    r
  }

  /** The extension to content-type record of the route. */
  const MimeTypes: map<string, string> := map[
    ".html" := "text/html",
    ".js" := "application/javascript",
    ".css" := "text/css",
    ".json" := "application/json",
    ".png" := "image/png",
    ".jpg" := "image/jpeg",
    ".gif" := "image/gif",
    ".svg" := "image/svg+xml",
    ".wasm" := "application/wasm"
  ]

  const OctetStream: string := "application/octet-stream"

  /** `mimeTypes[ext] || 'application/octet-stream'`. */
  function MimeType(ext: string): string {
    if ext in MimeTypes then MimeTypes[ext] else OctetStream
  }

  /** A file is sent as octet-stream exactly when its extension is not in
      the table: no entry maps to octet-stream itself. */
  lemma MimeTypeDefault(ext: string)
    ensures MimeType(ext) == OctetStream <==> ext !in MimeTypes
  {
    assert OctetStream !in MimeTypes.Values;
  }

  function ContentType(filePath: string): string {
    MimeType(ToLowerAscii(Extname(filePath)))
  }

  datatype HttpResponse<C> = Body(status: nat, contentType: string, content: C) | Text(status: nat, text: string)

  /** The catch-all GET route over the game directory's files, keyed by their path
      from the directory: `/` serves `/index.html`, a file is sent with
      the content type of its extension, and anything unreadable is 404. */
  function Serve<C>(files: map<string, C>, reqPath: string): (r: HttpResponse<C>)
    ensures r.Body? <==> (if reqPath == "/" then "/index.html" else reqPath) in files
    ensures r.Body? ==> r.status == 200 && r.contentType == ContentType(if reqPath == "/" then "/index.html" else reqPath)
    ensures r.Text? ==> r.status == 404 && r.text == "Not Found"
  {
    var filePath := if reqPath == "/" then "/index.html" else reqPath;
    if filePath in files then Body(200, ContentType(filePath), files[filePath])
    else Text(404, "Not Found")
  }

  // ------------------------------------------------------------ load-game

  datatype Dependency = Dependency(name: string, version: string)

  datatype GameInfo = GameInfo(id: string, latestVersion: string, dependencies: seq<Dependency>)

  datatype Loaded = Loaded(url: string, structure: map<string, map<string, nat>>, ports: seq<nat>)

  const InputClassicName: string := "@rcade/input-classic"
  const InputClassicVersion: string := "1.0.0"

  predicate IsInputClassic(d: Dependency) {
    d.name == InputClassicName && d.version == InputClassicVersion
  }

  function FindDependency(deps: seq<Dependency>): (i: int)
    ensures -1 <= i < |deps|
    ensures i == -1 <==> forall j :: 0 <= j < |deps| ==> !IsInputClassic(deps[j])
    ensures i >= 0 ==> IsInputClassic(deps[i])
    decreases |deps|
  {
    if deps == [] then -1
    else if IsInputClassic(deps[0]) then 0
    else
      var j := FindDependency(deps[1..]);
      assert forall k :: 1 <= k < |deps| ==> deps[k] == deps[1..][k - 1];
      if j == -1 then -1 else j + 1
  }

  /** The plugin ports part of `load-game`, after the server is up: the
      input-classic plugin is attached, under the new controller, only
      when the game depends on exactly that name and version. */
  function AttachPlugins(h: Host, game: GameInfo, controller: nat, inputPort: nat, port: nat): Done<Loaded> {
    var url := "http://localhost:" + Js.IntToString(port);
    if FindDependency(game.dependencies) != -1 then
      Done(h.(inputSessions := h.inputSessions + [controller]),
           Ok(Loaded(url, map[InputClassicName := map[InputClassicVersion := 0]], [inputPort])))
    else Done(h, Ok(Loaded(url, map[], [])))
  }

  /** What `load-game` does once the game is on disk (or the download
      failed): start or reuse the server, attach the plugins. */
  function LoadAfterFetch(fetched: Done<()>, game: GameInfo, controller: nat, port: nat, inputPort: nat,
                          started: Done<nat>): Done<Loaded>
  {
    if fetched.result.Err? then Done(fetched.h, Err(fetched.result.error))
    else if started.result.Err? then Done(started.h, Err(started.result.error))
    else AttachPlugins(started.h, game, controller, inputPort, started.result.value)
  }

  /** `if (!contentUrl)`: a missing URL and the empty string are both
      falsy. */
  predicate Truthy(url: Option<string>) {
    url.Some? && url.value != ""
  }

  /** `load-game` as written: download when the version is not cached
      (with the freshly fetched content URL) through the mkdir-first
      `downloadAndExtract`, start or reuse the server, attach the
      plugins. */
  function LoadGame(h: Host, game: GameInfo, freshUrl: Option<string>, d: Download,
                    controller: nat, port: nat, inputPort: nat): Done<Loaded> {
    var fetched :=
      if IsCached(h, game.id, game.latestVersion) then Done(h, Ok(()))
      else if !Truthy(freshUrl) then Done(h, Err(NoContentUrl))
      else DownloadAsWritten(h, d, game.id, game.latestVersion);
    LoadAfterFetch(fetched, game, controller, port, inputPort,
                   StartGameServer(fetched.h, game.id, game.latestVersion, controller, port))
  }

  /** `startGameServer` for a reload that hands the running server over to
      the new session: the earlier controller is aborted and the new one
      recorded, so that `unload-game` ends the session that is running. */
  function StartGameServerFixed(h: Host, gameId: string, version: string, controller: nat, port: nat): Done<nat> {
    var key := ServerKey(gameId, version);
    if key in h.servers then
      var prev := h.servers[key];
      Done(h.(servers := h.servers[key := prev.(controller := controller)], aborted := h.aborted + {prev.controller}),
           Ok(prev.port))
    else StartGameServer(h, gameId, version, controller, port)
  }

  /** `load-game` with both corrections: the directory is created only on
      a successful download, and a reload takes the server over. */
  function LoadGameFixed(h: Host, game: GameInfo, freshUrl: Option<string>, d: Download,
                         controller: nat, port: nat, inputPort: nat): Done<Loaded> {
    var fetched :=
      if IsCached(h, game.id, game.latestVersion) then Done(h, Ok(()))
      else if !Truthy(freshUrl) then Done(h, Err(NoContentUrl))
      else DownloadAndExtract(h, d, game.id, game.latestVersion);
    LoadAfterFetch(fetched, game, controller, port, inputPort,
                   StartGameServerFixed(fetched.h, game.id, game.latestVersion, controller, port))
  }

  // --------------------------------------------------------------- lemmas

  /** Keys are unambiguous when game ids hold no `@`. */
  lemma ServerKeyInjective(a: string, b: string, c: string, d: string)
    requires '@' !in a && '@' !in c
    ensures ServerKey(a, b) == ServerKey(c, d) <==> a == c && b == d
  {
    if ServerKey(a, b) == ServerKey(c, d) {
      var s := ServerKey(a, b);
      IndexOfPrefix(a, '@', b);
      IndexOfPrefix(c, '@', d);
      assert s[..|a|] == a && s[|a| + 1..] == b;
      assert s[..|c|] == c && s[|c| + 1..] == d;
    }
  }

  /** Without that condition two different games share a key. */
  lemma ServerKeyCollides(x: string, y: string, z: string)
    ensures ServerKey(x + "@" + y, z) == ServerKey(x, y + "@" + z)
  {
  }

  /** A second start returns the first port and registers nothing; a
      first start registers exactly one entry. */
  lemma StartGameServerIdempotent(h: Host, gameId: string, version: string, c1: nat, p1: nat, c2: nat, p2: nat)
    requires IsCached(h, gameId, version)
    ensures var first := StartGameServer(h, gameId, version, c1, p1);
      && first.result.Ok?
      && var second := StartGameServer(first.h, gameId, version, c2, p2);
      && second == Done(first.h, first.result)
      && (ServerKey(gameId, version) !in h.servers ==>
            first.result.value == p1
            && first.h.servers == h.servers[ServerKey(gameId, version) := Server(p1, c1, CachePath(h, gameId, version))])
  {
  }

  /** Unloading forgets exactly the game's server and aborts exactly its
      controller; unloading a game that does not run changes nothing. */
  lemma UnloadGameRemoves(h: Host, gameId: string, version: string)
    ensures var key := ServerKey(gameId, version);
      var h' := UnloadGame(h, gameId, version);
      && key !in h'.servers
      && (forall k :: k != key ==> (k in h'.servers <==> k in h.servers))
      && (forall k :: k != key && k in h.servers ==> h'.servers[k] == h.servers[k])
      && (key in h.servers ==> h'.aborted == h.aborted + {h.servers[key].controller})
      && (key !in h.servers ==> h' == h)
  {
  }

  /** Starting and then unloading a game that did not run aborts the
      controller it was started with and leaves the registry as before. */
  lemma StartThenUnload(h: Host, gameId: string, version: string, controller: nat, port: nat)
    requires IsCached(h, gameId, version) && ServerKey(gameId, version) !in h.servers
    ensures var started := StartGameServer(h, gameId, version, controller, port);
      var h' := UnloadGame(started.h, gameId, version);
      h'.servers == h.servers && h'.aborted == h.aborted + {controller}
  {
    var key := ServerKey(gameId, version);
    var started := StartGameServer(h, gameId, version, controller, port);
    assert started.h.servers - {key} == h.servers;
  }

  /** A failed download as written leaves the version looking cached, so
      the next `load-game` skips the download and serves the empty
      directory. */
  lemma FailedDownloadStillCached(h: Host, d: Download, game: GameInfo, url: Option<string>, d2: Download,
                                  controller: nat, port: nat, inputPort: nat)
    requires h.populated <= h.dirs
    requires !Succeeds(d) && !IsCached(h, game.id, game.latestVersion)
    requires ServerKey(game.id, game.latestVersion) !in h.servers
    ensures var failed := DownloadAsWritten(h, d, game.id, game.latestVersion);
      && failed.result.Err?
      && IsCached(failed.h, game.id, game.latestVersion)
      && CachePath(h, game.id, game.latestVersion) !in failed.h.populated
      && var next := LoadGame(failed.h, game, url, d2, controller, port, inputPort);
      && next.result.Ok?
      && next.h.servers[ServerKey(game.id, game.latestVersion)].root !in next.h.populated
  {
    var failed := DownloadAsWritten(h, d, game.id, game.latestVersion);
    var path := CachePath(h, game.id, game.latestVersion);
    assert CachePath(failed.h, game.id, game.latestVersion) == path;
  }

  /** The same through `load-game` twice: the first load of an uncached
      version, given a non-empty content URL, fails on the download, and
      the second one, with or without a content URL, takes the cached path
      and serves an empty directory. */
  lemma FailedLoadThenCachedLoad(h: Host, game: GameInfo, url: string, d: Download, url2: Option<string>, d2: Download,
                                 c1: nat, c2: nat, p1: nat, p2: nat, inputPort: nat)
    requires h.populated <= h.dirs && url != ""
    requires !Succeeds(d) && !IsCached(h, game.id, game.latestVersion)
    requires ServerKey(game.id, game.latestVersion) !in h.servers
    ensures var first := LoadGame(h, game, Some(url), d, c1, p1, inputPort);
      && first.result == Err(DownloadError(d))
      && IsCached(first.h, game.id, game.latestVersion)
      && var second := LoadGame(first.h, game, url2, d2, c2, p2, inputPort);
      && second.result.Ok?
      && second.h.servers[ServerKey(game.id, game.latestVersion)].root == CachePath(h, game.id, game.latestVersion)
      && CachePath(h, game.id, game.latestVersion) !in second.h.populated
  {
    var first := LoadGame(h, game, Some(url), d, c1, p1, inputPort);
    assert first.h == DownloadAsWritten(h, d, game.id, game.latestVersion).h;
    assert CachePath(first.h, game.id, game.latestVersion) == CachePath(h, game.id, game.latestVersion);
  }

  /** With the directory created only on success, a failed download
      leaves nothing behind, and a cached version always holds a game. */
  lemma DownloadAndExtractKeepsCache(h: Host, d: Download, gameId: string, version: string)
    requires h.dirs <= h.populated
    ensures var r := DownloadAndExtract(h, d, gameId, version);
      && r.h.dirs <= r.h.populated
      && (r.result.Err? <==> !Succeeds(d))
      && (r.result.Err? ==> r.h == h)
      && (r.result.Ok? ==> IsCached(r.h, gameId, version))
  {
  }

  /** Every existing directory holds an extracted game, and every server
      serves one. */
  predicate Consistent(h: Host) {
    && h.dirs <= h.populated
    && forall k :: k in h.servers ==> h.servers[k].root in h.populated
  }

  /** The corrected `load-game` keeps the cache consistent, yields a
      running server for the game over an extracted game, attaches the
      input-classic plugin iff the game depends on exactly version 1.0.0
      of it, never fails for a cached game, and leaves the host unchanged
      when the download fails, so the next load downloads again. */
  lemma LoadGameServes(h: Host, game: GameInfo, url: Option<string>, d: Download,
                       controller: nat, port: nat, inputPort: nat)
    requires Consistent(h)
    ensures var r := LoadGameFixed(h, game, url, d, controller, port, inputPort);
      && Consistent(r.h)
      && (IsCached(h, game.id, game.latestVersion) ==> r.result.Ok?)
      && (r.result.Ok? ==>
            && ServerKey(game.id, game.latestVersion) in r.h.servers
            && r.h.servers[ServerKey(game.id, game.latestVersion)].root in r.h.populated
            && (r.result.value.ports != [] <==> exists j :: 0 <= j < |game.dependencies| && IsInputClassic(game.dependencies[j]))
            && |r.result.value.ports| <= 1)
      && (r.result.Err? ==> r.h == h && !IsCached(r.h, game.id, game.latestVersion))
      && (!IsCached(h, game.id, game.latestVersion) && (url.None? || url == Some("")) ==> r == Done(h, Err(NoContentUrl)))
      && (!IsCached(h, game.id, game.latestVersion) && r.result.Err? && r.result.error == NoContentUrl ==> !Truthy(url))
  {
  }

  /** The load as written gives the same answers about the server and the
      plugins; only what it leaves on disk differs. */
  lemma LoadGameRegisters(h: Host, game: GameInfo, url: Option<string>, d: Download,
                          controller: nat, port: nat, inputPort: nat)
    ensures var r := LoadGame(h, game, url, d, controller, port, inputPort);
      && (IsCached(h, game.id, game.latestVersion) ==> r.result.Ok?)
      && (r.result.Ok? ==>
            && ServerKey(game.id, game.latestVersion) in r.h.servers
            && (r.result.value.ports != [] <==> exists j :: 0 <= j < |game.dependencies| && IsInputClassic(game.dependencies[j]))
            && |r.result.value.ports| <= 1)
      && (!IsCached(h, game.id, game.latestVersion) && (url.None? || url == Some("")) ==> r == Done(h, Err(NoContentUrl)))
      && (!IsCached(h, game.id, game.latestVersion) && r.result.Err? && r.result.error == NoContentUrl ==> !Truthy(url))
  {
  }

  /** A second `load-game` of a running game attaches its input plugin
      under the new controller, but the registry keeps the first one, so
      `unload-game` does not abort the new session. */
  lemma ReloadKeepsFirstController(h: Host, game: GameInfo, url: Option<string>, d: Download,
                                   controller: nat, port: nat, inputPort: nat)
    requires ServerKey(game.id, game.latestVersion) in h.servers
    requires controller !in h.aborted && h.servers[ServerKey(game.id, game.latestVersion)].controller != controller
    requires IsCached(h, game.id, game.latestVersion)
    requires FindDependency(game.dependencies) != -1
    ensures var r := LoadGame(h, game, url, d, controller, port, inputPort);
      var h' := UnloadGame(r.h, game.id, game.latestVersion);
      && controller in r.h.inputSessions
      && controller !in h'.aborted
  {
  }

  /** With the server handed over on reload, the earlier session is
      aborted at once, the same port is returned, and `unload-game` then
      aborts the session started by the latest load. */
  lemma ReloadAbortsNewest(h: Host, game: GameInfo, url: Option<string>, d: Download,
                           controller: nat, port: nat, inputPort: nat)
    requires ServerKey(game.id, game.latestVersion) in h.servers
    requires IsCached(h, game.id, game.latestVersion)
    ensures var key := ServerKey(game.id, game.latestVersion);
      var r := LoadGameFixed(h, game, url, d, controller, port, inputPort);
      var h' := UnloadGame(r.h, game.id, game.latestVersion);
      && r.result.Ok? && r.result.value.url == "http://localhost:" + Js.IntToString(h.servers[key].port)
      && h.servers[key].controller in r.h.aborted
      && r.h.servers[key].controller == controller
      && controller in h'.aborted
      && key !in h'.servers
  {
  }

  /** The content type depends only on the extension, case-insensitively. */
  lemma ContentTypeIgnoresCase(p: string)
    ensures ContentType(ToLowerAscii(p)) == ContentType(p)
  {
    var e := ToLowerAscii(Extname(ToLowerAscii(p)));
    assert e == ToLowerAscii(Extname(p)) by {
      LowerKeepsSeparators(p);
      ToLowerIdempotent(Extname(p));
    }
  }

  lemma LowerLastIndex(s: string, c: char)
    requires c == '/' || c == '.'
    ensures LastIndexOf(ToLowerAscii(s), c) == LastIndexOf(s, c)
    decreases |s|
  {
    if s != [] {
      assert ToLowerAscii(s)[..|s| - 1] == ToLowerAscii(s[..|s| - 1]);
      LowerLastIndex(s[..|s| - 1], c);
    }
  }

  lemma LowerSlice(s: string, i: nat)
    requires i <= |s|
    ensures ToLowerAscii(s)[i..] == ToLowerAscii(s[i..])
  {
  }

  lemma LowerBasename(p: string)
    ensures Basename(ToLowerAscii(p)) == ToLowerAscii(Basename(p))
  {
    LowerLastIndex(p, '/');
    LowerSlice(p, LastIndexOf(p, '/') + 1);
  }

  lemma LowerDotDot(b: string)
    ensures (ToLowerAscii(b) == "..") == (b == "..")
  {
    if |b| == 2 {
      assert ToLowerAscii(b)[0] == LowerChar(b[0]) && ToLowerAscii(b)[1] == LowerChar(b[1]);
    }
  }

  lemma LowerKeepsSeparators(p: string)
    ensures Extname(ToLowerAscii(p)) == ToLowerAscii(Extname(p))
  {
    var b := Basename(p);
    LowerBasename(p);
    LowerSegmentExt(b);
  }

  lemma LowerSegmentExt(b: string)
    ensures SegmentExt(ToLowerAscii(b)) == ToLowerAscii(SegmentExt(b))
  {
    LowerLastIndex(b, '.');
    LowerDotDot(b);
    var k := LastIndexOf(b, '.');
    if k > 0 {
      LowerSlice(b, k);
    }
  }

  lemma ToLowerIdempotent(s: string)
    ensures ToLowerAscii(ToLowerAscii(s)) == ToLowerAscii(s)
  {
  }
}

=== FILE: game_version.dfy ===
/** The client-side view of one listed game version
    (api/src/game/version.ts): accessors over the listing entry and the
    download link, which is withheld once its expiry has passed. The
    clock `Date.now()` is the parameter `now`. */
module GameVersion {
  import opened Results
  import opened Manifests
  import Catalog
  import GameCatalog

  datatype GameVersion = GameVersion(gameId: string, response: GameCatalog.VersionView)

  function FromApiResponse(gameId: string, response: GameCatalog.VersionView): GameVersion {
    GameVersion(gameId, response)
  }

  function Version(g: GameVersion): string {
    g.response.version
  }

  function Dependencies(g: GameVersion): seq<Dependency> {
    g.response.dependencies
  }

  function Authors(g: GameVersion): seq<Author> {
    g.response.authors
  }

  function DisplayName(g: GameVersion): Option<string> {
    g.response.displayName
  }

  /** `contentUrl()`: nothing without a `contents` entry, nothing once
      `now` is past its expiry, else its link. */
  function ContentUrl(g: GameVersion, now: int): (r: Option<string>)
    ensures r.Some? ==> g.response.contents.Some? && r.value == g.response.contents.value.key
  {
    match g.response.contents
    case None => None
    case Some(c) => if now > c.expires then None else Some(c.key)
  }

  /** Once the link is withheld it stays withheld, and until then it does
      not change. */
  lemma ContentUrlExpires(g: GameVersion, t1: int, t2: int)
    requires t1 <= t2
    ensures ContentUrl(g, t2).Some? ==> ContentUrl(g, t1) == ContentUrl(g, t2)
    ensures ContentUrl(g, t1).None? ==> ContentUrl(g, t2).None?
  {
  }

  /** A version listed with download links at time `t` hands out the
      build's key for exactly one URL lifetime, the 3600 seconds the
      signature is valid, and nothing afterwards. */
  lemma ListedLinkLifetime(id: string, v: GameCatalog.VersionRecord, t: int, now: int)
    ensures var g := FromApiResponse(id, GameCatalog.View(id, v, true, t));
      ContentUrl(g, now) == (if now <= t + Catalog.UrlLifetimeSeconds * Catalog.MillisPerSecond
                             then Some(GameCatalog.BuildKey(id, v.version)) else None)
  {
  }

  /** A listing without download links never yields one. */
  lemma UnsignedListingHasNoLink(id: string, v: GameCatalog.VersionRecord, t: int, now: int)
    ensures ContentUrl(FromApiResponse(id, GameCatalog.View(id, v, false, t)), now).None?
  {
  }

  /** The accessors return the stored version's fields unchanged. */
  lemma AccessorsOfListed(id: string, v: GameCatalog.VersionRecord, withKeys: bool, t: int)
    ensures var g := FromApiResponse(id, GameCatalog.View(id, v, withKeys, t));
      && Version(g) == v.version
      && Dependencies(g) == v.dependencies
      && Authors(g) == v.authors
      && DisplayName(g) == v.displayName
  {
  }
}

=== FILE: input_plugin.dfy ===
/** The input-classic plugin on the cabinet side: the keyboard map, the
    `before-input-event` handler that turns a key event into a controller
    message, and the plugin's `start`/`stop` (the `InputClassicPlugin`
    class) or abort-signal teardown (the cabinet's own `rcadeInputClassic`).

    The game's web contents is reduced to its list of
    `before-input-event` listeners; each listener is a fresh closure,
    identified by a number, that posts on the port it captured. Ports are
    opaque numbers. The posted object is the consumers' `Message`, whose
    `delta` field (read only for spinner messages) is 0 here. */
module InputPlugin {
  import opened Results
  import Js
  import opened ClassicLayout

  /** One `MAP` value: `{type, player, button}`. */
  datatype Mapping = Mapping(kind: string, player: int, button: string)

  /** One `MAP` entry, keyed by `KeyboardEvent.code`. */
  datatype Binding = Binding(code: string, mapping: Mapping)

  function Button(player: int, button: string): Mapping {
    Mapping("button", player, button)
  }

  function System(button: string): Mapping {
    Mapping("system", 0, button)
  }

  /** `MAP` of the plugin package, in source order. */
  const Bindings: seq<Binding> := [
    Binding("ArrowUp", Button(1, "UP")),
    Binding("ArrowDown", Button(1, "DOWN")),
    Binding("ArrowLeft", Button(1, "LEFT")),
    Binding("ArrowRight", Button(1, "RIGHT")),
    Binding("ControlLeft", Button(1, "A")),
    Binding("AltLeft", Button(1, "B")),
    Binding("KeyR", Button(2, "UP")),
    Binding("KeyF", Button(2, "DOWN")),
    Binding("KeyD", Button(2, "LEFT")),
    Binding("KeyG", Button(2, "RIGHT")),
    Binding("KeyA", Button(2, "A")),
    Binding("KeyS", Button(2, "B")),
    Binding("Digit1", System("ONE_PLAYER")),
    Binding("Digit2", System("TWO_PLAYER"))
  ]

  /** `MAP` of the cabinet's built-in copy, in source order. */
  const CabinetBindings: seq<Binding> := [
    Binding("ArrowUp", Button(1, "UP")),
    Binding("ArrowDown", Button(1, "DOWN")),
    Binding("ArrowLeft", Button(1, "LEFT")),
    Binding("ArrowRight", Button(1, "RIGHT")),
    Binding("ControlLeft", Button(1, "A")),
    Binding("AltLeft", Button(1, "B")),
    Binding("KeyR", Button(2, "UP")),
    Binding("KeyF", Button(2, "DOWN")),
    Binding("KeyD", Button(2, "LEFT")),
    Binding("KeyG", Button(2, "RIGHT")),
    Binding("KeyA", Button(2, "A")),
    Binding("KeyS", Button(2, "B")),
    Binding("Digit1", System("ONE_PLAYER")),
    Binding("Digit2", System("TWO_PLAYER"))
  ]

  /** The flag each entry of `Bindings` addresses in the shared-memory
      layout, entry by entry. */
  const BindingFlags: seq<nat> := [
    Player1Up, Player1Down, Player1Left, Player1Right, Player1A, Player1B,
    Player2Up, Player2Down, Player2Left, Player2Right, Player2A, Player2B,
    SystemOnePlayer, SystemTwoPlayer
  ]

  predicate CodesDistinct(table: seq<Binding>) {
    forall i, j :: 0 <= i < j < |table| ==> table[i].code != table[j].code
  }

  /** `MAP[code]`: the first entry with that code (an object literal has
      one per key). */
  function Lookup(table: seq<Binding>, code: string): (r: Option<Mapping>)
    ensures r.None? <==> forall i :: 0 <= i < |table| ==> table[i].code != code
    ensures r.Some? ==> exists i :: 0 <= i < |table| && table[i] == Binding(code, r.value)
  {
    if table == [] then None
    else if table[0].code == code then Some(table[0].mapping)
    else
      var r := Lookup(table[1..], code);
      assert r.Some? ==> exists i :: 0 <= i < |table| && table[i] == Binding(code, r.value) by {
        if r.Some? {
          var i :| 0 <= i < |table[1..]| && table[1..][i] == Binding(code, r.value);
          assert table[i + 1] == table[1..][i];
        }
      }
      r
  }

  /** `{...mapping, pressed}`. */
  function ToMessage(mapping: Mapping, pressed: bool): Message {
    Message(Js.Str(mapping.kind), Js.Number(mapping.player), Js.Str(mapping.button), Js.Bool(pressed), 0)
  }

  /** `handleInput` (and the cabinet's handler): the message posted for one
      key event, if any. */
  function HandleInput(table: seq<Binding>, code: string, inputType: string): Option<Message> {
    match Lookup(table, code)
    case None => None
    case Some(mapping) => Some(ToMessage(mapping, inputType == "keyDown"))
  }

  // ------------------------------------------------------------- listeners

  /** A `before-input-event` listener: a closure posting on `port`. */
  datatype Listener = Listener(id: nat, port: nat)

  /** The game's web contents: its `before-input-event` listeners in
      registration order, and the next closure identity. */
  datatype Web = Web(listeners: seq<Listener>, nextId: nat)

  predicate Fresh(w: Web) {
    forall i :: 0 <= i < |w.listeners| ==> w.listeners[i].id < w.nextId
  }

  /** `on("before-input-event", handler)`: a new closure, appended. */
  function On(w: Web, port: nat): (w': Web)
    ensures w'.listeners == w.listeners + [Listener(w.nextId, port)]
    ensures Fresh(w) ==> Fresh(w')
  {
    Web(w.listeners + [Listener(w.nextId, port)], w.nextId + 1)
  }

  /** Index of the last listener with identity `id`, or -1. */
  function LastIndex(ls: seq<Listener>, id: nat): (i: int)
    ensures -1 <= i < |ls|
    ensures i >= 0 ==> ls[i].id == id
    ensures forall j :: i < j < |ls| ==> ls[j].id != id
  {
    if ls == [] then -1
    else if ls[|ls| - 1].id == id then |ls| - 1
    else LastIndex(ls[..|ls| - 1], id)
  }

  /** `off("before-input-event", handler)`: removes the most recently added
      registration of that closure, if any. Node's `removeListener` throws
      on an `undefined` listener instead; `stop` never passes one (see
      `FieldsPaired`), and the model returns the listeners unchanged for
      that case. */
  function Off(w: Web, handler: Option<nat>): (w': Web)
    ensures w'.nextId == w.nextId
    ensures handler.None? ==> w' == w
  {
    if handler.None? then w
    else
      var i := LastIndex(w.listeners, handler.value);
      if i < 0 then w else w.(listeners := w.listeners[..i] + w.listeners[i + 1..])
  }

  /** A message posted on a port. */
  datatype Post = Post(port: nat, msg: Message)

  /** Every listener handles the key event, in registration order. */
  function Dispatch(table: seq<Binding>, ls: seq<Listener>, code: string, inputType: string): (r: seq<Post>)
  {
    if ls == [] then []
    else
      (match HandleInput(table, code, inputType)
       case None => []
       case Some(msg) => [Post(ls[0].port, msg)])
      + Dispatch(table, ls[1..], code, inputType)
  }

  // ---------------------------------------------------- the plugin class

  /** `InputClassicPlugin`: the handler and environment fields. The
      environment is reduced to the port it hands out. */
  datatype Plugin = Plugin(handler: Option<nat>, environment: Option<nat>)

  const NewPlugin: Plugin := Plugin(None, None)

  datatype Placed = Placed(p: Plugin, w: Web)

  /** `start(environment)`: store a new closure over the environment's port
      and register it. */
  function Start(p: Plugin, w: Web, port: nat): (r: Placed)
    ensures r.w == On(w, port)
    ensures r.p == Plugin(Some(w.nextId), Some(port))
  {
    Placed(Plugin(Some(w.nextId), Some(port)), On(w, port))
  }

  /** `stop()`: unregister the stored closure if an environment is set,
      then clear both fields. */
  function Stop(p: Plugin, w: Web): (r: Placed)
    ensures r.p == NewPlugin
    ensures p.environment.None? ==> r.w == w
  {
    Placed(NewPlugin, if p.environment.Some? then Off(w, p.handler) else w)
  }

  /** The handler and the environment are set and cleared together, so
      `stop` calls `off` only with a closure it registered. */
  predicate Paired(p: Plugin) {
    p.handler.Some? <==> p.environment.Some?
  }

  lemma FieldsPaired(p: Plugin, w: Web, port: nat)
    ensures Paired(NewPlugin)
    ensures Paired(Start(p, w, port).p) && Paired(Stop(p, w).p)
  {
  }

  /** `start` that first stops a running instance: what `stop` needs for
      every registration to be undone. */
  function Restart(p: Plugin, w: Web, port: nat): (r: Placed)
    ensures r.p == Plugin(Some(Stop(p, w).w.nextId), Some(port))
  {
    var s := Stop(p, w);
    Start(s.p, s.w, port)
  }

  /** The listeners a plugin owns on top of `base`: none when stopped, its
      one closure when started. */
  predicate Owns(p: Plugin, w: Web, base: seq<Listener>) {
    && Fresh(w)
    && (p.handler.None? <==> p.environment.None?)
    && (p.handler.None? ==> w.listeners == base)
    && (p.handler.Some? ==>
          w.listeners == base + [Listener(p.handler.value, p.environment.value)]
          && forall i :: 0 <= i < |base| ==> base[i].id != p.handler.value)
  }

  // ------------------------------------------- the cabinet's built-in copy

  /** One `rcadeInputClassic` call: the registered closure, the two ends
      of its channel and whether the abort signal has fired. */
  datatype Session = Session(handler: nat, port1: nat, port2: nat, aborted: bool)

  datatype Attached = Attached(w: Web, s: Session)

  /** `rcadeInputClassic(web, aborter)`: a new channel (`port1`, `port2`),
      a closure posting on `port1` registered on the web contents; the
      caller gets `port2`. */
  function Attach(w: Web, nextPort: nat): (r: Attached)
    ensures r.w == On(w, nextPort)
    ensures r.s == Session(w.nextId, nextPort, nextPort + 1, false)
  {
    Attached(On(w, nextPort), Session(w.nextId, nextPort, nextPort + 1, false))
  }

  /** The signal's `abort` event: the `{once: true}` listener unregisters
      the closure; a signal aborts at most once. */
  function Abort(w: Web, s: Session): (r: Attached)
    ensures r.s.aborted
  {
    if s.aborted then Attached(w, s)
    else Attached(Off(w, Some(s.handler)), s.(aborted := true))
  }

  // ---------------------------------------------------------------- lemmas

  /** `MAP` has 14 entries: six per player and two system keys. */
  lemma BindingsShape()
    ensures |Bindings| == 14
    ensures forall i :: 0 <= i < 6 ==> Bindings[i].mapping.kind == "button" && Bindings[i].mapping.player == 1
    ensures forall i :: 6 <= i < 12 ==> Bindings[i].mapping.kind == "button" && Bindings[i].mapping.player == 2
    ensures forall i :: 12 <= i < 14 ==> Bindings[i].mapping.kind == "system"
  {
  }

  /** Length and last character of a non-empty code. */
  function Signature(code: string): int
    requires |code| > 0
  {
    |code| * 0x1_0000 + code[|code| - 1] as int
  }

  const BindingSignatures: seq<int> := [
    7 * 0x1_0000 + 'p' as int, 9 * 0x1_0000 + 'n' as int, 9 * 0x1_0000 + 't' as int,
    10 * 0x1_0000 + 't' as int, 11 * 0x1_0000 + 't' as int, 7 * 0x1_0000 + 't' as int,
    4 * 0x1_0000 + 'R' as int, 4 * 0x1_0000 + 'F' as int, 4 * 0x1_0000 + 'D' as int,
    4 * 0x1_0000 + 'G' as int, 4 * 0x1_0000 + 'A' as int, 4 * 0x1_0000 + 'S' as int,
    6 * 0x1_0000 + '1' as int, 6 * 0x1_0000 + '2' as int
  ]

  /** No two entries of `MAP` share a code. The proof computes, for each
      entry, a number from the code's length and last character
      (`Signature`); the fourteen numbers are pairwise different, so the
      codes are too. */
  lemma BindingCodesDistinct()
    ensures CodesDistinct(Bindings)
  {
    forall i | 0 <= i < |Bindings|
      ensures |Bindings[i].code| > 0 && Signature(Bindings[i].code) == BindingSignatures[i]
    {
    }
    forall i, j | 0 <= i < j < |Bindings|
      ensures Bindings[i].code != Bindings[j].code
    {
      assert BindingSignatures[i] != BindingSignatures[j];
    }
  }

  /** The cabinet's copy of the map is the plugin package's map, so the two
      handlers post the same messages. */
  lemma CabinetMapIsPluginMap(code: string, inputType: string)
    ensures CabinetBindings == Bindings
    ensures HandleInput(CabinetBindings, code, inputType) == HandleInput(Bindings, code, inputType)
  {
  }

  /** A mapped code posts exactly its mapping with `pressed` set to
      whether the event is a key-down; an unmapped code posts nothing. */
  lemma HandleInputSpec(table: seq<Binding>, code: string, inputType: string, i: nat)
    requires CodesDistinct(table)
    requires i < |table| && table[i].code == code
    ensures HandleInput(table, code, inputType) == Some(ToMessage(table[i].mapping, inputType == "keyDown"))
  {
    var r := Lookup(table, code);
    var j :| 0 <= j < |table| && table[j] == Binding(code, r.value);
    assert j == i;
  }

  lemma UnmappedPostsNothing(table: seq<Binding>, code: string, inputType: string)
    requires forall i :: 0 <= i < |table| ==> table[i].code != code
    ensures HandleInput(table, code, inputType).None?
  {
  }

  /** Every key addresses its own flag of the shared-memory layout: the
      consumers' offset table maps the message of entry `i` to
      `BindingFlags[i]`; the 14 flags are distinct and are every flag but
      `CONNECTED`. */
  lemma BindingsAddressFlags(pressed: bool)
    ensures forall i :: 0 <= i < |Bindings| ==>
      FlagOffset(ToMessage(Bindings[i].mapping, pressed)) == Some(BindingFlags[i])
    ensures forall i, j :: 0 <= i < j < |BindingFlags| ==> BindingFlags[i] != BindingFlags[j]
    ensures forall f :: f in BindingFlags <==> Connected < f < FlagCount
  {
    forall i | 0 <= i < |Bindings|
      ensures FlagOffset(ToMessage(Bindings[i].mapping, pressed)) == Some(BindingFlags[i])
    {
      BindingFlag(i, pressed);
    }
    FlagsCover();
  }

  /** `BindingFlags` is 1, 2, ..., 14 in another order. */
  lemma FlagsCover()
    ensures forall i, j :: 0 <= i < j < |BindingFlags| ==> BindingFlags[i] != BindingFlags[j]
    ensures forall f :: f in BindingFlags <==> Connected < f < FlagCount
  {
    forall i | 0 <= i < |BindingFlags|
      ensures BindingFlags[i] == if i < 12 then i + 3 else i - 11
    {
    }
    forall f | Connected < f < FlagCount
      ensures f in BindingFlags
    {
      assert BindingFlags[if f >= 3 then f - 3 else f + 11] == f;
    }
  }

  const ButtonOrder: seq<string> := ["UP", "DOWN", "LEFT", "RIGHT", "A", "B"]

  /** Entries 0-11 are the six buttons of player 1, then of player 2, and
      their flags follow the same order. */
  lemma ButtonRows()
    ensures forall i :: 0 <= i < 12 ==>
      Bindings[i].mapping == Button(if i < 6 then 1 else 2, ButtonOrder[i % 6])
    ensures forall i :: 0 <= i < 12 ==>
      BindingFlags[i] == (if i < 6 then Player1Up else Player2Up) + i % 6
  {
  }

  lemma BindingFlag(i: nat, pressed: bool)
    requires i < |Bindings|
    ensures FlagOffset(ToMessage(Bindings[i].mapping, pressed)) == Some(BindingFlags[i])
  {
    if i < 12 {
      ButtonRows();
      var player := if i < 6 then 1 else 2;
      ButtonBindingOffset(player, ButtonOrder[i % 6], pressed);
      ButtonOrderOffsets(player, i % 6);
    }
  }

  lemma ButtonOrderOffsets(player: int, k: nat)
    requires player == 1 || player == 2
    requires k < 6
    ensures ButtonOffset(Js.Number(player), Js.Str(ButtonOrder[k]))
         == Some((if player == 1 then Player1Up else Player2Up) + k)
  {
  }

  lemma ButtonBindingOffset(player: int, button: string, pressed: bool)
    requires player == 1 || player == 2
    ensures FlagOffset(ToMessage(Button(player, button), pressed))
         == ButtonOffset(Js.Number(player), Js.Str(button))
  {
  }

  /** A key event reaches every registered closure, each posting on its
      own port. */
  lemma {:induction false} DispatchPosts(table: seq<Binding>, ls: seq<Listener>, code: string, inputType: string)
    ensures HandleInput(table, code, inputType).None? ==> Dispatch(table, ls, code, inputType) == []
    ensures HandleInput(table, code, inputType).Some? ==>
      |Dispatch(table, ls, code, inputType)| == |ls|
      && forall i :: 0 <= i < |ls| ==>
        Dispatch(table, ls, code, inputType)[i] == Post(ls[i].port, HandleInput(table, code, inputType).value)
    decreases |ls|
  {
    if ls != [] {
      DispatchPosts(table, ls[1..], code, inputType);
    }
  }

  lemma OffLast(base: seq<Listener>, l: Listener, nextId: nat)
    requires forall i :: 0 <= i < |base| ==> base[i].id != l.id
    ensures Off(Web(base + [l], nextId), Some(l.id)) == Web(base, nextId)
  {
    var ls := base + [l];
    assert LastIndex(ls, l.id) == |base|;
    assert ls[..|base|] == base && ls[|base| + 1..] == [];
  }

  /** `start` registers exactly one closure, on the environment's port, and
      `stop` unregisters exactly it: start then stop leaves the web
      contents' listeners as they were. `stop` before any `start` changes
      nothing. */
  lemma StartStopSymmetric(w: Web, port: nat)
    requires Fresh(w)
    ensures var s := Start(NewPlugin, w, port);
      && |s.w.listeners| == |w.listeners| + 1
      && Owns(s.p, s.w, w.listeners)
      && Stop(s.p, s.w).w.listeners == w.listeners
    ensures Stop(NewPlugin, w).w == w
  {
    var s := Start(NewPlugin, w, port);
    OffLast(w.listeners, Listener(w.nextId, port), s.w.nextId);
  }

  /** Starting twice without a stop, as `PluginManager.start` does for a
      reused instance, leaves the first closure registered after `stop`:
      key events keep being posted on the first port. */
  lemma StartTwiceLeaks(w: Web, port1: nat, port2: nat, code: string, inputType: string)
    requires Fresh(w) && w.listeners == []
    requires HandleInput(Bindings, code, inputType).Some?
    ensures var s1 := Start(NewPlugin, w, port1);
      var s2 := Start(s1.p, s1.w, port2);
      var s3 := Stop(s2.p, s2.w);
      && s3.w.listeners == [Listener(w.nextId, port1)]
      && Dispatch(Bindings, s3.w.listeners, code, inputType)
         == [Post(port1, HandleInput(Bindings, code, inputType).value)]
  {
    var s1 := Start(NewPlugin, w, port1);
    var s2 := Start(s1.p, s1.w, port2);
    OffLast([Listener(w.nextId, port1)], Listener(w.nextId + 1, port2), s2.w.nextId);
    DispatchPosts(Bindings, Stop(s2.p, s2.w).w.listeners, code, inputType);
  }

  /** A `start` that stops first keeps the plugin owning at most one
      closure. */
  lemma RestartOwns(p: Plugin, w: Web, base: seq<Listener>, port: nat)
    requires Owns(p, w, base)
    ensures Owns(Restart(p, w, port).p, Restart(p, w, port).w, base)
    ensures Owns(Stop(p, w).p, Stop(p, w).w, base)
  {
    if p.handler.Some? {
      OffLast(base, Listener(p.handler.value, p.environment.value), w.nextId);
    }
    var s := Stop(p, w);
    assert s.w.listeners == base;
    forall i | 0 <= i < |base|
      ensures base[i].id != s.w.nextId
    {
      assert base[i] in w.listeners;
    }
  }

  function RestartAll(p: Plugin, w: Web, ports: seq<nat>): Placed
    decreases |ports|
  {
    if ports == [] then Placed(p, w)
    else
      var s := Restart(p, w, ports[0]);
      RestartAll(s.p, s.w, ports[1..])
  }

  /** With `Restart`, any number of starts followed by one stop leaves the
      web contents' listeners as they were before the first start. */
  lemma {:induction false} RestartAllThenStop(p: Plugin, w: Web, base: seq<Listener>, ports: seq<nat>)
    requires Owns(p, w, base)
    ensures var s := RestartAll(p, w, ports);
      Owns(s.p, s.w, base) && Stop(s.p, s.w).w.listeners == base
    decreases |ports|
  {
    if ports == [] {
      RestartOwns(p, w, base, 0);
    } else {
      RestartOwns(p, w, base, ports[0]);
      var s := Restart(p, w, ports[0]);
      RestartAllThenStop(s.p, s.w, base, ports[1..]);
    }
  }

  /** The cabinet copy posts on `port1` and hands out `port2`; aborting
      removes exactly its closure, and a second abort does nothing. */
  lemma AttachAbort(w: Web, nextPort: nat, code: string, inputType: string)
    requires Fresh(w)
    ensures var a := Attach(w, nextPort);
      && a.s.port2 != a.s.port1
      && a.w.listeners == w.listeners + [Listener(a.s.handler, a.s.port1)]
      && Abort(a.w, a.s).w.listeners == w.listeners
      && Abort(Abort(a.w, a.s).w, Abort(a.w, a.s).s) == Abort(a.w, a.s)
  {
    var a := Attach(w, nextPort);
    OffLast(w.listeners, Listener(a.s.handler, a.s.port1), a.w.nextId);
  }
}

=== FILE: js.dfy ===
/** The slice of JavaScript values and coercions that the message handlers
    inspect: property access that yields `undefined` for absent keys,
    truthiness, `String(x)`/template-literal conversion and wasm-bindgen's
    `as_string`. Numbers are integers here; fractional numbers do not occur
    in the messages modelled. */
module Js {
  import opened Results
  import opened Text

  datatype Value =
    | Undefined
    | Null
    | Bool(b: bool)
    | Number(n: int)
    | Str(s: string)
    | Obj(fields: map<string, Value>)

  /** `v?.key`: `undefined` for an absent key and for non-objects. */
  function Get(v: Value, key: string): (r: Value)
    ensures v.Obj? && key in v.fields ==> r == v.fields[key]
    ensures !v.Obj? || key !in v.fields ==> r == Undefined
  {
    match v
    case Obj(f) => if key in f then f[key] else Undefined
    case _ => Undefined
  }

  /** JavaScript truthiness: `undefined`, `null`, `false`, `0` and `""` are
      falsy. */
  predicate Truthy(v: Value) {
    match v
    case Undefined => false
    case Null => false
    case Bool(b) => b
    case Number(n) => n != 0
    case Str(s) => s != ""
    case Obj(_) => true
  }

  /** wasm-bindgen `JsValue::as_string`: only string values. */
  function AsString(v: Value): (r: Option<string>)
    ensures r.Some? <==> v.Str?
    ensures r.Some? ==> r.value == v.s
  {
    if v.Str? then Some(v.s) else None
  }

  const Minus: char := '-'

  function IntToString(n: int): (s: string)
    ensures |s| >= 1
  {
    if n < 0 then [Minus] + NatToString(-n) else NatToString(n)
  }

  /** `String(v)`, which is also what a template literal inserts. */
  function ToStr(v: Value): string {
    match v
    case Undefined => "undefined"
    case Null => "null"
    case Bool(b) => if b then "true" else "false"
    case Number(n) => IntToString(n)
    case Str(s) => s
    case Obj(_) => "[object Object]"
  }

  /** `String` leaves strings as they are and turns every other value into
      a non-empty string, so `String(v)` is falsy exactly when `v` is the
      empty string. */
  lemma ToStrTruthy(v: Value)
    ensures (ToStr(v) == "") <==> (v == Str(""))
    ensures v.Str? ==> ToStr(v) == v.s
  {
  }
}

=== FILE: json.dfy ===
/** A parsed JSON or TOML document, as the API reads a manifest and the
    plugin detector reads `package.json` and `Cargo.toml`. Unlike a live
    JavaScript value there is no `undefined`, and an object keeps its
    members in document order, which is the order `Object.entries`
    reports for keys that are not array indices. */
module Json {
  import opened Results
  import Text
  import Js

  datatype Value =
    | Null
    | Bool(b: bool)
    | Number(n: int)
    | Str(s: string)
    | Arr(items: seq<Value>)
    | Object(members: seq<Member>)

  datatype Member = Member(key: string, value: Value)

  /** A parsed object holds each key once. */
  predicate DistinctKeys(members: seq<Member>) {
    forall i, j :: 0 <= i < j < |members| ==> members[i].key != members[j].key
  }

  predicate HasKey(members: seq<Member>, key: string) {
    exists i :: 0 <= i < |members| && members[i].key == key
  }

  /** `obj[key]`: the value of the first member with that key, or nothing
      when the object has no such member. */
  function Lookup(members: seq<Member>, key: string): (r: Option<Value>)
    ensures r.None? <==> !HasKey(members, key)
    ensures r.Some? ==> exists i :: 0 <= i < |members| && members[i] == Member(key, r.value)
  {
    if members == [] then None
    else if members[0].key == key then Some(members[0].value)
    else
      var r := Lookup(members[1..], key);
      assert HasKey(members, key) <==> HasKey(members[1..], key) by {
        if HasKey(members, key) {
          var i :| 0 <= i < |members| && members[i].key == key;
          assert members[1..][i - 1] == members[i];
        }
        if HasKey(members[1..], key) {
          var i :| 0 <= i < |members[1..]| && members[1..][i].key == key;
          assert members[i + 1] == members[1..][i];
        }
      }
      if r.Some? then
        var i :| 0 <= i < |members[1..]| && members[1..][i] == Member(key, r.value);
        assert members[i + 1] == members[1..][i];
        r
      else r
  }

  /** Members ahead of the one sought, with other keys, are skipped. */
  lemma LookupSkips(before: seq<Member>, after: seq<Member>, key: string)
    requires forall i :: 0 <= i < |before| ==> before[i].key != key
    ensures Lookup(before + after, key) == Lookup(after, key)
    decreases |before|
  {
    if before != [] {
      assert (before + after)[0] == before[0];
      assert (before + after)[1..] == before[1..] + after;
      LookupSkips(before[1..], after, key);
    } else {
      assert before + after == after;
    }
  }

  /** In an object with distinct keys, every member is what a lookup of its
      key returns. */
  lemma {:induction false} LookupFindsMember(members: seq<Member>, i: int)
    requires DistinctKeys(members) && 0 <= i < |members|
    ensures Lookup(members, members[i].key) == Some(members[i].value)
    decreases |members|
  {
    if i > 0 {
      assert members[0].key != members[i].key;
      assert members[1..][i - 1] == members[i];
      LookupFindsMember(members[1..], i - 1);
    }
  }

  // ------------------------------------------------------------ coercions

  /** JavaScript truthiness of a parsed value: `null`, `false`, `0` and
      `""` are falsy, arrays and objects (even empty ones) are truthy. */
  predicate Truthy(v: Value) {
    match v
    case Null => false
    case Bool(b) => b
    case Number(n) => n != 0
    case Str(s) => s != ""
    case Arr(_) => true
    case Object(_) => true
  }

  const Comma: char := ','

  /** `String(v)`: an array joins its items' strings with commas, writing
      `null` items as nothing, and an object becomes `[object Object]`. */
  function ToStr(v: Value): (r: string)
    ensures v.Str? ==> r == v.s
    ensures v.Number? ==> r == Js.IntToString(v.n)
  {
    match v
    case Null => "null"
    case Bool(b) => if b then "true" else "false"
    case Number(n) => Js.IntToString(n)
    case Str(s) => s
    case Arr(items) => Text.JoinWith(seq(|items|, i requires 0 <= i < |items| =>
                                       if items[i].Null? then "" else ToStr(items[i])), Comma)
    case Object(_) => "[object Object]"
  }

  /** The string of a truthy value other than an array is never empty, and
      that of a falsy one is empty only for the empty string. */
  lemma ToStrTruthy(v: Value)
    ensures Truthy(v) && !v.Arr? ==> ToStr(v) != ""
    ensures !Truthy(v) ==> (ToStr(v) == "" <==> v == Str(""))
  {
  }
}

=== FILE: keyed_channel.dfy ===
/** The backend SDKs' plugin-channel cache (TypeScript `PluginChannel` and
    Rust `PluginChannelStatic`).

    A game running in the cabinet receives `plugin_channel_created`
    messages, each carrying `channel: {name, version}` and a port, and asks
    for channels with `acquire(name, version)`. Both sides meet under the
    key `name + ":" + version`: an arriving port resolves a waiting
    acquire, or waits in `availableChannels`; an acquire takes a waiting
    port, or leaves its resolver in `pendingAcquires`. Either map keeps one
    entry per key, so a later entry displaces an earlier one.

    Acquire calls are numbered in call order; `delivered` records which
    call received which port. */
module KeyedChannel {
  import opened Results
  import Js

  const CreatedType: string := "plugin_channel_created"

  datatype Cache = Cache(
    available: map<string, nat>,   // key -> port
    pending: map<string, nat>,     // key -> acquire call holding the resolver
    calls: nat,                    // acquire calls made so far
    delivered: seq<(nat, nat)>)    // (acquire call, port), in order

  function Empty(): (c: Cache)
    ensures Valid(c) && c.delivered == []
  {
    Cache(map[], map[], 0, [])
  }

  /** `${name}:${version}` and `format!("{}:{}", name, version)`. */
  function Key(name: string, version: string): (k: string)
    ensures |k| == |name| + 1 + |version|
    ensures k[|name|] == ':' && k[..|name|] == name && k[|name| + 1..] == version
  {
    name + ":" + version
  }

  predicate Valid(c: Cache) {
    && c.available.Keys !! c.pending.Keys
    && (forall k :: k in c.pending ==> c.pending[k] < c.calls)
    && (forall i :: 0 <= i < |c.delivered| ==> c.delivered[i].0 < c.calls)
  }

  /** The part of the listener after validation: a port arriving under `key`. */
  function Arrive(c: Cache, key: string, port: nat): Cache {
    if key in c.pending then
      c.(pending := c.pending - {key}, delivered := c.delivered + [(c.pending[key], port)])
    else
      c.(available := c.available[key := port])
  }

  /** `acquire(name, version)` up to the point where it returns or waits. */
  function Acquire(c: Cache, name: string, version: string): Cache {
    var key := Key(name, version);
    var call := c.calls;
    if key in c.available then
      c.(available := c.available - {key}, calls := c.calls + 1,
         delivered := c.delivered + [(call, c.available[key])])
    else
      c.(pending := c.pending[key := call], calls := c.calls + 1)
  }

  /** The TypeScript listener: `type` must be the string
      `plugin_channel_created`; name, version and the first port must be
      truthy, and the key uses `String()` of name and version. Any other
      message, including one whose `channel` is missing (the destructuring
      throws inside the listener), changes nothing. */
  function HandleTs(c: Cache, data: Js.Value, ports: seq<nat>): Cache {
    if Js.Get(data, "type") != Js.Str(CreatedType) then c
    else
      var channel := Js.Get(data, "channel");
      if channel == Js.Undefined || channel == Js.Null then c
      else
        var name := Js.Get(channel, "name");
        var version := Js.Get(channel, "version");
        if !Js.Truthy(name) || !Js.Truthy(version) || ports == [] then c
        else Arrive(c, Key(Js.ToStr(name), Js.ToStr(version)), ports[0])
  }

  /** The Rust `handle_message`: the data must be an object whose `type` is
      a string equal to `plugin_channel_created`; name and version must be
      strings (possibly empty) and a port must be attached. */
  function HandleRust(c: Cache, data: Js.Value, ports: seq<nat>): Cache {
    if !data.Obj? then c
    else
      match Js.AsString(Js.Get(data, "type"))
      case None => c
      case Some(t) =>
        if t != CreatedType then c
        else
          var channel := Js.Get(data, "channel");
          if channel == Js.Undefined || channel == Js.Null then c
          else
            match (Js.AsString(Js.Get(channel, "name")), Js.AsString(Js.Get(channel, "version")))
            case (Some(name), Some(version)) =>
              if ports == [] then c else Arrive(c, Key(name, version), ports[0])
            case _ => c
  }

  /** A well-formed channel message. */
  function Created(name: Js.Value, version: Js.Value): Js.Value {
    Js.Obj(map["type" := Js.Str(CreatedType), "channel" := Js.Obj(map["name" := name, "version" := version])])
  }

  // ---------------------------------------------------------------- lemmas

  /** The key determines name and version whenever the name has no colon,
      as package names such as `@rcade/input-classic` do not. */
  lemma KeyInjective(n1: string, v1: string, n2: string, v2: string)
    requires ':' !in n1 && ':' !in n2
    requires Key(n1, v1) == Key(n2, v2)
    ensures n1 == n2 && v1 == v2
  {
    var k := Key(n1, v1);
    assert k[..|n1|] == n1 && k[|n1|] == ':';
    assert k[..|n2|] == n2 && k[|n2|] == ':';
  }

  /** With a colon in the name, two different channels share a key. */
  lemma KeyCollision()
    ensures Key("a:b", "c") == Key("a", "b:c")
  {
  }

  /** Every operation keeps the invariant: no key is both available and
      pending. */
  lemma ArriveValid(c: Cache, key: string, port: nat)
    requires Valid(c)
    ensures Valid(Arrive(c, key, port))
  {
  }

  lemma AcquireValid(c: Cache, name: string, version: string)
    requires Valid(c)
    ensures Valid(Acquire(c, name, version))
  {
  }

  /** An arrival either consumes a waiting acquire or is stored, never
      both. */
  lemma ArriveConsumesOrStores(c: Cache, key: string, port: nat)
    requires Valid(c)
    ensures var c' := Arrive(c, key, port);
      && (key in c.pending ==>
            c'.delivered == c.delivered + [(c.pending[key], port)] && key !in c'.pending && key !in c'.available)
      && (key !in c.pending ==>
            c'.available == c.available[key := port] && c'.delivered == c.delivered && c'.pending == c.pending)
  {
  }

  /** An acquire either takes the waiting port or registers its resolver,
      displacing any earlier one for the key. */
  lemma AcquireTakesOrWaits(c: Cache, name: string, version: string)
    requires Valid(c)
    ensures var key := Key(name, version);
      var c' := Acquire(c, name, version);
      && (key in c.available ==>
            c'.delivered == c.delivered + [(c.calls, c.available[key])] && key !in c'.available
            && c'.pending == c.pending)
      && (key !in c.available ==>
            c'.pending == c.pending[key := c.calls] && c'.delivered == c.delivered)
  {
  }

  /** A later port displaces an earlier unclaimed one for the same key: the
      next acquire receives the later port. */
  lemma LaterPortDisplaces(c: Cache, name: string, version: string, p1: nat, p2: nat)
    requires Valid(c) && Key(name, version) !in c.pending
    ensures var c' := Acquire(Arrive(Arrive(c, Key(name, version), p1), Key(name, version), p2), name, version);
      c'.delivered == c.delivered + [(c.calls, p2)]
  {
  }

  /** An acquire call is stranded when it received no port and no resolver
      of it remains; nothing can ever deliver to it again. */
  predicate Stranded(c: Cache, call: nat) {
    && call < c.calls
    && (forall i :: 0 <= i < |c.delivered| ==> c.delivered[i].0 != call)
    && (forall k :: k in c.pending ==> c.pending[k] != call)
  }

  lemma StrandedStays(c: Cache, call: nat, key: string, port: nat, name: string, version: string)
    requires Valid(c) && Stranded(c, call)
    ensures Stranded(Arrive(c, key, port), call)
    ensures Stranded(Acquire(c, name, version), call)
  {
  }

  /** A second acquire for the same key before any port arrives displaces
      the first: the arriving port goes to the second call and the first
      is stranded for good. */
  lemma SecondAcquireStrandsFirst(c: Cache, name: string, version: string, port: nat)
    requires Valid(c)
    requires Key(name, version) !in c.available
    requires forall i :: 0 <= i < |c.delivered| ==> c.delivered[i].0 < c.calls
    ensures var c' := Arrive(Acquire(Acquire(c, name, version), name, version), Key(name, version), port);
      && c'.delivered == c.delivered + [(c.calls + 1, port)]
      && Stranded(c', c.calls)
  {
  }

  /** The two listeners agree on every message whose name and version are
      non-empty strings. */
  lemma HandlersAgreeOnStrings(c: Cache, name: string, version: string, ports: seq<nat>)
    requires name != "" && version != ""
    ensures HandleTs(c, Created(Js.Str(name), Js.Str(version)), ports)
         == HandleRust(c, Created(Js.Str(name), Js.Str(version)), ports)
  {
  }

  /** They differ elsewhere: the TypeScript listener ignores an empty name
      that the Rust one accepts. */
  lemma EmptyNameDiffers(c: Cache, port: nat)
    requires Valid(c) && c.pending == map[]
    ensures HandleTs(c, Created(Js.Str(""), Js.Str("1.0.0")), [port]) == c
    ensures HandleRust(c, Created(Js.Str(""), Js.Str("1.0.0")), [port]).available == c.available[":1.0.0" := port]
  {
    assert Key("", "1.0.0") == ":1.0.0";
    var d := Created(Js.Str(""), Js.Str("1.0.0"));
    var ch := Js.Get(d, "channel");
    assert Js.AsString(Js.Get(ch, "name")) == Some("");
    assert Js.AsString(Js.Get(ch, "version")) == Some("1.0.0");
  }

  /** The TypeScript listener accepts a numeric version, keyed by its
      decimal text, that the Rust one ignores. */
  lemma NumericVersionDiffers(c: Cache, port: nat)
    requires Valid(c) && c.pending == map[]
    ensures HandleTs(c, Created(Js.Str("p"), Js.Number(1)), [port]).available == c.available["p:1" := port]
    ensures HandleRust(c, Created(Js.Str("p"), Js.Number(1)), [port]) == c
  {
    assert Js.ToStr(Js.Number(1)) == "1";
    assert Key("p", "1") == "p:1";
    var d := Created(Js.Str("p"), Js.Number(1));
    var ch := Js.Get(d, "channel");
    assert Js.Get(ch, "name") == Js.Str("p");
    assert Js.Get(ch, "version") == Js.Number(1);
  }

  /** Messages of another type, or without a port, change nothing. */
  lemma IgnoredMessages(c: Cache, data: Js.Value, ports: seq<nat>)
    requires Js.Get(data, "type") != Js.Str(CreatedType) || ports == []
    ensures HandleTs(c, data, ports) == c
    ensures HandleRust(c, data, ports) == c
  {
  }
}

=== FILE: manifests.dfy ===
/** The three manifest schemas of the API package: the game manifest
    (api/src/game/manifest.ts), the plugin manifest
    (api/src/plugin/manifest.ts) and the legacy manifest
    (api/src/manifest.ts), each a zod object over a parsed JSON document.

    Parsing checks the declared fields in declaration order and reports
    the first one that does not conform; members the schema does not
    declare are dropped, as zod's `object` does. Version strings are
    checked with the Semantic Versioning 2.0.0 recogniser `SemVer.IsSemVer`.
    The category enum lives in a file that is not part of this model, so
    the game schema takes its membership test as a parameter. */
module Manifests {
  import opened Results
  import opened Json
  import SemVer

  datatype Visibility = Public | Internal | Private
  datatype LegacyVisibility = LegacyPublic | LegacyPrivate | Personal

  datatype Author = Author(displayName: string, recurseId: Option<int>)

  /** One author object, or a non-empty array of them. */
  datatype Authors = OneAuthor(author: Author) | AuthorList(list: seq<Author>)

  datatype Dependency = Dependency(name: string, version: string)

  datatype RemixTarget = RemixTarget(name: string, version: string)

  datatype GameManifest = GameManifest(
    name: string,
    displayName: Option<string>,
    description: string,
    visibility: Visibility,
    version: Option<string>,
    categories: seq<string>,
    authors: Authors,
    dependencies: Option<seq<Dependency>>,
    remixOf: Option<RemixTarget>)

  datatype PluginManifest = PluginManifest(
    name: string,
    displayName: Option<string>,
    description: string,
    visibility: Visibility,
    version: Option<string>,
    authors: Authors)

  datatype LegacyManifest = LegacyManifest(
    name: string,
    description: string,
    visibility: LegacyVisibility,
    version: Option<string>,
    authors: Authors)

  /** The name of the field that failed. */
  type Issue = string

  const KindKey: string := "kind"
  const NameKey: string := "name"
  const DisplayNameKey: string := "display_name"
  const DescriptionKey: string := "description"
  const VisibilityKey: string := "visibility"
  const VersionKey: string := "version"
  const CategoriesKey: string := "categories"
  const AuthorsKey: string := "authors"
  const DependenciesKey: string := "dependencies"
  const RemixOfKey: string := "remix_of"
  const RecurseIdKey: string := "recurse_id"

  const GameKind: string := "game"
  const PluginKind: string := "plugin"

  // ------------------------------------------------------------ field rules

  /** `[a-zA-Z0-9_-]` */
  predicate NameChar(c: char) {
    'a' <= c <= 'z' || 'A' <= c <= 'Z' || '0' <= c <= '9' || c == '_' || c == '-'
  }

  /** The name regex, a run of `[a-zA-Z0-9_-]` characters: the pattern has no anchors, so it succeeds
      when some slice of `s`, possibly empty, consists of name characters. */
  predicate NamePatternTest(s: string) {
    exists i, j :: 0 <= i <= j <= |s| && AllNameChars(s[i..j])
  }

  predicate AllNameChars(t: string) {
    forall k :: 0 <= k < |t| ==> NameChar(t[k])
  }

  /** A non-empty string the name regex matches. */
  predicate ValidName(s: string) {
    s != "" && NamePatternTest(s)
  }

  function ParseVisibility(s: string): Option<Visibility> {
    if s == "public" then Some(Public)
    else if s == "internal" then Some(Internal)
    else if s == "private" then Some(Private)
    else None
  }

  function ParseLegacyVisibility(s: string): Option<LegacyVisibility> {
    if s == "public" then Some(LegacyPublic)
    else if s == "private" then Some(LegacyPrivate)
    else if s == "personal" then Some(Personal)
    else None
  }

  // ------------------------------------------------------------- parsers

  function RequiredString(members: seq<Member>, key: string): Result<string, Issue> {
    match Lookup(members, key)
    case Some(Str(s)) => Ok(s)
    case _ => Err(key)
  }

  /** An `.optional()` string: an absent member is fine, any other type is
      not (JSON has no `undefined`). */
  function OptionalString(members: seq<Member>, key: string): Result<Option<string>, Issue> {
    match Lookup(members, key)
    case None => Ok(None)
    case Some(Str(s)) => Ok(Some(s))
    case _ => Err(key)
  }

  function RequiredName(members: seq<Member>, key: string): (r: Result<string, Issue>)
    ensures r.Ok? ==> ValidName(r.value) && Lookup(members, key) == Some(Str(r.value))
  {
    var s :- RequiredString(members, key);
    if ValidName(s) then Ok(s) else Err(key)
  }

  function RequiredSemVer(members: seq<Member>, key: string): (r: Result<string, Issue>)
    ensures r.Ok? ==> SemVer.IsSemVer(r.value) && Lookup(members, key) == Some(Str(r.value))
  {
    var s :- RequiredString(members, key);
    if SemVer.IsSemVer(s) then Ok(s) else Err(key)
  }

  function OptionalSemVer(members: seq<Member>, key: string): (r: Result<Option<string>, Issue>)
    ensures r.Ok? ==> ValidVersion(r.value)
    ensures r.Ok? && r.value.None? ==> Lookup(members, key).None?
  {
    var s :- OptionalString(members, key);
    if s.Some? && !SemVer.IsSemVer(s.value) then Err(key) else Ok(s)
  }

  function RequiredVisibility(members: seq<Member>): Result<Visibility, Issue> {
    var s :- RequiredString(members, VisibilityKey);
    match ParseVisibility(s)
    case Some(v) => Ok(v)
    case None => Err(VisibilityKey)
  }

  /** `ManifestAuthor`: a `display_name` string and an optional numeric
      `recurse_id`. */
  function ParseAuthor(v: Value): Result<Author, Issue> {
    if !v.Object? then Err(AuthorsKey)
    else
      var name :- RequiredString(v.members, DisplayNameKey);
      match Lookup(v.members, RecurseIdKey)
      case None => Ok(Author(name, None))
      case Some(Number(n)) => Ok(Author(name, Some(n)))
      case Some(_) => Err(RecurseIdKey)
  }

  function ParseAuthorList(items: seq<Value>): (r: Result<seq<Author>, Issue>)
    ensures r.Ok? ==> |r.value| == |items|
  {
    if items == [] then Ok([])
    else
      var a :- ParseAuthor(items[0]);
      var rest :- ParseAuthorList(items[1..]);
      Ok([a] + rest)
  }

  /** `z.union([ManifestAuthor, z.array(ManifestAuthor).min(1)])`: an
      object is one author, an array needs at least one. */
  function ParseAuthors(members: seq<Member>): (r: Result<Authors, Issue>)
    ensures r.Ok? ==> ValidAuthors(r.value)
  {
    match Lookup(members, AuthorsKey)
    case Some(Object(m)) =>
      var a :- ParseAuthor(Object(m));
      Ok(OneAuthor(a))
    case Some(Arr(items)) =>
      if items == [] then Err(AuthorsKey)
      else
        var list :- ParseAuthorList(items);
        Ok(AuthorList(list))
    case _ => Err(AuthorsKey)
  }

  /** `ManifestDependency`: a name and an exact version. */
  function ParseDependency(v: Value): Result<Dependency, Issue> {
    match v
    case Object(members) =>
      var name :- RequiredString(members, NameKey);
      var version :- RequiredSemVer(members, VersionKey);
      Ok(Dependency(name, version))
    case _ => Err(DependenciesKey)
  }

  function ParseDependencyList(items: seq<Value>): (r: Result<seq<Dependency>, Issue>)
    ensures r.Ok? ==> |r.value| == |items|
    ensures r.Ok? ==> forall i :: 0 <= i < |r.value| ==> SemVer.IsSemVer(r.value[i].version)
  {
    if items == [] then Ok([])
    else
      var d :- ParseDependency(items[0]);
      var rest :- ParseDependencyList(items[1..]);
      Ok([d] + rest)
  }

  function ParseDependencies(members: seq<Member>): (r: Result<Option<seq<Dependency>>, Issue>)
    ensures r.Ok? ==> ValidDependencies(r.value)
    ensures r.Ok? ==> (r.value.None? <==> Lookup(members, DependenciesKey).None?)
  {
    match Lookup(members, DependenciesKey)
    case None => Ok(None)
    case Some(Arr(items)) =>
      var list :- ParseDependencyList(items);
      Ok(Some(list))
    case Some(_) => Err(DependenciesKey)
  }

  function ParseCategoryList(items: seq<Value>, isCategory: string -> bool): (r: Result<seq<string>, Issue>)
    ensures r.Ok? ==> |r.value| == |items|
    ensures r.Ok? ==> forall i :: 0 <= i < |r.value| ==> items[i] == Str(r.value[i]) && isCategory(r.value[i])
  {
    if items == [] then Ok([])
    else
      match items[0]
      case Str(s) =>
        if !isCategory(s) then Err(CategoriesKey)
        else
          var rest :- ParseCategoryList(items[1..], isCategory);
          Ok([s] + rest)
      case _ => Err(CategoriesKey)
  }

  /** `.optional().default([])`: an absent member gives no categories. */
  function ParseCategories(members: seq<Member>, isCategory: string -> bool): (r: Result<seq<string>, Issue>)
    ensures r.Ok? ==> forall i :: 0 <= i < |r.value| ==> isCategory(r.value[i])
  {
    match Lookup(members, CategoriesKey)
    case None => Ok([])
    case Some(Arr(items)) => ParseCategoryList(items, isCategory)
    case Some(_) => Err(CategoriesKey)
  }

  function ParseRemixOf(members: seq<Member>): (r: Result<Option<RemixTarget>, Issue>)
    ensures r.Ok? && r.value.Some? ==> ValidName(r.value.value.name) && SemVer.IsSemVer(r.value.value.version)
    ensures r.Ok? ==> (r.value.None? <==> Lookup(members, RemixOfKey).None?)
  {
    match Lookup(members, RemixOfKey)
    case None => Ok(None)
    case Some(Object(m)) =>
      var name :- RequiredName(m, NameKey);
      var version :- RequiredSemVer(m, VersionKey);
      Ok(Some(RemixTarget(name, version)))
    case Some(_) => Err(RemixOfKey)
  }

  /** `kind: z.literal("game").optional()` */
  function GameKindOk(members: seq<Member>): Result<bool, Issue> {
    match Lookup(members, KindKey)
    case None => Ok(true)
    case Some(Str(s)) => if s == GameKind then Ok(true) else Err(KindKey)
    case Some(_) => Err(KindKey)
  }

  /** `kind: z.literal("plugin")`, which is required. */
  function PluginKindOk(members: seq<Member>): Result<bool, Issue> {
    match Lookup(members, KindKey)
    case Some(Str(s)) => if s == PluginKind then Ok(true) else Err(KindKey)
    case _ => Err(KindKey)
  }

  /** The game `Manifest` schema. */
  function ParseGame(doc: Value, isCategory: string -> bool): (r: Result<GameManifest, Issue>)
    ensures r.Ok? ==> ValidGame(r.value, isCategory)
    ensures !doc.Object? ==> r.Err?
  {
    match doc
    case Object(m) =>
      var _ :- GameKindOk(m);
      var name :- RequiredName(m, NameKey);
      var displayName :- OptionalString(m, DisplayNameKey);
      var description :- RequiredString(m, DescriptionKey);
      var visibility :- RequiredVisibility(m);
      var version :- OptionalSemVer(m, VersionKey);
      var categories :- ParseCategories(m, isCategory);
      var authors :- ParseAuthors(m);
      var dependencies :- ParseDependencies(m);
      var remixOf :- ParseRemixOf(m);
      Ok(GameManifest(name, displayName, description, visibility, version, categories, authors, dependencies, remixOf))
    case _ => Err([])
  }

  /** The plugin `Manifest` schema. */
  function ParsePlugin(doc: Value): (r: Result<PluginManifest, Issue>)
    ensures r.Ok? ==> ValidPlugin(r.value) && doc.Object? && Lookup(doc.members, KindKey) == Some(Str(PluginKind))
  {
    match doc
    case Object(m) =>
      var _ :- PluginKindOk(m);
      var name :- RequiredName(m, NameKey);
      var displayName :- OptionalString(m, DisplayNameKey);
      var description :- RequiredString(m, DescriptionKey);
      var visibility :- RequiredVisibility(m);
      var version :- OptionalSemVer(m, VersionKey);
      var authors :- ParseAuthors(m);
      Ok(PluginManifest(name, displayName, description, visibility, version, authors))
    case _ => Err([])
  }

  /** The legacy `Manifest` schema: a name that is only required to be
      non-empty, and its own visibility enum. */
  function ParseLegacy(doc: Value): (r: Result<LegacyManifest, Issue>)
    ensures r.Ok? ==> ValidLegacy(r.value)
  {
    if !doc.Object? then Err([])
    else
      var m := doc.members;
      var name :- RequiredString(m, NameKey);
      if name == "" then Err(NameKey)
      else
        var description :- RequiredString(m, DescriptionKey);
        var vis :- RequiredString(m, VisibilityKey);
        match ParseLegacyVisibility(vis)
        case None => Err(VisibilityKey)
        case Some(visibility) =>
          var version :- OptionalSemVer(m, VersionKey);
          var authors :- ParseAuthors(m);
          Ok(LegacyManifest(name, description, visibility, version, authors))
  }

  // -------------------------------------------------------------- validity

  predicate ValidAuthors(a: Authors) {
    a.AuthorList? ==> a.list != []
  }

  predicate ValidDependencies(deps: Option<seq<Dependency>>) {
    deps.Some? ==> forall i :: 0 <= i < |deps.value| ==> SemVer.IsSemVer(deps.value[i].version)
  }

  predicate ValidVersion(v: Option<string>) {
    v.Some? ==> SemVer.IsSemVer(v.value)
  }

  /** What the game schema guarantees of a manifest it accepts. */
  predicate ValidGame(m: GameManifest, isCategory: string -> bool) {
    && ValidName(m.name)
    && ValidVersion(m.version)
    && (forall i :: 0 <= i < |m.categories| ==> isCategory(m.categories[i]))
    && ValidAuthors(m.authors)
    && ValidDependencies(m.dependencies)
    && (m.remixOf.Some? ==> ValidName(m.remixOf.value.name) && SemVer.IsSemVer(m.remixOf.value.version))
  }

  predicate ValidPlugin(m: PluginManifest) {
    ValidName(m.name) && ValidVersion(m.version) && ValidAuthors(m.authors)
  }

  predicate ValidLegacy(m: LegacyManifest) {
    m.name != "" && ValidVersion(m.version) && ValidAuthors(m.authors)
  }

  // -------------------------------------------------------------- encoders

  /** A field the encoder may write: absent optional fields are left out. */
  datatype Field = Field(key: string, value: Option<Value>)

  function Present(fields: seq<Field>): seq<Member> {
    if fields == [] then []
    else
      (if fields[0].value.Some? then [Member(fields[0].key, fields[0].value.value)] else [])
        + Present(fields[1..])
  }

  predicate DistinctFields(fields: seq<Field>) {
    forall i, j :: 0 <= i < j < |fields| ==> fields[i].key != fields[j].key
  }

  function VisibilityName(v: Visibility): string {
    match v
    case Public => "public"
    case Internal => "internal"
    case Private => "private"
  }

  function LegacyVisibilityName(v: LegacyVisibility): string {
    match v
    case LegacyPublic => "public"
    case LegacyPrivate => "private"
    case Personal => "personal"
  }

  function StrOf(s: Option<string>): Option<Value> {
    if s.Some? then Some(Str(s.value)) else None
  }

  function AuthorFields(a: Author): seq<Field> {
    [Field(DisplayNameKey, Some(Str(a.displayName))),
     Field(RecurseIdKey, if a.recurseId.Some? then Some(Number(a.recurseId.value)) else None)]
  }

  function EncodeAuthor(a: Author): Value {
    Object(Present(AuthorFields(a)))
  }

  function EncodeAuthorList(list: seq<Author>): (r: seq<Value>)
    ensures |r| == |list|
  {
    if list == [] then [] else [EncodeAuthor(list[0])] + EncodeAuthorList(list[1..])
  }

  function EncodeAuthors(a: Authors): Value {
    match a
    case OneAuthor(x) => EncodeAuthor(x)
    case AuthorList(list) => Arr(EncodeAuthorList(list))
  }

  function PairFields(name: string, version: string): seq<Field> {
    [Field(NameKey, Some(Str(name))), Field(VersionKey, Some(Str(version)))]
  }

  function EncodeDependencyList(deps: seq<Dependency>): (r: seq<Value>)
    ensures |r| == |deps|
  {
    if deps == [] then []
    else [Object(Present(PairFields(deps[0].name, deps[0].version)))] + EncodeDependencyList(deps[1..])
  }

  function EncodeStrings(s: seq<string>): (r: seq<Value>)
    ensures |r| == |s|
  {
    if s == [] then [] else [Str(s[0])] + EncodeStrings(s[1..])
  }

  /** The fields of a game manifest in schema order. */
  function GameFields(m: GameManifest): seq<Field> {
    [Field(NameKey, Some(Str(m.name))),
     Field(DisplayNameKey, StrOf(m.displayName)),
     Field(DescriptionKey, Some(Str(m.description))),
     Field(VisibilityKey, Some(Str(VisibilityName(m.visibility)))),
     Field(VersionKey, StrOf(m.version)),
     Field(CategoriesKey, Some(Arr(EncodeStrings(m.categories)))),
     Field(AuthorsKey, Some(EncodeAuthors(m.authors))),
     Field(DependenciesKey, DependenciesValue(m.dependencies)),
     Field(RemixOfKey, RemixValue(m.remixOf))]
  }

  function DependenciesValue(deps: Option<seq<Dependency>>): Option<Value> {
    if deps.Some? then Some(Arr(EncodeDependencyList(deps.value))) else None
  }

  function RemixValue(r: Option<RemixTarget>): Option<Value> {
    if r.Some? then Some(Object(Present(PairFields(r.value.name, r.value.version)))) else None
  }

  /** The manifest written out as a JSON document. */
  function EncodeGame(m: GameManifest): Value {
    Object(Present(GameFields(m)))
  }

  function PluginFields(m: PluginManifest): seq<Field> {
    [Field(KindKey, Some(Str(PluginKind))),
     Field(NameKey, Some(Str(m.name))),
     Field(DisplayNameKey, StrOf(m.displayName)),
     Field(DescriptionKey, Some(Str(m.description))),
     Field(VisibilityKey, Some(Str(VisibilityName(m.visibility)))),
     Field(VersionKey, StrOf(m.version)),
     Field(AuthorsKey, Some(EncodeAuthors(m.authors)))]
  }

  function EncodePlugin(m: PluginManifest): Value {
    Object(Present(PluginFields(m)))
  }

  function LegacyFields(m: LegacyManifest): seq<Field> {
    [Field(NameKey, Some(Str(m.name))),
     Field(DescriptionKey, Some(Str(m.description))),
     Field(VisibilityKey, Some(Str(LegacyVisibilityName(m.visibility)))),
     Field(VersionKey, StrOf(m.version)),
     Field(AuthorsKey, Some(EncodeAuthors(m.authors)))]
  }

  function EncodeLegacy(m: LegacyManifest): Value {
    Object(Present(LegacyFields(m)))
  }

  // ---------------------------------------------------------------- lemmas

  /** Looking a key up in the written members finds the field's value,
      and nothing when the field was absent. */
  lemma {:induction false} PresentLookup(fields: seq<Field>, i: int)
    requires DistinctFields(fields) && 0 <= i < |fields|
    ensures Lookup(Present(fields), fields[i].key) == fields[i].value
    decreases |fields|
  {
    var head := if fields[0].value.Some? then [Member(fields[0].key, fields[0].value.value)] else [];
    if i == 0 {
      if fields[0].value.None? {
        PresentAbsent(fields[1..], fields[0].key);
      }
    } else {
      assert fields[1..][i - 1] == fields[i];
      assert fields[0].key != fields[i].key;
      PresentLookup(fields[1..], i - 1);
      LookupSkips(head, Present(fields[1..]), fields[i].key);
    }
  }

  lemma {:induction false} PresentAbsent(fields: seq<Field>, key: string)
    requires forall i :: 0 <= i < |fields| ==> fields[i].key != key
    ensures Lookup(Present(fields), key).None?
    decreases |fields|
  {
    if fields != [] {
      var head := if fields[0].value.Some? then [Member(fields[0].key, fields[0].value.value)] else [];
      PresentAbsent(fields[1..], key);
      LookupSkips(head, Present(fields[1..]), key);
    }
  }

  /** The name pattern is unanchored and matches the empty slice, so it
      accepts every string: a name is valid exactly when it is non-empty. */
  lemma NamePatternAcceptsAll(s: string)
    ensures NamePatternTest(s)
    ensures ValidName(s) <==> s != ""
  {
    assert AllNameChars(s[0..0]);
  }

  /** A dependency version must be an exact version: a range written with
      a leading operator is rejected. */
  lemma RangeDependencyRejected(name: string, op: char, rest: string)
    requires !('0' <= op <= '9')
    ensures ParseDependency(Object(Present(PairFields(name, [op] + rest)))).Err?
  {
    var fields := PairFields(name, [op] + rest);
    PresentLookup(fields, 1);
    if SemVer.IsSemVer([op] + rest) {
      SemVer.AcceptedStartsWithDigit([op] + rest);
    }
  }

  /** The game and plugin schemas accept `internal`; the legacy schema
      accepts `personal` instead, and rejects `internal`. */
  lemma VisibilityEnums(s: string)
    ensures ParseVisibility(s).Some? <==> s == "public" || s == "internal" || s == "private"
    ensures ParseLegacyVisibility(s).Some? <==> s == "public" || s == "private" || s == "personal"
  {
  }

  lemma VisibilityRoundTrip(v: Visibility)
    ensures ParseVisibility(VisibilityName(v)) == Some(v)
  {
  }

  lemma LegacyVisibilityRoundTrip(v: LegacyVisibility)
    ensures ParseLegacyVisibility(LegacyVisibilityName(v)) == Some(v)
  {
  }

  /** A plugin manifest must say `"kind": "plugin"`; a game manifest may
      leave `kind` out but may not name another kind. */
  lemma KindRules(m: seq<Member>, isCategory: string -> bool)
    ensures ParsePlugin(Object(m)).Ok? ==> Lookup(m, KindKey) == Some(Str(PluginKind))
    ensures ParseGame(Object(m), isCategory).Ok? ==> Lookup(m, KindKey) == None || Lookup(m, KindKey) == Some(Str(GameKind))
  {
  }

  lemma AuthorRoundTrip(a: Author)
    ensures ParseAuthor(EncodeAuthor(a)) == Ok(a)
  {
    var fields := AuthorFields(a);
    var ms := Present(fields);
    assert DistinctFields(fields);
    PresentLookup(fields, 0);
    PresentLookup(fields, 1);
    assert RequiredString(ms, DisplayNameKey) == Ok(a.displayName);
    if a.recurseId.Some? {
      assert Lookup(ms, RecurseIdKey) == Some(Number(a.recurseId.value));
    } else {
      assert Lookup(ms, RecurseIdKey) == None;
    }
  }

  lemma {:induction false} AuthorListRoundTrip(list: seq<Author>)
    ensures ParseAuthorList(EncodeAuthorList(list)) == Ok(list)
  {
    if list != [] {
      var items := EncodeAuthorList(list);
      assert items[0] == EncodeAuthor(list[0]) && items[1..] == EncodeAuthorList(list[1..]);
      AuthorRoundTrip(list[0]);
      AuthorListRoundTrip(list[1..]);
      assert [list[0]] + list[1..] == list;
    }
  }

  lemma AuthorsRoundTrip(m: seq<Member>, a: Authors)
    requires ValidAuthors(a) && Lookup(m, AuthorsKey) == Some(EncodeAuthors(a))
    ensures ParseAuthors(m) == Ok(a)
  {
    match a
    case OneAuthor(x) => AuthorRoundTrip(x);
    case AuthorList(list) => AuthorListRoundTrip(list);
  }

  lemma DependencyRoundTrip(d: Dependency)
    requires SemVer.IsSemVer(d.version)
    ensures ParseDependency(Object(Present(PairFields(d.name, d.version)))) == Ok(d)
  {
    var fields := PairFields(d.name, d.version);
    var ms := Present(fields);
    assert DistinctFields(fields);
    PresentLookup(fields, 0);
    PresentLookup(fields, 1);
    assert RequiredString(ms, NameKey) == Ok(d.name);
    assert RequiredSemVer(ms, VersionKey) == Ok(d.version);
  }

  lemma {:induction false} DependencyListRoundTrip(deps: seq<Dependency>)
    requires forall i :: 0 <= i < |deps| ==> SemVer.IsSemVer(deps[i].version)
    ensures ParseDependencyList(EncodeDependencyList(deps)) == Ok(deps)
  {
    if deps != [] {
      var items := EncodeDependencyList(deps);
      var rest := deps[1..];
      assert forall i :: 0 <= i < |rest| ==> SemVer.IsSemVer(rest[i].version) by {
        forall i | 0 <= i < |rest| ensures SemVer.IsSemVer(rest[i].version) {
          assert rest[i] == deps[i + 1];
        }
      }
      DependencyRoundTrip(deps[0]);
      DependencyListRoundTrip(rest);
      DependencyListCons(items, deps[0], rest);
      assert [deps[0]] + rest == deps;
    }
  }

  /** One step of the list round trip: the head and the tail of an encoded
      list parse back separately. */
  lemma DependencyListCons(items: seq<Value>, d: Dependency, rest: seq<Dependency>)
    requires items == EncodeDependencyList([d] + rest)
    requires ParseDependency(Object(Present(PairFields(d.name, d.version)))) == Ok(d)
    requires ParseDependencyList(EncodeDependencyList(rest)) == Ok(rest)
    ensures ParseDependencyList(items) == Ok([d] + rest)
  {
    assert ([d] + rest)[1..] == rest;
    assert items[0] == Object(Present(PairFields(d.name, d.version)));
  }

  lemma {:induction false} CategoryListRoundTrip(cats: seq<string>, isCategory: string -> bool)
    requires forall i :: 0 <= i < |cats| ==> isCategory(cats[i])
    ensures ParseCategoryList(EncodeStrings(cats), isCategory) == Ok(cats)
  {
    if cats != [] {
      var items := EncodeStrings(cats);
      assert items[0] == Str(cats[0]) && items[1..] == EncodeStrings(cats[1..]);
      CategoryListRoundTrip(cats[1..], isCategory);
      assert [cats[0]] + cats[1..] == cats;
    }
  }

  lemma GameFieldsDistinct(m: GameManifest)
    ensures DistinctFields(GameFields(m))
    ensures forall i :: 0 <= i < |GameFields(m)| ==> GameFields(m)[i].key != KindKey
  {
  }

  /** What a lookup of each game key finds in the written document. */
  lemma GameLookups(g: GameManifest)
    ensures var ms := Present(GameFields(g));
      && Lookup(ms, KindKey) == None
      && Lookup(ms, NameKey) == Some(Str(g.name))
      && Lookup(ms, DisplayNameKey) == StrOf(g.displayName)
      && Lookup(ms, DescriptionKey) == Some(Str(g.description))
      && Lookup(ms, VisibilityKey) == Some(Str(VisibilityName(g.visibility)))
      && Lookup(ms, VersionKey) == StrOf(g.version)
      && Lookup(ms, CategoriesKey) == Some(Arr(EncodeStrings(g.categories)))
      && Lookup(ms, AuthorsKey) == Some(EncodeAuthors(g.authors))
      && Lookup(ms, DependenciesKey) == DependenciesValue(g.dependencies)
      && Lookup(ms, RemixOfKey) == RemixValue(g.remixOf)
  {
    var fields := GameFields(g);
    GameFieldsDistinct(g);
    PresentAbsent(fields, KindKey);
    PresentLookup(fields, 0);
    PresentLookup(fields, 1);
    PresentLookup(fields, 2);
    PresentLookup(fields, 3);
    PresentLookup(fields, 4);
    PresentLookup(fields, 5);
    PresentLookup(fields, 6);
    PresentLookup(fields, 7);
    PresentLookup(fields, 8);
  }

  lemma OptionalStringOf(ms: seq<Member>, key: string, s: Option<string>)
    requires Lookup(ms, key) == StrOf(s)
    ensures OptionalString(ms, key) == Ok(s)
  {
  }

  lemma OptionalSemVerOf(ms: seq<Member>, key: string, s: Option<string>)
    requires Lookup(ms, key) == StrOf(s) && ValidVersion(s)
    ensures OptionalSemVer(ms, key) == Ok(s)
  {
    OptionalStringOf(ms, key, s);
  }

  lemma RequiredStringOf(ms: seq<Member>, key: string, s: string)
    requires Lookup(ms, key) == Some(Str(s))
    ensures RequiredString(ms, key) == Ok(s)
  {
  }

  lemma RequiredNameOf(ms: seq<Member>, key: string, s: string)
    requires Lookup(ms, key) == Some(Str(s)) && ValidName(s)
    ensures RequiredName(ms, key) == Ok(s)
  {
    RequiredStringOf(ms, key, s);
  }

  lemma RequiredVisibilityOf(ms: seq<Member>, v: Visibility)
    requires Lookup(ms, VisibilityKey) == Some(Str(VisibilityName(v)))
    ensures RequiredVisibility(ms) == Ok(v)
  {
    RequiredStringOf(ms, VisibilityKey, VisibilityName(v));
    VisibilityRoundTrip(v);
  }

  lemma CategoriesOf(ms: seq<Member>, cats: seq<string>, isCategory: string -> bool)
    requires Lookup(ms, CategoriesKey) == Some(Arr(EncodeStrings(cats)))
    requires forall i :: 0 <= i < |cats| ==> isCategory(cats[i])
    ensures ParseCategories(ms, isCategory) == Ok(cats)
  {
    CategoryListRoundTrip(cats, isCategory);
  }

  lemma RemixOfRoundTrip(ms: seq<Member>, r: Option<RemixTarget>)
    requires r.Some? ==> ValidName(r.value.name) && SemVer.IsSemVer(r.value.version)
    requires Lookup(ms, RemixOfKey) == RemixValue(r)
    ensures ParseRemixOf(ms) == Ok(r)
  {
    if r.Some? {
      PairRoundTrip(r.value.name, r.value.version);
    }
  }

  lemma PairRoundTrip(name: string, version: string)
    requires ValidName(name) && SemVer.IsSemVer(version)
    ensures var ms := Present(PairFields(name, version));
      RequiredName(ms, NameKey) == Ok(name) && RequiredSemVer(ms, VersionKey) == Ok(version)
  {
    var fields := PairFields(name, version);
    PresentLookup(fields, 0);
    PresentLookup(fields, 1);
  }

  lemma DependenciesRoundTrip(ms: seq<Member>, deps: Option<seq<Dependency>>)
    requires ValidDependencies(deps) && Lookup(ms, DependenciesKey) == DependenciesValue(deps)
    ensures ParseDependencies(ms) == Ok(deps)
  {
    if deps.Some? {
      DependencyListRoundTrip(deps.value);
    }
  }

  /** `ParseGame` over a document whose every field parses to `g`'s. */
  lemma ParseGameOf(ms: seq<Member>, g: GameManifest, isCategory: string -> bool)
    requires GameKindOk(ms) == Ok(true)
    requires RequiredName(ms, NameKey) == Ok(g.name)
    requires OptionalString(ms, DisplayNameKey) == Ok(g.displayName)
    requires RequiredString(ms, DescriptionKey) == Ok(g.description)
    requires RequiredVisibility(ms) == Ok(g.visibility)
    requires OptionalSemVer(ms, VersionKey) == Ok(g.version)
    requires ParseCategories(ms, isCategory) == Ok(g.categories)
    requires ParseAuthors(ms) == Ok(g.authors)
    requires ParseDependencies(ms) == Ok(g.dependencies)
    requires ParseRemixOf(ms) == Ok(g.remixOf)
    ensures ParseGame(Object(ms), isCategory) == Ok(g)
  {
  }

  /** Any document whose lookups find `g`'s encoded fields parses to `g`. */
  lemma GameFromLookups(ms: seq<Member>, g: GameManifest, isCategory: string -> bool)
    requires ValidGame(g, isCategory)
    requires Lookup(ms, KindKey) == None
    requires Lookup(ms, NameKey) == Some(Str(g.name))
    requires Lookup(ms, DisplayNameKey) == StrOf(g.displayName)
    requires Lookup(ms, DescriptionKey) == Some(Str(g.description))
    requires Lookup(ms, VisibilityKey) == Some(Str(VisibilityName(g.visibility)))
    requires Lookup(ms, VersionKey) == StrOf(g.version)
    requires Lookup(ms, CategoriesKey) == Some(Arr(EncodeStrings(g.categories)))
    requires Lookup(ms, AuthorsKey) == Some(EncodeAuthors(g.authors))
    requires Lookup(ms, DependenciesKey) == DependenciesValue(g.dependencies)
    requires Lookup(ms, RemixOfKey) == RemixValue(g.remixOf)
    ensures ParseGame(Object(ms), isCategory) == Ok(g)
  {
    RequiredNameOf(ms, NameKey, g.name);
    OptionalStringOf(ms, DisplayNameKey, g.displayName);
    RequiredStringOf(ms, DescriptionKey, g.description);
    RequiredVisibilityOf(ms, g.visibility);
    OptionalSemVerOf(ms, VersionKey, g.version);
    CategoriesOf(ms, g.categories, isCategory);
    AuthorsRoundTrip(ms, g.authors);
    DependenciesRoundTrip(ms, g.dependencies);
    RemixOfRoundTrip(ms, g.remixOf);
    ParseGameOf(ms, g, isCategory);
  }

  /** A valid game manifest, written out, parses back to itself. */
  lemma GameRoundTrip(g: GameManifest, isCategory: string -> bool)
    requires ValidGame(g, isCategory)
    ensures ParseGame(EncodeGame(g), isCategory) == Ok(g)
  {
    GameLookups(g);
    GameFromLookups(Present(GameFields(g)), g, isCategory);
  }

  lemma PluginFieldsDistinct(m: PluginManifest)
    ensures DistinctFields(PluginFields(m))
  {
  }

  lemma PluginLookups(p: PluginManifest)
    ensures var ms := Present(PluginFields(p));
      && Lookup(ms, KindKey) == Some(Str(PluginKind))
      && Lookup(ms, NameKey) == Some(Str(p.name))
      && Lookup(ms, DisplayNameKey) == StrOf(p.displayName)
      && Lookup(ms, DescriptionKey) == Some(Str(p.description))
      && Lookup(ms, VisibilityKey) == Some(Str(VisibilityName(p.visibility)))
      && Lookup(ms, VersionKey) == StrOf(p.version)
      && Lookup(ms, AuthorsKey) == Some(EncodeAuthors(p.authors))
  {
    var fields := PluginFields(p);
    PluginFieldsDistinct(p);
    PresentLookup(fields, 0);
    PresentLookup(fields, 1);
    PresentLookup(fields, 2);
    PresentLookup(fields, 3);
    PresentLookup(fields, 4);
    PresentLookup(fields, 5);
    PresentLookup(fields, 6);
  }

  lemma PluginFromLookups(ms: seq<Member>, p: PluginManifest)
    requires ValidPlugin(p)
    requires Lookup(ms, KindKey) == Some(Str(PluginKind))
    requires Lookup(ms, NameKey) == Some(Str(p.name))
    requires Lookup(ms, DisplayNameKey) == StrOf(p.displayName)
    requires Lookup(ms, DescriptionKey) == Some(Str(p.description))
    requires Lookup(ms, VisibilityKey) == Some(Str(VisibilityName(p.visibility)))
    requires Lookup(ms, VersionKey) == StrOf(p.version)
    requires Lookup(ms, AuthorsKey) == Some(EncodeAuthors(p.authors))
    ensures ParsePlugin(Object(ms)) == Ok(p)
  {
    RequiredNameOf(ms, NameKey, p.name);
    OptionalStringOf(ms, DisplayNameKey, p.displayName);
    RequiredStringOf(ms, DescriptionKey, p.description);
    RequiredVisibilityOf(ms, p.visibility);
    OptionalSemVerOf(ms, VersionKey, p.version);
    AuthorsRoundTrip(ms, p.authors);
    ParsePluginOf(ms, p);
  }

  lemma ParsePluginOf(ms: seq<Member>, p: PluginManifest)
    requires PluginKindOk(ms) == Ok(true)
    requires RequiredName(ms, NameKey) == Ok(p.name)
    requires OptionalString(ms, DisplayNameKey) == Ok(p.displayName)
    requires RequiredString(ms, DescriptionKey) == Ok(p.description)
    requires RequiredVisibility(ms) == Ok(p.visibility)
    requires OptionalSemVer(ms, VersionKey) == Ok(p.version)
    requires ParseAuthors(ms) == Ok(p.authors)
    ensures ParsePlugin(Object(ms)) == Ok(p)
  {
  }

  /** A valid plugin manifest, written out, parses back to itself. */
  lemma PluginRoundTrip(p: PluginManifest)
    requires ValidPlugin(p)
    ensures ParsePlugin(EncodePlugin(p)) == Ok(p)
  {
    PluginLookups(p);
    PluginFromLookups(Present(PluginFields(p)), p);
  }

  lemma LegacyFieldsDistinct(m: LegacyManifest)
    ensures DistinctFields(LegacyFields(m))
  {
  }

  lemma LegacyLookups(l: LegacyManifest)
    ensures var ms := Present(LegacyFields(l));
      && Lookup(ms, NameKey) == Some(Str(l.name))
      && Lookup(ms, DescriptionKey) == Some(Str(l.description))
      && Lookup(ms, VisibilityKey) == Some(Str(LegacyVisibilityName(l.visibility)))
      && Lookup(ms, VersionKey) == StrOf(l.version)
      && Lookup(ms, AuthorsKey) == Some(EncodeAuthors(l.authors))
  {
    var fields := LegacyFields(l);
    LegacyFieldsDistinct(l);
    PresentLookup(fields, 0);
    PresentLookup(fields, 1);
    PresentLookup(fields, 2);
    PresentLookup(fields, 3);
    PresentLookup(fields, 4);
  }

  lemma LegacyFromLookups(ms: seq<Member>, l: LegacyManifest)
    requires ValidLegacy(l)
    requires Lookup(ms, NameKey) == Some(Str(l.name))
    requires Lookup(ms, DescriptionKey) == Some(Str(l.description))
    requires Lookup(ms, VisibilityKey) == Some(Str(LegacyVisibilityName(l.visibility)))
    requires Lookup(ms, VersionKey) == StrOf(l.version)
    requires Lookup(ms, AuthorsKey) == Some(EncodeAuthors(l.authors))
    ensures ParseLegacy(Object(ms)) == Ok(l)
  {
    RequiredStringOf(ms, NameKey, l.name);
    RequiredStringOf(ms, DescriptionKey, l.description);
    RequiredStringOf(ms, VisibilityKey, LegacyVisibilityName(l.visibility));
    LegacyVisibilityRoundTrip(l.visibility);
    OptionalSemVerOf(ms, VersionKey, l.version);
    AuthorsRoundTrip(ms, l.authors);
    ParseLegacyOf(ms, l);
  }

  lemma ParseLegacyOf(ms: seq<Member>, l: LegacyManifest)
    requires RequiredString(ms, NameKey) == Ok(l.name) && l.name != ""
    requires RequiredString(ms, DescriptionKey) == Ok(l.description)
    requires RequiredString(ms, VisibilityKey) == Ok(LegacyVisibilityName(l.visibility))
    requires ParseLegacyVisibility(LegacyVisibilityName(l.visibility)) == Some(l.visibility)
    requires OptionalSemVer(ms, VersionKey) == Ok(l.version)
    requires ParseAuthors(ms) == Ok(l.authors)
    ensures ParseLegacy(Object(ms)) == Ok(l)
  {
  }

  /** A valid legacy manifest, written out, parses back to itself. */
  lemma LegacyRoundTrip(l: LegacyManifest)
    requires ValidLegacy(l)
    ensures ParseLegacy(EncodeLegacy(l)) == Ok(l)
  {
    LegacyLookups(l);
    LegacyFromLookups(Present(LegacyFields(l)), l);
  }
}

=== FILE: nonce_channel.dfy ===
/** The frontend SDKs' `PluginChannel.acquire` (TypeScript and Rust).

    A frontend asks its parent for a channel by posting
    `{type: "acquire_plugin_channel", nonce, channel: {name, version}}` and
    installs one message listener for that nonce. The listener considers
    only messages of type `plugin_channel` carrying the same nonce. An
    error reply removes it and rejects; a reply with name, version and a
    port removes it and resolves; a reply lacking any of them leaves it
    installed and the promise pending. Once removed, the listener sees
    nothing more.

    The two clients differ in detail: TypeScript tests `"error" in data`
    and truthiness, Rust tests `error !== undefined` and string-ness. */
module NonceChannel {
  import opened Text
  import opened Results
  import Js

  const ChannelType: string := "plugin_channel"
  const AcquireType: string := "acquire_plugin_channel"

  datatype Listener =
    | Listening
    | Resolved(port: nat, channel: Js.Value)
    | Rejected(message: string)

  /** The request message both clients post. */
  function Request(nonce: string, name: string, version: string): (m: Js.Value)
    ensures Js.Get(m, "type") == Js.Str(AcquireType)
    ensures Js.Get(m, "nonce") == Js.Str(nonce)
    ensures Js.Get(Js.Get(m, "channel"), "name") == Js.Str(name)
    ensures Js.Get(Js.Get(m, "channel"), "version") == Js.Str(version)
  {
    Js.Obj(map[
      "type" := Js.Str(AcquireType),
      "nonce" := Js.Str(nonce),
      "channel" := Js.Obj(map["name" := Js.Str(name), "version" := Js.Str(version)])])
  }

  predicate HasKey(v: Js.Value, key: string) {
    v.Obj? && key in v.fields
  }

  /** `new Error(x).message`: empty for `undefined`, else `String(x)`. */
  function ErrorMessage(x: Js.Value): string {
    if x == Js.Undefined then "" else Js.ToStr(x)
  }

  /** The TypeScript listener's reaction to one message. */
  function StepTs(l: Listener, nonce: string, data: Js.Value, ports: seq<nat>): Listener {
    if !l.Listening? then l
    else if Js.Get(data, "type") != Js.Str(ChannelType) || Js.Get(data, "nonce") != Js.Str(nonce) then l
    else if HasKey(data, "error") then Rejected(ErrorMessage(Js.Get(data, "error")))
    else
      var channel := Js.Get(data, "channel");
      if !Js.Truthy(Js.Get(channel, "name")) || !Js.Truthy(Js.Get(channel, "version")) || ports == [] then l
      else Resolved(ports[0], channel)
  }

  /** `getVersion()`: `String(channel.version)`. */
  function GetVersion(l: Listener): (v: string)
    requires l.Resolved?
  {
    Js.ToStr(Js.Get(l.channel, "version"))
  }

  /** `Reflect.get(target, key)` then `as_string`: a non-object target
      makes `Reflect.get` throw, which reads as `None`. */
  function ReflectString(target: Js.Value, key: string): Option<string> {
    if target.Obj? then Js.AsString(Js.Get(target, key)) else None
  }

  /** The Rust closure's reaction to one message. */
  function StepRust(l: Listener, nonce: string, data: Js.Value, ports: seq<nat>): Listener {
    if !l.Listening? || !data.Obj? then l
    else if ReflectString(data, "type") != Some(ChannelType) || ReflectString(data, "nonce") != Some(nonce) then l
    else
      var error := Js.Get(data, "error");
      if error != Js.Undefined then
        Rejected(match Js.AsString(error) case Some(s) => s case None => "Unknown error")
      else
        var channel := Js.Get(data, "channel");
        if ReflectString(channel, "name").None? || ReflectString(channel, "version").None? || ports == [] then l
        else Resolved(ports[0], channel)
  }

  /** The Rust nonce: two random integers below 10^15 printed back to back. */
  function RustNonce(a: nat, b: nat): (n: string)
    requires a < 1_000_000_000_000_000 && b < 1_000_000_000_000_000
    ensures 2 <= |n| && AllDigits(n)
  {
    NatToString(a) + NatToString(b)
  }

  /** The reply the parent sends for a request: same nonce and channel. */
  function Reply(request: Js.Value): Js.Value {
    Js.Obj(map[
      "type" := Js.Str(ChannelType),
      "nonce" := Js.Get(request, "nonce"),
      "channel" := Js.Get(request, "channel")])
  }

  // ---------------------------------------------------------------- lemmas

  /** A listener that has settled ignores every later message: it was
      removed. */
  lemma SettledIgnoresMessages(l: Listener, nonce: string, data: Js.Value, ports: seq<nat>)
    requires !l.Listening?
    ensures StepTs(l, nonce, data, ports) == l
    ensures StepRust(l, nonce, data, ports) == l
  {
  }

  /** Messages of another type or for another nonce are ignored, whatever
      else they carry; a listener changes only on a message that passes
      the filter. */
  lemma ForeignMessagesIgnored(l: Listener, nonce: string, data: Js.Value, ports: seq<nat>)
    ensures Js.Get(data, "type") != Js.Str(ChannelType) || Js.Get(data, "nonce") != Js.Str(nonce) ==>
      StepTs(l, nonce, data, ports) == l
    ensures ReflectString(data, "type") != Some(ChannelType) || ReflectString(data, "nonce") != Some(nonce) ==>
      StepRust(l, nonce, data, ports) == l
  {
  }

  /** The two filters select the same messages: a property equal to a
      string is what `Reflect.get` and `as_string` read back. */
  lemma FiltersAgree(data: Js.Value, key: string, expected: string)
    ensures ReflectString(data, key) == Some(expected) <==> Js.Get(data, key) == Js.Str(expected)
  {
  }

  /** Round trip: the reply to a client's own request, with a port attached,
      resolves it with that port, and `getVersion` gives back the requested
      version; both clients agree. */
  lemma ReplyResolves(nonce: string, name: string, version: string, port: nat, rest: seq<nat>)
    requires name != "" && version != ""
    ensures var l := StepTs(Listening, nonce, Reply(Request(nonce, name, version)), [port] + rest);
      l.Resolved? && l.port == port && GetVersion(l) == version
    ensures StepRust(Listening, nonce, Reply(Request(nonce, name, version)), [port] + rest).Resolved?
    ensures StepRust(Listening, nonce, Reply(Request(nonce, name, version)), [port] + rest).port == port
  {
    var req := Request(nonce, name, version);
    var rep := Reply(req);
    assert Js.Get(rep, "type") == Js.Str(ChannelType);
    assert Js.Get(rep, "nonce") == Js.Str(nonce);
    assert !HasKey(rep, "error");
    assert Js.Get(rep, "error") == Js.Undefined;
  }

  /** A reply without a port, or with an empty name, leaves the TypeScript
      listener installed. */
  lemma IncompleteReplyPending(nonce: string, name: string, version: string)
    ensures StepTs(Listening, nonce, Reply(Request(nonce, name, version)), []) == Listening
    ensures StepTs(Listening, nonce, Reply(Request(nonce, "", version)), [7]) == Listening
    ensures StepRust(Listening, nonce, Reply(Request(nonce, name, version)), []) == Listening
  {
    var rep := Reply(Request(nonce, name, version));
    assert Js.Get(rep, "error") == Js.Undefined;
    assert !HasKey(rep, "error");
    var rep2 := Reply(Request(nonce, "", version));
    assert !HasKey(rep2, "error");
  }

  function ErrorReply(nonce: string, error: Js.Value): Js.Value {
    Js.Obj(map["type" := Js.Str(ChannelType), "nonce" := Js.Str(nonce), "error" := error])
  }

  /** A message for this listener that has an `error` key rejects, even
      when a port is attached: TypeScript with `String(error)` (empty for
      `undefined`), Rust, when the error is defined, with the string or
      "Unknown error" for a non-string. */
  lemma ErrorRejects(nonce: string, data: Js.Value, ports: seq<nat>)
    requires Js.Get(data, "type") == Js.Str(ChannelType) && Js.Get(data, "nonce") == Js.Str(nonce)
    requires HasKey(data, "error")
    ensures StepTs(Listening, nonce, data, ports) == Rejected(ErrorMessage(Js.Get(data, "error")))
    ensures var e := Js.Get(data, "error");
      e != Js.Undefined ==> StepRust(Listening, nonce, data, ports) == Rejected(if e.Str? then e.s else "Unknown error")
  {
  }

  /** In particular the parent's error reply rejects with its message in
      both clients. */
  lemma ErrorReplyRejects(nonce: string, msg: string, ports: seq<nat>)
    ensures StepTs(Listening, nonce, ErrorReply(nonce, Js.Str(msg)), ports) == Rejected(msg)
    ensures StepRust(Listening, nonce, ErrorReply(nonce, Js.Str(msg)), ports) == Rejected(msg)
  {
    ErrorRejects(nonce, ErrorReply(nonce, Js.Str(msg)), ports);
  }

  /** An `error` key holding `undefined`: TypeScript sees the key and rejects
      with an empty message; Rust sees `undefined` and goes on to resolve. */
  lemma UndefinedErrorDiffers(nonce: string, port: nat)
    ensures var data := Js.Obj(map[
        "type" := Js.Str(ChannelType), "nonce" := Js.Str(nonce), "error" := Js.Undefined,
        "channel" := Js.Obj(map["name" := Js.Str("p"), "version" := Js.Str("1.0.0")])]);
      && StepTs(Listening, nonce, data, [port]) == Rejected("")
      && StepRust(Listening, nonce, data, [port]).Resolved?
  {
  }

  /** Rust nonces are not uniquely decodable: different draws can print the
      same nonce, and two such requests would both accept one reply. */
  lemma RustNonceCollision()
    ensures RustNonce(1, 23) == RustNonce(12, 3)
  {
    assert NatToString(1) == "1" && NatToString(3) == "3";
    assert NatToString(23) == "23" && NatToString(12) == "12";
  }
}

=== FILE: override_args.dfy ===
/** The cabinet's command line: `--override package@version=url` entries
    become a map from `package@version` to a URL, the first positional is
    the manifest path, and `--no-exit` defaults to false.

    Tokenising the arguments (`node:util` `parseArgs`) is library code:
    the model starts from the override values it collected, in order, and
    the positionals. */
module OverrideArgs {
  import opened Results
  import opened Text

  datatype Override = Override(key: string, url: string)

  const At: char := '@'

  /** The key part of an override value, split at `@`: the first two
      parts joined back with `@`, or nothing when either is empty or
      there is no second part. */
  function ParseKey(k: string): Option<string> {
    var parts := SplitOn(k, '@');
    if parts[0] == "" || |parts| < 2 || parts[1] == "" then None
    else Some(parts[0] + [At] + parts[1])
  }

  /** One override value: split at the first `=`, then the key at `@`;
      entries without `=` or with an empty package or version are
      skipped, and `@` parts beyond the second are dropped. */
  function ParseOverride(s: string): (r: Option<Override>)
    ensures '=' !in s ==> r.None?
  {
    var i := IndexOf(s, '=');
    if i == -1 then None
    else
      match ParseKey(s[..i])
      case None => None
      case Some(key) => Some(Override(key, s[i + 1..]))
  }

  /** A parsed override holds everything after the first `=` as its URL,
      and its key holds no `=`: the URL may contain `=`, the key never. */
  lemma ParseOverrideSplitsAtFirstEquals(s: string)
    ensures ParseOverride(s).Some? ==>
      var i := IndexOf(s, '=');
      && 0 <= i
      && ParseOverride(s).value.url == s[i + 1..]
      && ParseKey(s[..i]) == Some(ParseOverride(s).value.key)
      && '=' !in ParseOverride(s).value.key
  {
    var i := IndexOf(s, '=');
    if i != -1 && ParseKey(s[..i]).Some? {
      ParseKeyKeepsOut(s[..i], '=');
    }
  }

  /** A character other than `@` that the key text lacks is not in the
      parsed key either. */
  lemma ParseKeyKeepsOut(k: string, c: char)
    requires c !in k && c != At
    ensures ParseKey(k).Some? ==> c !in ParseKey(k).value
  {
    SplitKeepsOut(k, '@', c);
  }

  lemma SplitKeepsOut(s: string, sep: char, c: char)
    requires c !in s
    ensures forall k :: 0 <= k < |SplitOn(s, sep)| ==> c !in SplitOn(s, sep)[k]
    decreases |s|
  {
    var i := IndexOf(s, sep);
    if i != -1 {
      NotInSlice(s, 0, i, c);
      NotInSlice(s, i + 1, |s|, c);
      assert s[0..i] == s[..i] && s[i + 1..|s|] == s[i + 1..];
      SplitKeepsOut(s[i + 1..], sep, c);
    }
  }

  /** The loop over the override values, from the left: a later entry for
      the same key overwrites an earlier one. */
  function CollectOverrides(m: map<string, string>, values: seq<string>): map<string, string>
    decreases |values|
  {
    if values == [] then m
    else
      var m' := match ParseOverride(values[0])
        case Some(o) => m[o.key := o.url]
        case None => m;
      CollectOverrides(m', values[1..])
  }

  function ParseOverrides(values: seq<string>): map<string, string> {
    CollectOverrides(map[], values)
  }

  datatype CliOptions = CliOptions(manifestPath: Option<string>, noExit: bool, overrides: map<string, string>)

  /** `parseCliArgs` after tokenising: an empty first positional is
      falsy, so it gives no manifest either. Reading and validating the
      manifest file is not modelled. */
  function ParseCliArgs(positionals: seq<string>, overrideValues: seq<string>, noExit: Option<bool>): (o: CliOptions)
    ensures o.manifestPath.Some? <==> |positionals| > 0 && positionals[0] != ""
    ensures o.manifestPath.Some? ==> o.manifestPath.value == positionals[0]
    ensures o.noExit <==> noExit == Some(true)
  {
    var path := if |positionals| > 0 && positionals[0] != "" then Some(positionals[0]) else None;
    CliOptions(path, noExit.GetOr(false), ParseOverrides(overrideValues))
  }

  // --------------------------------------------------------------- lemmas

  lemma SplitTwo(a: string, b: string)
    requires '@' !in a && '@' !in b
    ensures SplitOn(a + "@" + b, '@') == [a, b]
  {
    SplitOnSeparated(a, '@', b);
    assert IndexOf(b, '@') == -1;
  }

  lemma SplitMore(a: string, b: string, rest: string)
    requires '@' !in a && '@' !in b
    ensures var parts := SplitOn(a + "@" + b + "@" + rest, '@');
      |parts| >= 2 && parts[0] == a && parts[1] == b
  {
    assert a + "@" + b + "@" + rest == a + ['@'] + (b + ['@'] + rest);
    SplitOnSeparated(a, '@', b + ['@'] + rest);
    SplitOnSeparated(b, '@', rest);
  }

  lemma FirstEquals(k: string, url: string)
    requires '=' !in k
    ensures IndexOf(k + "=" + url, '=') == |k|
    ensures (k + "=" + url)[..|k|] == k && (k + "=" + url)[|k| + 1..] == url
  {
    IndexOfPrefix(k, '=', url);
  }

  /** `package@version=url` with a package and version free of `@` and
      `=` parses back to its key and URL, whatever the URL holds. */
  lemma ParseOverrideRoundTrip(pkg: string, version: string, url: string)
    requires pkg != "" && version != ""
    requires '@' !in pkg && '@' !in version && '=' !in pkg && '=' !in version
    ensures ParseOverride(pkg + "@" + version + "=" + url) == Some(Override(pkg + "@" + version, url))
  {
    var key := pkg + "@" + version;
    FirstEquals(key, url);
    assert (key + "=" + url)[..|key|] == key;
    SplitTwo(pkg, version);
  }

  /** A key with more `@` parts keeps only the first two. */
  lemma ParseOverrideDropsExtra(pkg: string, version: string, extra: string, url: string)
    requires pkg != "" && version != ""
    requires '@' !in pkg && '@' !in version && '=' !in pkg && '=' !in version && '=' !in extra
    ensures ParseOverride(pkg + "@" + version + "@" + extra + "=" + url) == Some(Override(pkg + "@" + version, url))
  {
    var key := pkg + "@" + version + "@" + extra;
    FirstEquals(key, url);
    assert (key + "=" + url) == pkg + "@" + version + "@" + extra + "=" + url;
    SplitMore(pkg, version, extra);
  }

  /** A scoped package name starts with `@`, so its first part is empty
      and the entry is skipped. */
  lemma ScopedNameSkipped(rest: string)
    ensures ParseOverride("@" + rest).None?
  {
    var s := "@" + rest;
    var i := IndexOf(s, '=');
    if i != -1 {
      assert s[..i] == "@" + s[1..i];
      assert IndexOf(s[..i], '@') == 0;
    }
  }

  /** Collecting one more value updates the map with it alone. */
  lemma {:induction false} CollectSnoc(m: map<string, string>, values: seq<string>, v: string)
    ensures CollectOverrides(m, values + [v]) ==
      match ParseOverride(v)
      case Some(o) => CollectOverrides(m, values)[o.key := o.url]
      case None => CollectOverrides(m, values)
    decreases |values|
  {
    if values == [] {
      assert [v][1..] == [];
    } else {
      var m' := match ParseOverride(values[0])
        case Some(o) => m[o.key := o.url]
        case None => m;
      assert (values + [v])[0] == values[0];
      assert (values + [v])[1..] == values[1..] + [v];
      CollectSnoc(m', values[1..], v);
    }
  }

  predicate EntryFor(values: seq<string>, i: int, key: string) {
    0 <= i < |values| && ParseOverride(values[i]).Some? && ParseOverride(values[i]).value.key == key
  }

  /** What the last value does to the map: it sets its own key, and
      leaves every other key as the values before it had it. */
  lemma LastValue(values: seq<string>, key: string)
    requires values != []
    ensures var init := values[..|values| - 1];
      && (EntryFor(values, |values| - 1, key) ==>
            key in ParseOverrides(values) && ParseOverrides(values)[key] == ParseOverride(values[|values| - 1]).value.url)
      && (!EntryFor(values, |values| - 1, key) ==>
            (key in ParseOverrides(values) <==> key in ParseOverrides(init))
            && (key in ParseOverrides(init) ==> ParseOverrides(values)[key] == ParseOverrides(init)[key]))
  {
    var init := values[..|values| - 1];
    var v := values[|values| - 1];
    assert values == init + [v];
    CollectSnoc(map[], init, v);
  }

  lemma EntryForInit(values: seq<string>, key: string, i: int)
    requires 0 <= i < |values| - 1
    ensures EntryFor(values, i, key) <==> EntryFor(values[..|values| - 1], i, key)
  {
    assert values[..|values| - 1][i] == values[i];
  }

  /** A key is present exactly when some entry parses to it, and then maps
      to the URL of the last such entry. */
  lemma OverridesLastWins(values: seq<string>, key: string)
    ensures key in ParseOverrides(values) <==> exists i :: EntryFor(values, i, key)
    ensures forall i :: EntryFor(values, i, key) && (forall j :: i < j < |values| ==> !EntryFor(values, j, key)) ==>
      key in ParseOverrides(values) && ParseOverrides(values)[key] == ParseOverride(values[i]).value.url
  {
    OverridePresent(values, key);
    forall i | EntryFor(values, i, key) && (forall j :: i < j < |values| ==> !EntryFor(values, j, key))
      ensures key in ParseOverrides(values) && ParseOverrides(values)[key] == ParseOverride(values[i]).value.url
    {
      OverrideLastUrl(values, key, i);
    }
  }

  lemma {:induction false} OverridePresent(values: seq<string>, key: string)
    ensures key in ParseOverrides(values) <==> exists i :: EntryFor(values, i, key)
    decreases |values|
  {
    if values != [] {
      var n := |values| - 1;
      var init := values[..n];
      OverridePresent(init, key);
      LastValue(values, key);
      if !EntryFor(values, n, key) {
        forall i | EntryFor(values, i, key) ensures EntryFor(init, i, key) { EntryForInit(values, key, i); }
        forall i | EntryFor(init, i, key) ensures EntryFor(values, i, key) { EntryForInit(values, key, i); }
      }
    }
  }

  lemma {:induction false} OverrideLastUrl(values: seq<string>, key: string, i: int)
    requires EntryFor(values, i, key)
    requires forall j :: i < j < |values| ==> !EntryFor(values, j, key)
    ensures key in ParseOverrides(values) && ParseOverrides(values)[key] == ParseOverride(values[i]).value.url
    decreases |values|
  {
    var n := |values| - 1;
    LastValue(values, key);
    if i < n {
      var init := values[..n];
      EntryForInit(values, key, i);
      forall j | i < j < |init| ensures !EntryFor(init, j, key) {
        EntryForInit(values, key, j);
      }
      assert init[i] == values[i];
      OverrideLastUrl(init, key, i);
    }
  }
}

=== FILE: plugin_catalog.dfy ===
/** The plugin registry of the web service (web/src/lib/plugin.ts): the
    version check of `publishVersion` and the listing `intoResponse`
    builds. Plugins share the visibility rule of games but have no
    release status, no remixes and no categories, and their listing keeps
    a hidden version as an empty entry instead of dropping it. */
module PluginCatalog {
  import opened Results
  import opened Manifests
  import Catalog

  datatype PluginVersionRecord = PluginVersionRecord(
    version: string,
    displayName: Option<string>,
    description: string,
    visibility: Visibility,
    authors: seq<Author>)

  datatype Plugin = Plugin(id: string, name: string, repo: string, owner: string, versions: seq<PluginVersionRecord>)

  datatype PublishError = VersionMismatch

  datatype Publication = Publication(plugin: Plugin, uploadKey: string, expires: int)

  // ------------------------------------------------------------ bucket keys

  const BuildsPrefix: string := "plugins/builds/"
  const Slash: char := '/'
  const BackendArchive: string := "backend.tar.gz"
  const ArchiveSuffix: string := ".tar.gz"

  /** `plugins/builds/{id}/{version}/backend.tar.gz`, the key the upload
      link writes. */
  function UploadKey(id: string, version: string): string {
    BuildsPrefix + id + [Slash] + version + [Slash] + BackendArchive
  }

  /** The key the download link reads, as written:
      `plugins/builds/{id}/{version}.tar.gz`. */
  function ContentKeyAsWritten(id: string, version: string): string {
    BuildsPrefix + id + [Slash] + version + ArchiveSuffix
  }

  /** Which key the listing's download link reads: the one written in
      `intoResponse`, or the object the upload link writes. */
  datatype LinkKeys = AsWritten | Corrected

  function ContentKey(keys: LinkKeys, id: string, version: string): string {
    match keys
    case AsWritten => ContentKeyAsWritten(id, version)
    case Corrected => UploadKey(id, version)
  }

  /** As written, the download link never names the uploaded object: the
      two keys differ in length for every plugin and version. */
  lemma ContentKeyMissesUpload(id: string, version: string)
    ensures |ContentKeyAsWritten(id, version)| + 8 == |UploadKey(id, version)|
    ensures ContentKeyAsWritten(id, version) != UploadKey(id, version)
  {
  }

  // ----------------------------------------------------------------- publish

  /** `publishVersion`: reject a manifest that names another version,
      else append the version with its authors as a list. The reported
      expiry is the as-written `Date.now() + 3600`. */
  function Publish(plugin: Plugin, version: string, m: PluginManifest, now: int): (r: Result<Publication, PublishError>)
    ensures r.Err? <==> m.version.Some? && m.version.value != version
    ensures r.Ok? ==>
      && |r.value.plugin.versions| == |plugin.versions| + 1
      && r.value.plugin == plugin.(versions := r.value.plugin.versions)
      && r.value.plugin.versions[..|plugin.versions|] == plugin.versions
      && (var rec := r.value.plugin.versions[|plugin.versions|];
          && rec.version == version && rec.visibility == m.visibility
          && rec.authors == Catalog.AuthorList(m.authors))
      && r.value.uploadKey == UploadKey(plugin.id, version)
      && r.value.expires == Catalog.UploadExpiresAsWritten(now)
  {
    if m.version.Some? && m.version.value != version then Err(VersionMismatch)
    else
      var rec := PluginVersionRecord(version, m.displayName, m.description, m.visibility, Catalog.AuthorList(m.authors));
      Ok(Publication(plugin.(versions := plugin.versions + [rec]), UploadKey(plugin.id, version), Catalog.UploadExpiresAsWritten(now)))
  }

  /** `publishVersion` with the expiry reported in milliseconds: the same
      outcome, except that the upload link's expiry is the one the listing
      gives its download links. */
  function PublishFixed(plugin: Plugin, version: string, m: PluginManifest, now: int): (r: Result<Publication, PublishError>)
    ensures r.Err? <==> Publish(plugin, version, m, now).Err?
    ensures r.Err? ==> r == Publish(plugin, version, m, now)
    ensures r.Ok? ==>
      && r.value.plugin == Publish(plugin, version, m, now).value.plugin
      && r.value.uploadKey == UploadKey(plugin.id, version)
      && r.value.expires == Catalog.ContentsAt(r.value.uploadKey, now).expires
  {
    match Publish(plugin, version, m, now)
    case Err(e) => Err(e)
    case Ok(p) => Ok(p.(expires := Catalog.UploadExpires(now)))
  }

  /** As written, the upload link is reported to expire 3.6 seconds after
      publication, long before a download link of the same age would. */
  lemma PublishExpiresEarly(plugin: Plugin, version: string, m: PluginManifest, now: int)
    requires Publish(plugin, version, m, now).Ok?
    ensures var p := Publish(plugin, version, m, now).value;
      && p.expires - now == Catalog.UrlLifetimeSeconds
      && p.expires < Catalog.ContentsAt(p.uploadKey, now).expires
      && p.expires < PublishFixed(plugin, version, m, now).value.expires
  {
    Catalog.UploadExpiryUnits(now);
  }

  /** No two records of a plugin share a version string. */
  predicate UniqueVersions(versions: seq<PluginVersionRecord>) {
    forall i, j :: 0 <= i < j < |versions| ==> versions[i].version != versions[j].version
  }

  /** Publishing a version the plugin does not have yet keeps its
      versions distinct. */
  lemma PublishKeepsVersionsUnique(plugin: Plugin, version: string, m: PluginManifest, now: int)
    requires UniqueVersions(plugin.versions)
    requires forall i :: 0 <= i < |plugin.versions| ==> plugin.versions[i].version != version
    requires Publish(plugin, version, m, now).Ok?
    ensures UniqueVersions(Publish(plugin, version, m, now).value.plugin.versions)
  {
    var vs := Publish(plugin, version, m, now).value.plugin.versions;
    forall i, j | 0 <= i < j < |vs| ensures vs[i].version != vs[j].version {
      assert vs[i] == plugin.versions[i];
      if j < |plugin.versions| { assert vs[j] == plugin.versions[j]; }
    }
  }

  // ----------------------------------------------------------------- listing

  datatype PluginVersionView = PluginVersionView(
    displayName: Option<string>,
    description: string,
    visibility: Visibility,
    version: string,
    authors: seq<Author>,
    contents: Option<Catalog.Contents>)

  /** The listing: one entry per version, `None` where the caller may not
      see it. */
  datatype PluginView = PluginView(id: string, name: string, git: Catalog.GitUrls, owner: string, versions: seq<Option<PluginVersionView>>)

  /** One version's entry; `keys` picks the key its download link reads,
      and `AsWritten` is the source's listing. */
  function Entry(plugin: Plugin, v: PluginVersionRecord, caller: Catalog.Caller, withKeys: bool, keys: LinkKeys, now: int): Option<PluginVersionView> {
    if !Catalog.Shown(v.visibility, caller, plugin.owner) then None
    else Some(PluginVersionView(v.displayName, v.description, v.visibility, v.version, v.authors,
      if withKeys then Some(Catalog.ContentsAt(ContentKey(keys, plugin.id, v.version), now)) else None))
  }

  function Entries(plugin: Plugin, versions: seq<PluginVersionRecord>, caller: Catalog.Caller, withKeys: bool, keys: LinkKeys, now: int): (r: seq<Option<PluginVersionView>>)
    ensures |r| == |versions|
    ensures forall i :: 0 <= i < |versions| ==>
      (r[i].None? <==> !Catalog.Shown(versions[i].visibility, caller, plugin.owner))
    ensures forall i :: 0 <= i < |versions| && r[i].Some? ==>
      && r[i].value.version == versions[i].version && r[i].value.authors == versions[i].authors
      && (r[i].value.contents.Some? <==> withKeys)
      && (withKeys ==> r[i].value.contents.value == Catalog.ContentsAt(ContentKey(keys, plugin.id, versions[i].version), now))
  {
    if versions == [] then []
    else [Entry(plugin, versions[0], caller, withKeys, keys, now)] + Entries(plugin, versions[1..], caller, withKeys, keys, now)
  }

  /** `intoResponse`: hidden versions stay as empty entries, so the
      result is missing only for a plugin without versions. With
      `AsWritten` keys this is the source's listing. */
  function IntoResponse(plugin: Plugin, caller: Catalog.Caller, withKeys: bool, keys: LinkKeys, now: int): (r: Option<PluginView>)
    ensures r.None? <==> plugin.versions == []
    ensures r.Some? ==> |r.value.versions| == |plugin.versions| && r.value.git == Catalog.GitUrlsOf(plugin.repo)
    ensures r.Some? ==> r.value.versions == Entries(plugin, plugin.versions, caller, withKeys, keys, now)
  {
    var entries := Entries(plugin, plugin.versions, caller, withKeys, keys, now);
    if |entries| == 0 then None
    else Some(PluginView(plugin.id, plugin.name, Catalog.GitUrlsOf(plugin.repo), plugin.owner, entries))
  }

  // ------------------------------------------------------------------ lemmas

  /** Unlike the game listing, a plugin whose every version is hidden
      still yields a listing, of empty entries only. */
  lemma AllHiddenStillListed(plugin: Plugin, caller: Catalog.Caller, withKeys: bool, keys: LinkKeys, now: int)
    requires plugin.versions != []
    requires forall i :: 0 <= i < |plugin.versions| ==> !Catalog.Shown(plugin.versions[i].visibility, caller, plugin.owner)
    ensures IntoResponse(plugin, caller, withKeys, keys, now).Some?
    ensures forall e :: e in IntoResponse(plugin, caller, withKeys, keys, now).value.versions ==> e.None?
  {
  }

  /** With corrected keys, a published plugin version is listed for its
      owner, with a download link to the object its upload link writes. */
  lemma PublishedVersionListed(plugin: Plugin, version: string, m: PluginManifest, now: int, later: int)
    requires Publish(plugin, version, m, now).Ok?
    ensures var p := Publish(plugin, version, m, now).value;
      var view := IntoResponse(p.plugin, Catalog.Recurser(plugin.owner), true, Corrected, later);
      && view.Some?
      && view.value.versions[|plugin.versions|].Some?
      && view.value.versions[|plugin.versions|].value.contents == Some(Catalog.ContentsAt(p.uploadKey, later))
  {
    PublishedEntryShown(plugin, version, m, now);
  }

  /** As written, the owner's listing of a just-published version links
      to a key the upload never wrote. */
  lemma ListedLinkMissesUpload(plugin: Plugin, version: string, m: PluginManifest, now: int, later: int)
    requires Publish(plugin, version, m, now).Ok?
    ensures var p := Publish(plugin, version, m, now).value;
      var view := IntoResponse(p.plugin, Catalog.Recurser(plugin.owner), true, AsWritten, later);
      && view.Some?
      && view.value.versions[|plugin.versions|].Some?
      && view.value.versions[|plugin.versions|].value.contents.value.key == ContentKeyAsWritten(plugin.id, version)
      && view.value.versions[|plugin.versions|].value.contents.value.key != p.uploadKey
  {
    PublishedEntryShown(plugin, version, m, now);
    ContentKeyMissesUpload(plugin.id, version);
  }

  /** The owner sees the version just published. */
  lemma PublishedEntryShown(plugin: Plugin, version: string, m: PluginManifest, now: int)
    requires Publish(plugin, version, m, now).Ok?
    ensures var p := Publish(plugin, version, m, now).value;
      && |plugin.versions| < |p.plugin.versions|
      && p.plugin.versions[|plugin.versions|].version == version
      && Catalog.Shown(p.plugin.versions[|plugin.versions|].visibility, Catalog.Recurser(plugin.owner), p.plugin.owner)
  {
    var p := Publish(plugin, version, m, now).value;
    Catalog.ShownOrdering(p.plugin.versions[|plugin.versions|].visibility, Catalog.Recurser(plugin.owner), plugin.owner);
  }
}

=== FILE: plugin_manager.dfy ===
/** The cabinet's plugin broker (`PluginManager`).

    A game names its plugins as `(name, range)` pairs. The manager resolves
    a pair against a static table of bundled implementations, reuses an
    instance already loaded under that name whose version satisfies the
    range, and otherwise constructs a new instance. Every `start` opens a
    fresh message channel, hands one end to the plugin and returns the
    other. The `get-plugin-port` handler additionally mints a nonce and
    posts `plugin-port-ready {nonce, name, version}` with the port.

    Plugin instances, ports and nonces are opaque numbers; the manager
    allocates instance and port numbers from counters, and the nonce is a
    parameter standing for `crypto.randomUUID()`. The version in the
    bundled manifest file is a parameter too (`bundled`). */
module PluginManager {
  import opened Results
  import SemVer

  const InputClassic: string := "@rcade/input-classic"

  datatype Error = UnknownPlugin(name: string) | VersionNotFound(has: string, expected: string)

  /** One `loadedPlugins` entry: the instance, the requested name and the
      version of the implementation's manifest. */
  datatype Loaded = Loaded(instance: nat, name: string, version: string)

  /** A `plugin-port-ready` message posted to the game's web contents. */
  datatype PortReady = PortReady(nonce: nat, name: string, version: string, port: nat)

  /** A `plugin.start` call: the instance started and the channel end
      (`port1`) it was given. */
  datatype StartCall = StartCall(instance: nat, port: nat)

  datatype Manager = Manager(
    bundled: string,            // version in the bundled input-classic manifest
    handlerRegistered: bool,    // `get-plugin-port` is handled
    loaded: seq<Loaded>,
    nextInstance: nat,
    nextPort: nat,
    started: seq<StartCall>,    // every `plugin.start` call, in order
    stopped: seq<nat>,          // instances whose `stop` was called, in order
    posted: seq<PortReady>)

  /** The manager after an operation, with what the operation returned. */
  datatype Outcome<R> = Outcome(m: Manager, result: R)

  /** What `start` resolves to: the game's end of the channel and the
      loaded version. */
  datatype Channel = Channel(port: nat, version: string)

  /** One entry of a game's dependency list. */
  datatype Request = Request(name: string, range: string)

  /** The private constructor: nothing loaded, the handler registered. */
  function Create(bundled: string): (m: Manager)
    ensures m.handlerRegistered && m.loaded == [] && m.started == [] && m.stopped == [] && m.posted == []
    ensures Valid(m)
  {
    Manager(bundled, true, [], 0, 0, [], [], [])
  }

  /** Instances are distinct and below the counter; ports handed out so far
      are below the port counter; every entry records the bundled version. */
  predicate Valid(m: Manager) {
    && (forall i :: 0 <= i < |m.loaded| ==> m.loaded[i].instance < m.nextInstance)
    && (forall i, j :: 0 <= i < j < |m.loaded| ==> m.loaded[i].instance != m.loaded[j].instance)
    && (forall i :: 0 <= i < |m.loaded| ==> m.loaded[i].name == InputClassic && m.loaded[i].version == m.bundled)
    && (forall k :: 0 <= k < |m.started| ==> m.started[k].port + 1 < m.nextPort)
    && (forall k :: 0 <= k < |m.posted| ==> m.posted[k].port < m.nextPort)
  }

  /** `ref`: the static table of bundled implementations. */
  function Ref(bundled: string, name: string): (r: Result<string, Error>)
    ensures r.Ok? <==> name == InputClassic
    ensures r.Ok? ==> r.value == bundled
    ensures r.Err? ==> r.error == UnknownPlugin(name)
  {
    if name == InputClassic then Ok(bundled) else Err(UnknownPlugin(name))
  }

  predicate Reusable(e: Loaded, name: string, range: string) {
    e.name == name && SemVer.Satisfies(e.version, range)
  }

  /** The position of the first element `p` accepts, if any. */
  function FirstWhere<T>(s: seq<T>, p: T -> bool): (r: Option<nat>)
    ensures r.Some? ==> r.value < |s| && p(s[r.value])
    ensures r.Some? ==> forall j :: 0 <= j < r.value ==> !p(s[j])
    ensures r.None? <==> forall j :: 0 <= j < |s| ==> !p(s[j])
  {
    if s == [] then None
    else if p(s[0]) then Some(0)
    else
      match FirstWhere(s[1..], p)
      case None => None
      case Some(i) => Some(i + 1)
  }

  /** The first loaded entry the scan in `load` accepts. */
  function FindLoaded(loaded: seq<Loaded>, name: string, range: string): (r: Option<nat>)
    ensures r.Some? ==> r.value < |loaded| && Reusable(loaded[r.value], name, range)
    ensures r.Some? ==> forall j :: 0 <= j < r.value ==> !Reusable(loaded[j], name, range)
    ensures r.None? <==> forall j :: 0 <= j < |loaded| ==> !Reusable(loaded[j], name, range)
  {
    FirstWhere(loaded, e => Reusable(e, name, range))
  }

  /** `load`: the instance and version, or the error thrown. */
  function Load(m: Manager, name: string, range: string): Outcome<Result<Loaded, Error>>
  {
    match FindLoaded(m.loaded, name, range)
    case Some(i) => Outcome(m, Ok(m.loaded[i]))
    case None =>
      match Ref(m.bundled, name)
      case Err(e) => Outcome(m, Err(e))
      case Ok(version) =>
        if !SemVer.Satisfies(version, range) then Outcome(m, Err(VersionNotFound(version, range)))
        else
          var entry := Loaded(m.nextInstance, name, version);
          Outcome(m.(loaded := m.loaded + [entry], nextInstance := m.nextInstance + 1), Ok(entry))
  }

  /** `start`: load, open a channel (port1, port2), start the plugin on
      port1, return port2 and the version. */
  function Start(m: Manager, name: string, range: string): Outcome<Result<Channel, Error>>
  {
    Opened(Load(m, name, range))
  }

  /** The part of `start` after `load`: open the channel on the next two
      ports and start the loaded entry on the first. */
  function Opened(o: Outcome<Result<Loaded, Error>>): Outcome<Result<Channel, Error>>
  {
    var m1 := o.m;
    match o.result
    case Err(e) => Outcome(m1, Err(e))
    case Ok(entry) =>
      var port1 := m1.nextPort;
      var port2 := m1.nextPort + 1;
      Outcome(m1.(nextPort := m1.nextPort + 2, started := m1.started + [StartCall(entry.instance, port1)]),
              Ok(Channel(port2, entry.version)))
  }

  /** The `get-plugin-port` handler, with `nonce` the freshly drawn UUID. */
  function HandleGetPort(m: Manager, name: string, range: string, nonce: nat): Outcome<Result<nat, Error>>
  {
    var o := Start(m, name, range);
    match o.result
    case Err(e) => Outcome(o.m, Err(e))
    case Ok(ch) =>
      Outcome(o.m.(posted := o.m.posted + [PortReady(nonce, name, ch.version, ch.port)]), Ok(nonce))
  }

  /** Load each request in order with `load`, stopping at the first
      failure. */
  function LoadEach(m: Manager, preload: seq<Request>, load: (Manager, Request) -> Outcome<Result<Loaded, Error>>)
    : Outcome<Option<Error>>
    decreases |preload|
  {
    if preload == [] then Outcome(m, None)
    else
      var o := load(m, preload[0]);
      match o.result
      case Err(e) => Outcome(o.m, Some(e))
      case Ok(_) => LoadEach(o.m, preload[1..], load)
  }

  function LoadRequest(m: Manager, r: Request): Outcome<Result<Loaded, Error>> {
    Load(m, r.name, r.range)
  }

  /** The body of `loadInto`: `load` each preload entry in order, stopping
      at the first failure. */
  function LoadAll(m: Manager, preload: seq<Request>): Outcome<Option<Error>> {
    LoadEach(m, preload, LoadRequest)
  }

  /** `loadInto`: a fresh manager with the preload list loaded, or the first
      error. */
  function LoadInto(bundled: string, preload: seq<Request>): Outcome<Option<Error>> {
    LoadAll(Create(bundled), preload)
  }

  function Instances(loaded: seq<Loaded>): (r: seq<nat>)
    ensures |r| == |loaded|
    ensures forall i :: 0 <= i < |loaded| ==> r[i] == loaded[i].instance
  {
    if loaded == [] then [] else [loaded[0].instance] + Instances(loaded[1..])
  }

  /** `destroy`: remove the handler and stop every loaded entry once. */
  function Destroy(m: Manager): (m': Manager)
    ensures !m'.handlerRegistered
    ensures m'.loaded == m.loaded && m'.started == m.started && m'.posted == m.posted
  {
    m.(handlerRegistered := false, stopped := m.stopped + Instances(m.loaded))
  }

  // ---------------------------------------------------------------- lemmas

  /** A loaded entry with the same name and a satisfying version is
      returned as it is, and nothing is constructed. */
  lemma LoadReuses(m: Manager, name: string, range: string, i: nat)
    requires i < |m.loaded| && Reusable(m.loaded[i], name, range)
    ensures Load(m, name, range).m == m
    ensures Load(m, name, range).result.Ok?
    ensures var e := Load(m, name, range).result.value;
      e in m.loaded && e.name == name && SemVer.Satisfies(e.version, range)
  {
  }

  /** A name outside the static table fails with `UnknownPlugin` unless an
      entry is reused, and the manager is unchanged. */
  lemma LoadUnknown(m: Manager, name: string, range: string)
    requires Valid(m)
    requires name != InputClassic
    ensures Load(m, name, range) == Outcome(m, Err(UnknownPlugin(name)))
  {
    assert FindLoaded(m.loaded, name, range).None?;
  }

  /** When the bundled manifest version does not satisfy the range and no
      entry is reused, `load` fails with `VersionNotFound` and changes
      nothing. */
  lemma LoadVersionNotFound(m: Manager, range: string)
    requires Valid(m)
    requires !SemVer.Satisfies(m.bundled, range)
    ensures Load(m, InputClassic, range) == Outcome(m, Err(VersionNotFound(m.bundled, range)))
  {
    assert FindLoaded(m.loaded, InputClassic, range).None?;
  }

  /** A successful miss appends exactly one entry, under the manifest
      version rather than the range, and returns it. */
  lemma LoadMissAppends(m: Manager, range: string)
    requires FindLoaded(m.loaded, InputClassic, range).None?
    requires SemVer.Satisfies(m.bundled, range)
    ensures var o := Load(m, InputClassic, range);
      && o.result == Ok(Loaded(m.nextInstance, InputClassic, m.bundled))
      && o.m.loaded == m.loaded + [o.result.value]
      && o.m.nextInstance == m.nextInstance + 1
      && o.m.started == m.started && o.m.posted == m.posted && o.m.nextPort == m.nextPort
  {
  }

  /** `load` keeps the manager valid, only ever appends, and a loaded
      entry is in the manager it returns. */
  lemma LoadValid(m: Manager, name: string, range: string)
    requires Valid(m)
    ensures var o := Load(m, name, range);
      && Valid(o.m)
      && o.m.bundled == m.bundled
      && |m.loaded| <= |o.m.loaded| && o.m.loaded[..|m.loaded|] == m.loaded
      && (o.result.Ok? ==> o.result.value in o.m.loaded && Reusable(o.result.value, name, range))
      && o.m.started == m.started && o.m.posted == m.posted && o.m.nextPort == m.nextPort
  {
    match FindLoaded(m.loaded, name, range)
    case Some(i) =>
      assert Load(m, name, range) == Outcome(m, Ok(m.loaded[i]));
    case None =>
      if name != InputClassic {
        assert Load(m, name, range) == Outcome(m, Err(UnknownPlugin(name)));
      } else if !SemVer.Satisfies(m.bundled, range) {
        assert Load(m, name, range) == Outcome(m, Err(VersionNotFound(m.bundled, range)));
      } else {
        var e := Loaded(m.nextInstance, name, m.bundled);
        assert Load(m, name, range) == Outcome(m.(loaded := m.loaded + [e], nextInstance := m.nextInstance + 1), Ok(e));
        AppendKeepsValid(m, e);
        assert e == (m.loaded + [e])[|m.loaded|];
      }
  }

  /** Appending an entry under a fresh instance number and the bundled
      version keeps the manager valid. */
  lemma AppendKeepsValid(m: Manager, entry: Loaded)
    requires Valid(m)
    requires entry == Loaded(m.nextInstance, InputClassic, m.bundled)
    ensures Valid(m.(loaded := m.loaded + [entry], nextInstance := m.nextInstance + 1))
  {
    var l := m.loaded + [entry];
    assert forall i :: 0 <= i < |m.loaded| ==> l[i] == m.loaded[i];
  }

  /** Loading the same pair twice constructs at most one instance: the
      second call reuses the first call's entry and changes nothing. */
  lemma LoadTwiceReuses(m: Manager, name: string, range: string)
    requires Valid(m)
    ensures var o1 := Load(m, name, range);
      var o2 := Load(o1.m, name, range);
      o1.result.Ok? ==> o2.result == o1.result && o2.m == o1.m
  {
    var o1 := Load(m, name, range);
    if o1.result.Ok? {
      LoadValid(m, name, range);
    }
  }

  /** `start` keeps the manager valid and hands out a port no earlier
      `start` or post has used. */
  lemma StartFreshPort(m: Manager, name: string, range: string)
    requires Valid(m)
    ensures var o := Start(m, name, range);
      && Valid(o.m)
      && (o.result.Ok? ==>
            && o.result.value.port >= m.nextPort
            && (forall k :: 0 <= k < |m.started| ==> m.started[k].port != o.result.value.port)
            && (forall k :: 0 <= k < |m.posted| ==> m.posted[k].port != o.result.value.port))
  {
    LoadValid(m, name, range);
    OpenedFreshPort(m, Load(m, name, range));
  }

  /** Opening a channel after a `load` that kept the manager valid and left
      the ports alone hands out a port no earlier call has used. */
  lemma OpenedFreshPort(m: Manager, o: Outcome<Result<Loaded, Error>>)
    requires Valid(m) && Valid(o.m)
    requires o.m.started == m.started && o.m.posted == m.posted && o.m.nextPort == m.nextPort
    ensures var r := Opened(o);
      && Valid(r.m)
      && (r.result.Ok? ==>
            && r.result.value.port >= m.nextPort
            && (forall k :: 0 <= k < |m.started| ==> m.started[k].port != r.result.value.port)
            && (forall k :: 0 <= k < |m.posted| ==> m.posted[k].port != r.result.value.port))
  {
    if o.result.Ok? {
      StartKeepsValid(o.m, o.result.value.instance);
    }
  }

  /** Recording a `start` call on the next two ports keeps the manager
      valid. */
  lemma StartKeepsValid(m: Manager, instance: nat)
    requires Valid(m)
    ensures Valid(m.(nextPort := m.nextPort + 2, started := m.started + [StartCall(instance, m.nextPort)]))
  {
    var s := m.started + [StartCall(instance, m.nextPort)];
    assert forall k :: 0 <= k < |m.started| ==> s[k] == m.started[k];
  }

  /** Every `start` calls the plugin's `start` again, even on a reused
      instance: two starts of a loaded plugin record two calls on the same
      instance, with different channels. */
  lemma StartTwiceStartsTwice(m: Manager, name: string, range: string)
    requires Valid(m)
    requires Start(m, name, range).result.Ok?
    ensures var o1 := Start(m, name, range);
      var o2 := Start(o1.m, name, range);
      && o2.result.Ok?
      && |o2.m.started| == |m.started| + 2
      && o2.m.started[|m.started|].instance == o2.m.started[|m.started| + 1].instance
      && o2.m.started[|m.started|].port != o2.m.started[|m.started| + 1].port
      && o2.m.loaded == o1.m.loaded
  {
    LoadTwiceReuses(m, name, range);
  }

  /** The handler posts exactly one `plugin-port-ready` carrying the nonce
      it returns, the requested name, the loaded version and the port. */
  lemma HandlerPostsNonce(m: Manager, name: string, range: string, nonce: nat)
    requires Valid(m)
    ensures var o := HandleGetPort(m, name, range, nonce);
      match o.result
      case Ok(n) =>
        && n == nonce
        && |o.m.posted| == |m.posted| + 1
        && o.m.posted[..|m.posted|] == m.posted
        && o.m.posted[|m.posted|].nonce == nonce
        && o.m.posted[|m.posted|].name == name
        && o.m.posted[|m.posted|].version == m.bundled
        && o.m.posted[|m.posted|].port >= m.nextPort
      case Err(_) => o.m.posted == m.posted && o.m.started == m.started
  {
    LoadValid(m, name, range);
  }

  /** `loadInto` stops at the first failure: when entry `k` fails, the
      manager is the one reached by loading the first `k` entries, which
      all succeeded. */
  lemma LoadAllStopsAtFirstFailure(m: Manager, preload: seq<Request>)
    ensures var o := LoadAll(m, preload);
      o.result.Some? ==> exists k :: 0 <= k < |preload| && LoadAll(m, preload[..k]) == Outcome(o.m, None)
  {
    LoadRequestErrKeeps();
    EachStopsAtFirstFailure(m, preload, LoadRequest);
  }

  /** A failed `load` leaves the manager as it was. */
  lemma LoadRequestErrKeeps()
    ensures forall m, r :: LoadRequest(m, r).result.Err? ==> LoadRequest(m, r).m == m
  {
  }

  /** For any step that leaves the manager alone when it fails: a failed
      run ends where the successful run of some prefix ends. */
  lemma {:induction false} EachStopsAtFirstFailure(
    m: Manager, preload: seq<Request>, load: (Manager, Request) -> Outcome<Result<Loaded, Error>>)
    requires forall m', r :: load(m', r).result.Err? ==> load(m', r).m == m'
    ensures var o := LoadEach(m, preload, load);
      o.result.Some? ==> exists k :: 0 <= k < |preload| && LoadEach(m, preload[..k], load) == Outcome(o.m, None)
    decreases |preload|
  {
    if preload != [] {
      var o1 := load(m, preload[0]);
      var o := LoadEach(m, preload, load);
      if o1.result.Err? {
        assert preload[..0] == [];
      } else if o.result.Some? {
        EachStopsAtFirstFailure(o1.m, preload[1..], load);
        var k :| 0 <= k < |preload[1..]| && LoadEach(o1.m, preload[1..][..k], load) == Outcome(o.m, None);
        var prefix := preload[..k + 1];
        assert prefix[0] == preload[0] && prefix[1..] == preload[1..][..k];
      }
    }
  }

  /** When `loadInto` succeeds, every preload entry can be resolved
      without constructing anything further. */
  lemma {:induction false} LoadAllLoadsEverything(m: Manager, preload: seq<Request>)
    requires Valid(m)
    ensures var o := LoadAll(m, preload);
      && Valid(o.m)
      && o.m.bundled == m.bundled
      && |m.loaded| <= |o.m.loaded| && o.m.loaded[..|m.loaded|] == m.loaded
    ensures var o := LoadAll(m, preload);
      o.result.None? ==> forall k :: 0 <= k < |preload| ==>
        FindLoaded(o.m.loaded, preload[k].name, preload[k].range).Some?
    decreases |preload|
  {
    if preload != [] {
      var o1 := Load(m, preload[0].name, preload[0].range);
      LoadValid(m, preload[0].name, preload[0].range);
      if o1.result.Err? {
        assert LoadAll(m, preload) == Outcome(o1.m, Some(o1.result.error));
      } else {
        assert LoadAll(m, preload) == LoadAll(o1.m, preload[1..]);
        LoadAllLoadsEverything(o1.m, preload[1..]);
        var o := LoadAll(o1.m, preload[1..]);
        if o.result.None? {
          forall k | 0 <= k < |preload|
            ensures FindLoaded(o.m.loaded, preload[k].name, preload[k].range).Some?
          {
            if k == 0 {
              var j :| 0 <= j < |o1.m.loaded| && o1.m.loaded[j] == o1.result.value;
              assert o.m.loaded[j] == o1.result.value;
              FoundIfHeld(o.m.loaded, j, preload[0].name, preload[0].range);
            } else {
              assert preload[k] == preload[1..][k - 1];
            }
          }
        }
      }
    }
  }

  /** The scan in `load` finds something whenever some entry qualifies. */
  lemma FoundIfHeld(loaded: seq<Loaded>, j: nat, name: string, range: string)
    requires j < |loaded| && Reusable(loaded[j], name, range)
    ensures FindLoaded(loaded, name, range).Some?
  {
  }

  /** `destroy` stops each loaded entry exactly once, in order. */
  lemma DestroyStopsEach(m: Manager)
    requires Valid(m)
    ensures var m' := Destroy(m);
      && m'.stopped[..|m.stopped|] == m.stopped
      && |m'.stopped| == |m.stopped| + |m.loaded|
      && (forall i :: 0 <= i < |m.loaded| ==> m'.stopped[|m.stopped| + i] == m.loaded[i].instance)
      && (forall i, j :: 0 <= i < j < |m.loaded| ==> Instances(m.loaded)[i] != Instances(m.loaded)[j])
  {
  }
}

=== FILE: preload_broker.dfy ===
/** The cabinet preload's nonce-keyed port broker.

    Two things race for each nonce: the main process's `plugin-port-ready`
    message carrying the port, and the game's `acquirePlugin` call that
    learned the nonce from `get-plugin-port`. Whichever comes second finds
    the first in a map (`portCache` for an early port, `pendingRequests` for
    an early request), removes it, posts `plugin-port-transfer` to the
    window and settles the promise. A waiting request is rejected after
    5000 ms unless its resolution cleared the timer first.

    Each `acquirePlugin` call is a request with its own promise and timer,
    numbered in call order; `pendingRequests` maps a nonce to the request
    whose resolver it holds. Time is abstract: a timer firing is an event. */
module PreloadBroker {

  const TimeoutMs: nat := 5000

  datatype Cached = Cached(port: nat, name: string, version: string)

  datatype Request = Request(nonce: nat, name: string, version: string)

  datatype Outcome = Waiting | Resolved | Rejected

  /** A `plugin-port-transfer` message posted to the window with its port. */
  datatype Transfer = Transfer(nonce: nat, name: string, version: string, port: nat)

  datatype Broker = Broker(
    portCache: map<nat, Cached>,
    pending: map<nat, nat>,      // nonce -> request whose resolver is stored
    timers: set<nat>,            // requests whose timeout is still armed
    requests: seq<Request>,
    outcome: seq<Outcome>,       // the fate of each request's promise
    transfers: seq<Transfer>)

  datatype Event =
    | PortReady(nonce: nat, name: string, version: string, port: nat)
    | Acquire(nonce: nat, name: string, version: string)
    | TimerFires(request: nat)

  function Init(): (b: Broker)
    ensures Valid(b) && b.requests == [] && b.transfers == []
  {
    Broker(map[], map[], {}, [], [], [])
  }

  function CountResolved(o: seq<Outcome>): nat {
    if o == [] then 0 else CountResolved(o[..|o| - 1]) + (if o[|o| - 1] == Resolved then 1 else 0)
  }

  /** The broker invariant: no nonce is both cached and pending; a pending
      nonce holds the resolver of a waiting request for that nonce, whose
      timer is armed; armed timers belong to waiting requests and every
      waiting request has one; one transfer was posted per resolution. */
  predicate Valid(b: Broker) {
    && |b.outcome| == |b.requests|
    && b.portCache.Keys !! b.pending.Keys
    && (forall n :: n in b.pending ==>
          && b.pending[n] < |b.requests|
          && b.requests[b.pending[n]].nonce == n
          && b.outcome[b.pending[n]] == Waiting
          && b.pending[n] in b.timers)
    && (forall r :: r in b.timers ==> r < |b.outcome| && b.outcome[r] == Waiting)
    && (forall r :: 0 <= r < |b.outcome| && b.outcome[r] == Waiting ==> r in b.timers)
    && |b.transfers| == CountResolved(b.outcome)
  }

  /** The `plugin-port-ready` listener. */
  function OnPortReady(b: Broker, nonce: nat, name: string, version: string, port: nat): Broker {
    if nonce in b.pending && b.pending[nonce] < |b.outcome| then
      var r := b.pending[nonce];
      b.(pending := b.pending - {nonce},
         timers := b.timers - {r},
         outcome := b.outcome[r := Resolved],
         transfers := b.transfers + [Transfer(nonce, name, version, port)])
    else
      b.(portCache := b.portCache[nonce := Cached(port, name, version)])
  }

  /** `acquirePlugin` after `get-plugin-port` returned `nonce`. */
  function OnAcquire(b: Broker, nonce: nat, name: string, version: string): Broker {
    var r := |b.requests|;
    var b1 := b.(requests := b.requests + [Request(nonce, name, version)]);
    if nonce in b.portCache then
      b1.(portCache := b.portCache - {nonce},
          outcome := b.outcome + [Resolved],
          transfers := b.transfers + [Transfer(nonce, name, version, b.portCache[nonce].port)])
    else
      b1.(pending := b.pending[nonce := r],
          timers := b.timers + {r},
          outcome := b.outcome + [Waiting])
  }

  /** A request's 5000 ms timeout: deletes whatever is pending under its
      nonce and rejects its promise. A cleared timer never fires. */
  function OnTimer(b: Broker, r: nat): Broker {
    if r !in b.timers || r >= |b.requests| || r >= |b.outcome| then b
    else
      b.(timers := b.timers - {r},
         pending := b.pending - {b.requests[r].nonce},
         outcome := b.outcome[r := Rejected])
  }

  function Step(b: Broker, e: Event): Broker {
    match e
    case PortReady(n, name, version, port) => OnPortReady(b, n, name, version, port)
    case Acquire(n, name, version) => OnAcquire(b, n, name, version)
    case TimerFires(r) => OnTimer(b, r)
  }

  function Run(b: Broker, events: seq<Event>): Broker
    decreases |events|
  {
    if events == [] then b else Run(Step(b, events[0]), events[1..])
  }

  // ---------------------------------------------------------------- lemmas

  lemma {:induction false} CountResolvedAppend(o: seq<Outcome>, x: Outcome)
    ensures CountResolved(o + [x]) == CountResolved(o) + (if x == Resolved then 1 else 0)
  {
    assert (o + [x])[..|o|] == o;
  }

  lemma {:induction false} CountResolvedUpdate(o: seq<Outcome>, r: nat, x: Outcome)
    requires r < |o| && o[r] == Waiting
    ensures CountResolved(o[r := x]) == CountResolved(o) + (if x == Resolved then 1 else 0)
    decreases |o|
  {
    var last := |o| - 1;
    if r == last {
      assert o[r := x][..last] == o[..last];
    } else {
      assert o[r := x][..last] == o[..last][r := x];
      CountResolvedUpdate(o[..last], r, x);
    }
  }

  lemma PortReadyValid(b: Broker, nonce: nat, name: string, version: string, port: nat)
    requires Valid(b)
    ensures Valid(OnPortReady(b, nonce, name, version, port))
  {
    if nonce in b.pending {
      CountResolvedUpdate(b.outcome, b.pending[nonce], Resolved);
    }
  }

  lemma AcquireValid(b: Broker, nonce: nat, name: string, version: string)
    requires Valid(b)
    ensures Valid(OnAcquire(b, nonce, name, version))
  {
    CountResolvedAppend(b.outcome, if nonce in b.portCache then Resolved else Waiting);
  }

  lemma TimerValid(b: Broker, r: nat)
    requires Valid(b)
    ensures Valid(OnTimer(b, r))
  {
    if r in b.timers {
      CountResolvedUpdate(b.outcome, r, Rejected);
    }
  }

  /** Every step keeps the invariant: in particular a nonce is never both
      cached and pending, and each resolution posts exactly one transfer. */
  lemma StepValid(b: Broker, e: Event)
    requires Valid(b)
    ensures Valid(Step(b, e))
  {
    match e
    case PortReady(n, name, version, port) => PortReadyValid(b, n, name, version, port);
    case Acquire(n, name, version) => AcquireValid(b, n, name, version);
    case TimerFires(r) => TimerValid(b, r);
  }

  /** A settled promise stays settled the same way: in particular a resolved
      request is never later rejected, because resolving clears its timer. */
  lemma StepKeepsSettled(b: Broker, e: Event)
    requires Valid(b)
    ensures var b' := Step(b, e);
      && |b.outcome| <= |b'.outcome|
      && forall r :: 0 <= r < |b.outcome| && b.outcome[r] != Waiting ==> b'.outcome[r] == b.outcome[r]
  {
  }

  lemma {:induction false} RunKeepsSettled(b: Broker, events: seq<Event>)
    requires Valid(b)
    ensures var b' := Run(b, events);
      && Valid(b')
      && |b.outcome| <= |b'.outcome|
      && forall r :: 0 <= r < |b.outcome| && b.outcome[r] != Waiting ==> b'.outcome[r] == b.outcome[r]
    decreases |events|
  {
    if events != [] {
      StepValid(b, events[0]);
      StepKeepsSettled(b, events[0]);
      RunKeepsSettled(Step(b, events[0]), events[1..]);
    }
  }

  /** A port for a nonce with a pending request resolves that request and
      posts the port; it is not cached. */
  lemma PortForPendingRequest(b: Broker, nonce: nat, name: string, version: string, port: nat)
    requires Valid(b) && nonce in b.pending
    ensures var b' := OnPortReady(b, nonce, name, version, port);
      && b'.outcome[b.pending[nonce]] == Resolved
      && nonce !in b'.pending && nonce !in b'.portCache
      && b'.transfers == b.transfers + [Transfer(nonce, name, version, port)]
      && b.pending[nonce] !in b'.timers
  {
  }

  /** A port nobody is waiting for is cached under its nonce and settles
      nothing. */
  lemma PortWithoutRequest(b: Broker, nonce: nat, name: string, version: string, port: nat)
    requires nonce !in b.pending
    ensures var b' := OnPortReady(b, nonce, name, version, port);
      && b'.portCache == b.portCache[nonce := Cached(port, name, version)]
      && b'.outcome == b.outcome && b'.transfers == b.transfers && b'.pending == b.pending
  {
  }

  /** A request finding its port cached takes it out of the cache, posts it
      and resolves at once, arming no timer. */
  lemma AcquireCached(b: Broker, nonce: nat, name: string, version: string)
    requires nonce in b.portCache
    ensures var b' := OnAcquire(b, nonce, name, version);
      && nonce !in b'.portCache
      && b'.outcome == b.outcome + [Resolved]
      && b'.transfers == b.transfers + [Transfer(nonce, name, version, b.portCache[nonce].port)]
      && b'.timers == b.timers && b'.pending == b.pending
  {
  }

  /** Otherwise the request waits with an armed timer; when that timer
      fires the entry is deleted and the promise rejected. */
  lemma AcquireWaitsThenTimesOut(b: Broker, nonce: nat, name: string, version: string)
    requires Valid(b) && nonce !in b.portCache
    ensures var b1 := OnAcquire(b, nonce, name, version);
      var r := |b.requests|;
      && b1.pending == b.pending[nonce := r]
      && r in b1.timers && b1.outcome[r] == Waiting
      && var b2 := OnTimer(b1, r);
         && b2.outcome[r] == Rejected
         && nonce !in b2.pending
         && b2.transfers == b1.transfers
  {
  }

  /** Once resolved, a request's timer is gone, so the timeout event changes
      nothing. */
  lemma TimerAfterResolveIsNoop(b: Broker, nonce: nat, name: string, version: string, port: nat)
    requires Valid(b) && nonce in b.pending
    ensures var b' := OnPortReady(b, nonce, name, version, port);
      OnTimer(b', b.pending[nonce]) == b'
  {
  }

  /** Both orders of arrival deliver the port exactly once and resolve the
      request, leaving the nonce in neither map. */
  lemma EitherOrderResolves(b: Broker, nonce: nat, name: string, version: string, port: nat)
    requires Valid(b)
    requires nonce !in b.portCache && nonce !in b.pending
    ensures var early := OnAcquire(OnPortReady(b, nonce, name, version, port), nonce, name, version);
      && early.outcome == b.outcome + [Resolved]
      && early.transfers == b.transfers + [Transfer(nonce, name, version, port)]
      && nonce !in early.portCache && nonce !in early.pending
    ensures var late := OnPortReady(OnAcquire(b, nonce, name, version), nonce, name, version, port);
      && late.outcome == b.outcome + [Resolved]
      && late.transfers == b.transfers + [Transfer(nonce, name, version, port)]
      && nonce !in late.portCache && nonce !in late.pending
      && late.timers == b.timers
  {
    var b1 := OnAcquire(b, nonce, name, version);
    assert b1.pending[nonce] == |b.requests|;
    assert b1.outcome == b.outcome + [Waiting];
    assert (b.outcome + [Waiting])[|b.requests| := Resolved] == b.outcome + [Resolved];
    assert |b.requests| !in b.timers;
  }
}

=== FILE: results.dfy ===
/** Failure-carrying datatypes shared by every module of the model.
    A thrown JavaScript `Error` or a Rust `Err` becomes `Err(e)`; a value
    that may be `undefined`/`null` becomes an `Option`. */
module Results {

  datatype Option<+T> = None | Some(value: T) {
    predicate IsFailure() { None? }

    function PropagateFailure<U>(): Option<U>
      requires None?
    {
      None
    }

    function Extract(): T
      requires Some?
    {
      value
    }

    function GetOr(default: T): T {
      match this
      case Some(v) => v
      case None => default
    }
  }

  datatype Result<+T, +E> = Ok(value: T) | Err(error: E) {
    predicate IsFailure() { Err? }

    function PropagateFailure<U>(): Result<U, E>
      requires Err?
    {
      Err(error)
    }

    function Extract(): T
      requires Ok?
    {
      value
    }
  }
}

=== FILE: semver.dfy ===
/** Semantic Versioning 2.0.0 as the system uses it.

    The manifests validate version strings with one regular expression (the
    one Semantic Versioning 2.0.0 suggests): a core `X.Y.Z` of non-negative
    integers without leading zeros (section 2), an optional `-` pre-release
    of dot-separated identifiers where numeric identifiers have no leading
    zeros (section 9), and optional `+` build metadata (section 10).
    `Parse` is a recogniser for exactly that language, returning the
    structured version; `Print` renders one, and the two are proved inverse.

    The host and the CLI call the `semver` npm package for `satisfies`,
    `lt`, `rcompare` and `maxSatisfying`. That package is not part of this
    model; `Compare` follows section 11 (precedence) and `Satisfies` covers
    the range forms the system writes: `*`, an exact version and a caret
    range. */
module SemVer {
  import opened Text
  import opened Results

  /** A pre-release identifier: numeric or alphanumeric. */
  datatype Ident = Num(n: nat) | Alnum(s: string)

  datatype Version = Version(major: nat, minor: nat, patch: nat, pre: seq<Ident>, build: seq<string>)

  /** [0-9A-Za-z-] */
  predicate IdentChar(c: char) {
    IsDigit(c) || 'a' <= c <= 'z' || 'A' <= c <= 'Z' || c == '-'
  }

  predicate IdentChars(s: string) {
    forall i :: 0 <= i < |s| ==> IdentChar(s[i])
  }

  /** The regex alternative `\d*[a-zA-Z-][0-9a-zA-Z-]*`: identifier characters,
      at least one of them not a digit. */
  predicate AlnumIdent(s: string) {
    1 <= |s| && IdentChars(s) && !AllDigits(s)
  }

  predicate ValidIdent(id: Ident) {
    id.Num? || AlnumIdent(id.s)
  }

  predicate ValidBuild(b: string) {
    1 <= |b| && IdentChars(b)
  }

  predicate WellFormed(v: Version) {
    && (forall i :: 0 <= i < |v.pre| ==> ValidIdent(v.pre[i]))
    && (forall i :: 0 <= i < |v.build| ==> ValidBuild(v.build[i]))
  }

  // ---------------------------------------------------------------- printing

  function PrintIdent(id: Ident): string {
    match id
    case Num(n) => NatToString(n)
    case Alnum(s) => s
  }

  function PrintIdents(ids: seq<Ident>): (r: seq<string>)
    ensures |r| == |ids|
    ensures forall i :: 0 <= i < |ids| ==> r[i] == PrintIdent(ids[i])
  {
    if ids == [] then [] else [PrintIdent(ids[0])] + PrintIdents(ids[1..])
  }

  function CoreParts(v: Version): seq<string> {
    [NatToString(v.major), NatToString(v.minor), NatToString(v.patch)]
  }

  function CoreText(v: Version): string {
    JoinWith(CoreParts(v), '.')
  }

  function PreSuffix(pre: seq<Ident>): string {
    if pre == [] then "" else "-" + JoinWith(PrintIdents(pre), '.')
  }

  function BuildSuffix(build: seq<string>): string {
    if build == [] then "" else "+" + JoinWith(build, '.')
  }

  /** The canonical text of a version. */
  function Print(v: Version): string {
    CoreText(v) + PreSuffix(v.pre) + BuildSuffix(v.build)
  }

  // ----------------------------------------------------------------- parsing

  /** Length of the leading run free of `-` and `+`: where the core ends. */
  function CoreEnd(s: string): (k: nat)
    ensures k <= |s|
    ensures k < |s| ==> s[k] == '-' || s[k] == '+'
  {
    if s == [] then 0
    else if s[0] == '-' || s[0] == '+' then 0
    else 1 + CoreEnd(s[1..])
  }

  function ParseIdent(s: string): Option<Ident> {
    if Canonical(s) then Some(Num(DigitsValue(s)))
    else if AlnumIdent(s) then Some(Alnum(s))
    else None
  }

  function ParseIdents(parts: seq<string>): Option<seq<Ident>>
  {
    if parts == [] then Some([])
    else
      match ParseIdent(parts[0])
      case None => None
      case Some(id) =>
        match ParseIdents(parts[1..])
        case None => None
        case Some(rest) => Some([id] + rest)
  }

  predicate AllValidBuild(parts: seq<string>) {
    forall i :: 0 <= i < |parts| ==> ValidBuild(parts[i])
  }

  /** Split the text after the core into its pre-release and build parts
      (either absent). A pre-release runs up to the first `+`. */
  datatype Tail = Tail(pre: Option<string>, build: Option<string>)

  function SplitTail(tail: string): Tail {
    if tail == [] then Tail(None, None)
    else if tail[0] == '-' then
      var t := tail[1..];
      var j := IndexOf(t, '+');
      if j == -1 then Tail(Some(t), None) else Tail(Some(t[..j]), Some(t[j + 1..]))
    else Tail(None, Some(tail[1..]))
  }

  function ParsePre(p: Option<string>): Option<seq<Ident>> {
    match p
    case None => Some([])
    case Some(t) => ParseIdents(SplitOn(t, '.'))
  }

  function ParseBuild(b: Option<string>): Option<seq<string>> {
    match b
    case None => Some([])
    case Some(t) => if AllValidBuild(SplitOn(t, '.')) then Some(SplitOn(t, '.')) else None
  }

  /** The three numbers of a version core. */
  datatype Core = Core(major: nat, minor: nat, patch: nat)

  function ParseCore(c: string): Option<Core> {
    var core := SplitOn(c, '.');
    if |core| != 3 || !Canonical(core[0]) || !Canonical(core[1]) || !Canonical(core[2]) then None
    else Some(Core(DigitsValue(core[0]), DigitsValue(core[1]), DigitsValue(core[2])))
  }

  /** The SemVer 2.0.0 regular expression of the manifests, as a parser. */
  function Parse(s: string): Option<Version> {
    var k := CoreEnd(s);
    match ParseCore(s[..k])
    case None => None
    case Some(core) =>
      var tail := SplitTail(s[k..]);
      match ParsePre(tail.pre)
      case None => None
      case Some(pre) =>
        match ParseBuild(tail.build)
        case None => None
        case Some(build) => Some(Version(core.major, core.minor, core.patch, pre, build))
  }

  /** `regexSemverNumberedGroups.test(s)`. */
  predicate IsSemVer(s: string) {
    Parse(s).Some?
  }

  // ------------------------------------------------------ print/parse lemmas

  /** `Parse` accepts exactly when its three pieces do: the core before the
      first sign, the pre-release and the build metadata after it. */
  lemma ParseParts(s: string, v: Version)
    ensures Parse(s) == Some(v) <==>
      && ParseCore(s[..CoreEnd(s)]) == Some(Core(v.major, v.minor, v.patch))
      && ParsePre(SplitTail(s[CoreEnd(s)..]).pre) == Some(v.pre)
      && ParseBuild(SplitTail(s[CoreEnd(s)..]).build) == Some(v.build)
  {
  }

  lemma {:induction false} CoreEndConcat(a: string, b: string)
    requires '-' !in a && '+' !in a
    requires b == [] || b[0] == '-' || b[0] == '+'
    ensures CoreEnd(a + b) == |a|
    decreases |a|
  {
    if a != [] {
      assert (a + b)[1..] == a[1..] + b;
      assert a == [a[0]] + a[1..];
      CoreEndConcat(a[1..], b);
    }
  }

  lemma ParseIdentPrint(id: Ident)
    requires ValidIdent(id)
    ensures ParseIdent(PrintIdent(id)) == Some(id)
  {
    match id {
      case Num(n) =>
        NatToStringValue(n);
      case Alnum(s) =>
        assert !Canonical(s);
    }
  }

  lemma PrintParseIdent(s: string, id: Ident)
    requires ParseIdent(s) == Some(id)
    ensures PrintIdent(id) == s && ValidIdent(id)
  {
    if Canonical(s) {
      CanonicalRoundTrip(s);
    }
  }

  /** `ParseIdents` of a non-empty list, one identifier at a time. */
  lemma ParseIdentsCons(parts: seq<string>)
    requires parts != []
    ensures ParseIdents(parts).Some? <==> ParseIdent(parts[0]).Some? && ParseIdents(parts[1..]).Some?
    ensures ParseIdents(parts).Some? ==>
      ParseIdents(parts).value == [ParseIdent(parts[0]).value] + ParseIdents(parts[1..]).value
  {
  }

  lemma {:induction false} ParseIdentsPrint(ids: seq<Ident>)
    requires forall i :: 0 <= i < |ids| ==> ValidIdent(ids[i])
    ensures ParseIdents(PrintIdents(ids)) == Some(ids)
    decreases |ids|
  {
    if ids != [] {
      var parts := PrintIdents(ids);
      assert ParseIdent(parts[0]) == Some(ids[0]) by {
        ParseIdentPrint(ids[0]);
      }
      assert ParseIdents(parts[1..]) == Some(ids[1..]) by {
        assert parts[1..] == PrintIdents(ids[1..]);
        ParseIdentsPrint(ids[1..]);
      }
      ParseIdentsCons(parts);
      assert ids == [ids[0]] + ids[1..];
    }
  }

  lemma ConsValid(id: Ident, rest: seq<Ident>)
    requires ValidIdent(id)
    requires forall i :: 0 <= i < |rest| ==> ValidIdent(rest[i])
    ensures forall i :: 0 <= i < |[id] + rest| ==> ValidIdent(([id] + rest)[i])
  {
  }

  lemma {:induction false} PrintParseIdents(parts: seq<string>, ids: seq<Ident>)
    requires ParseIdents(parts) == Some(ids)
    ensures PrintIdents(ids) == parts
    ensures forall i :: 0 <= i < |ids| ==> ValidIdent(ids[i])
    decreases |parts|
  {
    if parts != [] {
      var id := ParseIdent(parts[0]).value;
      var rest := ParseIdents(parts[1..]).value;
      assert ids == [id] + rest && ParseIdents(parts[1..]) == Some(rest) by {
        ParseIdentsCons(parts);
      }
      assert PrintIdent(id) == parts[0] && ValidIdent(id) by {
        PrintParseIdent(parts[0], id);
      }
      PrintParseIdents(parts[1..], rest);
      ConsValid(id, rest);
      assert PrintIdents(ids) == [PrintIdent(id)] + PrintIdents(rest) by {
        assert ids[1..] == rest;
      }
      assert parts == [parts[0]] + parts[1..];
    }
  }

  lemma NoSeparatorsInNumerals(n: nat)
    ensures '.' !in NatToString(n) && '-' !in NatToString(n) && '+' !in NatToString(n)
    ensures '*' !in NatToString(n) && '^' !in NatToString(n)
  {
  }

  lemma NoSeparatorsInIdent(id: Ident)
    requires ValidIdent(id)
    ensures '.' !in PrintIdent(id) && '+' !in PrintIdent(id)
  {
    NoSeparatorsInNumerals(if id.Num? then id.n else 0);
  }

  lemma {:induction false} NoPlusInJoin(parts: seq<string>)
    requires forall i :: 0 <= i < |parts| ==> '+' !in parts[i]
    ensures '+' !in JoinWith(parts, '.')
    decreases |parts|
  {
    if |parts| > 1 {
      NoPlusInJoin(parts[1..]);
    }
  }

  lemma Join3(x: string, y: string, z: string, c: char)
    ensures JoinWith([x, y, z], c) == x + [c] + y + [c] + z
  {
    assert [x, y, z][1..] == [y, z];
    assert [y, z][1..] == [z];
    assert JoinWith([y, z], c) == y + [c] + z;
    assert JoinWith([x, y, z], c) == x + [c] + (y + [c] + z);
  }

  lemma CoreTextSplits(v: Version)
    ensures SplitOn(CoreText(v), '.') == CoreParts(v)
  {
    NoSeparatorsInNumerals(v.major);
    NoSeparatorsInNumerals(v.minor);
    NoSeparatorsInNumerals(v.patch);
    SplitJoin(CoreParts(v), '.');
  }

  lemma CoreTextUnsigned(v: Version)
    ensures '-' !in CoreText(v) && '+' !in CoreText(v)
  {
    var x, y, z := NatToString(v.major), NatToString(v.minor), NatToString(v.patch);
    NoSeparatorsInNumerals(v.major);
    NoSeparatorsInNumerals(v.minor);
    NoSeparatorsInNumerals(v.patch);
    Join3(x, y, z, '.');
    NoSignsIn5(x, [ '.' ], y, [ '.' ], z);
  }

  lemma NoSignsIn5(a: string, b: string, c: string, d: string, e: string)
    requires '-' !in a && '-' !in b && '-' !in c && '-' !in d && '-' !in e
    requires '+' !in a && '+' !in b && '+' !in c && '+' !in d && '+' !in e
    ensures '-' !in a + b + c + d + e && '+' !in a + b + c + d + e
  {
  }

  lemma CoreTextFacts(v: Version)
    ensures SplitOn(CoreText(v), '.') == CoreParts(v)
    ensures '-' !in CoreText(v) && '+' !in CoreText(v)
  {
    CoreTextSplits(v);
    CoreTextUnsigned(v);
  }

  lemma ParseCorePrint(v: Version)
    ensures ParseCore(CoreText(v)) == Some(Core(v.major, v.minor, v.patch))
  {
    CoreTextFacts(v);
    NatToStringValue(v.major);
    NatToStringValue(v.minor);
    NatToStringValue(v.patch);
  }

  lemma PreText(pre: seq<Ident>)
    requires forall i :: 0 <= i < |pre| ==> ValidIdent(pre[i])
    requires pre != []
    ensures var j := JoinWith(PrintIdents(pre), '.');
      && '+' !in j
      && ParseIdents(SplitOn(j, '.')) == Some(pre)
  {
    var parts := PrintIdents(pre);
    forall i | 0 <= i < |parts|
      ensures '.' !in parts[i] && '+' !in parts[i]
    {
      NoSeparatorsInIdent(pre[i]);
    }
    NoPlusInJoin(parts);
    SplitJoin(parts, '.');
    ParseIdentsPrint(pre);
  }

  lemma BuildText(build: seq<string>)
    requires AllValidBuild(build)
    requires build != []
    ensures ParseBuild(Some(JoinWith(build, '.'))) == Some(build)
  {
    forall i | 0 <= i < |build|
      ensures '.' !in build[i]
    {
      assert ValidBuild(build[i]);
    }
    SplitJoin(build, '.');
  }

  function JoinedPre(pre: seq<Ident>): Option<string> {
    if pre == [] then None else Some(JoinWith(PrintIdents(pre), '.'))
  }

  function JoinedBuild(build: seq<string>): Option<string> {
    if build == [] then None else Some(JoinWith(build, '.'))
  }

  lemma SplitTailDash(j: string)
    requires '+' !in j
    ensures SplitTail("-" + j) == Tail(Some(j), None)
  {
    assert ("-" + j)[1..] == j;
  }

  lemma SplitTailDashPlus(j: string, bj: string)
    requires '+' !in j
    ensures SplitTail("-" + j + "+" + bj) == Tail(Some(j), Some(bj))
  {
    var t := j + "+" + bj;
    assert ("-" + j + "+" + bj)[1..] == t;
    IndexOfPrefix(j, '+', bj);
    assert t[..|j|] == j;
    assert t[|j| + 1..] == bj;
  }

  lemma SplitTailPlus(bj: string)
    ensures SplitTail("+" + bj) == Tail(None, Some(bj))
  {
    assert ("+" + bj)[1..] == bj;
  }

  lemma SplitTailShape(pre: seq<Ident>, build: seq<string>)
    requires pre != [] ==> '+' !in JoinWith(PrintIdents(pre), '.')
    ensures SplitTail(PreSuffix(pre) + BuildSuffix(build)) == Tail(JoinedPre(pre), JoinedBuild(build))
  {
    if pre != [] && build != [] {
      assert PreSuffix(pre) + BuildSuffix(build)
        == "-" + JoinWith(PrintIdents(pre), '.') + "+" + JoinWith(build, '.');
      SplitTailDashPlus(JoinWith(PrintIdents(pre), '.'), JoinWith(build, '.'));
    } else if pre != [] {
      assert PreSuffix(pre) + BuildSuffix(build) == PreSuffix(pre);
      SplitTailDash(JoinWith(PrintIdents(pre), '.'));
    } else if build != [] {
      assert PreSuffix(pre) + BuildSuffix(build) == BuildSuffix(build);
      SplitTailPlus(JoinWith(build, '.'));
    }
  }

  lemma SplitTailPrint(pre: seq<Ident>, build: seq<string>)
    requires forall i :: 0 <= i < |pre| ==> ValidIdent(pre[i])
    requires AllValidBuild(build)
    ensures ParsePre(SplitTail(PreSuffix(pre) + BuildSuffix(build)).pre) == Some(pre)
    ensures ParseBuild(SplitTail(PreSuffix(pre) + BuildSuffix(build)).build) == Some(build)
  {
    if build != [] {
      BuildText(build);
    }
    if pre != [] {
      PreText(pre);
    }
    SplitTailShape(pre, build);
  }

  /** Every well-formed version prints to text the validator accepts, and
      parsing that text gives the version back. */
  lemma PrintThenParse(v: Version)
    requires WellFormed(v)
    ensures Parse(Print(v)) == Some(v)
  {
    var c := CoreText(v);
    var tail := PreSuffix(v.pre) + BuildSuffix(v.build);
    var s := Print(v);
    assert s[..CoreEnd(s)] == c && s[CoreEnd(s)..] == tail by {
      assert s == c + tail;
      CoreTextFacts(v);
      CoreEndConcat(c, tail);
      assert (c + tail)[..|c|] == c && (c + tail)[|c|..] == tail;
    }
    ParseCorePrint(v);
    SplitTailPrint(v.pre, v.build);
    ParseParts(s, v);
  }

  lemma ParseCoreThenPrint(c: string, major: nat, minor: nat, patch: nat)
    requires ParseCore(c) == Some(Core(major, minor, patch))
    ensures CoreText(Version(major, minor, patch, [], [])) == c
  {
    var core := SplitOn(c, '.');
    CanonicalRoundTrip(core[0]);
    CanonicalRoundTrip(core[1]);
    CanonicalRoundTrip(core[2]);
    JoinSplit(c, '.');
    assert CoreParts(Version(major, minor, patch, [], [])) == core;
  }

  lemma PlusSplit(t: string)
    ensures var j := IndexOf(t, '+');
      j != -1 ==> t == t[..j] + "+" + t[j + 1..]
  {
    var j := IndexOf(t, '+');
    if j != -1 {
      assert t == t[..j] + [t[j]] + t[j + 1..];
    }
  }

  /** The text after a core is reassembled from the pieces `SplitTail`
      cuts it into. */
  lemma SplitTailJoin(tail: string)
    requires tail == [] || tail[0] == '-' || tail[0] == '+'
    ensures var st := SplitTail(tail);
      tail == (if st.pre.Some? then "-" + st.pre.value else "") + (if st.build.Some? then "+" + st.build.value else "")
  {
    if tail != [] && tail[0] == '-' {
      var t := tail[1..];
      assert tail == "-" + t;
      PlusSplit(t);
    } else if tail != [] {
      assert tail == "+" + tail[1..];
    }
  }

  lemma ParsePreThenPrint(p: Option<string>, pre: seq<Ident>)
    requires ParsePre(p) == Some(pre)
    ensures forall i :: 0 <= i < |pre| ==> ValidIdent(pre[i])
    ensures PreSuffix(pre) == (if p.Some? then "-" + p.value else "")
  {
    if p.Some? {
      PrintParseIdents(SplitOn(p.value, '.'), pre);
      JoinSplit(p.value, '.');
    }
  }

  lemma ParseBuildThenPrint(b: Option<string>, build: seq<string>)
    requires ParseBuild(b) == Some(build)
    ensures AllValidBuild(build)
    ensures BuildSuffix(build) == (if b.Some? then "+" + b.value else "")
  {
    if b.Some? {
      JoinSplit(b.value, '.');
    }
  }

  lemma SplitTailThenPrint(tail: string, pre: seq<Ident>, build: seq<string>)
    requires tail == [] || tail[0] == '-' || tail[0] == '+'
    requires ParsePre(SplitTail(tail).pre) == Some(pre)
    requires ParseBuild(SplitTail(tail).build) == Some(build)
    ensures forall i :: 0 <= i < |pre| ==> ValidIdent(pre[i])
    ensures AllValidBuild(build)
    ensures PreSuffix(pre) + BuildSuffix(build) == tail
  {
    SplitTailJoin(tail);
    ParsePreThenPrint(SplitTail(tail).pre, pre);
    ParseBuildThenPrint(SplitTail(tail).build, build);
  }

  /** Whatever the validator accepts is the printed form of the version
      it parses to. */
  lemma ParseThenPrint(s: string, v: Version)
    requires Parse(s) == Some(v)
    ensures WellFormed(v)
    ensures Print(v) == s
  {
    var k := CoreEnd(s);
    ParseParts(s, v);
    assert CoreText(v) == s[..k] by {
      ParseCoreThenPrint(s[..k], v.major, v.minor, v.patch);
      assert CoreText(v) == CoreText(Version(v.major, v.minor, v.patch, [], []));
    }
    assert WellFormed(v) && PreSuffix(v.pre) + BuildSuffix(v.build) == s[k..] by {
      SplitTailThenPrint(s[k..], v.pre, v.build);
    }
    Rejoin(s, k, CoreText(v), PreSuffix(v.pre), BuildSuffix(v.build));
  }

  lemma Rejoin(s: string, k: nat, a: string, b: string, c: string)
    requires k <= |s| && a == s[..k] && b + c == s[k..]
    ensures a + b + c == s
  {
    assert s == s[..k] + s[k..];
  }

  // -------------------------------------------------------------- precedence

  function Cmp(a: int, b: int): int {
    if a < b then -1 else if a > b then 1 else 0
  }

  /** Code-unit order of two strings (JavaScript `<` on strings). */
  function CompareText(a: string, b: string): int
  {
    if a == [] && b == [] then 0
    else if a == [] then -1
    else if b == [] then 1
    else if a[0] != b[0] then Cmp(a[0] as int, b[0] as int)
    else CompareText(a[1..], b[1..])
  }

  /** Section 11.4.1-11.4.3: numeric identifiers compare numerically and
      sort before alphanumeric ones. */
  function CompareIdent(a: Ident, b: Ident): int {
    match (a, b)
    case (Num(x), Num(y)) => Cmp(x, y)
    case (Num(_), Alnum(_)) => -1
    case (Alnum(_), Num(_)) => 1
    case (Alnum(x), Alnum(y)) => CompareText(x, y)
  }

  /** Section 11.4.4: a longer list of identifiers with an equal prefix has
      the higher precedence. */
  function CompareIdents(a: seq<Ident>, b: seq<Ident>): int
  {
    if a == [] && b == [] then 0
    else if a == [] then -1
    else if b == [] then 1
    else if CompareIdent(a[0], b[0]) != 0 then CompareIdent(a[0], b[0])
    else CompareIdents(a[1..], b[1..])
  }

  function CompareCore(a: Version, b: Version): int {
    if a.major != b.major then Cmp(a.major, b.major)
    else if a.minor != b.minor then Cmp(a.minor, b.minor)
    else Cmp(a.patch, b.patch)
  }

  /** Section 11: precedence, ignoring build metadata; a version without a
      pre-release ranks above one with a pre-release and the same core. */
  function Compare(a: Version, b: Version): int {
    if CompareCore(a, b) != 0 then CompareCore(a, b)
    else if a.pre == [] && b.pre == [] then 0
    else if a.pre == [] then 1
    else if b.pre == [] then -1
    else CompareIdents(a.pre, b.pre)
  }

  lemma {:induction false} CompareTextAntisymmetric(a: string, b: string)
    ensures CompareText(a, b) == -CompareText(b, a)
    decreases |a|
  {
    if a != [] && b != [] && a[0] == b[0] {
      CompareTextAntisymmetric(a[1..], b[1..]);
    }
  }

  lemma {:induction false} CompareIdentsAntisymmetric(a: seq<Ident>, b: seq<Ident>)
    ensures CompareIdents(a, b) == -CompareIdents(b, a)
    decreases |a|
  {
    if a != [] && b != [] {
      if a[0].Alnum? && b[0].Alnum? {
        CompareTextAntisymmetric(a[0].s, b[0].s);
      }
      CompareIdentsAntisymmetric(a[1..], b[1..]);
    }
  }

  /** Precedence is antisymmetric: swapping the operands negates the result. */
  lemma CompareAntisymmetric(a: Version, b: Version)
    ensures Compare(a, b) == -Compare(b, a)
  {
    CompareIdentsAntisymmetric(a.pre, b.pre);
  }

  lemma {:induction false} CompareTextReflexive(a: string)
    ensures CompareText(a, a) == 0
    decreases |a|
  {
    if a != [] {
      CompareTextReflexive(a[1..]);
    }
  }

  lemma {:induction false} CompareIdentsReflexive(a: seq<Ident>)
    ensures CompareIdents(a, a) == 0
    decreases |a|
  {
    if a != [] {
      if a[0].Alnum? {
        CompareTextReflexive(a[0].s);
      }
      CompareIdentsReflexive(a[1..]);
    }
  }

  lemma {:induction false} CompareTextZero(a: string, b: string)
    ensures CompareText(a, b) == 0 <==> a == b
    decreases |a|
  {
    if a != [] && b != [] && a[0] == b[0] {
      CompareTextZero(a[1..], b[1..]);
      if a[1..] == b[1..] {
        assert a == [a[0]] + a[1..] && b == [b[0]] + b[1..];
      }
    } else if a == b {
      CompareTextReflexive(a);
    }
  }

  lemma {:induction false} CompareTextTransitive(a: string, b: string, c: string)
    requires CompareText(a, b) <= 0 && CompareText(b, c) <= 0
    ensures CompareText(a, c) <= 0
    decreases |a|
  {
    if a != [] && b != [] && c != [] && a[0] == b[0] && b[0] == c[0] {
      CompareTextTransitive(a[1..], b[1..], c[1..]);
    }
  }

  lemma CompareIdentZero(a: Ident, b: Ident)
    ensures CompareIdent(a, b) == 0 <==> a == b
  {
    if a.Alnum? && b.Alnum? {
      CompareTextZero(a.s, b.s);
    }
  }

  lemma CompareIdentTransitive(a: Ident, b: Ident, c: Ident)
    requires CompareIdent(a, b) <= 0 && CompareIdent(b, c) <= 0
    ensures CompareIdent(a, c) <= 0
  {
    if a.Alnum? && b.Alnum? && c.Alnum? {
      CompareTextTransitive(a.s, b.s, c.s);
    }
  }

  lemma {:induction false} CompareIdentsTransitive(a: seq<Ident>, b: seq<Ident>, c: seq<Ident>)
    requires CompareIdents(a, b) <= 0 && CompareIdents(b, c) <= 0
    ensures CompareIdents(a, c) <= 0
    decreases |a|
  {
    if a != [] && b != [] && c != [] {
      CompareIdentZero(a[0], b[0]);
      CompareIdentZero(b[0], c[0]);
      CompareIdentZero(a[0], c[0]);
      if CompareIdent(a[0], b[0]) == 0 && CompareIdent(b[0], c[0]) == 0 {
        CompareIdentsTransitive(a[1..], b[1..], c[1..]);
      } else {
        CompareIdentTransitive(a[0], b[0], c[0]);
        if CompareIdent(a[0], c[0]) == 0 {
          CompareIdentAntisymmetric(a[0], b[0]);
        }
      }
    }
  }

  lemma CompareIdentAntisymmetric(a: Ident, b: Ident)
    ensures CompareIdent(a, b) == -CompareIdent(b, a)
  {
    if a.Alnum? && b.Alnum? {
      CompareTextAntisymmetric(a.s, b.s);
    }
  }

  /** Precedence is transitive, so the greatest of several versions is at
      least as high as each of them. */
  lemma CompareTransitive(a: Version, b: Version, c: Version)
    requires Compare(a, b) <= 0 && Compare(b, c) <= 0
    ensures Compare(a, c) <= 0
  {
    if CompareCore(a, b) == 0 && CompareCore(b, c) == 0 && a.pre != [] && b.pre != [] && c.pre != [] {
      CompareIdentsTransitive(a.pre, b.pre, c.pre);
    }
  }

  /** Two versions differing only in build metadata have equal precedence. */
  lemma CompareIgnoresBuild(a: Version, b: Version)
    requires a.major == b.major && a.minor == b.minor && a.patch == b.patch && a.pre == b.pre
    ensures Compare(a, b) == 0
  {
    CompareIdentsReflexive(a.pre);
  }

  // ------------------------------------------------------------------ ranges

  datatype Range = AnyVersion | Exact(v: Version) | Caret(v: Version) | Unsupported

  /** The range forms the system writes: `*` (or empty), `^X.Y.Z…` and an
      exact version. */
  function ParseRange(r: string): Range {
    if r == "" || r == "*" then AnyVersion
    else if r[0] == '^' then
      match Parse(r[1..])
      case Some(v) => Caret(v)
      case None => Unsupported
    else
      match Parse(r)
      case Some(v) => Exact(v)
      case None => Unsupported
  }

  /** The first core a caret range excludes. */
  function CaretCeiling(v: Version): Version {
    if v.major > 0 then Version(v.major + 1, 0, 0, [], [])
    else if v.minor > 0 then Version(0, v.minor + 1, 0, [], [])
    else Version(0, 0, v.patch + 1, [], [])
  }

  predicate SameCore(a: Version, b: Version) {
    a.major == b.major && a.minor == b.minor && a.patch == b.patch
  }

  /** Range test on a parsed version. A pre-release version only matches a
      range whose lower bound is a pre-release of the same core. */
  predicate Matches(x: Version, range: Range) {
    match range
    case AnyVersion => x.pre == []
    case Exact(v) => Compare(x, v) == 0
    case Caret(v) =>
      && Compare(x, v) >= 0
      && CompareCore(x, CaretCeiling(v)) < 0
      && (x.pre == [] || (v.pre != [] && SameCore(x, v)))
    case Unsupported => false
  }

  /** `semver.satisfies(version, range)`: false when the version does not
      parse. */
  predicate Satisfies(version: string, range: string) {
    match Parse(version)
    case None => false
    case Some(x) => Matches(x, ParseRange(range))
  }

  // ------------------------------------------------- the package's constructor

  /** `MAX_LENGTH` and `Number.MAX_SAFE_INTEGER` of the `semver` package. */
  const MaxLength: nat := 256
  const MaxSafeInteger: nat := 0x1F_FFFF_FFFF_FFFF

  predicate SafeCore(v: Version) {
    v.major <= MaxSafeInteger && v.minor <= MaxSafeInteger && v.patch <= MaxSafeInteger
  }

  /** The text the constructor matches against its full pattern: the
      trimmed string with one leading `v` dropped. */
  function ConstructorText(s: string): string {
    var t := Trim(s);
    if t != [] && t[0] == 'v' then t[1..] else t
  }

  /** `new SemVer(s)` in strict (non-loose) mode, `None` where it throws:
      a string longer than `MaxLength`, text outside the pattern, or a core
      number above `MaxSafeInteger`. */
  function Construct(s: string): (r: Option<Version>)
    ensures r.Some? ==> |s| <= MaxLength && SafeCore(r.value) && Parse(ConstructorText(s)) == r
    ensures |s| <= MaxLength && IsSemVer(ConstructorText(s)) && SafeCore(Parse(ConstructorText(s)).value) ==> r.Some?
  {
    if |s| > MaxLength then None
    else
      match Parse(ConstructorText(s))
      case None => None
      case Some(v) => if SafeCore(v) then Some(v) else None
  }

  /** Two strings within the bound with the same constructor text
      construct the same version. */
  lemma ConstructByText(a: string, b: string)
    requires |a| <= MaxLength && |b| <= MaxLength && ConstructorText(a) == ConstructorText(b)
    ensures Construct(a) == Construct(b)
  {
  }

  /** Whitespace around the text changes nothing while the whole string
      stays within the length bound. */
  lemma ConstructIgnoresPadding(pre: string, s: string, post: string)
    requires AllWhitespace(pre) && AllWhitespace(post) && Trimmed(s)
    requires |pre + s + post| <= MaxLength
    ensures Construct(pre + s + post) == Construct(s)
  {
    var x := pre + s + post;
    assert |s| <= |x|;
    PaddedText(pre, s, post);
    ConstructByText(x, s);
  }

  lemma PaddedText(pre: string, s: string, post: string)
    requires AllWhitespace(pre) && AllWhitespace(post) && Trimmed(s)
    ensures ConstructorText(pre + s + post) == ConstructorText(s)
  {
    TrimPadded(pre, s, post);
    TrimKeepsTrimmed(s);
    SameTrimSameText(pre + s + post, s);
  }

  lemma SameTrimSameText(a: string, b: string)
    requires Trim(a) == Trim(b)
    ensures ConstructorText(a) == ConstructorText(b)
  {
  }

  /** One leading `v` is accepted: `v1.2.3` constructs the version `1.2.3`
      does. */
  lemma ConstructLeadingV(s: string)
    requires |s| < MaxLength
    requires s == [] || (s[0] != 'v' && !Whitespace(s[0]))
    ensures Construct("v" + s) == Construct(s)
  {
    LeadingVText(s);
    ConstructByText("v" + s, s);
  }

  lemma LeadingVText(s: string)
    requires s == [] || (s[0] != 'v' && !Whitespace(s[0]))
    ensures ConstructorText("v" + s) == ConstructorText(s)
  {
    assert "v" + s == ['v'] + s;
    TrimCons('v', s);
    TextAfterV("v" + s, Trim(s));
    if Trim(s) != [] {
      TrimKeepsHead(s);
    }
    TextWithoutV(s);
  }

  lemma TextAfterV(s: string, t: string)
    requires Trim(s) == ['v'] + t
    ensures ConstructorText(s) == t
  {
    assert (['v'] + t)[1..] == t;
  }

  lemma TextWithoutV(s: string)
    requires Trim(s) == [] || Trim(s)[0] != 'v'
    ensures ConstructorText(s) == Trim(s)
  {
  }

  lemma TrimmedText(s: string)
    requires Trimmed(s) && (s == [] || s[0] != 'v')
    ensures ConstructorText(s) == s
  {
    TrimKeepsTrimmed(s);
  }

  /** Text the manifest pattern accepts constructs the same version when it
      is short enough and its core numbers are safe integers. */
  lemma ConstructAgreesWithParse(s: string)
    requires IsSemVer(s) && |s| <= MaxLength && SafeCore(Parse(s).value) && Trimmed(s)
    ensures Construct(s) == Parse(s)
  {
    AcceptedStartsWithDigit(s);
    TrimmedText(s);
  }

  lemma PrintStartsWithDigit(v: Version)
    ensures |Print(v)| >= 1 && IsDigit(Print(v)[0])
  {
    var m := NatToString(v.major);
    Join3(m, NatToString(v.minor), NatToString(v.patch), '.');
    assert Print(v)[0] == m[0];
  }

  /** Every string the recogniser accepts starts with a digit, so a range
      such as `^1.0.0`, `~1.0.0` or `>=1.0.0` is never a version. */
  lemma AcceptedStartsWithDigit(s: string)
    requires IsSemVer(s)
    ensures |s| >= 1 && IsDigit(s[0])
  {
    ParseThenPrint(s, Parse(s).value);
    PrintStartsWithDigit(Parse(s).value);
  }

  lemma CompareReflexive(v: Version)
    ensures Compare(v, v) == 0
  {
    CompareIdentsReflexive(v.pre);
  }

  lemma MatchesOwnVersion(v: Version)
    ensures Matches(v, Exact(v)) && Matches(v, Caret(v))
  {
    CompareReflexive(v);
  }

  lemma ParseRangeOfVersion(r: string, v: Version)
    requires Parse(r) == Some(v)
    requires |r| >= 1 && IsDigit(r[0])
    ensures ParseRange(r) == Exact(v)
    ensures ParseRange("^" + r) == Caret(v)
  {
    assert r != "*";
    assert ("^" + r)[1..] == r;
  }

  /** An exact range is satisfied by its own version, and a caret range by
      its own lower bound. */
  lemma SatisfiesOwnVersion(v: Version)
    requires WellFormed(v)
    ensures Satisfies(Print(v), Print(v))
    ensures Satisfies(Print(v), "^" + Print(v))
  {
    PrintThenParse(v);
    PrintStartsWithDigit(v);
    ParseRangeOfVersion(Print(v), v);
    MatchesOwnVersion(v);
  }

  lemma PrintSimple(a: nat, b: nat, c: nat)
    requires a < 10 && b < 10 && c < 10
    ensures Print(Version(a, b, c, [], [])) == [DigitChar(a), '.', DigitChar(b), '.', DigitChar(c)]
  {
    Join3([DigitChar(a)], [DigitChar(b)], [DigitChar(c)], '.');
  }

  /** For a range written `^` followed by a printed version, satisfying
      the range is matching the parsed caret range. */
  lemma SatisfiesCaret(x: Version, v: Version)
    requires WellFormed(x) && WellFormed(v)
    ensures Satisfies(Print(x), "^" + Print(v)) == Matches(x, Caret(v))
  {
    PrintThenParse(x);
    PrintThenParse(v);
    PrintStartsWithDigit(v);
    ParseRangeOfVersion(Print(v), v);
  }

  /** A caret range on a release with a non-zero major admits exactly the
      releases of that major at or above its lower bound (`^1.0.0` admits
      `1.2.0`; `^2.0.0` does not). */
  lemma CaretSameMajor(x: Version, v: Version)
    requires v.major > 0 && x.pre == [] && v.pre == []
    ensures Matches(x, Caret(v)) <==> x.major == v.major && CompareCore(x, v) >= 0
  {
  }
}

=== FILE: shared_memory.dfy ===
/** The shared-memory plugin runner: a `SharedArrayBuffer` of
    `memory_size + 4` bytes shared between a Rust (wasm) thread and a JS
    worker. Bytes 0..3 hold the lock word, a little-endian i32 that is
    0 (unlocked), 1 (held by Rust) or 2 (held by JS); user data starts at
    byte 4. Each side acquires the lock with a compare-and-swap from
    UNLOCKED to its own mark and releases it by storing UNLOCKED.

    Every atomic operation is one transition on the byte sequence. The
    waiting of `Atomics.wait` and the wake-ups of `Atomics.notify` carry no
    state here: a blocked acquire is a failed attempt that may be retried. */
module SharedMemory {
  import opened Results
  import Js

  const Unlocked: int := 0
  const LockedByRust: int := 1
  const LockedByJs: int := 2
  const LockOffset: nat := 0
  const DataOffset: nat := 4

  /** One byte of a `Uint8Array` view or a Rust `u8`. */
  newtype byte = x: int | 0 <= x < 256

  const Two16: int := 0x1_0000
  const Two32: int := 0x1_0000_0000

  // ------------------------------------------------- little-endian integers

  function Pow256(n: nat): (p: nat)
    ensures p >= 1
  {
    if n == 0 then 1 else 256 * Pow256(n - 1)
  }

  /** The `n` low bytes of `x`, least significant first. */
  function EncodeLE(x: nat, n: nat): (b: seq<byte>)
    ensures |b| == n
  {
    if n == 0 then [] else [(x % 256) as byte] + EncodeLE(x / 256, n - 1)
  }

  function DecodeLE(b: seq<byte>): (x: nat)
    ensures x < Pow256(|b|)
  {
    if b == [] then 0 else b[0] as int + 256 * DecodeLE(b[1..])
  }

  lemma {:induction false} DecodeEncode(x: nat, n: nat)
    requires x < Pow256(n)
    ensures DecodeLE(EncodeLE(x, n)) == x
    decreases n
  {
    if n > 0 {
      var b := EncodeLE(x, n);
      assert b[1..] == EncodeLE(x / 256, n - 1);
      assert b[0] as int == x % 256;
      assert x / 256 < Pow256(n - 1);
      DecodeEncode(x / 256, n - 1);
      assert DecodeLE(b) == x % 256 + 256 * (x / 256);
    }
  }

  /** ECMAScript ToInt32 on an integer: wrap modulo 2^32 into
      [-2^31, 2^31). */
  function ToInt32(v: int): (r: int)
    ensures -0x8000_0000 <= r < 0x8000_0000
  {
    (v + 0x8000_0000) % Two32 - 0x8000_0000
  }

  /** ECMAScript ToInt16 on an integer. */
  function ToInt16(v: int): (r: int)
    ensures -0x8000 <= r < 0x8000
  {
    (v + 0x8000) % Two16 - 0x8000
  }

  /** `bytes` written over `m` from `off` on; every other byte kept. */
  function Splice(m: seq<byte>, off: nat, bytes: seq<byte>): (r: seq<byte>)
    requires off + |bytes| <= |m|
    ensures |r| == |m|
    ensures forall i :: off <= i < off + |bytes| ==> r[i] == bytes[i - off]
    ensures forall i :: 0 <= i < |m| && !(off <= i < off + |bytes|) ==> r[i] == m[i]
    decreases |bytes|
  {
    if bytes == [] then m else Splice(m[off := bytes[0]], off + 1, bytes[1..])
  }

  /** The four bytes from `off` on. */
  function Word32(m: seq<byte>, off: nat): (w: seq<byte>)
    requires off + 4 <= |m|
    ensures |w| == 4 && forall k :: 0 <= k < 4 ==> w[k] == m[off + k]
  {
    [m[off], m[off + 1], m[off + 2], m[off + 3]]
  }

  function Word16(m: seq<byte>, off: nat): (w: seq<byte>)
    requires off + 2 <= |m|
    ensures |w| == 2 && forall k :: 0 <= k < 2 ==> w[k] == m[off + k]
  {
    [m[off], m[off + 1]]
  }

  /** `getInt32(off, true)` on a byte view. */
  function GetInt32(m: seq<byte>, off: nat): (r: int)
    requires off + 4 <= |m|
    ensures -0x8000_0000 <= r < 0x8000_0000
  {
    ToInt32(DecodeLE(Word32(m, off)))
  }

  /** `setInt32(off, v, true)` on a byte view. */
  function SetInt32(m: seq<byte>, off: nat, v: int): (r: seq<byte>)
    requires off + 4 <= |m|
    ensures |r| == |m|
  {
    Splice(m, off, EncodeLE(v % Two32, 4))
  }

  function GetInt16(m: seq<byte>, off: nat): (r: int)
    requires off + 2 <= |m|
    ensures -0x8000 <= r < 0x8000
  {
    ToInt16(DecodeLE(Word16(m, off)))
  }

  function SetInt16(m: seq<byte>, off: nat, v: int): (r: seq<byte>)
    requires off + 2 <= |m|
    ensures |r| == |m|
  {
    Splice(m, off, EncodeLE(v % Two16, 2))
  }

  /** Reading back a stored i32 gives the stored value wrapped to 32 bits. */
  lemma SetGetInt32(m: seq<byte>, off: nat, v: int)
    requires off + 4 <= |m|
    ensures GetInt32(SetInt32(m, off, v), off) == ToInt32(v)
  {
    var e := EncodeLE(v % Two32, 4);
    assert Word32(SetInt32(m, off, v), off) == e;
    DecodeEncode(v % Two32, 4);
  }

  lemma SetGetInt16(m: seq<byte>, off: nat, v: int)
    requires off + 2 <= |m|
    ensures GetInt16(SetInt16(m, off, v), off) == ToInt16(v)
  {
    var e := EncodeLE(v % Two16, 2);
    assert Word16(SetInt16(m, off, v), off) == e;
    DecodeEncode(v % Two16, 2);
  }

  /** Writing bytes elsewhere leaves an i32 or i16 field as it was. */
  lemma SpliceFrame(m: seq<byte>, off: nat, bytes: seq<byte>, p: nat)
    requires off + |bytes| <= |m|
    ensures p + 4 <= |m| && (p + 4 <= off || off + |bytes| <= p) ==>
      GetInt32(Splice(m, off, bytes), p) == GetInt32(m, p)
    ensures p + 2 <= |m| && (p + 2 <= off || off + |bytes| <= p) ==>
      GetInt16(Splice(m, off, bytes), p) == GetInt16(m, p)
  {
    var r := Splice(m, off, bytes);
    if p + 4 <= |m| && (p + 4 <= off || off + |bytes| <= p) {
      assert Word32(r, p) == Word32(m, p);
    }
    if p + 2 <= |m| && (p + 2 <= off || off + |bytes| <= p) {
      assert Word16(r, p) == Word16(m, p);
    }
  }

  // -------------------------------------------------------------- the lock

  /** The shared buffer: the lock word, which both sides only touch through
      a one-element `Int32Array` with atomic operations, and the data region
      from byte 4 on. */
  datatype Buffer = Buffer(lock: int, data: seq<byte>)

  /** The buffer as the bytes of the `SharedArrayBuffer`. */
  function Bytes(m: Buffer): (b: seq<byte>)
    ensures |b| == DataOffset + |m.data| && b[DataOffset..] == m.data
  {
    EncodeLE(m.lock % Two32, 4) + m.data
  }

  /** The byte view agrees with the cell: the little-endian i32 at offset 0
      is the lock word, whenever the word is an i32 (as every store makes
      it). */
  lemma BytesHoldLockWord(m: Buffer)
    requires -0x8000_0000 <= m.lock < 0x8000_0000
    ensures GetInt32(Bytes(m), LockOffset) == m.lock
  {
    var b := Bytes(m);
    assert Word32(b, 0) == EncodeLE(m.lock % Two32, 4);
    DecodeEncode(m.lock % Two32, 4);
  }

  /** `Atomics.store(lockView, 0, v)`. */
  function StoreLock(m: Buffer, v: int): (m': Buffer)
    ensures m'.data == m.data && m'.lock == ToInt32(v)
  {
    m.(lock := ToInt32(v))
  }

  /** `spawn`: a zeroed buffer of `memory_size + 4` bytes. */
  function Spawn(memorySize: nat): (m: Buffer)
    ensures |Bytes(m)| == memorySize + DataOffset && |m.data| == memorySize
    ensures m.lock == Unlocked
    ensures forall i :: 0 <= i < |Bytes(m)| ==> Bytes(m)[i] == 0
  {
    var m := Buffer(Unlocked, seq(memorySize, _ => 0 as byte));
    assert EncodeLE(0, 4) == [0, 0, 0, 0];
    m
  }

  /** `Atomics.compareExchange(lockView, 0, expected, replacement)`: the
      previous word, and the buffer with the word replaced iff it equalled
      `expected`. */
  function CompareExchange(m: Buffer, expected: int, replacement: int): (r: (Buffer, int))
    ensures r.1 == m.lock && r.0.data == m.data
    ensures r.0.lock == if m.lock == expected then ToInt32(replacement) else m.lock
  {
    if m.lock == expected then (StoreLock(m, replacement), m.lock) else (m, m.lock)
  }

  /** One acquire attempt by `owner` (the body of `lock`/`lock_blocking`'s
      loop, and all of `tryLock`/`try_lock`): success iff the CAS observed
      UNLOCKED. */
  function TryLock(m: Buffer, owner: int): (r: (Buffer, bool))
    requires owner == LockedByRust || owner == LockedByJs
    ensures r.1 <==> m.lock == Unlocked
    ensures r.1 ==> r.0 == m.(lock := owner)
    ensures !r.1 ==> r.0 == m
  {
    var (m', prev) := CompareExchange(m, Unlocked, owner);
    (m', prev == Unlocked)
  }

  /** The JS `MemoryGuard`. */
  datatype JsGuard = JsGuard(released: bool)

  /** `getDataView()`: the data region, or the error once released. */
  function GetDataView(g: JsGuard, m: Buffer): (r: Result<seq<byte>, string>)
    ensures r.Ok? <==> !g.released
    ensures r.Ok? ==> r.value == Bytes(m)[DataOffset..]
  {
    if g.released then Err("Lock already released") else Ok(m.data)
  }

  /** `release()`: the first call stores UNLOCKED; later calls do nothing. */
  function Release(g: JsGuard, m: Buffer): (JsGuard, Buffer) {
    if g.released then (g, m) else (JsGuard(true), StoreLock(m, Unlocked))
  }

  /** The Rust guard's `data_view`: the bytes from DATA_OFFSET on. */
  function RustDataView(m: Buffer): (d: seq<byte>)
    ensures d == Bytes(m)[DataOffset..]
    ensures |d| == |Bytes(m)| - DataOffset
  {
    m.data
  }

  /** Dropping the Rust `MemoryGuard`: store UNLOCKED, whoever holds it. */
  function RustDrop(m: Buffer): (m': Buffer)
    ensures m'.lock == Unlocked && m'.data == m.data
  {
    StoreLock(m, Unlocked)
  }

  /** A successful attempt marks the word with the owner and leaves the data
      alone; a failed one changes nothing. */
  lemma TryLockSpec(m: Buffer, owner: int)
    requires owner == LockedByRust || owner == LockedByJs
    ensures var (m', ok) := TryLock(m, owner);
      && (ok <==> m.lock == Unlocked)
      && (ok ==> m'.lock == owner && m'.data == m.data)
      && (!ok ==> m' == m)
  {
  }

  /** `release()` is idempotent. */
  lemma ReleaseIdempotent(g: JsGuard, m: Buffer)
    ensures var (g1, m1) := Release(g, m);
      && g1.released
      && Release(g1, m1) == (g1, m1)
      && m1.lock == (if g.released then m.lock else Unlocked)
      && m1.data == m.data
  {
  }

  /** A guard's view is the data region until it is released, and an error
      afterwards. */
  lemma DataViewAfterRelease(g: JsGuard, m: Buffer)
    ensures !g.released ==> GetDataView(g, m) == Ok(m.data)
    ensures GetDataView(Release(g, m).0, Release(g, m).1) == Err("Lock already released")
  {
  }

  // -------------------------------------------------- mutual exclusion

  /** Both sides' view of the lock: whether the Rust side holds a guard, and
      every JS guard created so far. */
  datatype Sys = Sys(m: Buffer, rustHolds: bool, jsGuards: seq<JsGuard>)

  predicate JsHolds(s: Sys) {
    exists i :: 0 <= i < |s.jsGuards| && !s.jsGuards[i].released
  }

  /** The lock word says exactly who holds the lock, and at most one party
      holds it. */
  predicate Exclusive(s: Sys) {
    && (forall i, j :: 0 <= i < |s.jsGuards| && 0 <= j < |s.jsGuards| && i != j ==>
          s.jsGuards[i].released || s.jsGuards[j].released)
    && !(s.rustHolds && JsHolds(s))
    && (s.m.lock == LockedByRust <==> s.rustHolds)
    && (s.m.lock == LockedByJs <==> JsHolds(s))
    && (s.m.lock == Unlocked <==> !s.rustHolds && !JsHolds(s))
  }

  datatype Action = RustTryLock | RustDropGuard | JsTryLock | JsRelease(guard: nat)

  function Act(s: Sys, a: Action): Sys {
    match a
    case RustTryLock =>
      var (m', ok) := TryLock(s.m, LockedByRust);
      if ok then s.(m := m', rustHolds := true) else s
    case RustDropGuard =>
      if s.rustHolds then s.(m := RustDrop(s.m), rustHolds := false) else s
    case JsTryLock =>
      var (m', ok) := TryLock(s.m, LockedByJs);
      if ok then s.(m := m', jsGuards := s.jsGuards + [JsGuard(false)]) else s
    case JsRelease(i) =>
      if i < |s.jsGuards| then
        var (g', m') := Release(s.jsGuards[i], s.m);
        s.(m := m', jsGuards := s.jsGuards[i := g'])
      else s
  }

  /** Mutual exclusion: every action keeps the lock word and the set of
      holders in agreement, so Rust and JS never hold the lock together. */
  lemma ActExclusive(s: Sys, a: Action)
    requires Exclusive(s)
    ensures Exclusive(Act(s, a))
  {
    match a
    case RustTryLock =>
    case RustDropGuard =>
    case JsTryLock =>
      var s' := Act(s, a);
      if s.m.lock == Unlocked {
        assert s'.jsGuards[|s.jsGuards|] == JsGuard(false);
        assert JsHolds(s');
      }
    case JsRelease(i) =>
      var s' := Act(s, a);
      if i < |s.jsGuards| && s.jsGuards[i].released {
        assert s.jsGuards[i := s.jsGuards[i]] == s.jsGuards;
      }
      if i < |s.jsGuards| && !s.jsGuards[i].released {
        assert !JsHolds(s') by {
          forall j | 0 <= j < |s'.jsGuards|
            ensures s'.jsGuards[j].released
          {
            if j != i {
              assert s.jsGuards[i].released || s.jsGuards[j].released;
            }
          }
        }
      }
  }

  function ActAll(s: Sys, acts: seq<Action>): Sys
    decreases |acts|
  {
    if acts == [] then s else ActAll(Act(s, acts[0]), acts[1..])
  }

  lemma {:induction false} ActAllExclusive(s: Sys, acts: seq<Action>)
    requires Exclusive(s)
    ensures Exclusive(ActAll(s, acts))
    decreases |acts|
  {
    if acts != [] {
      ActExclusive(s, acts[0]);
      ActAllExclusive(Act(s, acts[0]), acts[1..]);
    }
  }

  lemma SpawnExclusive(memorySize: nat)
    ensures Exclusive(Sys(Spawn(memorySize), false, []))
  {
  }

  // ------------------------------------------------------ worker plumbing

  /** The JS worker's globals. */
  datatype Worker = Worker(port: Option<nat>, memory: Js.Value, initCalls: nat, sent: seq<Js.Value>)

  const FreshWorker: Worker := Worker(None, Js.Undefined, 0, [])

  /** The worker's `message` listener: only a message with a port and a
      truthy `memory` sets up the worker and runs the user `init` (whose
      exceptions are caught). */
  function OnWorkerMessage(w: Worker, data: Js.Value, ports: seq<nat>): (w': Worker)
    ensures (ports != [] && Js.Truthy(Js.Get(data, "memory"))) ==>
      w'.port == Some(ports[0]) && w'.initCalls == w.initCalls + 1 && w'.memory == Js.Get(data, "memory")
    ensures !(ports != [] && Js.Truthy(Js.Get(data, "memory"))) ==> w' == w
  {
    if ports != [] && Js.Truthy(Js.Get(data, "memory")) then
      w.(port := Some(ports[0]), memory := Js.Get(data, "memory"), initCalls := w.initCalls + 1)
    else w
  }

  /** `send(data)`: posts only once a port is set. */
  function Send(w: Worker, data: Js.Value): (w': Worker)
    ensures w.port.None? ==> w' == w
    ensures w.port.Some? ==> w'.sent == w.sent + [data]
  {
    if w.port.Some? then w.(sent := w.sent + [data]) else w
  }

  /** The init message `spawn` posts, with the channel's port transferred. */
  function SpawnMessage(buffer: Js.Value): Js.Value {
    Js.Obj(map["memory" := buffer])
  }

  /** `spawn` and the worker agree: the init message sets the worker up and
      runs `init` exactly once. */
  lemma SpawnInitialisesWorker(buffer: Js.Value, port: nat)
    requires buffer.Obj?
    ensures var w := OnWorkerMessage(FreshWorker, SpawnMessage(buffer), [port]);
      w.port == Some(port) && w.initCalls == 1 && w.memory == buffer
  {
  }

  /** `send` before set-up is lost; after set-up it is posted. */
  lemma SendAfterSetup(buffer: Js.Value, port: nat, data: Js.Value)
    requires buffer.Obj?
    ensures Send(FreshWorker, data) == FreshWorker
    ensures Send(OnWorkerMessage(FreshWorker, SpawnMessage(buffer), [port]), data).sent == [data]
  {
  }

  const WorkerFooterSeparator: string := "\n"

  /** `create_worker_code`: the user code, a newline, then the footer. */
  function WorkerCode(user: string, footer: string): (code: string)
    ensures |code| == |user| + 1 + |footer|
    ensures code[..|user|] == user && code[|user|] == '\n' && code[|user| + 1..] == footer
  {
    user + WorkerFooterSeparator + footer
  }

  /** The runner handle: dropping it terminates the worker. */
  datatype Runner = Runner(m: Buffer, terminated: bool)

  function DropRunner(r: Runner): (r': Runner)
    ensures r'.terminated && r'.m == r.m
  {
    r.(terminated := true)
  }
}

=== FILE: spinner_client.dfy ===
/** The input-spinners TypeScript client: two `Spinner`s fed by `spinners`
    messages, each accumulating a step delta that reading resets and that
    `_update` keeps within ±`MAX_DELTA`.

    The accumulated delta is a JavaScript number. `stepDelta + delta` is
    JavaScript's `+`: numeric for numbers, booleans, `null` and
    `undefined` (NaN), string concatenation for a string or an object,
    and `Math.min`/`Math.max` turn a concatenated string back into a
    number and keep NaN. The
    angle is `atan2(sin(a + δ/r·2π), cos(a + δ/r·2π))` in floating point;
    the model records instead the updates applied since the last `reset`,
    which is everything the angle depends on. */
module SpinnerClient {
  import Js
  import Text

  const MaxDelta: int := 1000
  const DefaultStepResolution: int := 64

  /** A JavaScript number as the accumulator sees it: an integer or NaN. */
  datatype Num = Finite(n: int) | NaN

  /** `Number(s)` for the strings a concatenation produces here: the
      empty string is 0, an optional `-` followed by decimal digits is
      that integer, anything else is NaN. */
  function StringToNumber(s: string): (r: Num)
    ensures s != [] && s[0] != '-' && !Text.AllDigits(s) ==> r == NaN
  {
    if s == [] then Finite(0)
    else if s[0] == '-' && |s| > 1 && Text.AllDigits(s[1..]) then Finite(0 - Text.DigitsValue(s[1..]) as int)
    else if Text.AllDigits(s) then Finite(Text.DigitsValue(s))
    else NaN
  }

  /** `acc + v` for the accumulator `acc` and a message field `v`, as the
      number `Math.min` sees: numbers, booleans and `null` add their
      numeric value, `undefined` gives NaN, a string is appended to the
      decimal text of the accumulator (NaN prints as "NaN", which no
      string makes a number again), and an object appends
      "[object Object]". */
  function Plus(acc: Num, v: Js.Value): Num {
    match acc
    case NaN => NaN
    case Finite(a) =>
      match v
      case Number(n) => Finite(a + n)
      case Bool(b) => Finite(a + if b then 1 else 0)
      case Null => Finite(a)
      case Undefined => NaN
      case Str(t) => StringToNumber(Js.IntToString(a) + t)
      case Obj(_) => NaN
  }

  /** `Math.max(-MAX_DELTA, Math.min(MAX_DELTA, x))` on an integer. */
  function Clamp(x: int): (r: int)
    ensures -MaxDelta <= r <= MaxDelta
    ensures -MaxDelta <= x <= MaxDelta ==> r == x
    ensures x > MaxDelta ==> r == MaxDelta
    ensures x < -MaxDelta ==> r == -MaxDelta
  {
    if x > MaxDelta then MaxDelta else if x < -MaxDelta then -MaxDelta else x
  }

  /** One `_update` as far as the angle is concerned. */
  datatype Turn = Turn(delta: Js.Value, resolution: int)

  datatype Spinner = Spinner(stepDelta: Num, turns: seq<Turn>)

  const NewSpinner: Spinner := Spinner(Finite(0), [])

  /** `_update(delta)` with the module's current step resolution. */
  function Update(s: Spinner, delta: Js.Value, resolution: int): (s': Spinner)
    ensures s'.turns == s.turns + [Turn(delta, resolution)]
  {
    var sum := match Plus(s.stepDelta, delta)
      case Finite(x) => Finite(Clamp(x))
      case NaN => NaN;
    Spinner(sum, s.turns + [Turn(delta, resolution)])
  }

  datatype Reading = Reading(value: Num, s: Spinner)

  /** The `step_delta` getter: the accumulated value, and the spinner with
      the accumulator reset. */
  function ReadStepDelta(s: Spinner): Reading {
    Reading(s.stepDelta, s.(stepDelta := Finite(0)))
  }

  /** `reset()`: the angle goes back to 0. */
  function Reset(s: Spinner): Spinner {
    s.(turns := [])
  }

  /** The module state: both spinners, the step resolution and `STATUS`. */
  datatype Client = Client(spinner1: Spinner, spinner2: Spinner, stepResolution: int, connected: bool)

  function Initial(): (c: Client)
    ensures c.stepResolution == DefaultStepResolution && !c.connected
    ensures c.spinner1 == NewSpinner && c.spinner2 == NewSpinner
  {
    Client(NewSpinner, NewSpinner, DefaultStepResolution, false)
  }

  /** The port's message listener. */
  function HandleMessage(c: Client, data: Js.Value): Client {
    if Js.Get(data, "type") != Js.Str("spinners") then c
    else
      var d1 := Js.Get(data, "spinner1_step_delta");
      var d2 := Js.Get(data, "spinner2_step_delta");
      var s1 := if d1 != Js.Number(0) then Update(c.spinner1, d1, c.stepResolution) else c.spinner1;
      var s2 := if d2 != Js.Number(0) then Update(c.spinner2, d2, c.stepResolution) else c.spinner2;
      c.(spinner1 := s1, spinner2 := s2)
  }

  /** The reply to `get_config`: the resolution is replaced, and only then
      is the client marked connected. */
  function Configure(c: Client, stepResolution: int): (c': Client)
    ensures c'.connected && c'.stepResolution == stepResolution
    ensures c'.spinner1 == c.spinner1 && c'.spinner2 == c.spinner2
  {
    c.(stepResolution := stepResolution).(connected := true)
  }

  // ---------------------------------------------------------------- lemmas

  predicate Bounded(s: Spinner) {
    s.stepDelta.Finite? ==> -MaxDelta <= s.stepDelta.n <= MaxDelta
  }

  /** Reading returns the accumulated value and leaves 0 behind; the angle
      is untouched. A second read returns 0. */
  lemma ReadResets(s: Spinner)
    ensures var r := ReadStepDelta(s);
      && r.value == s.stepDelta
      && r.s.stepDelta == Finite(0)
      && r.s.turns == s.turns
      && ReadStepDelta(r.s).value == Finite(0)
  {
  }

  /** `reset` zeroes the angle only: the accumulated delta is kept. */
  lemma ResetAngleOnly(s: Spinner)
    ensures Reset(s).turns == [] && Reset(s).stepDelta == s.stepDelta
  {
  }

  /** `_update` keeps the accumulator within ±`MAX_DELTA`, and adds the
      delta exactly when the sum is within range. */
  lemma UpdateBounded(s: Spinner, delta: int, resolution: int)
    requires s.stepDelta.Finite?
    ensures var s' := Update(s, Js.Number(delta), resolution);
      && s'.stepDelta.Finite? && -MaxDelta <= s'.stepDelta.n <= MaxDelta
      && (-MaxDelta <= s.stepDelta.n + delta <= MaxDelta ==> s'.stepDelta.n == s.stepDelta.n + delta)
  {
  }

  /** A message without a number in its delta field makes the accumulator
      NaN until the next read. */
  lemma MissingDeltaIsNaN(s: Spinner, resolution: int)
    ensures Update(s, Js.Undefined, resolution).stepDelta == NaN
    ensures ReadStepDelta(Update(s, Js.Undefined, resolution)).value == NaN
  {
  }

  /** A string of digits as the delta is appended to the accumulator's
      digits: the accumulator is shifted left by as many decimal places
      as the string has digits, and the string's value added away from
      zero. */
  lemma {:induction false} StringDeltaConcatenates(a: int, t: string)
    requires Text.AllDigits(t)
    ensures Plus(Finite(a), Js.Str(t)) ==
      Finite(if a >= 0 then a * Text.Pow10(|t|) + Text.DigitsValue(t) else a * Text.Pow10(|t|) - Text.DigitsValue(t))
  {
    var p := Text.Pow10(|t|);
    var v := Text.DigitsValue(t);
    if a >= 0 {
      ConcatNonNegative(a, t, p, v);
    } else {
      ConcatNegative(a, t, -a, p, v);
    }
  }

  lemma ConcatNonNegative(a: nat, t: string, p: nat, v: nat)
    requires Text.AllDigits(t) && p == Text.Pow10(|t|) && v == Text.DigitsValue(t)
    ensures Plus(Finite(a), Js.Str(t)) == Finite(a * p + v)
  {
    PlusString(a, t);
    AppendNumber(a, t, Js.IntToString(a) + t);
  }

  lemma ConcatNegative(a: int, t: string, m: nat, p: nat, v: nat)
    requires Text.AllDigits(t) && a < 0 && m == -a
    requires p == Text.Pow10(|t|) && v == Text.DigitsValue(t)
    ensures Plus(Finite(a), Js.Str(t)) == Finite(a * p - v)
  {
    NegativePlus(a, t);
    NegativeAppend(m, t, [Js.Minus] + (Text.NatToString(m) + t));
    NegShift(a, m, p, v);
  }

  lemma PlusString(a: int, t: string)
    ensures Plus(Finite(a), Js.Str(t)) == StringToNumber(Js.IntToString(a) + t)
  {
  }

  lemma NegativePlus(a: int, t: string)
    requires a < 0
    ensures Plus(Finite(a), Js.Str(t)) == StringToNumber([Js.Minus] + (Text.NatToString(-a) + t))
  {
    assert Js.IntToString(a) + t == [Js.Minus] + (Text.NatToString(-a) + t);
  }

  /** The digits of `m` followed by those of `t`, read as a number. */
  lemma AppendNumber(m: nat, t: string, s: string)
    requires Text.AllDigits(t) && s == Text.NatToString(m) + t
    ensures StringToNumber(s) == Finite(m * Text.Pow10(|t|) + Text.DigitsValue(t))
  {
    var d := Text.NatToString(m);
    Text.NatToStringValue(m);
    Text.DigitsValueAppend(d, t);
    DigitsNumber(d + t);
  }

  /** The same digits after a minus sign. */
  lemma NegativeAppend(m: nat, t: string, s: string)
    requires Text.AllDigits(t) && s == [Js.Minus] + (Text.NatToString(m) + t)
    ensures StringToNumber(s) == Finite(0 - (m * Text.Pow10(|t|) + Text.DigitsValue(t)))
  {
    var d := Text.NatToString(m);
    Text.NatToStringValue(m);
    Text.DigitsValueAppend(d, t);
    NegatedDigits(d + t);
  }

  lemma DigitsNumber(s: string)
    requires Text.AllDigits(s) && s != []
    ensures StringToNumber(s) == Finite(Text.DigitsValue(s))
  {
    assert Text.IsDigit(s[0]);
  }

  lemma NegShift(a: int, m: int, p: int, v: int)
    requires m == -a
    ensures 0 - (m * p + v) == a * p - v
  {
    assert m * p == -(a * p);
  }

  lemma NegatedDigits(d: string)
    requires Text.AllDigits(d) && d != []
    ensures StringToNumber(['-'] + d) == Finite(0 - Text.DigitsValue(d) as int)
  {
    assert (['-'] + d)[1..] == d;
  }

  /** So a message carrying the string "0" is applied (it is not the
      number 0) and multiplies the accumulated delta by ten, clamped. */
  lemma ZeroStringShifts(s: Spinner, resolution: int)
    requires s.stepDelta.Finite?
    ensures Js.Str(['0']) != Js.Number(0)
    ensures Update(s, Js.Str(['0']), resolution).stepDelta == Finite(Clamp(10 * s.stepDelta.n))
  {
    StringDeltaConcatenates(s.stepDelta.n, ['0']);
    assert Text.DigitsValue(['0']) == 0 by { assert ['0'][..0] == []; }
  }

  function UpdateAll(s: Spinner, deltas: seq<int>, resolution: int): Spinner
    decreases |deltas|
  {
    if deltas == [] then s
    else UpdateAll(Update(s, Js.Number(deltas[0]), resolution), deltas[1..], resolution)
  }

  function Sum(deltas: seq<int>): int
    decreases |deltas|
  {
    if deltas == [] then 0 else deltas[0] + Sum(deltas[1..])
  }

  /** Every running total of `start` plus a prefix stays in range. */
  predicate NoSaturation(start: int, deltas: seq<int>) {
    forall k :: 0 <= k <= |deltas| ==> -MaxDelta <= start + Sum(deltas[..k]) <= MaxDelta
  }

  lemma SumPrefixStep(deltas: seq<int>, k: nat)
    requires 1 <= k <= |deltas|
    ensures Sum(deltas[..k]) == deltas[0] + Sum(deltas[1..][..k - 1])
  {
    assert deltas[..k][1..] == deltas[1..][..k - 1];
  }

  /** Between two reads, the accumulator is the plain sum of the deltas
      as long as no running total leaves ±`MAX_DELTA`. */
  lemma {:induction false} AccumulatesSum(s: Spinner, deltas: seq<int>, resolution: int)
    requires s.stepDelta.Finite?
    requires NoSaturation(s.stepDelta.n, deltas)
    ensures UpdateAll(s, deltas, resolution).stepDelta == Finite(s.stepDelta.n + Sum(deltas))
    decreases |deltas|
  {
    if deltas != [] {
      var s1 := Update(s, Js.Number(deltas[0]), resolution);
      assert deltas[..1] == [deltas[0]];
      assert Sum([deltas[0]]) == deltas[0] by { assert [deltas[0]][1..] == []; }
      assert -MaxDelta <= s.stepDelta.n + Sum(deltas[..1]) <= MaxDelta;
      assert s1.stepDelta == Finite(s.stepDelta.n + deltas[0]);
      forall k | 0 <= k <= |deltas[1..]|
        ensures -MaxDelta <= s1.stepDelta.n + Sum(deltas[1..][..k]) <= MaxDelta
      {
        SumPrefixStep(deltas, k + 1);
        assert deltas[1..][..k] == deltas[1..][..k + 1 - 1];
      }
      AccumulatesSum(s1, deltas[1..], resolution);
      assert deltas == deltas[..|deltas|];
      SumPrefixStep(deltas, |deltas|);
      assert deltas[1..][..|deltas| - 1] == deltas[1..];
    }
  }

  /** Once saturated, further deltas of the same sign change nothing. */
  lemma {:induction false} SaturationSticks(s: Spinner, deltas: seq<int>, resolution: int)
    requires s.stepDelta == Finite(MaxDelta)
    requires forall i :: 0 <= i < |deltas| ==> deltas[i] >= 0
    ensures UpdateAll(s, deltas, resolution).stepDelta == Finite(MaxDelta)
    decreases |deltas|
  {
    if deltas != [] {
      SaturationSticks(Update(s, Js.Number(deltas[0]), resolution), deltas[1..], resolution);
    }
  }

  /** Zero deltas are not applied (not even to the angle), and a message
      of another type changes nothing. */
  lemma IgnoredMessages(c: Client, data: Js.Value)
    ensures Js.Get(data, "type") != Js.Str("spinners") ==> HandleMessage(c, data) == c
    ensures Js.Get(data, "spinner1_step_delta") == Js.Number(0) ==> HandleMessage(c, data).spinner1 == c.spinner1
    ensures Js.Get(data, "spinner2_step_delta") == Js.Number(0) ==> HandleMessage(c, data).spinner2 == c.spinner2
  {
  }

  /** Each spinner is fed only from its own field, with the current
      resolution, and the bound is kept through any message. */
  lemma MessageUpdates(c: Client, data: Js.Value)
    requires Bounded(c.spinner1) && Bounded(c.spinner2)
    requires Js.Get(data, "type") == Js.Str("spinners")
    ensures var d1 := Js.Get(data, "spinner1_step_delta");
      d1 != Js.Number(0) ==> HandleMessage(c, data).spinner1 == Update(c.spinner1, d1, c.stepResolution)
    ensures var d2 := Js.Get(data, "spinner2_step_delta");
      d2 != Js.Number(0) ==> HandleMessage(c, data).spinner2 == Update(c.spinner2, d2, c.stepResolution)
    ensures Bounded(HandleMessage(c, data).spinner1) && Bounded(HandleMessage(c, data).spinner2)
    ensures HandleMessage(c, data).stepResolution == c.stepResolution
    ensures HandleMessage(c, data).connected == c.connected
  {
  }

  /** Until the configuration arrives, updates use the default resolution
      of 64; once connected, the configured one. */
  lemma ResolutionBeforeConnected(data: Js.Value, res: int)
    ensures !HandleMessage(Initial(), data).connected
    ensures HandleMessage(Initial(), data).stepResolution == DefaultStepResolution
    ensures Configure(HandleMessage(Initial(), data), res).stepResolution == res
  {
  }
}

=== FILE: text.dfy ===
/** Character-level string helpers with the semantics of the JavaScript and
    Rust standard-library calls the system uses: `indexOf`, `split` on one
    character, `join`, `startsWith`, ASCII `toLowerCase`, decimal formatting
    of integers. Strings are `seq<char>`. */
module Text {

  predicate IsDigit(c: char) { '0' <= c <= '9' }

  predicate AllDigits(s: string) {
    forall i :: 0 <= i < |s| ==> IsDigit(s[i])
  }

  function DigitChar(d: nat): (c: char)
    requires d < 10
    ensures IsDigit(c) && c as int - '0' as int == d
  {
    (d + '0' as int) as char
  }

  function DigitValue(c: char): nat
    requires IsDigit(c)
  {
    c as int - '0' as int
  }

  /** Decimal rendering of a natural number, as `format!("{}", n)` or
      `String(n)` print it: no sign, no leading zeros. */
  function NatToString(n: nat): (s: string)
    ensures 1 <= |s| && AllDigits(s)
    ensures |s| > 1 ==> s[0] != '0'
    decreases n
  {
    if n < 10 then [DigitChar(n)] else NatToString(n / 10) + [DigitChar(n % 10)]
  }

  /** The value of a string of decimal digits, most significant first. */
  function DigitsValue(s: string): nat
    requires AllDigits(s)
  {
    if s == [] then 0 else DigitsValue(s[..|s| - 1]) * 10 + DigitValue(s[|s| - 1])
  }

  function Pow10(k: nat): (p: nat)
    ensures p >= 1
  {
    if k == 0 then 1 else 10 * Pow10(k - 1)
  }

  /** Writing the digits of `y` after those of `x` shifts `x` left by
      `|y|` places. */
  lemma {:induction false} DigitsValueAppend(x: string, y: string)
    requires AllDigits(x) && AllDigits(y)
    ensures AllDigits(x + y)
    ensures DigitsValue(x + y) == DigitsValue(x) * Pow10(|y|) + DigitsValue(y)
    decreases |y|
  {
    if y == [] {
      assert x + y == x;
    } else {
      var y' := y[..|y| - 1];
      LastSplit(x, y);
      DigitsValueAppend(x, y');
      ShiftStep(DigitsValue(x), Pow10(|y'|), DigitsValue(y'), DigitValue(y[|y| - 1]));
    }
  }

  lemma LastSplit(x: string, y: string)
    requires AllDigits(x) && AllDigits(y) && y != []
    ensures AllDigits(x + y)
    ensures DigitsValue(x + y) == DigitsValue(x + y[..|y| - 1]) * 10 + DigitValue(y[|y| - 1])
    ensures DigitsValue(y) == DigitsValue(y[..|y| - 1]) * 10 + DigitValue(y[|y| - 1])
  {
    assert (x + y)[..|x + y| - 1] == x + y[..|y| - 1];
  }

  lemma ShiftStep(a: int, p: int, b: int, d: int)
    ensures (a * p + b) * 10 + d == a * (10 * p) + (b * 10 + d)
  {
  }

  /** A decimal numeral without leading zeros: "0" or [1-9][0-9]*. */
  predicate Canonical(s: string) {
    1 <= |s| && AllDigits(s) && (|s| > 1 ==> s[0] != '0')
  }

  lemma {:induction false} NatToStringValue(n: nat)
    ensures DigitsValue(NatToString(n)) == n
    decreases n
  {
    if n >= 10 {
      var s := NatToString(n);
      assert s[..|s| - 1] == NatToString(n / 10);
      NatToStringValue(n / 10);
    }
  }

  lemma {:induction false} LeadingNonZeroPositive(s: string)
    requires 1 <= |s| && AllDigits(s) && s[0] != '0'
    ensures DigitsValue(s) >= 1
    decreases |s|
  {
    if |s| > 1 {
      LeadingNonZeroPositive(s[..|s| - 1]);
    }
  }

  /** A canonical numeral is the rendering of its own value. */
  lemma {:induction false} CanonicalRoundTrip(s: string)
    requires Canonical(s)
    ensures NatToString(DigitsValue(s)) == s
    decreases |s|
  {
    if |s| > 1 {
      var p := s[..|s| - 1];
      LeadingNonZeroPositive(p);
      assert Canonical(p);
      CanonicalRoundTrip(p);
      var v := DigitsValue(s);
      assert v / 10 == DigitsValue(p) && v % 10 == DigitValue(s[|s| - 1]);
      assert s == p + [s[|s| - 1]];
    }
  }

  /** JavaScript `s.indexOf(c)`: the first index holding `c`, or -1. */
  function IndexOf(s: string, c: char): (i: int)
    ensures -1 <= i < |s|
    ensures i == -1 <==> c !in s
    ensures i >= 0 ==> s[i] == c && c !in s[..i]
  {
    if s == [] then -1
    else if s[0] == c then 0
    else
      var j := IndexOf(s[1..], c);
      assert j >= 0 ==> s[1..][..j] == s[1..j + 1];
      if j == -1 then -1 else j + 1
  }

  /** JavaScript `s.split(c)` for a one-character separator: never empty,
      and the pieces contain no separator. */
  function SplitOn(s: string, c: char): (parts: seq<string>)
    ensures |parts| >= 1
    ensures forall k :: 0 <= k < |parts| ==> c !in parts[k]
    decreases |s|
  {
    var i := IndexOf(s, c);
    if i == -1 then [s] else [s[..i]] + SplitOn(s[i + 1..], c)
  }

  /** JavaScript `parts.join(c)`. */
  function JoinWith(parts: seq<string>, c: char): string
  {
    if parts == [] then ""
    else if |parts| == 1 then parts[0]
    else parts[0] + [c] + JoinWith(parts[1..], c)
  }

  lemma IndexOfPrefix(a: string, c: char, b: string)
    requires c !in a
    ensures IndexOf(a + [c] + b, c) == |a|
  {
    var s := a + [c] + b;
    assert s[..|a|] == a;
    assert s[|a|] == c;
  }

  /** Splitting a piece free of the separator off the front. */
  lemma SplitOnSeparated(p: string, c: char, rest: string)
    requires c !in p
    ensures SplitOn(p + [c] + rest, c) == [p] + SplitOn(rest, c)
  {
    var s := p + [c] + rest;
    IndexOfPrefix(p, c, rest);
    assert s[..|p|] == p;
    assert s[|p| + 1..] == rest;
  }

  /** Joining and then splitting gives the pieces back when no piece holds
      the separator. */
  lemma {:induction false} SplitJoin(parts: seq<string>, c: char)
    requires |parts| >= 1
    requires forall k :: 0 <= k < |parts| ==> c !in parts[k]
    ensures SplitOn(JoinWith(parts, c), c) == parts
    decreases |parts|
  {
    var p := parts[0];
    if |parts| == 1 {
      assert IndexOf(p, c) == -1;
    } else {
      var tail := parts[1..];
      assert JoinWith(parts, c) == p + [c] + JoinWith(tail, c);
      SplitOnSeparated(p, c, JoinWith(tail, c));
      SplitJoin(tail, c);
      assert parts == [p] + tail;
    }
  }

  /** Splitting and then joining gives the string back. */
  lemma {:induction false} JoinSplit(s: string, c: char)
    ensures JoinWith(SplitOn(s, c), c) == s
    decreases |s|
  {
    var i := IndexOf(s, c);
    if i == -1 {
      assert SplitOn(s, c) == [s];
    } else {
      var rest := SplitOn(s[i + 1..], c);
      assert SplitOn(s, c) == [s[..i]] + rest;
      JoinCons(s[..i], rest, c);
      JoinSplit(s[i + 1..], c);
      assert s == s[..i] + [c] + s[i + 1..];
    }
  }

  lemma JoinCons(p: string, rest: seq<string>, c: char)
    requires |rest| >= 1
    ensures JoinWith([p] + rest, c) == p + [c] + JoinWith(rest, c)
  {
    assert ([p] + rest)[1..] == rest;
  }

  /** The characters `String.prototype.trim` removes, ECMAScript
      `WhiteSpace` and `LineTerminator`: tab to carriage return,
      space, no-break space, the Ogham space mark, the en quad to the hair
      space, the line and paragraph separators, the narrow no-break and
      medium mathematical spaces, the ideographic space and the byte-order
      mark. */
  predicate Whitespace(c: char) {
    || '\t' <= c <= '\r' || c == ' ' || c == '\U{00A0}' || c == '\U{1680}'
    || '\U{2000}' <= c <= '\U{200A}' || '\U{2028}' <= c <= '\U{2029}'
    || c == '\U{202F}' || c == '\U{205F}' || c == '\U{3000}' || c == '\U{FEFF}'
  }

  predicate AllWhitespace(s: string) {
    forall i :: 0 <= i < |s| ==> Whitespace(s[i])
  }

  /** Neither end is whitespace. */
  predicate Trimmed(s: string) {
    s == [] || (!Whitespace(s[0]) && !Whitespace(s[|s| - 1]))
  }

  /** The first index at or after `i` that holds no whitespace, or `|s|`. */
  function SkipBlanks(s: string, i: nat): (k: nat)
    requires i <= |s|
    ensures i <= k <= |s|
    ensures forall m :: i <= m < k ==> Whitespace(s[m])
    ensures k < |s| ==> !Whitespace(s[k])
    decreases |s| - i
  {
    if i < |s| && Whitespace(s[i]) then SkipBlanks(s, i + 1) else i
  }

  /** Where `s[lo..j]` ends once its trailing whitespace is dropped. */
  function SkipBlanksBack(s: string, lo: nat, j: nat): (e: nat)
    requires lo <= j <= |s|
    ensures lo <= e <= j
    ensures forall m :: e <= m < j ==> Whitespace(s[m])
    ensures e > lo ==> !Whitespace(s[e - 1])
    decreases j
  {
    if j > lo && Whitespace(s[j - 1]) then SkipBlanksBack(s, lo, j - 1) else j
  }

  /** `s.trim()`: the longest infix of `s` with no whitespace at either
      end, cut out of whitespace-only margins. */
  function Trim(s: string): (r: string)
    ensures Trimmed(r)
  {
    var i := SkipBlanks(s, 0);
    var j := SkipBlanksBack(s, i, |s|);
    assert j > i ==> s[i..j][0] == s[i] && s[i..j][j - i - 1] == s[j - 1];
    s[i..j]
  }

  /** What `trim` cuts off are whitespace margins. */
  lemma TrimInfix(s: string)
    ensures exists i, j :: 0 <= i <= j <= |s| && Trim(s) == s[i..j] && AllWhitespace(s[..i]) && AllWhitespace(s[j..])
  {
    var i := SkipBlanks(s, 0);
    var j := SkipBlanksBack(s, i, |s|);
    assert forall m :: 0 <= m < i ==> s[..i][m] == s[m];
    assert forall m :: 0 <= m < |s| - j ==> s[j..][m] == s[j + m];
    assert Trim(s) == s[i..j] && AllWhitespace(s[..i]) && AllWhitespace(s[j..]);
  }

  /** The infix `s[i..j]` is what `trim` leaves exactly when everything
      around it is whitespace and, unless it is empty, neither of its ends
      is. */
  lemma TrimBetween(s: string, i: nat, j: nat)
    requires i <= j <= |s|
    requires forall m :: 0 <= m < i ==> Whitespace(s[m])
    requires forall m :: j <= m < |s| ==> Whitespace(s[m])
    requires i == j || (!Whitespace(s[i]) && !Whitespace(s[j - 1]))
    ensures Trim(s) == s[i..j]
  {
    var a := SkipBlanks(s, 0);
    if i == j {
      assert forall m :: 0 <= m < |s| ==> Whitespace(s[m]);
      assert a == |s|;
    } else {
      assert a == i;
      var e := SkipBlanksBack(s, a, |s|);
      assert e == j;
    }
  }

  /** Trimming removes exactly whitespace margins: a trimmed string inside
      them comes back unchanged. */
  lemma TrimPadded(pre: string, s: string, post: string)
    requires AllWhitespace(pre) && AllWhitespace(post) && Trimmed(s)
    ensures Trim(pre + s + post) == s
  {
    var x := pre + s + post;
    var i := |pre|;
    var j := |pre| + |s|;
    assert forall m :: 0 <= m < i ==> x[m] == pre[m];
    assert forall m :: j <= m < |x| ==> x[m] == post[m - j];
    assert forall m :: i <= m < j ==> x[m] == s[m - i];
    assert x[i..j] == s;
    TrimBetween(x, i, j);
  }

  lemma TrimKeepsTrimmed(s: string)
    requires Trimmed(s)
    ensures Trim(s) == s
  {
    TrimBetween(s, 0, |s|);
  }

  /** Whitespace alone trims to nothing. */
  lemma TrimBlank(s: string)
    requires AllWhitespace(s)
    ensures Trim(s) == []
  {
    TrimBetween(s, 0, 0);
  }

  /** A character that is not whitespace, put before text that does not
      start with whitespace, survives `trim`. */
  lemma TrimCons(c: char, s: string)
    requires !Whitespace(c) && (s == [] || !Whitespace(s[0]))
    ensures Trim([c] + s) == [c] + Trim(s)
  {
    var x := [c] + s;
    var i := SkipBlanks(s, 0);
    assert i == 0;
    var j := SkipBlanksBack(s, 0, |s|);
    assert forall m :: j + 1 <= m < |x| ==> x[m] == s[m - 1];
    assert x[j] == if j == 0 then c else s[j - 1];
    assert x[0..j + 1] == [c] + s[0..j];
    TrimBetween(x, 0, j + 1);
  }

  /** `trim` keeps a first character that is not whitespace. */
  lemma TrimKeepsHead(s: string)
    requires s != [] && !Whitespace(s[0]) && Trim(s) != []
    ensures Trim(s)[0] == s[0]
  {
    assert SkipBlanks(s, 0) == 0;
  }

  /** A leading whitespace character makes no difference to `trim`. */
  lemma TrimDropsFirst(s: string)
    requires s != [] && Whitespace(s[0])
    ensures Trim(s[1..]) == Trim(s)
  {
    var t := s[1..];
    var i := SkipBlanks(s, 0);
    var j := SkipBlanksBack(s, i, |s|);
    assert i >= 1;
    ShiftedMargins(s, i, j);
    TrimBetween(t, i - 1, j - 1);
  }

  lemma ShiftedMargins(s: string, i: nat, j: nat)
    requires 1 <= i <= j <= |s|
    requires forall m :: 0 <= m < i ==> Whitespace(s[m])
    requires forall m :: j <= m < |s| ==> Whitespace(s[m])
    requires i == j || (!Whitespace(s[i]) && !Whitespace(s[j - 1]))
    ensures var t := s[1..];
      && (forall m :: 0 <= m < i - 1 ==> Whitespace(t[m]))
      && (forall m :: j - 1 <= m < |t| ==> Whitespace(t[m]))
      && (i == j || (!Whitespace(t[i - 1]) && !Whitespace(t[j - 2])))
      && t[i - 1..j - 1] == s[i..j]
  {
    var t := s[1..];
    assert forall m :: 0 <= m < |t| ==> t[m] == s[m + 1];
  }

  /** A trailing whitespace character makes no difference to `trim`. */
  lemma TrimDropsLast(s: string)
    requires s != [] && Whitespace(s[|s| - 1])
    ensures Trim(s[..|s| - 1]) == Trim(s)
  {
    var n := |s| - 1;
    var t := s[..n];
    var i := SkipBlanks(s, 0);
    var j := SkipBlanksBack(s, i, |s|);
    assert forall m :: 0 <= m < n ==> t[m] == s[m];
    if i == |s| {
      TrimBetween(t, n, n);
    } else {
      assert !Whitespace(s[i]);
      assert j > i;
      assert j <= n;
      assert t[i..j] == s[i..j];
      TrimBetween(t, i, j);
    }
  }

  predicate StartsWith(s: string, prefix: string) {
    |prefix| <= |s| && s[..|prefix|] == prefix
  }

  function LowerChar(c: char): char {
    if 'A' <= c <= 'Z' then (c as int + 32) as char else c
  }

  /** `toLowerCase` restricted to ASCII letters. */
  function ToLowerAscii(s: string): (r: string)
    ensures |r| == |s|
    ensures forall i :: 0 <= i < |s| ==> r[i] == LowerChar(s[i])
  {
    if s == [] then "" else [LowerChar(s[0])] + ToLowerAscii(s[1..])
  }

  /** Index of the last occurrence of `c`, or -1. */
  function LastIndexOf(s: string, c: char): (i: int)
    ensures -1 <= i < |s|
    ensures i >= 0 ==> s[i] == c
    ensures forall j :: i < j < |s| ==> s[j] != c
    decreases |s|
  {
    if s == [] then -1
    else if s[|s| - 1] == c then |s| - 1
    else LastIndexOf(s[..|s| - 1], c)
  }

  /** `pat` occurs in `s` starting at index `j`. */
  predicate OccursAt(s: string, pat: string, j: int) {
    0 <= j && j + |pat| <= |s| && s[j..j + |pat|] == pat
  }

  /** Index of the first occurrence of `pat` in `s` at or after `from`, or -1. */
  function FindFrom(s: string, pat: string, from: nat): (i: int)
    ensures i == -1 || (from <= i && OccursAt(s, pat, i))
    ensures forall j :: from <= j && (i == -1 || j < i) ==> !OccursAt(s, pat, j)
    decreases |s| - from
  {
    if from + |pat| > |s| then -1
    else if s[from..from + |pat|] == pat then from
    else FindFrom(s, pat, from + 1)
  }

  /** JavaScript `s.indexOf(pat)` with a string argument. */
  function Find(s: string, pat: string): (i: int)
    ensures i == -1 || OccursAt(s, pat, i)
    ensures forall j :: 0 <= j && (i == -1 || j < i) ==> !OccursAt(s, pat, j)
  {
    FindFrom(s, pat, 0)
  }

  /** JavaScript `s.replace(pat, "")` with a string pattern: only the FIRST
      occurrence, wherever it is, is removed. */
  function RemoveFirst(s: string, pat: string): (r: string)
  {
    var i := Find(s, pat);
    if i == -1 then s else s[..i] + s[i + |pat|..]
  }

  /** A character absent from a string is absent from every slice of it. */
  lemma NotInSlice(s: string, i: nat, j: nat, c: char)
    requires i <= j <= |s| && c !in s
    ensures c !in s[i..j]
  {
    assert forall k :: i <= k < j ==> s[i..j][k - i] == s[k];
  }
}
